=== FILE: README.md ===
# zst column codec, type context, lineage and microindex lookup in Dafny

This project models the core of the zq data tools:

- **The zst columnar format**, under `zst/`.
  - **Column codec.** A stream of zng records is split into one column per leaf field.
    - Each column is spilled in segments to the data section of the object.
    - A segment map records where each column's segments are.
    - A presence column run-length encodes which rows of a field are unset.
    - Array, union and record columns are built from their parts.
  - **Writer.** `zst.Writer` writes the rows, flushes every column once the footprint reaches the skew threshold, and finalizes the object. Finalizing writes:
    - a metadata section: the schemas as empty records, the root reassembly record and one reassembly record per schema;
    - a trailer naming the thresholds and the section sizes.
  - **Reader.**
    - `zst.Reader` finds the trailer by scanning the object's tail backwards.
    - It locates the reassembly section and opens a column reader per schema.
    - It reads the rows back in the order the root column gives.
- **The zng type context** (`zng/resolver/context.go`). It interns types under integer ids from 23 on and looks them up by key. It also parses the textual form of types and translates types between contexts. The model escapes "\\", ":" and ";" in the column names of a record key, where the source writes them as they are (see Findings).
- **Field access on zng records** (`zng/record.go`).
- **The archive read plan** (`archive/lineage/lineage.go`). It cuts the time line of overlapping chunks into segments and drops the chunks that another chunk of the same segment was merged from.
- **Key lookup in a microindex** (`microindex/finder.go`). It descends the index levels to a base frame, then runs an exact, closest or all-matches lookup there.

Every object is an immutable value. A Go method that mutates a writer or reader becomes a function returning the new state. An operation that can fail returns a `Result`, and a Go panic (a nil dereference, an index out of range) becomes the error `NilDeref`.

The byte encodings underneath are not part of this model. `Zcode` stands in for zcode and zng's integer encoding, and `Decimal` for `%d` formatting. Both are concrete, so the round trips the codec relies on are proved rather than assumed. Everything that touches storage is a parameter of the member that needs it:

- the zng stream decoder;
- the microindex section readers;
- the key comparison;
- the key builder's result.

### Where the code and its evident intent differ

Several places in the code do something other than what the surrounding code shows was intended. Members that depend on such a place take a `Variant`:

- `AsWritten` follows the code line for line, and lemmas show what goes wrong.
- `Corrected` follows the evident intent, and the rest of the model uses it.

See "## Findings".

### Where the format's documentation and the code disagree

Where the format's documentation and the code disagree, the model follows the code:

- A segment is documented as `{offset: int64, length: int64}`. `SegmapTypeString` spells `length:int32`, and the reader rejects that type (see Findings).
- The trailer's thresholds are documented as checked against their maxima when an object is opened. `recordToTrailer` never reads them, so the checks always pass (see Findings). In addition, reader.go:69 names a field `SegmentThresh` that `Trailer` does not have; the model reads it as `ColThresh`.
- The thresholds are documented as positive integers. `checkThresh` refuses only zero and values above the maximum, so negative thresholds are accepted (ZstWriter.CheckThresh).

## Model

| member | source | states |
|---|---|---|
| Decimal.Itoa | zng/resolver/context.go:100-114 | the %d rendering used in type keys is non-empty, starts with a digit exactly when the number is non-negative, and starts with '-' exactly when it is negative |
| Decimal.ItoaRoundTrip | zng/resolver/context.go:100-114 | reading back a %d rendering gives the number, so a key loses no type id |
| Decimal.ItoaInjective | zng/resolver/context.go:100-114 | distinct ids render to distinct strings, which keeps the set keys, and the array keys, of distinct inner ids apart, and with escaped names the record keys of distinct column types too |
| Zcode.UvarintRoundTrip | zst/column/column.go:83-111 | the length prefix of an item reads back as written, leaving the bytes after it untouched |
| Zcode.DecodeEncodeInt | zst/column/column.go:93-105 | decoding an integer encoded by EncodeInt gives the integer back |
| Zcode.NextItemRoundTrip | zst/column/column.go:85-86 | the item iterator reads back one appended item and stops at its end |
| Zcode.DecodeItemsAppend | zst/column/column.go:130-144 | decoding stops exactly at item boundaries: an encoded prefix yields its items followed by whatever the rest yields |
| Zcode.DecodeItemsRoundTrip | zst/column/primitive.go:24-25 | a buffer of appended items decodes to exactly those items |
| Zcode.EncodeItemsConcat | zst/column/primitive.go:24-25 | appending items one batch after another is the encoding of the concatenated batches |
| Zcode.ToInt32 | zst/column/int.go:16-17 | Go's int32 conversion: the result is a 32-bit value congruent to the input modulo 2^32, and an input already in range is unchanged |
| Zng.LookupPrimitive | zng/resolver/context.go:277-290 | a name resolves to a primitive exactly when it is a primitive type name, and the primitive found carries that name |
| Zng.LookupPrimitiveName | zng/resolver/context.go:277-290 | every primitive's own name resolves to that primitive, because the names are pairwise distinct |
| Zng.LUT | zng/record.go:140-145 | createLUT maps exactly the column names, each to an index holding that name, with no later column of the same name |
| Zng.LUTSnoc | zng/record.go:140-145 | the table of a column list with one more column is the previous table updated at that column's name |
| Zng.ColumnOfField | zng/record.go:122-125 | a found index holds the field and no later column does; no index is found exactly when no column has the name |
| Zng.LookupIsLUT | zng/record.go:122-125 | the column lookup gives the same answer as createLUT's table, present or absent |
| Zng.TypeOfField | zng/record.go:127-133 | a type is found exactly when the field exists, and it is the type of the column ColumnOfField finds |
| Zng.Decode | zng/record.go:42-59 | an unset body is ErrUnset, more values than columns is an error, and on success the i-th value carries the i-th column's type |
| Zng.StringOfZng | zng/record.go:65-107 | in ZNG format a record renders as "[", each field followed by ";", then "]", with "-" for an unset field |
| Zng.Marshal | zng/record.go:109-120 | succeeds exactly when there is a value per column, and then maps each column name to the value of its last column |
| Zng.Access | microindex/finder.go:90-93 | reading a field succeeds exactly when the field exists and has a value, and gives the value typed by the field's column |
| Segmap.SpillLocates | zst/column/primitive.go:33-40 | a spilled buffer is found again at the segment recorded for it, and earlier segments still locate the same bytes |
| Segmap.SpillStream | zst/column/primitive.go:24-40 | spilling a buffer of items adds exactly those items to the end of the column's item stream |
| Segmap.StreamExtend | zst/column/primitive.go:33-40 | bytes spilled later leave the stream of earlier segments unchanged |
| Segmap.StreamSnoc | zst/column/primitive.go:94-112 | one more segment at the end of a segmap adds its items at the end of the stream |
| Segmap.ReadAt | zst/column/primitive.go:104-110 | a read succeeds exactly when the range lies inside the object, and then gives those bytes; a short read always reports an error |
| Segmap.SegmapValue | zst/column/primitive.go:44-53 | the encoded segmap has one [offset, length] container per segment, in order |
| Segmap.ParseSegment | zst/column/column.go:83-111 | a parsed segment's offset and length are the first two items decoded as integers; fewer than two items is an error |
| Segmap.CheckSegmapType | zst/column/column.go:113-128 | the type check passes exactly for an array of record[offset:int64,length:int64] |
| Segmap.ParseSegmap | zst/column/column.go:117-146 | a segmap value with the wrong type is refused with the type check's error |
| Segmap.SegmapRoundTrip | zst/column/column.go:117-146 | a segmap encoded with int64 columns parses back to the same segments |
| Segmap.SegmapAsWrittenRejected | zst/column/primitive.go:42-54 | a segmap written with the type string of primitive.go:42 (length:int32) is refused by parseSegmap whatever its body |
| Resolver.NewContext | zng/resolver/context.go:31-41 | a new context holds exactly the IdTypeDef reserved slots, all empty, and no keys |
| Resolver.AddTypeWithLock | zng/resolver/context.go:129-146 | the added type takes the next id (the table length), is appended to the table, and its key maps to that id; the context stays well formed and extends the old one |
| Resolver.AddType | zng/resolver/context.go:116-127 | succeeds exactly for records, sets and arrays (other kinds panic in typeKey); returns the interned type when its key is known, leaving the context unchanged, and otherwise adds the type under the next id |
| Resolver.LookupTypeRecord | zng/resolver/context.go:170-181 | returns a record type with the same key as the columns, the interned one when the key is known and a new one at the next id otherwise |
| Resolver.LookupTypeSet | zng/resolver/context.go:183-194 | returns a set of the given inner type id, the interned one when known and a new one at the next id otherwise |
| Resolver.LookupTypeArray | zng/resolver/context.go:196-207 | returns an array of the given inner type id, the interned one when known and a new one at the next id otherwise |
| Resolver.LookupTypeRecordIdempotent | zng/resolver/context.go:164-181 | looking the same columns up again returns the same type and leaves the context as it was |
| Resolver.LookupTypeSetIdempotent | zng/resolver/context.go:183-194 | looking the same set up again returns the same type and leaves the context as it was |
| Resolver.LookupTypeArrayIdempotent | zng/resolver/context.go:196-207 | looking the same array up again returns the same type and leaves the context as it was |
| Resolver.LookupRecordClosed | zng/resolver/context.go:170-181 | in a context whose interned types are built from known types, looking up known columns returns a record with exactly those columns, and the context stays so |
| Resolver.LookupSetClosed | zng/resolver/context.go:183-194 | in such a context, looking up a set of a known inner type returns a set of exactly that inner type |
| Resolver.LookupArrayClosed | zng/resolver/context.go:196-207 | in such a context, looking up an array of a known inner type returns an array of exactly that inner type |
| Resolver.KnownUnique | zng/resolver/context.go:70-83 | two types a context knows under the same id are the same type |
| Resolver.NewContextClosed | zng/resolver/context.go:31-41 | a new context has no interned type built from an unknown one |
| Resolver.KeyKinds | zng/resolver/context.go:100-127 | the first letter of a key tells the kind: 'r' exactly for records, 's' for sets, 'a' for arrays |
| Resolver.KeyInjective | zng/resolver/context.go:100-106 | two set keys, or two array keys, are equal only when the inner type ids are |
| Resolver.ColumnsKeyInjective | zng/resolver/context.go:108-114 | with the names escaped, two column lists have the same key only when they have the same length, the same names in order and the same type ids |
| Resolver.RecordKeyInjective | zng/resolver/context.go:108-114 | with the names escaped, two record keys are equal only when the columns agree in names and type ids |
| Resolver.RecordKeyAsWrittenCollides | zng/resolver/context.go:108-114 | as written, the columns a:int32, b:int64 and the single column "a:6;b":int64 share the key "ra:6;b:7;"; their escaped keys differ |
| Resolver.LookupType | zng/resolver/context.go:70-83 | an id outside the table is an out-of-range error; otherwise it succeeds exactly for a primitive id or an interned slot, and the type found carries that id |
| Resolver.LookupRecord | zng/resolver/context.go:85-98 | fails exactly for a negative id (an index panic); a type found is a record type with that id known to the context |
| Resolver.LookupRecordInterned | zng/resolver/context.go:85-98 | a record type just interned is found again by its id |
| Resolver.LookupRecordNone | zng/resolver/context.go:85-98 | nothing is found exactly when the id is reserved, past the table, or holds a set or array |
| Resolver.TrimSpace | zng/resolver/context.go:252 | the trimmed string is no longer than the input and neither starts nor ends with white space |
| Resolver.TrimSpaceIdempotent | zng/resolver/context.go:252 | trimming twice is trimming once |
| Resolver.ParseWord | zng/resolver/context.go:251-263 | the word is all identifier characters; no word leaves no rest; otherwise the trimmed input is the word followed by the rest, which does not start with an identifier character |
| Resolver.ParseWordOf | zng/resolver/context.go:251-263 | a trimmed identifier followed by a non-identifier character splits exactly there |
| Resolver.Match | zng/resolver/context.go:326-332 | matches exactly when the trimmed input starts with the pattern, then returns what follows it; otherwise returns the trimmed input |
| Resolver.IndexOf | zng/resolver/context.go:370 | the position found holds the character and none before it does; nothing is found exactly when the character is absent |
| Resolver.ParseType | zng/resolver/context.go:277-324 | the context after a parse is well formed and extends the one before; a parsed type is known to it and the rest is no longer than the input |
| Resolver.ParseCompound | zng/resolver/context.go:295-323 | the keyword branch of parseType keeps the same promise about the context and the result |
| Resolver.KeywordStep | zng/resolver/context.go:303-322 | on "set", "array" or "record" followed by a bracketed body, parseType hands the body to that keyword's parser |
| Resolver.ParseRecordTypeBody | zng/resolver/context.go:335-366 | a parsed record body is a record type known to the resulting context |
| Resolver.ParseRecordColumns | zng/resolver/context.go:341-365 | the column loop keeps the context well formed and yields a record type |
| Resolver.ParseColumn | zng/resolver/context.go:368-384 | a parsed column consumes at least one character and its type is known to the resulting context |
| Resolver.ParseSetTypeBody | zng/resolver/context.go:389-419 | a parsed set body is a set type known to the resulting context |
| Resolver.ParseSetTypes | zng/resolver/context.go:396-418 | the type loop of a set body keeps the context well formed and yields a set type |
| Resolver.ParseArrayTypeBody | zng/resolver/context.go:422-438 | a parsed array body is an array type known to the resulting context |
| Resolver.BodyNeedsBracket | zng/resolver/context.go:336-339 | a record, set or array body that does not open with "[" is a syntax error |
| Resolver.RecordRejectsDuplicate | zng/resolver/context.go:349-353 | a column whose name an earlier column has is refused with ErrDuplicateFields |
| Resolver.RecordRejectsUnclosed | zng/resolver/context.go:355-364 | a column followed by neither "," nor "]" is a syntax error |
| Resolver.SetRejectsMultiple | zng/resolver/context.go:410-416 | a set body that closes after more than one type parameter is refused |
| Resolver.LookupByName | zng/resolver/context.go:271-275 | a type found by name is known to the resulting context, which extends the one before |
| Resolver.TranslateType | zng/resolver/context.go:440-458 | succeeds exactly for types made of primitives, records, sets and arrays; an id below IdTypeDef is returned unchanged with the context unchanged; otherwise the result is known to the context and keeps its kind |
| Resolver.TranslateColumns | zng/resolver/context.go:460-467 | translating a record's columns yields a record type known to the context, exactly when every column translates |
| Resolver.TranslateStructural | zng/resolver/context.go:440-467 | translating a type whose ids are those a context hands out gives a type of the same shape: a primitive unchanged, a set or array of the translated inner type, a record with the external column names in order and translated column types; the result is known and the context keeps every interned type built from known ones |
| Resolver.TranslateColumnsStructural | zng/resolver/context.go:460-467 | the column loop keeps the names of the columns translated so far, in order, each with a type of the same shape known to the context, and ends in a record of the external record's shape |
| Resolver.ParseFormat | zng/resolver/context.go:277-438 | parsing the type string of a type, followed by anything that may follow a type, interns exactly what translating the type interns and returns the same type and the rest |
| Resolver.LookupByNameFormat | zng/resolver/context.go:271-275 | LookupByName on the type string of a type gives the type TranslateType interns, in the same context |
| Resolver.RecordColumnsFormat | zng/resolver/context.go:341-365 | the column list of a record's type string parses back to what translating those columns interns |
| Resolver.SetBodyOf | zng/resolver/context.go:389-419 | a set body with one type parameter interns the set of that type |
| Resolver.ArrayBodyOf | zng/resolver/context.go:422-438 | an array body interns the array of its type |
| Presence.RunList | zst/column/presence.go:10-44 | the reference run list of a flag sequence is never empty, its first run may be 0 (a sequence starting unset) and every later run is at least 1 |
| Presence.ExpandRunList | zst/column/presence.go:22-44 | expanding the reference runs, alternating from "value", gives back the flag sequence |
| Presence.TouchValue | zst/column/presence.go:22-30 | in a value run the run grows by one (as an int32) and nothing is written; after an unset run that run is written and a value run of 1 starts |
| Presence.TouchUnset | zst/column/presence.go:32-40 | in an unset run the run grows by one and nothing is written; after a value run that run is written and an unset run of 1 starts |
| Presence.Finish | zst/column/presence.go:42-44 | finishing writes the pending run to the int column and changes nothing else |
| Presence.TouchStep | zst/column/presence.go:22-40 | each touch moves the writer one step along the reference runs: the same kind extends the last run, the other kind emits it and opens a new run of 1 |
| Presence.TouchAllRuns | zst/column/presence.go:10-40 | after a flag sequence the column holds every reference run but the last, which is pending with the kind the list says |
| Presence.PresenceWriterRuns | zst/column/presence.go:10-44 | touching a sequence and finishing leaves exactly its reference runs in the int column, and they expand back to the sequence |
| Presence.Read | zst/column/presence.go:67-82 | a read reports "value" exactly when the reader is not in an unset run after the read |
| Presence.NewPresenceReaderPending | zst/column/presence.go:52-65 | a new reader is primed with the first run as a value run, with the whole expansion pending; over an empty column it fails with the column's EOF |
| Presence.ReadPending | zst/column/presence.go:67-82 | one read delivers the first pending flag and leaves the rest pending; with nothing pending it fails with EOF |
| Presence.ReadNextRun | zst/column/presence.go:68-79 | when a run is used up the kind flips and the next run is loaded from the int column |
| Presence.ZeroRunRejected | zst/column/presence.go:74-77 | a zero run after the first is rejected as an illegal zero run |
| Presence.PresenceRoundTrip | zst/column/presence.go:22-82 | a presence column holding the runs of a flag sequence reads back as that sequence |
| Primitive.Flush | zst/column/primitive.go:33-40 | an empty buffer changes nothing; otherwise exactly one segment is appended, holding the buffer's bytes, earlier segments are kept and the buffer is emptied |
| Primitive.Write | zst/column/primitive.go:24-31 | the item is appended, and once the buffer reaches the threshold it is flushed, so with a positive threshold the buffer stays below it; a write below the threshold only appends |
| Primitive.WriteContents | zst/column/primitive.go:24-31 | a write adds exactly its item to what the column has accepted, spilled or buffered |
| Primitive.FlushContents | zst/column/primitive.go:33-40 | a flush moves the buffer into a segment without changing what the column holds |
| Primitive.FlushKeepsOthers | zst/column/primitive.go:33-40 | a flush only appends to the spill file, so other columns' segments keep their items |
| Primitive.WriteKeepsOthers | zst/column/primitive.go:24-31 | a write leaves other columns' segments as they were |
| Primitive.GrowKeepsContents | zst/column/primitive.go:33-40 | bytes other columns spill later leave this column's contents unchanged |
| Primitive.Encode | zst/column/primitive.go:44-55 | the segmap this column encodes (with int64 lengths) parses back to its segments |
| Primitive.EncodeAsWritten | zst/column/primitive.go:42-55 | with the type string of primitive.go:42 the body is the same, but parseSegmap refuses the value |
| Primitive.NewPrimReader | zst/column/primitive.go:63-75 | opening succeeds exactly when the segmap parses, and starts before the first segment |
| Primitive.NextSegment | zst/column/primitive.go:94-113 | a segment loads exactly when it is at most 2*MaxSegmentThresh long and lies inside the object, and then yields its bytes |
| Primitive.Read | zst/column/primitive.go:77-92 | a successful read consumes exactly one item of the remaining segments |
| Primitive.ReadRemaining | zst/column/primitive.go:77-113 | reads deliver the remaining items in segment order, and EOF exactly when none is left |
| Primitive.PrimRoundTrip | zst/column/primitive.go:24-113 | a flushed column, encoded and opened, reads back the items written to it |
| Primitive.IntWrite | zst/column/int.go:16-18 | an int32 is written as a primitive holding its integer encoding, through the same spiller |
| Primitive.ReadIntRemaining | zst/column/int.go:16-18 | an int column delivers the ints written, in order, then EOF |
| Primitive.IntRoundTrip | zst/column/int.go:8-18 | a flushed int column, encoded and opened, delivers exactly the ints written, then EOF |
| Primitive.IntRead | zst/column/presence.go:57 | reading an int gives the next one, or the error that ended the column |
| Primitive.NewIntReader | zst/column/presence.go:53 | an int reader opens exactly when its segmap parses |
| ColumnWriter.NewWriter | zst/column/column.go:27-45 | the writer's kind follows the unaliased type: records get a record writer with one fresh field per column and the column's name, arrays and sets an array writer, unions a union writer with one alternative per member type, anything else a primitive writer; the union type is kept only in the corrected variant |
| ColumnWriter.NewFieldWriters | zst/column/record.go:14-25 | one field writer per column, in declared order, named after it, with both counters at zero |
| ColumnWriter.SetWritesAsArray | zst/column/column.go:33-39 | a set and an array of the same element type get the same writer |
| ColumnWriter.AliasWritesAsTarget | zst/column/column.go:29-30 | an alias is written as the type it names |
| ColumnWriter.Write | zst/column/column.go:14-19 | a successful write only appends to the spill file and keeps the writer's kind |
| ColumnWriter.WriteFields | zst/column/record.go:27-51 | a successful record write has at least one value per field and takes one step per field with the value at the field's position |
| ColumnWriter.WriteField | zst/column/record.go:37-46 | a nil value touches the presence column as unset and writes nothing else; any other value touches it as a value and succeeds exactly when the column write does |
| ColumnWriter.RecordArity | zst/column/record.go:27-51 | a record write succeeds only for a container with exactly one value per field |
| ColumnWriter.PrimRecordWrite | zst/column/record.go:27-51 | a record of primitive columns accepts every container with one value per field |
| ColumnWriter.ArrayWriteLength | zst/column/array.go:26-41 | an array write succeeds exactly when its elements are written, in order, and then appends the element count, as an int32, to the lengths column |
| ColumnWriter.UnionBadSelector | zst/column/union.go:35-37 | a selector outside [0, number of alternatives) is rejected |
| ColumnWriter.UnionWriteSelects | zst/column/union.go:30-42 | a union write appends the selector to the selector column and writes the value to the selected alternative only, leaving the others unchanged |
| ColumnWriter.UnionAsWrittenFails | zst/column/union.go:19-31 | as written the union type is never set, so every union write dereferences nil |
| ColumnWriter.Flush | zst/column/array.go:43-48 | flushing leaves every buffer of the column, and each presence column it finishes, empty and keeps the writer's kind |
| ColumnWriter.FlushAlts | zst/column/union.go:44-54 | each alternative of a union is flushed, leaving it drained |
| ColumnWriter.FlushField | zst/column/record.go:56-69 | a field's presence column is finished and flushed only when the field saw both values and nils; otherwise only the column changes |
| ColumnWriter.FlushFields | zst/column/record.go:54-72 | every field is flushed in order, keeping its name and counters |
| ColumnWriter.EncodeLeaf | zst/column/primitive.go:42-55 | a leaf segmap parses back to the column's segments when written with int64 lengths, and is refused when written with the int32 type string |
| ColumnWriter.Encode | zst/column/column.go:22-24 | a leaf encodes as its segmap; any other column encodes as a record value |
| ColumnWriter.EncodeLayout | zst/column/array.go:50-66 | the reassembly record of an array has columns values then lengths, of a union c0, c1, ... then selector, of a record one column per field in declared order |
| ColumnWriter.EncodeAlts | zst/column/union.go:56-67 | one reassembly column per union alternative |
| ColumnWriter.EncodeField | zst/column/record.go:96-112 | a field's reassembly record has the columns column then presence, holding the column's value and the presence segmap |
| ColumnWriter.EncodeFields | zst/column/record.go:74-86 | one reassembly column per record field |
| ColumnWriter.RecordCounts | zst/column/record.go:29-43 | the corrected writer counts each field's values and nils; as written the counts are bumped on a copy and stay zero |
| ColumnWriter.PresenceFlushedIff | zst/column/record.go:54-72 | a field's presence column is flushed exactly when the field received both values and nils, and as written never |
| ColumnWriter.PresenceLostExample | zst/column/record.go:29-70 | for the values {a: 1} then {a: nil} the corrected writer flushes a's presence column and the writer as written does not |
| ColumnReader.NewReader | zst/column/column.go:51-69 | a reader opened on a record, array or set, or union type has that kind of reader; a primitive type opens exactly when its segmap parses, positioned before the first segment |
| ColumnReader.ReassemblyMustBeRecord | zst/column/array.go:73-77 | the reassembly of an array, set, union or record column that is not a record value is refused |
| ColumnReader.NewArrayReader | zst/column/array.go:73-99 | an opened array column is an array reader |
| ColumnReader.ArrayReaderCorrected | zst/column/array.go:73-99 | reading the lengths field "lengths", an array reassembly written by the array writer opens exactly when its values column opens, with the lengths written |
| ColumnReader.ArrayReaderAsWrittenFails | zst/column/array.go:87-90 | looking up "length" where the writer wrote "lengths", no array column written by the array writer opens |
| ColumnReader.ArrayReadTakesLength | zst/column/array.go:101-114 | a read takes one length from the lengths column and returns one container holding that many values; a failing lengths column fails the read |
| ColumnReader.ReadN | zst/column/array.go:107-111 | the element loop reads exactly n values, none when n is not positive |
| ColumnReader.NewUnionReader | zst/column/union.go:82-117 | an opened union has at most one reader per alternative, and as written opening never succeeds |
| ColumnReader.AltColumns | zst/column/union.go:90-104 | the column loop collects c0, c1, ... until one is missing; as written the missing column is the error it returns, corrected it ends the alternatives; a column past the last alternative is "too many union columns" |
| ColumnReader.AltColumnsFindAll | zst/column/union.go:90-104 | corrected, when exactly c0 .. c(m-1) exist the loop finds those m columns and ends without error |
| ColumnReader.UnionReaderAsWrittenFails | zst/column/union.go:90-104 | as written the loop only ends through an error, so no union column opens |
| ColumnReader.UnionReaderOpens | zst/column/union.go:82-117 | corrected, a reassembly with columns c0 .. c(n-1) and then selector opens exactly when every alternative and the selector open, and holds those readers |
| ColumnReader.UnionReaderCorrected | zst/column/union.go:82-117 | corrected, a union reassembly written by the union writer opens exactly when its alternatives open, with the selectors written |
| ColumnReader.UnionReadSplits | zst/column/union.go:119-134 | a union read takes one selector, rejects it when out of range, and otherwise returns a container of the selector and one value read from that alternative, which alone advances |
| ColumnReader.NewRecordReader | zst/column/record.go:116-139 | an opened record column has one field reader per reassembly value and no more values than the record type has columns |
| ColumnReader.FieldValues | zst/column/record.go:123-137 | the loop pairs each reassembly value with its column's type and stops with a mismatch error at a value past the record type's columns |
| ColumnReader.RecordReaderOpens | zst/column/record.go:116-139 | corrected, a record reassembly opens exactly when every field opens on the value at its position, and holds those field readers |
| ColumnReader.RecordReaderCorrected | zst/column/record.go:116-139 | a record reassembly written by the record writer opens exactly when each field does, and holds those readers in field order |
| ColumnReader.NewFieldReader | zst/column/record.go:158-182 | a field reader remembers whether the field's type is a container |
| ColumnReader.FieldReaderCorrected | zst/column/record.go:158-182 | a field reassembly written by the field writer opens exactly when its column opens; its presence reader is there exactly when the presence column opens, and an error there is dropped |
| ColumnReader.Read | zst/column/column.go:47-49 | reading keeps the shape of the reader tree |
| ColumnReader.ReadFields | zst/column/record.go:141-150 | a record read yields one value per field reader |
| ColumnReader.ReadFieldsEach | zst/column/record.go:141-150 | field i of the record read is the value field reader i reads |
| ColumnReader.ReadFieldsFail | zst/column/record.go:143-147 | a record read fails exactly when one of its field readers fails |
| ColumnReader.ReadField | zst/column/record.go:184-198 | a field read keeps the field's column shape and container flag |
| ColumnReader.FieldReadPresence | zst/column/record.go:184-198 | a field with no presence reader dereferences nil; otherwise an unset flag reads as nil of the field's kind and a set flag as the column's next value |
| ColumnReader.AccessUnique | zst/column/union.go:91 | a field name carried by exactly one column is found at that column |
| ColumnReader.AccessAbsent | zst/column/union.go:91 | a field name no column carries is not found |
| ColumnReader.UnionLayout | zst/column/union.go:91-108 | on a reassembly with columns c0 .. c(n-1) and selector, the lookups find each alternative, miss c<n>, and find the selector |
| Trailer.NewTrailerRecord | zst/trailer.go:40-68 | the trailer record is interned with the columns magic, version, skew_thresh, col_thresh and sections (an array of int64); its values are "zst", version 1, the two thresholds and the encoded sections |
| Trailer.TrailerVersion | zst/trailer.go:116-125 | succeeds exactly when the version field reads as the int 1; a missing or non-int field is a bad-version-field error, any other value a version mismatch |
| Trailer.DecodeInts | zst/trailer.go:163-174 | the section loop succeeds exactly when every element decodes as an int, and then returns one size per element, in order |
| Trailer.DecodeSections | zst/trailer.go:146-175 | a missing sections field is the access error; a sections field that is not an array is refused; an unset array gives no sections; a non-empty array whose inner type is not int64 is refused; sections returned are the decoded int64 elements, in order |
| Trailer.RecordToTrailer | zst/trailer.go:127-144 | a magic other than "zst" is ErrNotZst; a trailer returned carries magic "zst", version 1 and the decoded sections; as written its thresholds are zero, corrected they are the record's threshold fields |
| Trailer.Examine | zst/trailer.go:91-110 | an offset that is not an array-int64/record typedef preceded by an end of stream, or does not decode, is passed by; a bad version aborts the search; otherwise the decoded trailer is found |
| Trailer.Scan | zst/trailer.go:87-113 | a trailer found by the backward search has a length between 1 and the window size |
| Trailer.ScanLocates | zst/trailer.go:87-113 | the trailer returned is the one at the offset its length names, and every higher offset was passed by |
| Trailer.ScanFinds | zst/trailer.go:87-113 | the highest offset that is not passed by, when it holds a trailer, is the one returned, with length n - off |
| Trailer.ScanFails | zst/trailer.go:87-113 | "trailer not found" exactly when every offset is passed by; any other error is the abort of the highest offset not passed by |
| Trailer.WindowSize | zst/trailer.go:71-73 | the window is the last 4096 bytes, or the whole object when it is shorter |
| Trailer.FirstOffset | zst/trailer.go:87 | the search starts three bytes before the end of the window |
| Trailer.ReadTrailer | zst/trailer.go:70-86 | the window is the last min(size, 4096) bytes; a read that returns any other count is the short-read error; a full read hands the window to the backward search |
| Trailer.ScanWindowLocates | zst/trailer.go:87-110 | a trailer found within a window is the decoding of the bytes from its offset to the end of the window |
| Trailer.TrailerRoundTrip | zst/trailer.go:40-60 | the record newTrailerRecord builds decodes, corrected, to the same magic, version, thresholds and sections |
| Trailer.TrailerAsWrittenDropsThresholds | zst/trailer.go:127-144 | as written the same record decodes with both thresholds zero, whatever was written |
| Trailer.TrailerFields | zst/trailer.go:41-59 | each of the five fields of a trailer record reads back the value newTrailerRecord stored in it, with its type |
| Trailer.SectionsRoundTrip | zst/trailer.go:146-175 | the sections field of a trailer record decodes to the sizes that were encoded into it |
| Trailer.DecodeIntsAll | zst/trailer.go:163-174 | when each element decodes to the matching int, the loop returns exactly those ints |
| Trailer.VersionBeforeMagic | zst/trailer.go:103-110 | a candidate with a bad version stops the search whatever its magic; one with the right version and the wrong magic is passed by |
| TrailerTail.ReadTrailerWindow | zst/trailer.go:70-86 | bytes before the last 4096 of an object never influence the trailer found |
| TrailerTail.ReadTrailerFromTail | zst/trailer.go:70-113 | the trailer readTrailer returns is the decoding of the object's last len bytes, len being the length it returns |
| TrailerTail.ReadTrailerScans | zst/trailer.go:74-87 | a full read of the window hands it to the backward search |
| ZstWriter.CheckThresh | zst/writer.go:74-82 | zero is refused, a value above the maximum is refused, and every other value (negative ones included) is accepted |
| ZstWriter.NewWriter | zst/writer.go:44-72 | succeeds exactly when both thresholds pass their checks (skew first) and the object opens; a new writer has no schemas, no footprint, an empty root column and the thresholds it was given |
| ZstWriter.Schema | zst/writer.go:85-97 | a type seen before maps to its schema unchanged; a new type succeeds exactly when it translates, and gets the next schema id, a new record writer and its translated type appended; nothing else in the writer changes |
| ZstWriter.RootInts | zst/writer.go:98 | the root column receives each schema id truncated to int32 |
| ZstWriter.WriteRow | zst/writer.go:98-103 | the root column gains exactly the row's schema id, the spilled data only grows and only the spiller, root and schema writers change |
| ZstWriter.Account | zst/writer.go:104-108 | the footprint grows by the row's length; when it reaches the skew threshold it is reset to zero and every column is flushed; the root column's contents are unchanged |
| ZstWriter.Write | zst/writer.go:84-110 | a written row maps its type to a schema, appends that schema id to the root column, adds a schema only for a new type and either grows the footprint by the row's length or resets it with all columns flushed |
| ZstWriter.FlushSchemas | zst/writer.go:131-135 | every schema writer is flushed in order, keeping its kind and leaving nothing buffered; the spilled data only grows |
| ZstWriter.Flush | zst/writer.go:130-137 | after a flush every column is drained, the root column's contents are unchanged and only the spiller, schemas and root change |
| ZstWriter.EmptyRecord | zst/writer.go:153-166 | the record written for a schema has the schema's type and every column unset |
| ZstWriter.SchemaRecord | zst/writer.go:184-197 | a schema's reassembly record has the type its writer encodes to and, for a record writer, the body of the encoded container |
| ZstWriter.RootRecord | zst/writer.go:168-180 | the root reassembly record has the single column "root" holding the root column's segment map |
| ZstWriter.EmptyRecords | zst/writer.go:153-166 | one empty record per schema type, in schema order |
| ZstWriter.Metadata | zst/writer.go:146-199 | the metadata section is the empty records, the root record, the reassembly records and an end of stream, in that order |
| ZstWriter.MetadataLayout | zst/writer.go:146-199 | the metadata section holds |types| + |schemas| + 2 entries: empty records of the schema types, the root record, each schema's reassembly record and an end of stream |
| ZstWriter.Finalize | zst/writer.go:139-203 | finalize flushes, writes the metadata section, then a trailer holding the two thresholds and the sizes of the data and metadata sections, then an end of stream |
| ZstWriter.EmptyTrailer | zst/writer.go:205-218 | an empty trailer is a trailer record with the writer's thresholds and no sections, then an end of stream |
| ZstWriter.RepeatedTypeReusesSchema | zst/writer.go:85-97 | a row of a type already seen reuses its schema: no schema or type is added and the mapping is unchanged |
| ZstWriter.EmptyTrailerDecodes | zst/writer.go:205-208 | a new writer's empty trailer decodes to the thresholds it was given and no sections |
| ZstReader.Open | zst/reader.go:46-80 | a trailer error is returned as is; the open succeeds exactly when a trailer is found whose skew threshold is at most 512 MiB and whose column threshold is at most the segment maximum; the reader holds the trailer, its length and nothing loaded |
| ZstReader.Section | zst/reader.go:168-174 | a level within the list succeeds, with the level's own size as length and offset zero for the first; a level past the list is an index panic |
| ZstReader.Window | zst/reader.go:176-182 | a section reader over an in-range window yields exactly the bytes of that window, and never more than its length |
| ZstReader.SectionBytes | zst/reader.go:176-182 | a section reader exists exactly when the level is in the trailer, and covers the section from sectionOff bytes in to its end |
| ZstReader.RootIndex | zst/reader.go:126-139 | the loop stops at the first record whose first value is set, all records before it having it unset; otherwise it returns the stream's error, or "no reassembly records" at its end |
| ZstReader.OpenSchemas | zst/reader.go:148-159 | one record reader is opened per schema type, the reader of schema k on the k-th record after the root record |
| ZstReader.Init | zst/reader.go:123-165 | init with both of its defects corrected (the shadowed root record, and the schema reads through the object reader's own Read; see Findings): a successful init found the root record, took the schema types from the records before it, opened the root int reader on its "root" field and the reader of schema k on the k-th record after the root record, and the stream held no extra record; a failure to find the root record is returned as is |
| ZstReader.InitAsWritten | zst/reader.go:125-140 | as written init always fails: with the loop's error, or by dereferencing the outer `rec`, which the loop shadowed and left nil |
| ZstReader.InitUntilRead | zst/reader.go:123-147 | with only the shadowing corrected, init reaches its first r.Read() call having appended the types of the records before the root record to the reader's types, opened the root int reader, and stored no schema reader; a failure to find the root record is returned as is |
| ZstReader.InitShadowFixedRecurses | zst/reader.go:148-160 | with only the shadowing corrected, the r.Read() call of init finds no schema reader stored, so Read enters init again (reader.go:94-96); at every depth of this nesting init gets back to that call, and each level appends the schema types once more, so init never returns |
| ZstReader.Load | zst/reader.go:94-102 | as written, loading a reassembly section that exists always fails |
| ZstReader.RowBody | zst/reader.go:112-115 | as written the row's values are the whole record container as one value; corrected, the container's body |
| ZstReader.NextId | zst/reader.go:103-106 | the schema id is the next int of the root column; at EOF there is none; on any other read error it is the zero value that comes with it |
| ZstReader.ReadLoaded | zst/reader.go:99-120 | no schemas is an error; at the end of the root column no row is returned; otherwise the read succeeds exactly when the id is in range, the error being "bad schema id", and the row has that schema's type |
| ZstReader.Read | zst/reader.go:93-121 | the first read loads the reader and a load error is returned as is; as written the first read always fails |
| ZstReader.ReadN | zst/reader.go:93-121 | n successful reads return n results and leave the reader consistent |
| ZstReader.SectionsContiguous | zst/reader.go:168-174 | each section starts where the previous one ends |
| ZstReader.ReassemblyAfterData | zst/reader.go:184-186 | for an object the writer finalized, the reassembly section starts right after the column data and spans the metadata |
| ZstReader.EmptyObjectHasNoReassembly | zst/reader.go:86-91 | an object whose trailer has no sections is empty, and asking for its reassembly section panics |
| ZstReader.TrailerBytesDecode | zst/reader.go:188-190 | the trailer reader covers exactly the bytes the trailer was decoded from |
| ZstReader.OpenReadsTrailer | zst/reader.go:61-79 | the reader Open returns holds the object, the trailer readTrailer found and its length |
| ZstReader.InitOnMetadata | zst/reader.go:123-165 | on the metadata section the writer produces, the root record is found right after the schema types, its "root" field is the root column's segment map, and a successful init has the writer's types and one schema reader per writer schema |
| ZstReader.MetadataRecords | zst/reader.go:126-139 | the records of the metadata section are the schema types with unset first values, then the root record, then one record per schema |
| ZstReader.RootIndexAt | zst/reader.go:126-139 | the first loop stops at the first record whose first value is set |
| ZstReader.MarkerOnlyTrailer | zst/trailer.go:87-110 | an object that is only a trailer marker yields the trailer its decoding gives, with length 3 |
| ZstReader.OpenAsWrittenIgnoresThresholds | zst/reader.go:66-71 | as written an object whose trailer carries a skew threshold above the maximum is opened, because the thresholds come back zero |
| ZstReader.OpenCorrectedChecksThresholds | zst/reader.go:66-71 | corrected, the same object is refused with "skew threshold too large" |
| ZstReader.RowBodyAsWrittenWraps | zst/reader.go:115 | as written a two-field row comes back with one value; corrected, with its two values |
| ZstReader.RowsFollowRoot | zst/reader.go:93-121 | reading a root column of in-range ids yields one row per id, each of the type of the schema the id names, and then no row |
| ZstReader.ReadStep | zst/reader.go:103-120 | one read off a root column of in-range ids yields a row of the first id's schema type and consumes that id |
| Lineage.CopyExcept | archive/lineage/lineage.go:69-80 | the copy is never longer than the source |
| Lineage.CopyExceptSound | archive/lineage/lineage.go:69-80 | the copy is a subsequence of src holding each element not in skip as many times as src does, and no element of skip at all |
| Lineage.CopyExceptNone | archive/lineage/lineage.go:44-56 | copying with nothing to skip (copyExcept(segIds, nil)) gives back the ids unchanged |
| Lineage.CopyExceptTwice | archive/lineage/lineage.go:69-80 | skipping a and then b is skipping a + b in one pass |
| Lineage.CopyExceptUnique | archive/lineage/lineage.go:69-80 | any subsequence of src with those multiplicities is the copy: the specification determines copyExcept |
| Lineage.ChunkPoints | archive/lineage/lineage.go:94-98 | two points per chunk, in chunk order: a start at its first timestamp and an end at ts + dur - 1 |
| Lineage.Insert | archive/lineage/lineage.go:99 | one insertion step adds exactly the point to the sorted points |
| Lineage.InsertSorted | archive/lineage/lineage.go:89-91 | inserting into points ordered by timestamp keeps them ordered |
| Lineage.InsertAt | archive/lineage/lineage.go:99 | insertion keeps the points at each timestamp in their order, with the new point after them |
| Lineage.SortPoints | archive/lineage/lineage.go:99 | sorting permutes the points |
| Lineage.SortPointsSound | archive/lineage/lineage.go:89-99 | the sorted points are ordered by timestamp, and at each timestamp they keep their original order |
| Lineage.SortSorted | archive/lineage/lineage.go:99 | points already in timestamp order are left as they are |
| Lineage.RunEnd | archive/lineage/lineage.go:102-107 | the inner loop stops at the first point after the run whose timestamp differs, every point before it sharing the run's timestamp |
| Lineage.Groups | archive/lineage/lineage.go:101-120 | there are never more groups than points |
| Lineage.GroupsOrdered | archive/lineage/lineage.go:101-120 | over sorted points, the callback is called at strictly increasing timestamps, never with both lists empty |
| Lineage.GroupContent | archive/lineage/lineage.go:108-116 | each callback receives exactly the start ids and the end ids of the points at its timestamp, in order |
| Lineage.PointsAt | archive/lineage/lineage.go:94-98 | among the chunks' points, the starts at t are the chunks starting at t and the ends at t the chunks whose last tick is t |
| Lineage.BoundariesSound | archive/lineage/lineage.go:93-121 | boundaries calls back at strictly increasing timestamps with exactly the chunks starting and the chunks ending there |
| Lineage.BoundariesCover | archive/lineage/lineage.go:93-121 | every chunk's first and last timestamps are the timestamps of some callback |
| Lineage.OnStart | archive/lineage/lineage.go:41-53 | start ids close the open segment at ts (as written whenever ids are open, corrected only when it would be non-empty), join the open ids and restart the segment at ts; no start ids change nothing |
| Lineage.OnEnd | archive/lineage/lineage.go:54-64 | end ids close the open segment through ts, drop exactly the ending ids from the open ones, keeping the others in order, and restart at ts + 1 |
| Lineage.OnStartTiled | archive/lineage/lineage.go:41-53 | the start step keeps the segments tiled and never moves the segment start back |
| Lineage.OnEndTiled | archive/lineage/lineage.go:54-64 | the end step keeps the segments tiled up to ts + 1 |
| Lineage.StepTiled | archive/lineage/lineage.go:40-65 | one callback only appends segments and keeps them tiled |
| Lineage.SweepTiled | archive/lineage/lineage.go:40-65 | over increasing timestamps the callbacks only append segments, which follow each other without overlapping |
| Lineage.CalcSegsTiled | archive/lineage/lineage.go:36-67 | calcSegs' segments follow each other without overlapping; corrected, every one lasts at least one tick |
| Lineage.NonNegativePoints | archive/lineage/lineage.go:94-98 | chunks starting at or after zero and lasting a tick or more have all their points at or after zero |
| Lineage.AncestorMap | archive/lineage/lineage.go:21-24 | the map has an entry exactly for each chunk id |
| Lineage.AncestorMapLast | archive/lineage/lineage.go:22-24 | a later chunk with the same id replaces an earlier one in the map |
| Lineage.SegAncestors | archive/lineage/lineage.go:27-30 | the ancestors gathered for a segment are exactly the ancestors of its ids that have a chunk |
| Lineage.ReadPlan | archive/lineage/lineage.go:20-34 | one plan entry per segment of calcSegs, each that segment pruned of its ids' ancestors |
| Lineage.ReadPlanSound | archive/lineage/lineage.go:20-34 | each plan entry keeps its segment's span and, in order, exactly those of the segment's ids that are not an ancestor, by the last chunk with that id, of an id of the same segment |
| Lineage.PruneSound | archive/lineage/lineage.go:26-32 | a pruned segment keeps its span and, in order, exactly the ids that are not an ancestor of one of its ids |
| Lineage.NoChunksNoSegments | archive/lineage/lineage.go:20-67 | no chunks give no segments and an empty plan |
| Lineage.OverlappingPair | archive/lineage/lineage_test.go:56-66 | chunks a over [0, 2) and b over [1, 3) give a alone, both, then b alone, one tick each |
| Lineage.EmptySegmentAsWritten | archive/lineage/lineage.go:41-50 | as written, chunks a over [0, 1), b over [0, 2) and c over [1, 2) give a zero-duration segment [b] at 1 between [a, b] and [b, c] |
| Lineage.EmptySegmentCorrected | archive/lineage/lineage.go:41-50 | corrected, the same chunks give only the two non-empty segments |
| Finder.FirstNotBelow | microindex/finder.go:50-58 | the first position at or after pos whose record's key is not below the key, every record before it being below, or the end of the records |
| Finder.LookupFrom | microindex/finder.go:48-69 | lookup never moves the stream backwards |
| Finder.LookupExact | microindex/finder.go:48-69 | an exact lookup returns the first record whose key is not below the key when that key is equal, and nothing otherwise; the stream's error comes back only when it ends before such a record |
| Finder.LookupClosestRef | microindex/finder.go:48-69 | a closest lookup returns the equal record when there is one, otherwise the last record below the key (or the one before the stream position), with the stream's error when it ends first |
| Finder.ExactFindsFirstMatch | microindex/finder.go:58-60 | a record with an equal key preceded only by lower keys is the one an exact lookup returns |
| Finder.ExactStopsAtHigher | microindex/finder.go:58-64 | a higher key reached first means an exact lookup finds nothing, whatever equal keys follow |
| Finder.SearchFrom | microindex/finder.go:71-99 | past the last index level the search opens the base frame at the offset reached |
| Finder.SearchStep | microindex/finder.go:82-97 | one index level: a read error is returned; no closest record is "not found"; a closest record whose child field is not an int is a b-tree child error; otherwise the search continues at the next level from the child offset |
| Finder.KeyBelowSmallest | microindex/finder.go:88-92 | a key below the smallest key of a level's frame is "not found" |
| Finder.BaseOnly | microindex/finder.go:80-98 | with no index level above the base, search opens the base frame at offset 0 |
| Finder.FinderLookup | microindex/finder.go:101-118 | an empty index gives nothing; a bad key is returned as an error; "not found" becomes no record and no error, while any other search error is returned; otherwise the base frame's first record whose key is not below the key, if its key is equal, with the stream's error only when the frame ends before such a record |
| Finder.FinderLookupClosest | microindex/finder.go:151-164 | an empty index gives nothing; a bad key or any search error, "not found" included, is returned as an error; otherwise the base frame's record with an equal key, else the last record below the key, else nothing, with the stream's error only when the frame ends before a record not below the key |
| Finder.NotFoundDiffers | microindex/finder.go:101-164 | for a key below every key of a level, Lookup reports no record and no error, while LookupClosest reports "not found" |
| Finder.Matches | microindex/finder.go:132-148 | every hit has a key equal to the key |
| Finder.CollectMatches | microindex/finder.go:132-148 | the hits are exactly the records with an equal key, up to the first record with a higher key; the stream's error is returned only when it ends before such a record |
| Finder.MatchesSkip | microindex/finder.go:58-67 | records below the key contribute no hit |
| Finder.FinderLookupAll | microindex/finder.go:120-149 | an empty index sends nothing; a bad key or a search error is returned; otherwise the hits are the base frame's records with an equal key before the first higher one, and the error returned is the stream's when no higher key ends the scan |
| Finder.ParseKeys | microindex/finder.go:172-184 | an empty index gives nothing; otherwise the parsed record is returned, and an "incomplete" error (trailing don't-care keys) is turned into success while any other error is kept |

## Left out

- The I/O is not modelled: files, URIs, `iosrc`, `bufwriter`, `Close` and `Abort` of the writer and the reader, and `Finder.Open`/`Close`. The bytes of an object are a sequence, and the decoders and section readers are parameters.
- The internals of the spiller and the int column are not part of this model. `column.Spiller` is an append-only byte sequence that records one segment per spill. The int reader is the sequence of ints it yields plus the error that ends it.
- The zngio stream encoding and `zcode.Builder` are not part of this model. Zcode and Zng give concrete stand-ins, and a stream of records is a sequence of records ending in an error or an end of stream.
- Concurrency is left out: the context's mutex, the `LookupAll` channel and its cancellation through `ctx.Done()`, the logger hook and the builder cache pool.
- `Context.Reset`, `Len`, `Serialize`, `SetLogger`, `AddColumns` and `NewValue` (zng/resolver/context.go) are left out. They are bookkeeping the codec does not use.
- `expr.NewKeyCompareFn` and `zng.Builder.Parse` are not part of this model. Their results are parameters of the finder members.
- The error of `newSectionReader` at microindex/finder.go:83 is left out. It is overwritten before use, so it has no effect.
- The error of opening the base section with `newSectionReader(0, off)` at microindex/finder.go:98 is not modelled: section readers are a function of level and offset, and opening one does not fail in the model.
- Go's distinction between nil and empty slices is left out. One exception is kept: the empty trailer's nil sections are an empty sequence, and `IsEmpty` tests for it.
- The reassembly types (segment maps, union and array encodings) are built structurally instead of being interned in the writer's context. The context only interns the schema types and the root and trailer records.
- The presence reader's nil dereference is modelled as it is and is not listed as a finding. A field whose presence column was never flushed opens no presence reader, and reading the field then panics. The intended behaviour is not evident from the code.
- The order in which the writer spills the columns within one flush is not stated separately. The contracts speak of what each column holds.
- ZstReader.InitOnMetadata: states that a successful init on the writer's metadata section has the writer's types and one reader per schema, but not that the init succeeds. Success needs every column's segment map to open, which depends on the byte layout of the spilled data.
- ZstReader.Load: states only that loading fails as written. The corrected load is stated through Init.
- ZstReader.ReadN: states only the number of rows and the reader's consistency. What each row is is stated by RowsFollowRoot.
- Finder.LookupFrom: its own contract states only that the stream never moves back. Its results are stated by LookupExact and LookupClosestRef.
- Lineage.SortPoints: the sort is stable, while Go's sort.Sort is not. The only effect is the order of ids within one timestamp.
- Lineage.ChunkPoints: does not wrap ts + dur - 1 at 64 bits, because nano.Ts arithmetic only overflows on spans no archive holds.
- ZstWriter.Account: does not wrap the footprint at the width of Go's int.
- ZstReader.Section: does not wrap the section sum at 64 bits.
- ZstReader.ReadLoaded: when a schema's read fails part way, the model keeps that schema's readers as they were before the read. In the code, the field readers reached before the failing one have already advanced (record.go:141-150), so the later rows of that schema can differ. Threading the partly advanced readers would need every column reader's read to return its state on failure.
- The writer's partial changes on an error are not modelled. The record and column writers return no state on an error, while the Go writer keeps the changes its field writers made before the failing one (zst/column/record.go:27-51, zst/writer.go:98-103). The only caller, cmd/zst/create/command.go:79-82, aborts the writer on the first error, so those changes are never used.
- The trailer field `SegmentThresh` is not modelled: reader.go:69 reads a field that `Trailer` does not declare (it has `ColThresh`, zst/trailer.go:33-34). The model reads `ColThresh` there.
- The one width conversion the columns depend on is modelled exactly: the schema id and every length written to an int column are truncated to int32 in two's complement (Zcode.ToInt32).

## Findings

| source | as written | input that shows it | evidently intended | confidence | as-written member | corrected member |
|---|---|---|---|---|---|---|
| zst/column/array.go:87 | NewArrayReader looks up the field "length", but the writer names it "lengths" (array.go:63) | any array column: the reassembly record has fields values and lengths | look up "lengths" | high; not executed | ColumnReader.ArrayReaderAsWrittenFails | ColumnReader.ArrayReaderCorrected |
| zst/column/primitive.go:42 | SegmapTypeString declares the segment length as int32, while checkSegType (column.go:126) demands int64 | any segment map the writer encodes is rejected by the reader | length:int64 | high; not executed | Segmap.SegmapAsWrittenRejected | Segmap.SegmapRoundTrip |
| zst/column/union.go:19-28 | NewUnionWriter never stores the union type, so UnionWriter.Write dereferences a nil type | writing any union value | store typ in the writer | high; not executed | ColumnWriter.UnionAsWrittenFails | ColumnWriter.UnionWriteSelects |
| zst/column/union.go:90-104 | the loop over the alternative columns only ends through an error: the access of "c<n>" past the last alternative fails first | any union column | a missing c<k> ends the alternatives, then the selector is read; a c<k> with k past the last type is still "too many union columns" | high; not executed | ColumnReader.UnionReaderAsWrittenFails | ColumnReader.UnionReaderCorrected |
| zst/column/record.go:29,38,42 | the range loop copies each FieldWriter, so vcnt and ucnt are bumped on the copy and stay zero, and Flush never finishes a presence column | the rows {a: 1} then {a: nil} | count on the slice element (range over indices) | high; not executed | ColumnWriter.PresenceLostExample | ColumnWriter.PresenceFlushedIff |
| zst/reader.go:127 | `rec, err :=` inside the loop shadows the outer rec, which is still nil at rec.Access("root") (reader.go:140) | any object with a reassembly section | assign to the outer rec | high; not executed | ZstReader.InitAsWritten | ZstReader.Init |
| zst/reader.go:149,160 | init reads the schema records, and probes for an extra record, with the object reader's own Read, which calls init whenever r.schemas is nil (reader.go:94-96); no schema reader is stored before the first such call, so init re-enters itself without end | any object whose root record's "root" field opens, once the shadowing at reader.go:127 is corrected | read the schema records and the extra-record probe from the reassembly reader | high; not executed | ZstReader.InitShadowFixedRecurses | ZstReader.Init |
| zst/trailer.go:127-144 | recordToTrailer never reads skew_thresh and col_thresh, so the threshold checks of the reader (reader.go:66-71) always pass | a trailer whose skew threshold is above 512 MiB | read both thresholds | high; not executed | ZstReader.OpenAsWrittenIgnoresThresholds | ZstReader.OpenCorrectedChecksThresholds |
| zng/resolver/context.go:108-114 | recordKey writes each column name as it is, so a name containing ":" or ";" can produce the key of a different column list, and LookupTypeRecord then returns the other record type | the columns a:int32, b:int64 against the single column "a:6;b":int64, both keyed "ra:6;b:7;" | keys that determine the columns, e.g. with the names escaped | medium; not executed | Resolver.RecordKeyAsWrittenCollides | Resolver.ColumnsKeyInjective |
| zst/reader.go:115 | Read builds the row from the whole record container, while the writer stored the container's body (writer.go:190) | a row {a, b}: one value instead of two | use the container's body | medium; not executed | ZstReader.RowBodyAsWrittenWraps | ZstReader.RowBody |
| archive/lineage/lineage.go:41-50 | when some chunks end at ts - 1 while others stay open, and a chunk starts at ts, the segment opened at ts is closed at once with duration zero | chunks a over [0, 1), b over [0, 2), c over [1, 2) | close the open segment only when it is non-empty | medium; not executed | Lineage.EmptySegmentAsWritten | Lineage.EmptySegmentCorrected |

=== FILE: column_reader.dfy ===
/** The column readers of zst/column: NewReader's type-directed dispatch
    over a reassembly value, and the array, union, record and field readers
    with their Read.  A reader is an immutable tree whose Read returns the
    value read and the advanced reader.

    Variant selects, where the Go code departs from its evident intent,
    between the code as written and the corrected reading: NewArrayReader
    looks up a field "length" that the writer names "lengths"
    (array.go:63, 87), and NewUnionReader's loop leaves only through an
    error (union.go:90-104). */
module ColumnReader {
  import opened Wrappers
  import opened Errors
  import opened Zcode
  import opened Zng
  import opened Decimal
  import opened Segmap
  import opened Primitive
  import opened Presence
  import opened ColumnWriter

  datatype ColReader =
    | PrimR(prim: PrimReader)
    | ArrayR(values: ColReader, lengths: IntReader)
    | UnionR(alts: seq<ColReader>, selector: IntReader)
    | RecordR(fields: seq<FieldReader>)

  /** A record field: the field's column and its presence column, which is
      nil when the presence column could not be opened. */
  datatype FieldReader = FieldReader(isContainer: bool, column: ColReader, presence: Option<PresenceReader>)

  /** The shape of a reader tree, without its reading state.  Reading never
      changes it, which is what bounds the recursion of Read. */
  datatype Shape = SPrim | SArray(elem: Shape) | SUnion(alts: seq<Shape>) | SRecord(fields: seq<Shape>)

  function ShapeOf(r: ColReader): Shape
  {
    match r
    case PrimR(_) => SPrim
    case ArrayR(values, _) => SArray(ShapeOf(values))
    case UnionR(alts, _) => SUnion(seq(|alts|, i requires 0 <= i < |alts| => ShapeOf(alts[i])))
    case RecordR(fields) => SRecord(seq(|fields|, i requires 0 <= i < |fields| => ShapeOf(fields[i].column)))
  }

  // ------------------------------------------------------------ opening

  /** The field of a reassembly record the array reader takes its lengths
      from. */
  function LengthsField(v: Variant): string
  {
    if v == AsWritten then "length" else "lengths"
  }

  /** NewReader: aliases are unwrapped, sets are read as arrays, records and
      unions get their own readers and every other type is primitive. */
  function NewReader(file: Bytes, t: Type, re: TypedValue, v: Variant): (r: Result<ColReader>)
    ensures r.Ok? && Unalias(t).TRecord? ==> r.value.RecordR?
    ensures r.Ok? && (Unalias(t).TArray? || Unalias(t).TSet?) ==> r.value.ArrayR?
    ensures r.Ok? && Unalias(t).TUnion? ==> r.value.UnionR?
    ensures Unalias(t).Primitive? ==> (
      (r.Ok? <==> ParseSegmap(re).Ok?) &&
      (r.Ok? ==> r.value == PrimR(PrimReader([], ParseSegmap(re).value))))
    decreases t, 2
  {
    match t
    case TAlias(_, _, target) => NewReader(file, target, re, v)
    case TRecord(_, _) => NewRecordReader(file, t, re, v)
    case TArray(_, _) => NewArrayReader(file, t, re, v)
    case TSet(_, _) => NewArrayReader(file, t, re, v)
    case TUnion(_, _) => NewUnionReader(file, t, re, v)
    case Primitive(_) =>
      var p :- NewPrimReader(re);
      Ok(PrimR(p))
  }

  /** The element type of an array or set type. */
  function ElemType(t: Type): (e: Type)
    requires t.TArray? || t.TSet?
    ensures e < t
  {
    if t.TArray? then t.inner else t.inner
  }

  /** The fields of a reassembly record: its column types and values.  A nil
      record has no values. */
  function Fields(re: TypedValue): Result<(seq<Column>, seq<Value>)>
  {
    if !re.typ.TRecord? then Fail(NotARecord)
    else
      var items :- Children(re.val);
      Ok((re.typ.columns, items))
  }

  /** NewArrayReader: the element column from "values", the lengths from
      the int column LengthsField(v). */
  function NewArrayReader(file: Bytes, t: Type, re: TypedValue, v: Variant): (r: Result<ColReader>)
    requires t.TArray? || t.TSet?
    ensures r.Ok? ==> r.value.ArrayR?
    decreases t, 1
  {
    var (cols, items) :- Fields(re);
    var vz :- Access(cols, items, "values");
    var values :- NewReader(file, ElemType(t), vz, v);
    var lz :- Access(cols, items, LengthsField(v));
    var lengths :- NewIntReader(file, lz);
    Ok(ArrayR(values, lengths))
  }

  /** NewUnionReader: one reader per column "c0", "c1", ..., then the
      selector.  The columns are looked up first and the readers opened
      after; the first failure is the one the interleaved loop meets. */
  function NewUnionReader(file: Bytes, t: Type, re: TypedValue, v: Variant): (r: Result<ColReader>)
    requires t.TUnion?
    ensures r.Ok? ==> r.value.UnionR? && |r.value.alts| <= |t.types|
    ensures v == AsWritten ==> r.Fail?
    decreases t, 1
  {
    var (cols, items) :- Fields(re);
    var (zvs, stop) := AltColumns(AltLookup(cols, items), |t.types|, 0, v);
    var alts :- NewAltReaders(file, t, zvs, 0, v);
    if stop.Some? then Fail(stop.value)
    else
      var sz :- Access(cols, items, "selector");
      var selector :- NewIntReader(file, sz);
      Ok(UnionR(alts, selector))
  }

  /** The lookups of NewUnionReader's loop from column k on, for a union of n
      alternatives, where lookup(j) looks up column "c<j>": the columns found
      before the loop stops, and the error it stops with, if any.  As
      written, a missing column is an error, so the loop always stops with
      one; corrected, it ends the alternatives. */
  function AltColumns(lookup: nat -> Result<TypedValue>, n: nat, k: nat, v: Variant)
    : (r: (seq<TypedValue>, Option<Error>))
    requires k <= n
    ensures k + |r.0| <= n
    ensures forall j :: k <= j < k + |r.0| ==> lookup(j) == Ok(r.0[j - k])
    ensures lookup(k + |r.0|).Fail? ==>
      r.1 == (if v == AsWritten then Some(lookup(k + |r.0|).error) else None)
    ensures lookup(k + |r.0|).Ok? ==> k + |r.0| == n && r.1 == Some(TooManyUnionColumns)
    decreases n - k
  {
    match lookup(k)
    case Fail(e) => ([], if v == AsWritten then Some(e) else None)
    case Ok(zv) =>
      if k >= n then ([], Some(TooManyUnionColumns))
      else
        var (rest, stop) := AltColumns(lookup, n, k + 1, v);
        ([zv] + rest, stop)
  }

  /** The lookup of alternative column j of a union's reassembly. */
  function AltLookup(cols: seq<Column>, items: seq<Value>): nat -> Result<TypedValue>
  {
    (j: nat) => Access(cols, items, AltName(j))
  }

  /** The readers of alternatives k .. of a union, each opened on its
      column's reassembly. */
  function NewAltReaders(file: Bytes, t: Type, zvs: seq<TypedValue>, k: nat, v: Variant)
    : (r: Result<seq<ColReader>>)
    requires t.TUnion? && k <= |zvs| <= |t.types|
    ensures r.Ok? ==> |r.value| == |zvs| - k
    decreases t, 0, |zvs| - k
  {
    if k == |zvs| then Ok([])
    else
      var alt :- NewReader(file, t.types[k], zvs[k], v);
      var rest :- NewAltReaders(file, t, zvs, k + 1, v);
      Ok([alt] + rest)
  }

  /** NewRecordReader: one field reader per value of the reassembly record,
      which may not have more values than the record type has columns.  The
      positions are checked first and the field readers opened after; the
      first failure is the one the interleaved loop meets. */
  function NewRecordReader(file: Bytes, t: Type, re: TypedValue, v: Variant): (r: Result<ColReader>)
    requires t.TRecord?
    ensures r.Ok? ==> r.value.RecordR? && re.typ.TRecord?
    ensures r.Ok? ==> |r.value.fields| == |Items(re.val)| <= |t.columns|
    decreases t, 1
  {
    var (cols, items) :- Fields(re);
    var (zvs, stop) := FieldValues(t, cols, items, 0);
    var fields :- NewFieldReaders(file, t, zvs, 0, v);
    if stop.Some? then Fail(stop.value) else Ok(RecordR(fields))
  }

  /** The positions of NewRecordReader's loop from k on: the reassembly of
      each field, typed by the reassembly's own column, until the loop ends
      or meets a value the record type has no column for (the reassembly
      type lacking that column is an index panic in the source). */
  function FieldValues(t: Type, cols: seq<Column>, items: seq<Value>, k: nat): (r: (seq<TypedValue>, Option<Error>))
    requires t.TRecord? && k <= |items| && k <= |t.columns| && k <= |cols|
    ensures k + |r.0| <= |items| && k + |r.0| <= |t.columns| && k + |r.0| <= |cols|
    ensures forall j :: k <= j < k + |r.0| ==> r.0[j - k] == TypedValue(cols[j].typ, items[j])
    ensures r.1.None? <==> k + |r.0| == |items|
    ensures r.1.Some? ==> k + |r.0| < |items| && (k + |r.0| == |t.columns| || k + |r.0| == |cols|)
    ensures r.1.Some? ==> r.1.value == if k + |r.0| >= |t.columns| then RecordColumnMismatch else NilDeref
    decreases |items| - k
  {
    if k == |items| then ([], None)
    else if k >= |t.columns| then ([], Some(RecordColumnMismatch))
    else if k >= |cols| then ([], Some(NilDeref))
    else
      var (rest, stop) := FieldValues(t, cols, items, k + 1);
      ([TypedValue(cols[k].typ, items[k])] + rest, stop)
  }

  /** The field readers k .. of a record, field j opened with the record
      type's column j on its reassembly. */
  function NewFieldReaders(file: Bytes, t: Type, zvs: seq<TypedValue>, k: nat, v: Variant)
    : (r: Result<seq<FieldReader>>)
    requires t.TRecord? && k <= |zvs| <= |t.columns|
    ensures r.Ok? ==> |r.value| == |zvs| - k
    decreases t, 0, |zvs| - k
  {
    if k == |zvs| then Ok([])
    else
      var f :- NewFieldReader(file, t.columns[k].typ, zvs[k], v);
      var rest :- NewFieldReaders(file, t, zvs, k + 1, v);
      Ok([f] + rest)
  }

  /** NewFieldReader: the column from "column", the presence column from
      "presence".  An error opening the presence column is dropped and
      leaves it nil. */
  function NewFieldReader(file: Bytes, typ: Type, re: TypedValue, v: Variant): (r: Result<FieldReader>)
    ensures r.Ok? ==> r.value.isContainer == IsContainerType(typ)
    decreases typ, 3
  {
    var (cols, items) :- Fields(re);
    var cz :- Access(cols, items, "column");
    var column :- NewReader(file, typ, cz, v);
    var pz :- Access(cols, items, "presence");
    var presence := match NewPresenceReader(file, pz)
      case Ok(p) => Some(p)
      case Fail(_) => None;
    Ok(FieldReader(IsContainerType(typ), column, presence))
  }

  // ------------------------------------------------------------ reading

  /** Reader.Read: the next value of the column. */
  function Read(file: Bytes, r: ColReader): (res: Result<(Value, ColReader)>)
    ensures res.Ok? ==> ShapeOf(res.value.1) == ShapeOf(r)
    decreases ShapeOf(r), 3
  {
    match r
    case PrimR(p) =>
      var (body, p1) :- Primitive.Read(file, p);
      Ok((if body.None? then Nil(false) else Prim(body.value), PrimR(p1)))
    case ArrayR(values, lengths) =>
      var (n, lengths1) :- IntRead(lengths);
      var (elems, values1) :- ReadN(file, values, n);
      Ok((Cont(elems), ArrayR(values1, lengths1)))
    case UnionR(alts, selector) =>
      var (sel, selector1) :- IntRead(selector);
      if sel < 0 || sel >= |alts| then Fail(BadSelector)
      else
        assert ShapeOf(r).alts[sel] == ShapeOf(alts[sel]);
        var (val, alt1) :- Read(file, alts[sel]);
        var alts1 := alts[sel := alt1];
        assert ShapeOf(UnionR(alts1, selector1)).alts == ShapeOf(r).alts;
        Ok((Cont([Prim(EncodeInt(sel)), val]), UnionR(alts1, selector1)))
    case RecordR(fields) =>
      var (vals, fields1) :- ReadFields(file, r, 0);
      assert ShapeOf(RecordR(fields1)).fields == ShapeOf(r).fields;
      Ok((Cont(vals), RecordR(fields1)))
  }

  /** ArrayReader.Read's loop: n values of the element column; none when n
      is not positive. */
  function ReadN(file: Bytes, r: ColReader, n: int): (res: Result<(seq<Value>, ColReader)>)
    ensures res.Ok? ==> ShapeOf(res.value.1) == ShapeOf(r)
    ensures res.Ok? ==> |res.value.0| == if n > 0 then n else 0
    decreases ShapeOf(r), 4, if n > 0 then n else 0
  {
    if n <= 0 then Ok(([], r))
    else
      var (x, r1) :- Read(file, r);
      var (xs, r2) :- ReadN(file, r1, n - 1);
      Ok(([x] + xs, r2))
  }

  /** RecordReader.Read's loop from field i on. */
  function ReadFields(file: Bytes, r: ColReader, i: nat): (res: Result<(seq<Value>, seq<FieldReader>)>)
    requires r.RecordR? && i <= |r.fields|
    ensures res.Ok? ==> |res.value.0| == |res.value.1| == |r.fields| - i
    ensures res.Ok? ==> forall k :: 0 <= k < |res.value.1| ==>
      ShapeOf(res.value.1[k].column) == ShapeOf(r.fields[i + k].column)
    decreases ShapeOf(r), 2, |r.fields| - i
  {
    if i == |r.fields| then Ok(([], []))
    else
      var (x, f1) :- ReadField(file, r, i);
      var (xs, rest) :- ReadFields(file, r, i + 1);
      Ok(([x] + xs, [f1] + rest))
  }

  /** FieldReader.Read: the presence column says whether the field has a
      value; if not, the field reads as nil of its kind. */
  function ReadField(file: Bytes, r: ColReader, i: nat): (res: Result<(Value, FieldReader)>)
    requires r.RecordR? && i < |r.fields|
    ensures res.Ok? ==> ShapeOf(res.value.1.column) == ShapeOf(r.fields[i].column)
    ensures res.Ok? ==> res.value.1.isContainer == r.fields[i].isContainer
    decreases ShapeOf(r), 1
  {
    var f := r.fields[i];
    if f.presence.None? then Fail(NilDeref)
    else
      var (isval, p1) :- Presence.Read(f.presence.value);
      if isval then
        assert ShapeOf(r).fields[i] == ShapeOf(f.column);
        var (x, c1) :- Read(file, f.column);
        Ok((x, f.(column := c1, presence := Some(p1))))
      else
        Ok((Nil(f.isContainer), f.(presence := Some(p1))))
  }

  /** The reassembly of an array, set, union or record column must be a
      record value. */
  lemma ReassemblyMustBeRecord(file: Bytes, t: Type, re: TypedValue, v: Variant)
    requires t.TArray? || t.TSet? || t.TUnion? || t.TRecord?
    requires !re.typ.TRecord?
    ensures NewReader(file, t, re, v) == Fail(NotARecord)
  {
  }

  /** ArrayReader.Read takes one length from the lengths column and reads
      that many values, inside one container; a failing lengths column fails
      the read with its error. */
  lemma ArrayReadTakesLength(file: Bytes, r: ColReader)
    requires r.ArrayR?
    ensures var res, n := Read(file, r), IntRead(r.lengths);
      && (n.Fail? ==> res == Fail(n.error))
      && (res.Ok? ==> (n.Ok? && res.value.0.Cont? &&
            |res.value.0.items| == (if n.value.0 > 0 then n.value.0 else 0) &&
            res.value.1.ArrayR? && res.value.1.lengths == n.value.1))
  {
  }

  // ------------------------------------------------------------ properties

  /** A field name carried by exactly one column is found at that column. */
  lemma AccessUnique(cols: seq<Column>, items: seq<Value>, k: nat)
    requires k < |cols| <= |items|
    requires forall j :: 0 <= j < |cols| && j != k ==> cols[j].name != cols[k].name
    ensures Access(cols, items, cols[k].name) == Ok(TypedValue(cols[k].typ, items[k]))
  {
    var c := ColumnOfField(cols, cols[k].name);
    assert c.Some? && c.value == k;
  }

  /** A field name no column carries is not found. */
  lemma AccessAbsent(cols: seq<Column>, items: seq<Value>, f: string)
    requires forall j :: 0 <= j < |cols| ==> cols[j].name != f
    ensures Access(cols, items, f) == Fail(NoSuchField(f))
  {
  }

  lemma AltNameInjective(a: nat, b: nat)
    requires AltName(a) == AltName(b)
    ensures a == b
  {
    assert AltName(a)[1..] == Itoa(a) && AltName(b)[1..] == Itoa(b);
    ItoaInjective(a, b);
  }

  /** As written, opening a union column never succeeds: the loop over the
      alternative columns only ends with an error. */
  lemma UnionReaderAsWrittenFails(file: Bytes, t: Type, re: TypedValue)
    requires Unalias(t).TUnion?
    ensures NewReader(file, t, re, AsWritten).Fail?
    decreases t
  {
    if t.TAlias? {
      UnionReaderAsWrittenFails(file, t.target, re);
    }
  }

  /** Corrected, the lookups find c0 .. c(n-1) when exactly those names are
      present, and the loop then ends without error. */
  lemma AltColumnsFindAll(lookup: nat -> Result<TypedValue>, n: nat, m: nat)
    requires m <= n
    requires forall j :: 0 <= j < m ==> lookup(j).Ok?
    requires lookup(m).Fail?
    ensures var r := AltColumns(lookup, n, 0, Corrected);
      |r.0| == m && r.1.None? &&
      forall j :: 0 <= j < m ==> r.0[j] == lookup(j).value
  {
  }

  /** The lookups of a union reassembly whose columns are c0 .. c(n-1) and
      then "selector": each alternative is found at its own column, c<n> is
      missing, and the selector is the last column. */
  lemma UnionLayout(cols: seq<Column>, items: seq<Value>, n: nat)
    requires |cols| == |items| == n + 1 && cols[n].name == "selector"
    requires forall j :: 0 <= j < n ==> cols[j].name == AltName(j)
    ensures forall j :: 0 <= j < n ==> AltLookup(cols, items)(j) == Ok(TypedValue(cols[j].typ, items[j]))
    ensures AltLookup(cols, items)(n).Fail?
    ensures Access(cols, items, "selector") == Ok(TypedValue(cols[n].typ, items[n]))
  {
    forall j | 0 <= j < n
      ensures Access(cols, items, AltName(j)) == Ok(TypedValue(cols[j].typ, items[j]))
    {
      forall i | 0 <= i < |cols| && i != j
        ensures cols[i].name != cols[j].name
      {
        if i < n {
          if cols[i].name == cols[j].name {
            AltNameInjective(i, j);
          }
        } else {
          assert cols[i].name[0] == 's' && cols[j].name[0] == 'c';
        }
      }
      AccessUnique(cols, items, j);
    }
    forall i | 0 <= i < |cols|
      ensures cols[i].name != AltName(n)
    {
      if i < n {
        if cols[i].name == AltName(n) {
          AltNameInjective(i, n);
        }
      } else {
        assert cols[i].name[0] == 's';
      }
    }
    AccessAbsent(cols, items, AltName(n));
    forall i | 0 <= i < n
      ensures cols[i].name != "selector"
    {
      assert cols[i].name[0] == 'c';
    }
    AccessUnique(cols, items, n);
  }

  /** NewAltReaders past the last alternative opens nothing. */
  lemma AltReadersEnd(file: Bytes, t: Type, zvs: seq<TypedValue>, v: Variant)
    requires t.TUnion? && |zvs| <= |t.types|
    ensures NewAltReaders(file, t, zvs, |zvs|, v) == Ok([])
  {
  }

  /** One step of NewAltReaders: alternative k, then the rest. */
  lemma AltReadersStep(file: Bytes, t: Type, zvs: seq<TypedValue>, k: nat, v: Variant)
    requires t.TUnion? && k < |zvs| <= |t.types|
    ensures var r, a, rest := NewAltReaders(file, t, zvs, k, v),
      NewReader(file, t.types[k], zvs[k], v), NewAltReaders(file, t, zvs, k + 1, v);
      (r.Ok? <==> a.Ok? && rest.Ok?) && (r.Ok? ==> r.value == [a.value] + rest.value)
  {
  }

  /** Dropping the first alternative's reader leaves the readers of the
      later ones. */
  lemma AltReadersTail(file: Bytes, t: Type, zvs: seq<TypedValue>, k: nat, v: Variant)
    requires t.TUnion? && k < |zvs| <= |t.types| && NewAltReaders(file, t, zvs, k, v).Ok?
    ensures NewAltReaders(file, t, zvs, k + 1, v).Ok?
    ensures NewAltReaders(file, t, zvs, k, v).value[1..] == NewAltReaders(file, t, zvs, k + 1, v).value
  {
  }

  /** The readers of alternatives j .. are a suffix of those of k .. */
  lemma {:induction false} AltReadersSuffix(file: Bytes, t: Type, zvs: seq<TypedValue>, k: nat, j: nat, v: Variant)
    requires t.TUnion? && k <= j <= |zvs| <= |t.types| && NewAltReaders(file, t, zvs, k, v).Ok?
    ensures NewAltReaders(file, t, zvs, j, v).Ok?
    ensures NewAltReaders(file, t, zvs, k, v).value[j - k..] == NewAltReaders(file, t, zvs, j, v).value
    decreases j - k
  {
    if k < j {
      var all := NewAltReaders(file, t, zvs, k, v).value;
      AltReadersTail(file, t, zvs, k, v);
      AltReadersSuffix(file, t, zvs, k + 1, j, v);
      assert all[j - k..] == all[1..][j - (k + 1)..];
    }
  }

  /** Reader j of an opened union is the one opened on alternative j's
      reassembly. */
  lemma AltReaderAt(file: Bytes, t: Type, zvs: seq<TypedValue>, k: nat, j: nat, v: Variant)
    requires t.TUnion? && k <= j < |zvs| <= |t.types| && NewAltReaders(file, t, zvs, k, v).Ok?
    ensures NewReader(file, t.types[j], zvs[j], v).Ok?
    ensures NewAltReaders(file, t, zvs, k, v).value[j - k] == NewReader(file, t.types[j], zvs[j], v).value
  {
    var all := NewAltReaders(file, t, zvs, k, v).value;
    AltReadersSuffix(file, t, zvs, k, j, v);
    AltReadersStep(file, t, zvs, j, v);
    assert all[j - k] == all[j - k..][0];
  }

  /** Alternative j of a union opens on its reassembly. */
  predicate AltOpensAt(file: Bytes, t: Type, zvs: seq<TypedValue>, j: nat, v: Variant)
    requires t.TUnion? && j < |zvs| <= |t.types|
  {
    NewReader(file, t.types[j], zvs[j], v).Ok?
  }

  /** The alternatives of a union open when each of them opens. */
  lemma {:induction false} AltReadersOpen(file: Bytes, t: Type, zvs: seq<TypedValue>, k: nat, v: Variant)
    requires t.TUnion? && k <= |zvs| <= |t.types|
    requires forall j :: k <= j < |zvs| ==> AltOpensAt(file, t, zvs, j, v)
    ensures NewAltReaders(file, t, zvs, k, v).Ok?
    decreases |zvs| - k
  {
    if k < |zvs| {
      assert AltOpensAt(file, t, zvs, k, v);
      AltReadersStep(file, t, zvs, k, v);
      AltReadersOpen(file, t, zvs, k + 1, v);
    } else {
      AltReadersEnd(file, t, zvs, v);
    }
  }

  /** A union reassembly whose columns are c0 .. c(n-1) and then "selector"
      opens, corrected, when each alternative opens on its column and the
      selector column opens. */
  lemma UnionReaderOpens(file: Bytes, t: Type, re: TypedValue, n: nat)
    requires t.TUnion? && n <= |t.types| && re.typ.TRecord? && re.val.Cont?
    requires |re.typ.columns| == |re.val.items| == n + 1 && re.typ.columns[n].name == "selector"
    requires forall j :: 0 <= j < n ==> re.typ.columns[j].name == AltName(j)
    ensures var r := NewUnionReader(file, t, re, Corrected);
      var cols, items := re.typ.columns, re.val.items;
      (r.Ok? <==>
        (forall j :: 0 <= j < n ==> NewReader(file, t.types[j], TypedValue(cols[j].typ, items[j]), Corrected).Ok?) &&
        NewIntReader(file, TypedValue(cols[n].typ, items[n])).Ok?) &&
      (r.Ok? ==> (
        |r.value.alts| == n &&
        (forall j :: 0 <= j < n ==>
          r.value.alts[j] == NewReader(file, t.types[j], TypedValue(cols[j].typ, items[j]), Corrected).value) &&
        r.value.selector == NewIntReader(file, TypedValue(cols[n].typ, items[n])).value))
  {
    var cols, items := re.typ.columns, re.val.items;
    assert Fields(re) == Ok((cols, items));
    UnionLayout(cols, items, n);
    AltColumnsFindAll(AltLookup(cols, items), |t.types|, n);
    var found := AltColumns(AltLookup(cols, items), |t.types|, 0, Corrected);
    var zvs := found.0;
    assert |zvs| == n && found.1.None?;
    assert forall j :: 0 <= j < n ==> zvs[j] == TypedValue(cols[j].typ, items[j]);
    var alts := NewAltReaders(file, t, zvs, 0, Corrected);
    var sz := TypedValue(cols[n].typ, items[n]);
    assert Access(cols, items, "selector") == Ok(sz);
    var r := NewUnionReader(file, t, re, Corrected);
    UnionReaderUnfold(file, t, re, zvs, sz);
    AltReadersIff(file, t, zvs);
  }

  /** The alternatives of a union open exactly when each opens, and then
      they are, in order, the readers of their own columns. */
  lemma AltReadersIff(file: Bytes, t: Type, zvs: seq<TypedValue>)
    requires t.TUnion? && |zvs| <= |t.types|
    ensures var alts := NewAltReaders(file, t, zvs, 0, Corrected);
      (alts.Ok? <==> forall j :: 0 <= j < |zvs| ==> NewReader(file, t.types[j], zvs[j], Corrected).Ok?) &&
      (alts.Ok? ==> forall j :: 0 <= j < |zvs| ==> alts.value[j] == NewReader(file, t.types[j], zvs[j], Corrected).value)
  {
    var alts := NewAltReaders(file, t, zvs, 0, Corrected);
    if alts.Ok? {
      forall j | 0 <= j < |zvs|
        ensures NewReader(file, t.types[j], zvs[j], Corrected).Ok?
        ensures alts.value[j] == NewReader(file, t.types[j], zvs[j], Corrected).value
      {
        AltReaderAt(file, t, zvs, 0, j, Corrected);
      }
    } else if forall j :: 0 <= j < |zvs| ==> NewReader(file, t.types[j], zvs[j], Corrected).Ok? {
      forall j | 0 <= j < |zvs|
        ensures AltOpensAt(file, t, zvs, j, Corrected)
      {
      }
      AltReadersOpen(file, t, zvs, 0, Corrected);
    }
  }

  /** Once the loop has found every alternative's column and the selector
      column is there, the corrected union reader is the alternatives'
      readers and the selector's. */
  lemma UnionReaderUnfold(file: Bytes, t: Type, re: TypedValue, zvs: seq<TypedValue>, sz: TypedValue)
    requires t.TUnion? && Fields(re).Ok?
    requires AltColumns(AltLookup(Fields(re).value.0, Fields(re).value.1), |t.types|, 0, Corrected) == (zvs, None)
    requires Access(Fields(re).value.0, Fields(re).value.1, "selector") == Ok(sz)
    ensures var alts := NewAltReaders(file, t, zvs, 0, Corrected);
      NewUnionReader(file, t, re, Corrected) ==
        if alts.Fail? then Fail(alts.error)
        else if NewIntReader(file, sz).Fail? then Fail(NewIntReader(file, sz).error)
        else Ok(UnionR(alts.value, NewIntReader(file, sz).value))
  {
  }

  /** Reading back the reassembly a union writer encodes: the union reader
      opens when each alternative opens on its own column's reassembly, and
      then holds those readers and the selector column. */
  lemma UnionReaderCorrected(file: Bytes, t: Type, w: ColWriter)
    requires t.TUnion? && w.UnionW? && |w.alts| <= |t.types|
    ensures var r := NewReader(file, t, ColumnWriter.Encode(w, Corrected), Corrected);
      (r.Ok? <==> forall j :: 0 <= j < |w.alts| ==>
        NewReader(file, t.types[j], ColumnWriter.Encode(w.alts[j], Corrected), Corrected).Ok?) &&
      (r.Ok? ==> (
        r.value.UnionR? && |r.value.alts| == |w.alts| &&
        (forall j :: 0 <= j < |w.alts| ==>
          r.value.alts[j] == NewReader(file, t.types[j], ColumnWriter.Encode(w.alts[j], Corrected), Corrected).value) &&
        r.value.selector == Drain(file, PrimReader([], w.selector.segs))))
  {
    var n := |w.alts|;
    var parts := EncodeAlts(w, Corrected);
    var sel := EncodeLeaf(w.selector, Corrected);
    var cols := parts.0 + [Column("selector", sel.typ)];
    var items := parts.1 + [sel.val];
    var re := ColumnWriter.Encode(w, Corrected);
    assert re == TypedValue(TRecord(0, cols), Cont(items));
    forall j | 0 <= j < n
      ensures cols[j].name == AltName(j)
      ensures TypedValue(cols[j].typ, items[j]) == ColumnWriter.Encode(w.alts[j], Corrected)
    {
      assert cols[j] == parts.0[j] && items[j] == parts.1[j];
    }
    UnionReaderOpens(file, t, re, n);
    assert TypedValue(cols[n].typ, items[n]) == sel;
    assert ParseSegmap(sel) == Ok(w.selector.segs);
  }

  /** As written, an array column never opens on the reassembly its writer
      encodes: the writer names the lengths column "lengths" and the reader
      looks for "length". */
  lemma ArrayReaderAsWrittenFails(file: Bytes, t: Type, w: ColWriter, wv: Variant)
    requires (t.TArray? || t.TSet?) && w.ArrayW?
    ensures NewReader(file, t, ColumnWriter.Encode(w, wv), AsWritten).Fail?
  {
    var re := ColumnWriter.Encode(w, wv);
    var cols, items := re.typ.columns, re.val.items;
    assert cols[0].name == "values" && cols[1].name == "lengths";
    AccessAbsent(cols, items, "length");
  }

  /** Corrected, the array reader opens on the reassembly its writer encodes
      exactly when the element column opens, and reads the lengths the
      writer flushed. */
  lemma ArrayReaderCorrected(file: Bytes, t: Type, w: ColWriter)
    requires (t.TArray? || t.TSet?) && w.ArrayW?
    ensures var r := NewReader(file, t, ColumnWriter.Encode(w, Corrected), Corrected);
      var values := NewReader(file, ElemType(t), ColumnWriter.Encode(w.values, Corrected), Corrected);
      (r.Ok? <==> values.Ok?) &&
      (r.Ok? ==> r.value == ArrayR(values.value, Drain(file, PrimReader([], w.lengths.segs))))
  {
    var re := ColumnWriter.Encode(w, Corrected);
    var cols, items := re.typ.columns, re.val.items;
    assert Fields(re) == Ok((cols, items));
    AccessUnique(cols, items, 0);
    AccessUnique(cols, items, 1);
    assert ParseSegmap(EncodeLeaf(w.lengths, Corrected)) == Ok(w.lengths.segs);
  }

  /** A union reads as the two-item container the union writer splits: the
      selector read from the selector column, then the value of the
      alternative it selects; a selector out of range is an error. */
  lemma UnionReadSplits(file: Bytes, r: ColReader)
    requires r.UnionR?
    ensures var res := Read(file, r);
      var s := IntRead(r.selector);
      (s.Ok? && (s.value.0 < 0 || s.value.0 >= |r.alts|) ==> res == Fail(BadSelector)) &&
      (res.Ok? ==> (
        s.Ok? && 0 <= s.value.0 < |r.alts| && Read(file, r.alts[s.value.0]).Ok? &&
        SplitUnion(res.value.0) == Ok((s.value.0, Read(file, r.alts[s.value.0]).value.0)) &&
        res.value.1 == UnionR(r.alts[s.value.0 := Read(file, r.alts[s.value.0]).value.1], s.value.1)))
  {
    var s := IntRead(r.selector);
    if s.Ok? {
      DecodeEncodeInt(s.value.0);
    }
  }

  /** RecordReader.Read fails exactly when one of its field readers fails. */
  lemma {:induction false} ReadFieldsFail(file: Bytes, r: ColReader, i: nat)
    requires r.RecordR? && i <= |r.fields|
    ensures ReadFields(file, r, i).Fail? <==> exists k :: i <= k < |r.fields| && ReadField(file, r, k).Fail?
    decreases |r.fields| - i
  {
    if i < |r.fields| {
      ReadFieldsFail(file, r, i + 1);
      if ReadField(file, r, i).Fail? {
        assert ReadFields(file, r, i).Fail?;
        assert i <= i < |r.fields| && ReadField(file, r, i).Fail?;
        assert exists k :: i <= k < |r.fields| && ReadField(file, r, k).Fail?;
      } else if ReadFields(file, r, i + 1).Fail? {
        assert ReadFields(file, r, i).Fail?;
      } else {
        assert ReadFields(file, r, i).Ok?;
      }
    }
  }

  /** RecordReader.Read reads field i with field reader i: the record has
      one value per field, each the value its field reader reads. */
  lemma {:induction false} ReadFieldsEach(file: Bytes, r: ColReader, i: nat)
    requires r.RecordR? && i <= |r.fields|
    ensures var res := ReadFields(file, r, i);
      res.Ok? ==> forall k :: i <= k < |r.fields| ==>
        ReadField(file, r, k).Ok? &&
        res.value.0[k - i] == ReadField(file, r, k).value.0 && res.value.1[k - i] == ReadField(file, r, k).value.1
    decreases |r.fields| - i
  {
    if i < |r.fields| {
      ReadFieldsEach(file, r, i + 1);
    }
  }

  /** A field reads as nil of its kind when its presence column says the
      value is unset, and as its column's next value otherwise. */
  lemma FieldReadPresence(file: Bytes, r: ColReader, i: nat)
    requires r.RecordR? && i < |r.fields|
    ensures var f := r.fields[i];
      var res := ReadField(file, r, i);
      (f.presence.None? ==> res == Fail(NilDeref)) &&
      (res.Ok? ==> (
        f.presence.Some? && Presence.Read(f.presence.value).Ok? &&
        (!Presence.Read(f.presence.value).value.0 ==> res.value.0 == Nil(f.isContainer)) &&
        (Presence.Read(f.presence.value).value.0 ==> res.value.0 == Read(file, f.column).value.0)))
  {
  }

  /** Corrected, a field reader opens on the reassembly its field writer
      encodes exactly when the field's column opens; its presence column is
      there when the presence reader opens on the presence runs written. */
  lemma FieldReaderCorrected(file: Bytes, typ: Type, f: FieldWriter, column: TypedValue)
    ensures var r := NewFieldReader(file, typ, EncodeField(f, column, Corrected), Corrected);
      var c := NewReader(file, typ, column, Corrected);
      var p := NewPresenceReader(file, EncodeLeaf(f.presence.ints, Corrected));
      (r.Ok? <==> c.Ok?) &&
      (r.Ok? ==> (
        r.value.isContainer == IsContainerType(typ) && r.value.column == c.value &&
        (r.value.presence.Some? <==> p.Ok?) &&
        (p.Ok? ==> r.value.presence == Some(p.value))))
  {
    var re := EncodeField(f, column, Corrected);
    var cols, items := re.typ.columns, re.val.items;
    assert Fields(re) == Ok((cols, items));
    AccessUnique(cols, items, 0);
    AccessUnique(cols, items, 1);
  }

  /** NewFieldReaders past the last field opens nothing. */
  lemma FieldReadersEnd(file: Bytes, t: Type, zvs: seq<TypedValue>, v: Variant)
    requires t.TRecord? && |zvs| <= |t.columns|
    ensures NewFieldReaders(file, t, zvs, |zvs|, v) == Ok([])
  {
  }

  /** One step of NewFieldReaders: field k, then the rest. */
  lemma FieldReadersStep(file: Bytes, t: Type, zvs: seq<TypedValue>, k: nat, v: Variant)
    requires t.TRecord? && k < |zvs| <= |t.columns|
    ensures var r, f, rest := NewFieldReaders(file, t, zvs, k, v),
      NewFieldReader(file, t.columns[k].typ, zvs[k], v), NewFieldReaders(file, t, zvs, k + 1, v);
      (r.Ok? <==> f.Ok? && rest.Ok?) && (r.Ok? ==> r.value == [f.value] + rest.value)
  {
  }

  /** Dropping the first field reader leaves the readers of the later
      fields. */
  lemma FieldReadersTail(file: Bytes, t: Type, zvs: seq<TypedValue>, k: nat, v: Variant)
    requires t.TRecord? && k < |zvs| <= |t.columns| && NewFieldReaders(file, t, zvs, k, v).Ok?
    ensures NewFieldReaders(file, t, zvs, k + 1, v).Ok?
    ensures NewFieldReaders(file, t, zvs, k, v).value[1..] == NewFieldReaders(file, t, zvs, k + 1, v).value
  {
  }

  /** The readers of fields j .. are a suffix of those of fields k .. */
  lemma {:induction false} FieldReadersSuffix(file: Bytes, t: Type, zvs: seq<TypedValue>, k: nat, j: nat, v: Variant)
    requires t.TRecord? && k <= j <= |zvs| <= |t.columns| && NewFieldReaders(file, t, zvs, k, v).Ok?
    ensures NewFieldReaders(file, t, zvs, j, v).Ok?
    ensures NewFieldReaders(file, t, zvs, k, v).value[j - k..] == NewFieldReaders(file, t, zvs, j, v).value
    decreases j - k
  {
    if k < j {
      var all := NewFieldReaders(file, t, zvs, k, v).value;
      FieldReadersTail(file, t, zvs, k, v);
      FieldReadersSuffix(file, t, zvs, k + 1, j, v);
      assert all[j - k..] == all[1..][j - (k + 1)..];
    }
  }

  /** Field reader j of an opened record is the one opened on its own
      reassembly. */
  lemma FieldReaderAt(file: Bytes, t: Type, zvs: seq<TypedValue>, k: nat, j: nat, v: Variant)
    requires t.TRecord? && k <= j < |zvs| <= |t.columns| && NewFieldReaders(file, t, zvs, k, v).Ok?
    ensures NewFieldReader(file, t.columns[j].typ, zvs[j], v).Ok?
    ensures NewFieldReaders(file, t, zvs, k, v).value[j - k] == NewFieldReader(file, t.columns[j].typ, zvs[j], v).value
  {
    var all := NewFieldReaders(file, t, zvs, k, v).value;
    FieldReadersSuffix(file, t, zvs, k, j, v);
    FieldReadersStep(file, t, zvs, j, v);
    assert all[j - k] == all[j - k..][0];
  }

  /** Field j of a record opens on its reassembly. */
  predicate FieldOpensAt(file: Bytes, t: Type, zvs: seq<TypedValue>, j: nat, v: Variant)
    requires t.TRecord? && j < |zvs| <= |t.columns|
  {
    NewFieldReader(file, t.columns[j].typ, zvs[j], v).Ok?
  }

  /** The field readers of a record open when each of them opens. */
  lemma {:induction false} FieldReadersOpen(file: Bytes, t: Type, zvs: seq<TypedValue>, k: nat, v: Variant)
    requires t.TRecord? && k <= |zvs| <= |t.columns|
    requires forall j :: k <= j < |zvs| ==> FieldOpensAt(file, t, zvs, j, v)
    ensures NewFieldReaders(file, t, zvs, k, v).Ok?
    decreases |zvs| - k
  {
    if k < |zvs| {
      assert FieldOpensAt(file, t, zvs, k, v);
      FieldReadersStep(file, t, zvs, k, v);
      FieldReadersOpen(file, t, zvs, k + 1, v);
    } else {
      FieldReadersEnd(file, t, zvs, v);
    }
  }

  /** A record reassembly opens, corrected, exactly when each field opens on
      the value at its position, typed by the reassembly's column. */
  lemma RecordReaderOpens(file: Bytes, t: Type, re: TypedValue)
    requires t.TRecord? && re.typ.TRecord? && re.val.Cont?
    requires |re.val.items| <= |re.typ.columns| && |re.val.items| <= |t.columns|
    ensures var r := NewRecordReader(file, t, re, Corrected);
      var cols, items := re.typ.columns, re.val.items;
      (r.Ok? <==> forall k :: 0 <= k < |items| ==>
        NewFieldReader(file, t.columns[k].typ, TypedValue(cols[k].typ, items[k]), Corrected).Ok?) &&
      (r.Ok? ==> forall k :: 0 <= k < |items| ==>
        r.value.fields[k] == NewFieldReader(file, t.columns[k].typ, TypedValue(cols[k].typ, items[k]), Corrected).value)
  {
    var cols, items := re.typ.columns, re.val.items;
    assert Fields(re) == Ok((cols, items));
    var (zvs, stop) := FieldValues(t, cols, items, 0);
    assert |zvs| == |items| && stop.None?;
    var fields := NewFieldReaders(file, t, zvs, 0, Corrected);
    var r := NewRecordReader(file, t, re, Corrected);
    if fields.Ok? {
      assert r == Ok(RecordR(fields.value));
      forall k | 0 <= k < |items| ensures zvs[k] == TypedValue(cols[k].typ, items[k]) {
        assert zvs[k - 0] == TypedValue(cols[k].typ, items[k]);
      }
      FieldReadersAll(file, t, zvs, cols, items);
    } else {
      assert r.Fail?;
      if forall k :: 0 <= k < |items| ==>
          NewFieldReader(file, t.columns[k].typ, TypedValue(cols[k].typ, items[k]), Corrected).Ok? {
        forall k | 0 <= k < |zvs|
          ensures FieldOpensAt(file, t, zvs, k, Corrected)
        {
          assert zvs[k - 0] == TypedValue(cols[k].typ, items[k]);
        }
        FieldReadersOpen(file, t, zvs, 0, Corrected);
      }
    }
  }

  /** Every field reader of an opened record, at its position. */
  lemma FieldReadersAll(file: Bytes, t: Type, zvs: seq<TypedValue>, cols: seq<Column>, items: seq<Value>)
    requires t.TRecord? && |zvs| == |items| <= |t.columns| && |items| <= |cols|
    requires forall k :: 0 <= k < |items| ==> zvs[k] == TypedValue(cols[k].typ, items[k])
    requires NewFieldReaders(file, t, zvs, 0, Corrected).Ok?
    ensures var fs := NewFieldReaders(file, t, zvs, 0, Corrected).value;
      forall k :: 0 <= k < |items| ==>
        && NewFieldReader(file, t.columns[k].typ, TypedValue(cols[k].typ, items[k]), Corrected).Ok?
        && fs[k] == NewFieldReader(file, t.columns[k].typ, TypedValue(cols[k].typ, items[k]), Corrected).value
  {
    forall k | 0 <= k < |items|
      ensures NewFieldReader(file, t.columns[k].typ, zvs[k], Corrected).Ok?
      ensures NewFieldReaders(file, t, zvs, 0, Corrected).value[k] == NewFieldReader(file, t.columns[k].typ, zvs[k], Corrected).value
    {
      FieldReaderAt(file, t, zvs, 0, k, Corrected);
    }
  }

  /** Corrected, the record reader opens on the reassembly its writer
      encodes exactly when every field reader opens on its field's
      reassembly, and then holds those field readers in order. */
  lemma RecordReaderCorrected(file: Bytes, t: Type, w: ColWriter)
    requires t.TRecord? && w.RecordW? && |w.fields| <= |t.columns|
    ensures var r := NewReader(file, t, ColumnWriter.Encode(w, Corrected), Corrected);
      (r.Ok? <==> forall k :: 0 <= k < |w.fields| ==> FieldOpens(file, t, w, k).Ok?) &&
      (r.Ok? ==> (
        r.value.RecordR? && |r.value.fields| == |w.fields| &&
        forall k :: 0 <= k < |w.fields| ==> r.value.fields[k] == FieldOpens(file, t, w, k).value))
  {
    var parts := EncodeFields(w, Corrected);
    var re := ColumnWriter.Encode(w, Corrected);
    assert re == TypedValue(TRecord(0, parts.0), Cont(parts.1));
    assert NewReader(file, t, re, Corrected) == NewRecordReader(file, t, re, Corrected);
    RecordReaderOpens(file, t, re);
    forall k | 0 <= k < |w.fields|
      ensures FieldOpens(file, t, w, k) ==
        NewFieldReader(file, t.columns[k].typ, TypedValue(parts.0[k].typ, parts.1[k]), Corrected)
    {
      var f := w.fields[k];
      assert TypedValue(parts.0[k].typ, parts.1[k]) ==
        EncodeField(f, ColumnWriter.Encode(f.column, Corrected), Corrected);
    }
  }

  /** The field reader of field k of a record writer's reassembly. */
  function FieldOpens(file: Bytes, t: Type, w: ColWriter, k: nat): Result<FieldReader>
    requires t.TRecord? && w.RecordW? && k < |w.fields| && k < |t.columns|
  {
    var f := w.fields[k];
    NewFieldReader(file, t.columns[k].typ, EncodeField(f, ColumnWriter.Encode(f.column, Corrected), Corrected), Corrected)
  }
}

=== FILE: column_writer.dfy ===
/** The column writers of zst/column: the type-directed dispatch of
    column.go, and the array, union and record writers.  Each writer is an
    immutable tree mirroring the column type; Write, Flush and Encode thread
    the shared spiller through it.

    Where the Go code and its evident intent part ways, Variant selects the
    side.  Two places depend on it here: NewUnionWriter
    never stores the union type (union.go:19-28), and RecordWriter.Write
    counts values and unsets on a copy of each field writer
    (record.go:29, 38, 42). */
module ColumnWriter {
  import opened Wrappers
  import opened Errors
  import opened Zcode
  import opened Zng
  import opened Decimal
  import opened Segmap
  import opened Primitive
  import opened Presence

  datatype ColWriter =
    | PrimW(prim: PrimWriter)
    | ArrayW(values: ColWriter, lengths: PrimWriter)
    | UnionW(typ: Option<seq<Type>>, alts: seq<ColWriter>, selector: PrimWriter)
    | RecordW(fields: seq<FieldWriter>)

  /** One record field: its column, its presence column, and the counts of
      values and unsets written to it. */
  datatype FieldWriter =
    FieldWriter(name: string, column: ColWriter, presence: PresenceWriter, vcnt: int, ucnt: int)

  // ------------------------------------------------------------ dispatch

  /** NewWriter: aliases are unwrapped, sets are written as arrays, records
      and unions get their own writers and every other type is primitive. */
  function NewWriter(t: Type, v: Variant): (w: ColWriter)
    ensures Unalias(t).TRecord? <==> w.RecordW?
    ensures Unalias(t).TArray? || Unalias(t).TSet? <==> w.ArrayW?
    ensures Unalias(t).TUnion? <==> w.UnionW?
    ensures Unalias(t).Primitive? <==> w.PrimW?
    ensures w.RecordW? ==> (
      |w.fields| == |Unalias(t).columns| &&
      forall i :: 0 <= i < |w.fields| ==>
        w.fields[i].name == Unalias(t).columns[i].name &&
        w.fields[i].vcnt == 0 && w.fields[i].ucnt == 0)
    ensures w.UnionW? ==> (
      |w.alts| == |Unalias(t).types| && (w.typ.Some? <==> v == Corrected))
    decreases t, 1
  {
    match t
    case TAlias(_, _, target) => NewWriter(target, v)
    case TRecord(_, cols) => RecordW(NewFieldWriters(t, 0, v))
    case TArray(_, inner) => ArrayW(NewWriter(inner, v), NewPrimWriter)
    case TSet(_, inner) => ArrayW(NewWriter(inner, v), NewPrimWriter)
    case TUnion(_, types) =>
      UnionW(if v == Corrected then Some(types) else None, NewAltWriters(t, 0, v), NewPrimWriter)
    case Primitive(_) => PrimW(NewPrimWriter)
  }

  /** NewRecordWriter: one field writer per column, in order. */
  function NewFieldWriters(t: Type, i: nat, v: Variant): (fs: seq<FieldWriter>)
    requires t.TRecord? && i <= |t.columns|
    ensures |fs| == |t.columns| - i
    ensures forall k :: 0 <= k < |fs| ==>
      fs[k].name == t.columns[i + k].name && fs[k].vcnt == 0 && fs[k].ucnt == 0
    decreases t, 0, |t.columns| - i
  {
    if i == |t.columns| then []
    else
      [FieldWriter(t.columns[i].name, NewWriter(t.columns[i].typ, v), NewPresenceWriter, 0, 0)] +
      NewFieldWriters(t, i + 1, v)
  }

  function NewAltWriters(t: Type, i: nat, v: Variant): (ws: seq<ColWriter>)
    requires t.TUnion? && i <= |t.types|
    ensures |ws| == |t.types| - i
    decreases t, 0, |t.types| - i
  {
    if i == |t.types| then [] else [NewWriter(t.types[i], v)] + NewAltWriters(t, i + 1, v)
  }

  /** Sets and arrays of the same element type get the same writer. */
  lemma SetWritesAsArray(id1: int, id2: int, inner: Type, v: Variant)
    ensures NewWriter(TSet(id1, inner), v) == NewWriter(TArray(id2, inner), v)
    ensures NewWriter(TSet(id1, inner), v) == ArrayW(NewWriter(inner, v), NewPrimWriter)
  {
  }

  lemma AliasWritesAsTarget(id: int, name: string, target: Type, v: Variant)
    ensures NewWriter(TAlias(id, name, target), v) == NewWriter(target, v)
  {
  }

  // ------------------------------------------------------------ writing

  /** Writing never changes the kind of a writer, nor a union's type. */
  predicate SameKind(w1: ColWriter, w: ColWriter)
  {
    match w
    case PrimW(_) => w1.PrimW?
    case ArrayW(_, _) => w1.ArrayW?
    case UnionW(typ, alts, _) => w1.UnionW? && w1.typ == typ && |w1.alts| == |alts|
    case RecordW(fields) => w1.RecordW? && |w1.fields| == |fields|
  }

  /** The children of a container body; a nil body has none. */
  function Items(body: Value): seq<Value>
  {
    if body.Cont? then body.items else []
  }

  /** SplitZng is not part of this model: a union body is taken to be a
      container of the selector and the selected value. */
  function SplitUnion(body: Value): Result<(int, Value)>
  {
    match body
    case Cont(items) =>
      if |items| != 2 || !items[0].Prim? then Fail(ShapeMismatch)
      else
        var sel :- DecodeInt(items[0].bytes);
        Ok((sel, items[1]))
    case _ => Fail(ShapeMismatch)
  }

  /** Writer.Write for every kind of column. */
  function Write(sp: Spiller, w: ColWriter, body: Value, v: Variant): (r: Result<(Spiller, ColWriter)>)
    ensures r.Ok? ==> sp.data <= r.value.0.data && r.value.0.thresh == sp.thresh
    ensures r.Ok? ==> SameKind(r.value.1, w)
    decreases body, 2
  {
    match w
    case PrimW(p) =>
      var (sp1, p1) := Primitive.Write(sp, p, Body(body));
      Ok((sp1, PrimW(p1)))
    case ArrayW(values, lengths) =>
      if body.Prim? then Fail(ShapeMismatch)
      else
        var (sp1, values1) :- WriteElems(sp, values, body, 0, v);
        var (sp2, lengths1) := IntWrite(sp1, lengths, ToInt32(|Items(body)|));
        Ok((sp2, ArrayW(values1, lengths1)))
    case UnionW(typ, alts, selector) =>
      if typ.None? then Fail(NilDeref)
      else
        var (sel, zv) :- SplitUnion(body);
        if sel >= |alts| || sel < 0 then Fail(BadSelector)
        else
          var (sp1, selector1) := IntWrite(sp, selector, ToInt32(sel));
          var (sp2, alt1) :- Write(sp1, alts[sel], zv, v);
          Ok((sp2, UnionW(typ, alts[sel := alt1], selector1)))
    case RecordW(fields) =>
      if body.Prim? then Fail(ShapeMismatch)
      else
        var (sp1, fields1) :- WriteFields(sp, fields, body, 0, v);
        if |Items(body)| > |fields| then Fail(RecordMismatch)
        else Ok((sp1, RecordW(fields1)))
  }

  /** ArrayWriter.Write's loop: each element, in order, to the values writer. */
  function WriteElems(sp: Spiller, values: ColWriter, body: Value, i: nat, v: Variant)
    : (r: Result<(Spiller, ColWriter)>)
    requires i <= |Items(body)|
    ensures r.Ok? ==> sp.data <= r.value.0.data && r.value.0.thresh == sp.thresh
    ensures r.Ok? ==> SameKind(r.value.1, values)
    decreases body, 1, |Items(body)| - i
  {
    if i == |Items(body)| then Ok((sp, values))
    else
      var (sp1, values1) :- Write(sp, values, body.items[i], v);
      WriteElems(sp1, values1, body, i + 1, v)
  }

  /** RecordWriter.Write's loop from field i on.  A body with fewer values
      than fields is a mismatch. */
  function WriteFields(sp: Spiller, fields: seq<FieldWriter>, body: Value, i: nat, v: Variant)
    : (r: Result<(Spiller, seq<FieldWriter>)>)
    requires i <= |fields| && i <= |Items(body)|
    ensures r.Ok? ==> sp.data <= r.value.0.data && r.value.0.thresh == sp.thresh
    ensures r.Ok? ==> |r.value.1| == |fields| - i && |Items(body)| >= |fields|
    ensures r.Ok? ==> forall k :: 0 <= k < |r.value.1| ==> FieldStep(fields[i + k], r.value.1[k], Items(body)[i + k], v)
    decreases body, 1, |fields| - i
  {
    if i == |fields| then Ok((sp, []))
    else if i >= |Items(body)| then Fail(RecordMismatch)
    else
      var (sp1, f1) :- WriteField(sp, fields[i], body.items[i], v);
      var (sp2, rest) :- WriteFields(sp1, fields, body, i + 1, v);
      Ok((sp2, [f1] + rest))
  }

  /** What writing one record value does to one field writer.  As written,
      the counts are kept on a copy of the field writer and are lost. */
  predicate FieldStep(f: FieldWriter, f1: FieldWriter, item: Value, v: Variant)
  {
    var counted := v == Corrected;
    f1.name == f.name &&
    f1.vcnt == f.vcnt + (if counted && !item.IsNil() then 1 else 0) &&
    f1.ucnt == f.ucnt + (if counted && item.IsNil() then 1 else 0) &&
    (item.IsNil() ==> f1.column == f.column)
  }

  /** One field of RecordWriter.Write: a nil value touches the presence
      column as unset and writes nothing else; any other value touches it as
      a value and goes to the field's column. */
  function WriteField(sp: Spiller, f: FieldWriter, item: Value, v: Variant): (r: Result<(Spiller, FieldWriter)>)
    ensures r.Ok? ==> sp.data <= r.value.0.data && r.value.0.thresh == sp.thresh
    ensures r.Ok? ==> FieldStep(f, r.value.1, item, v)
    ensures item.IsNil() ==> r.Ok? && r.value.1.presence == TouchUnset(sp, f.presence).1
    ensures !item.IsNil() ==> (r.Ok? <==> Write(TouchValue(sp, f.presence).0, f.column, item, v).Ok?)
    decreases item, 3
  {
    if item.IsNil() then
      var (sp1, p1) := TouchUnset(sp, f.presence);
      Ok((sp1, f.(presence := p1, ucnt := if v == Corrected then f.ucnt + 1 else f.ucnt)))
    else
      var (sp1, p1) := TouchValue(sp, f.presence);
      var (sp2, c1) :- Write(sp1, f.column, item, v);
      Ok((sp2, f.(presence := p1, column := c1, vcnt := if v == Corrected then f.vcnt + 1 else f.vcnt)))
  }

  // ------------------------------------------------------------ flushing

  /** Writer.Flush.  An array flushes its lengths, then its values; a union
      its selector, then each alternative; a record each field's column,
      then, only for a field that saw both values and unsets, finishes and
      flushes its presence column. */
  function Flush(sp: Spiller, w: ColWriter): (r: (Spiller, ColWriter))
    ensures sp.data <= r.0.data && r.0.thresh == sp.thresh
    ensures SameKind(r.1, w) && Drained(r.1)
    decreases w, 1
  {
    match w
    case PrimW(p) =>
      var (sp1, p1) := Primitive.Flush(sp, p);
      (sp1, PrimW(p1))
    case ArrayW(values, lengths) =>
      var (sp1, lengths1) := Primitive.Flush(sp, lengths);
      var (sp2, values1) := Flush(sp1, values);
      (sp2, ArrayW(values1, lengths1))
    case UnionW(typ, alts, selector) =>
      var (sp1, selector1) := Primitive.Flush(sp, selector);
      var (sp2, alts1) := FlushAlts(sp1, w, 0);
      (sp2, UnionW(typ, alts1, selector1))
    case RecordW(fields) =>
      var (sp1, fields1) := FlushFields(sp, w, 0);
      (sp1, RecordW(fields1))
  }

  function FlushAlts(sp: Spiller, w: ColWriter, i: nat): (r: (Spiller, seq<ColWriter>))
    requires w.UnionW? && i <= |w.alts|
    ensures |r.1| == |w.alts| - i
    ensures sp.data <= r.0.data && r.0.thresh == sp.thresh
    ensures forall k :: 0 <= k < |r.1| ==> Drained(r.1[k])
    decreases w, 0, |w.alts| - i
  {
    if i == |w.alts| then (sp, [])
    else
      var (sp1, a1) := Flush(sp, w.alts[i]);
      var (sp2, rest) := FlushAlts(sp1, w, i + 1);
      (sp2, [a1] + rest)
  }

  /** Nothing is left in a buffer: every primitive column, and the presence
      column of every field Flush finishes, has been spilled. */
  predicate Drained(w: ColWriter)
  {
    match w
    case PrimW(p) => p.buf == []
    case ArrayW(values, lengths) => lengths.buf == [] && Drained(values)
    case UnionW(_, alts, selector) => selector.buf == [] && forall k :: 0 <= k < |alts| ==> Drained(alts[k])
    case RecordW(fields) => forall k :: 0 <= k < |fields| ==> DrainedField(fields[k])
  }

  predicate DrainedField(f: FieldWriter)
  {
    Drained(f.column) && (PresenceFlushed(f) ==> f.presence.ints.buf == [])
  }

  /** Whether Flush finishes and flushes a field's presence column. */
  predicate PresenceFlushed(f: FieldWriter)
  {
    f.vcnt != 0 && f.ucnt != 0
  }

  function FlushField(sp: Spiller, f: FieldWriter, column1: ColWriter): (r: (Spiller, FieldWriter))
    ensures sp.data <= r.0.data && r.0.thresh == sp.thresh
    requires Drained(column1)
    ensures DrainedField(r.1)
    ensures r.1.column == column1 && r.1.name == f.name && r.1.vcnt == f.vcnt && r.1.ucnt == f.ucnt
    ensures !PresenceFlushed(f) ==> r == (sp, f.(column := column1))
    ensures PresenceFlushed(f) ==> r.1.presence.ints.buf == []
  {
    if PresenceFlushed(f) then
      var (sp1, p1) := Finish(sp, f.presence);
      var (sp2, ints1) := Primitive.Flush(sp1, p1.ints);
      (sp2, f.(column := column1, presence := p1.(ints := ints1)))
    else (sp, f.(column := column1))
  }

  function FlushFields(sp: Spiller, w: ColWriter, i: nat): (r: (Spiller, seq<FieldWriter>))
    requires w.RecordW? && i <= |w.fields|
    ensures |r.1| == |w.fields| - i
    ensures sp.data <= r.0.data && r.0.thresh == sp.thresh
    ensures forall k :: 0 <= k < |r.1| ==> (
      DrainedField(r.1[k]) && r.1[k].name == w.fields[i + k].name &&
      r.1[k].vcnt == w.fields[i + k].vcnt && r.1[k].ucnt == w.fields[i + k].ucnt)
    decreases w, 0, |w.fields| - i
  {
    if i == |w.fields| then (sp, [])
    else
      var f := w.fields[i];
      var (sp1, c1) := Flush(sp, f.column);
      var (sp2, f1) := FlushField(sp1, f, c1);
      var (sp3, rest) := FlushFields(sp2, w, i + 1);
      (sp3, [f1] + rest)
  }

  // ------------------------------------------------------------ encoding

  /** The segmap of a leaf column: its type is the array-of-segments type,
      with the int32 length column as written. */
  function EncodeLeaf(p: PrimWriter, v: Variant): (tv: TypedValue)
    ensures v == Corrected ==> ParseSegmap(tv) == Ok(p.segs)
    ensures v == AsWritten ==> ParseSegmap(tv) == Fail(SegmapElemBadColumns)
  {
    if v == Corrected then Primitive.Encode(p) else EncodeAsWritten(p)
  }

  /** The field name union.go gives the k-th alternative column. */
  function AltName(k: nat): string
  {
    "c" + Itoa(k)
  }

  /** Writer.Encode: the reassembly type and value of a column.  The types
      are built structurally here (the Go code interns them in the type
      context).  As written, leaf segmaps carry the int32 length column
      (primitive.go:42). */
  function Encode(w: ColWriter, v: Variant): (tv: TypedValue)
    ensures !w.PrimW? ==> tv.typ.TRecord? && tv.val.Cont?
    ensures w.PrimW? ==> tv == EncodeLeaf(w.prim, v)
    decreases w, 1
  {
    match w
    case PrimW(p) => EncodeLeaf(p, v)
    case ArrayW(values, lengths) =>
      var vals := Encode(values, v);
      var lens := EncodeLeaf(lengths, v);
      TypedValue(TRecord(0, [Column("values", vals.typ), Column("lengths", lens.typ)]),
                 Cont([vals.val, lens.val]))
    case UnionW(_, alts, selector) =>
      var parts := EncodeAlts(w, v);
      var sel := EncodeLeaf(selector, v);
      TypedValue(TRecord(0, parts.0 + [Column("selector", sel.typ)]), Cont(parts.1 + [sel.val]))
    case RecordW(fields) =>
      var parts := EncodeFields(w, v);
      TypedValue(TRecord(0, parts.0), Cont(parts.1))
  }

  /** The columns c0, c1, ... of a union's reassembly record, one per
      alternative. */
  function EncodeAlts(w: ColWriter, v: Variant): (r: (seq<Column>, seq<Value>))
    requires w.UnionW?
    ensures |r.0| == |r.1| == |w.alts|
    decreases w, 0
  {
    (seq(|w.alts|, k requires 0 <= k < |w.alts| => Column(AltName(k), Encode(w.alts[k], v).typ)),
     seq(|w.alts|, k requires 0 <= k < |w.alts| => Encode(w.alts[k], v).val))
  }

  /** FieldWriter.encode: a record of the field's column and its presence. */
  function EncodeField(f: FieldWriter, column: TypedValue, v: Variant): (tv: TypedValue)
    ensures tv.typ.TRecord? && |tv.typ.columns| == 2
    ensures tv.typ.columns[0].name == "column" && tv.typ.columns[1].name == "presence"
    ensures tv.val == Cont([column.val, EncodeLeaf(f.presence.ints, v).val])
  {
    var pres := EncodeLeaf(f.presence.ints, v);
    TypedValue(TRecord(0, [Column("column", column.typ), Column("presence", pres.typ)]),
               Cont([column.val, pres.val]))
  }

  /** The columns of a record's reassembly record, one per field and named
      after it. */
  function EncodeFields(w: ColWriter, v: Variant): (r: (seq<Column>, seq<Value>))
    requires w.RecordW?
    ensures |r.0| == |r.1| == |w.fields|
    decreases w, 0
  {
    (seq(|w.fields|, k requires 0 <= k < |w.fields| =>
       Column(w.fields[k].name, EncodeField(w.fields[k], Encode(w.fields[k].column, v), v).typ)),
     seq(|w.fields|, k requires 0 <= k < |w.fields| =>
       EncodeField(w.fields[k], Encode(w.fields[k].column, v), v).val))
  }


  /** The columns of each reassembly record, by name: an array's values then
      lengths, a union's c0, c1, ... then its selector, a record's fields in
      declared order. */
  lemma EncodeLayout(w: ColWriter, v: Variant)
    requires !w.PrimW?
    ensures var cols := Encode(w, v).typ.columns;
      && (w.ArrayW? ==> |cols| == 2 && cols[0].name == "values" && cols[1].name == "lengths")
      && (w.UnionW? ==> (|cols| == |w.alts| + 1 && cols[|w.alts|].name == "selector" &&
                         forall k :: 0 <= k < |w.alts| ==> cols[k].name == AltName(k)))
      && (w.RecordW? ==> (|cols| == |w.fields| &&
                          forall k :: 0 <= k < |w.fields| ==> cols[k].name == w.fields[k].name))
  {
    if w.UnionW? {
      var parts := EncodeAlts(w, v);
      assert Encode(w, v).typ.columns == parts.0 + [Column("selector", EncodeLeaf(w.selector, v).typ)];
    }
  }

  // ------------------------------------------------------------ properties

  /** As written, NewUnionWriter leaves the union type nil, so the first
      write dereferences it: no union value can be written. */
  lemma UnionAsWrittenFails(sp: Spiller, t: Type, body: Value)
    requires Unalias(t).TUnion?
    ensures Write(sp, NewWriter(t, AsWritten), body, AsWritten) == Fail(NilDeref)
  {
  }

  /** A selector outside the union's alternatives is rejected. */
  lemma UnionBadSelector(sp: Spiller, w: ColWriter, body: Value, v: Variant)
    requires w.UnionW? && w.typ.Some? && SplitUnion(body).Ok?
    requires SplitUnion(body).value.0 < 0 || SplitUnion(body).value.0 >= |w.alts|
    ensures Write(sp, w, body, v) == Fail(BadSelector)
  {
  }

  /** A union write appends the selector to the selector column and writes
      the value to the selected alternative only. */
  lemma UnionWriteSelects(sp: Spiller, w: ColWriter, body: Value, v: Variant, sels: seq<int>)
    requires w.UnionW? && w.typ.Some? && SplitUnion(body).Ok?
    requires 0 <= SplitUnion(body).value.0 < |w.alts| && |w.alts| <= MaxInt32
    requires Inv(sp, w.selector) && Contents(sp, w.selector) == Some(IntItems(sels))
    ensures var (sel, zv) := SplitUnion(body).value;
      var (sp1, _) := IntWrite(sp, w.selector, sel);
      var r := Write(sp, w, body, v);
      (r.Ok? <==> Write(sp1, w.alts[sel], zv, v).Ok?) &&
      (r.Ok? ==> (
        var w1 := r.value.1;
        w1.UnionW? && w1.typ == w.typ && |w1.alts| == |w.alts| &&
        w1.alts[sel] == Write(sp1, w.alts[sel], zv, v).value.1 &&
        (forall k :: 0 <= k < |w.alts| && k != sel ==> w1.alts[k] == w.alts[k]) &&
        Inv(r.value.0, w1.selector) && Contents(r.value.0, w1.selector) == Some(IntItems(sels + [sel]))))
  {
    var (sel, zv) := SplitUnion(body).value;
    var (sp1, selector1) := IntWrite(sp, w.selector, sel);
    IntWriteContents(sp, w.selector, sel, sels);
    var a := Write(sp1, w.alts[sel], zv, v);
    if a.Ok? {
      GrowKeepsContents(sp1, a.value.0, selector1);
    }
  }

  /** An array write appends the element count, as an int32, to the
      lengths column. */
  lemma ArrayWriteLength(sp: Spiller, w: ColWriter, body: Value, v: Variant, ns: seq<int>)
    requires w.ArrayW? && !body.Prim?
    requires Inv(sp, w.lengths) && Contents(sp, w.lengths) == Some(IntItems(ns))
    ensures var r := Write(sp, w, body, v);
      (r.Ok? <==> WriteElems(sp, w.values, body, 0, v).Ok?) &&
      (r.Ok? ==> (
        r.value.1.ArrayW? && Inv(r.value.0, r.value.1.lengths) &&
        Contents(r.value.0, r.value.1.lengths) == Some(IntItems(ns + [ToInt32(|Items(body)|)]))))
  {
    var e := WriteElems(sp, w.values, body, 0, v);
    if e.Ok? {
      GrowKeepsContents(sp, e.value.0, w.lengths);
      IntWriteContents(e.value.0, w.lengths, ToInt32(|Items(body)|), ns);
    }
  }

  /** A record value must have exactly one value per field. */
  lemma RecordArity(sp: Spiller, w: ColWriter, body: Value, v: Variant)
    requires w.RecordW?
    ensures Write(sp, w, body, v).Ok? ==> !body.Prim? && |Items(body)| == |w.fields|
  {
  }

  /** Writer.Write over a sequence of values, in order. */
  function WriteAll(sp: Spiller, w: ColWriter, bodies: seq<Value>, v: Variant): (r: Result<(Spiller, ColWriter)>)
    ensures r.Ok? ==> sp.data <= r.value.0.data && r.value.0.thresh == sp.thresh
    ensures r.Ok? && w.RecordW? ==> r.value.1.RecordW? && |r.value.1.fields| == |w.fields|
    decreases |bodies|
  {
    if |bodies| == 0 then Ok((sp, w))
    else
      var (sp1, w1) :- WriteAll(sp, w, bodies[..|bodies| - 1], v);
      Write(sp1, w1, bodies[|bodies| - 1], v)
  }

  /** How many of the record values have a value, or a nil, in field k. */
  function CountValues(bodies: seq<Value>, k: nat, nil: bool): (n: nat)
    ensures n <= |bodies|
    decreases |bodies|
  {
    if |bodies| == 0 then 0
    else
      var last := Items(bodies[|bodies| - 1]);
      CountValues(bodies[..|bodies| - 1], k, nil) + (if k < |last| && last[k].IsNil() == nil then 1 else 0)
  }

  /** The field counters of a fresh record writer: the corrected writer
      counts the values and the nils each field received, the writer as
      written never leaves zero. */
  lemma {:induction false} RecordCounts(sp: Spiller, w: ColWriter, bodies: seq<Value>, v: Variant)
    requires w.RecordW? && forall k :: 0 <= k < |w.fields| ==> w.fields[k].vcnt == 0 && w.fields[k].ucnt == 0
    ensures var r := WriteAll(sp, w, bodies, v);
      r.Ok? ==> forall k :: 0 <= k < |w.fields| ==> (
        r.value.1.fields[k].name == w.fields[k].name &&
        r.value.1.fields[k].vcnt == (if v == Corrected then CountValues(bodies, k, false) else 0) &&
        r.value.1.fields[k].ucnt == (if v == Corrected then CountValues(bodies, k, true) else 0))
    decreases |bodies|
  {
    var r := WriteAll(sp, w, bodies, v);
    if |bodies| > 0 && r.Ok? {
      var init := bodies[..|bodies| - 1];
      var last := bodies[|bodies| - 1];
      RecordCounts(sp, w, init, v);
      var (sp1, w1) := WriteAll(sp, w, init, v).value;
      assert Write(sp1, w1, last, v) == r;
      var fs := WriteFields(sp1, w1.fields, last, 0, v);
      assert fs.Ok? && r.value.1.fields == fs.value.1;
      forall k | 0 <= k < |w.fields|
        ensures r.value.1.fields[k].name == w.fields[k].name
        ensures r.value.1.fields[k].vcnt == (if v == Corrected then CountValues(bodies, k, false) else 0)
        ensures r.value.1.fields[k].ucnt == (if v == Corrected then CountValues(bodies, k, true) else 0)
      {
        assert FieldStep(w1.fields[k], fs.value.1[k], Items(last)[k], v);
        assert bodies[..|bodies| - 1] == init;
      }
    }
  }

  /** Flush finishes a field's presence column exactly when the field has
      received both values and nils; as written, never. */
  lemma PresenceFlushedIff(sp: Spiller, w: ColWriter, bodies: seq<Value>, v: Variant)
    requires w.RecordW? && forall k :: 0 <= k < |w.fields| ==> w.fields[k].vcnt == 0 && w.fields[k].ucnt == 0
    ensures var r := WriteAll(sp, w, bodies, v);
      r.Ok? ==> forall k :: 0 <= k < |w.fields| ==> (
        PresenceFlushed(r.value.1.fields[k]) <==>
        v == Corrected && CountValues(bodies, k, false) > 0 && CountValues(bodies, k, true) > 0)
  {
    RecordCounts(sp, w, bodies, v);
  }

  /** A record of primitive columns accepts every value with one item per
      field. */
  lemma {:induction false} PrimFieldsWrite(sp: Spiller, fields: seq<FieldWriter>, body: Value, i: nat, v: Variant)
    requires forall k :: 0 <= k < |fields| ==> fields[k].column.PrimW?
    requires i <= |fields| == |Items(body)|
    ensures WriteFields(sp, fields, body, i, v).Ok?
    decreases |fields| - i
  {
    if i < |fields| {
      var f := WriteField(sp, fields[i], body.items[i], v);
      assert f.Ok?;
      PrimFieldsWrite(f.value.0, fields, body, i + 1, v);
    }
  }

  lemma PrimRecordWrite(sp: Spiller, w: ColWriter, body: Value, v: Variant)
    requires w.RecordW? && forall k :: 0 <= k < |w.fields| ==> w.fields[k].column.PrimW?
    requires !body.Prim? && |Items(body)| == |w.fields|
    ensures Write(sp, w, body, v).Ok?
  {
    PrimFieldsWrite(sp, w.fields, body, 0, v);
  }

  /** The record {a: 1} followed by {a: nil}: the corrected writer finishes
      and flushes the presence column of a; the writer as written drops it. */
  lemma PresenceLostExample(sp: Spiller, v: Variant)
    ensures var t := TRecord(0, [Column("a", TypeInt64)]);
      var bodies := [Cont([Prim(EncodeInt(1))]), Cont([Nil(false)])];
      var r := WriteAll(sp, NewWriter(t, v), bodies, v);
      r.Ok? && (PresenceFlushed(r.value.1.fields[0]) <==> v == Corrected)
  {
    var t := TRecord(0, [Column("a", TypeInt64)]);
    var b0, b1 := Cont([Prim(EncodeInt(1))]), Cont([Nil(false)]);
    var bodies := [b0, b1];
    var w := NewWriter(t, v);
    assert bodies[..1] == [b0] && [b0][..0] == [];
    assert w.fields[0].column.PrimW? by {
      assert NewFieldWriters(t, 1, v) == [];
      assert NewWriter(TypeInt64, v).PrimW?;
    }
    PrimRecordWrite(sp, w, b0, v);
    var (sp1, w1) := Write(sp, w, b0, v).value;
    assert WriteAll(sp, w, [b0], v) == Write(sp, w, b0, v);
    assert w1.fields[0].column.PrimW? by {
      assert WriteFields(sp, w.fields, b0, 0, v).value.1[0] == w1.fields[0];
      assert w1.fields[0] == WriteField(sp, w.fields[0], Prim(EncodeInt(1)), v).value.1;
    }
    PrimRecordWrite(sp1, w1, b1, v);
    PresenceFlushedIff(sp, w, bodies, v);
    assert CountValues(bodies, 0, false) == 1 && CountValues(bodies, 0, true) == 1 by {
      assert CountValues([b0], 0, false) == 1 && CountValues([b0], 0, true) == 0;
    }
  }
}

=== FILE: decimal.dfy ===
/** Decimal formatting of integers, as `fmt.Sprintf("%d", n)` produces it.  The
    type context builds its interning keys with it (zng/resolver/context.go:100-114)
    and the union column names its alternatives "c0", "c1", ... with it
    (zst/column/union.go:65). */
module Decimal {

  function DigitChar(d: nat): char
    requires d < 10
  {
    "0123456789"[d]
  }

  predicate IsDigit(c: char)
  {
    '0' <= c <= '9'
  }

  function DigitValue(c: char): nat
    requires IsDigit(c)
  {
    (c as int - '0' as int) as nat
  }

  /** The decimal digits of n, most significant first, without leading zeros. */
  function Digits(n: nat): (s: string)
    ensures |s| > 0
    ensures forall i :: 0 <= i < |s| ==> IsDigit(s[i])
    decreases n
  {
    if n < 10 then [DigitChar(n)] else Digits(n / 10) + [DigitChar(n % 10)]
  }

  /** %d: a minus sign for negative values, then the digits of the magnitude. */
  function Itoa(n: int): (s: string)
    ensures |s| > 0
    ensures n >= 0 <==> IsDigit(s[0])
    ensures n < 0 <==> s[0] == '-'
  {
    if n >= 0 then Digits(n) else "-" + Digits(-n)
  }

  /** The value of a string of digits. */
  function ParseDigits(s: string): nat
    requires forall i :: 0 <= i < |s| ==> IsDigit(s[i])
    decreases |s|
  {
    if |s| == 0 then 0 else 10 * ParseDigits(s[..|s| - 1]) + DigitValue(s[|s| - 1])
  }

  function Atoi(s: string): int
    requires |s| > 0
    requires forall i :: 0 < i < |s| ==> IsDigit(s[i])
    requires IsDigit(s[0]) || s[0] == '-'
  {
    if s[0] == '-' then -(ParseDigits(s[1..]) as int) else ParseDigits(s)
  }

  lemma {:induction false} DigitsRoundTrip(n: nat)
    ensures ParseDigits(Digits(n)) == n
    decreases n
  {
    if n >= 10 {
      var s := Digits(n);
      DigitsRoundTrip(n / 10);
      assert s[..|s| - 1] == Digits(n / 10);
    }
  }

  /** Reading back what Itoa wrote gives the number: %d loses nothing. */
  lemma ItoaRoundTrip(n: int)
    ensures var s := Itoa(n);
      (forall i :: 0 < i < |s| ==> IsDigit(s[i])) && Atoi(s) == n
  {
    if n >= 0 {
      DigitsRoundTrip(n);
    } else {
      var s := Itoa(n);
      assert s[1..] == Digits(-n);
      DigitsRoundTrip(-n);
    }
  }

  /** Distinct numbers format to distinct strings. */
  lemma ItoaInjective(a: int, b: int)
    requires Itoa(a) == Itoa(b)
    ensures a == b
  {
    ItoaRoundTrip(a);
    ItoaRoundTrip(b);
  }
}

=== FILE: errors.dfy ===
/** The error values of the zst codec and its helpers.  Each constructor stands
    for one error the Go code returns (or one panic it runs into); the comment
    names the message or the condition. */
module Errors {

  datatype Error =
    // I/O and stream ends
    | EOF                                  // io.EOF from a column or record stream
    | IoError                              // a failed read or seek on the backing object
    // zcode / zng decoding
    | CorruptItem                          // a zcode iterator could not decode the next item
    | BadInt                               // zng.DecodeInt rejected its bytes
    | ShapeMismatch                        // a value does not have the shape its column type says
    | Unset                                // zng.ErrUnset
    | TooManyValues                        // "too many values for record element"
    | NoSuchField(name: string)            // record access of a field the type does not have
    | MissingValue                         // a record body shorter than its type
    | NotAString | NotAnInt                // typed field access of the wrong type
    // segment maps and leaf columns
    | SegmapNotArray                       // "zst object segmap not an array"
    | SegmapElemNotRecord                  // "zst object segmap element not a record"
    | SegmapElemBadColumns                 // "... not a record[offset:int64,length:int64]"
    | CorruptSegment                       // column.ErrCorruptSegment
    | SegmentTooBig                        // "segment too big"
    | NegativeSegment                      // make([]byte, n) with n < 0 panics
    | TruncatedRead                        // "truncated read of zst column"
    | IllegalZeroRun                       // "encountered illegal zero run in presence vector"
    // column writers and readers
    | RecordMismatch                       // "zng record value doesn't match column writer"
    | NotARecord                           // "... not a record" for a reassembly value
    | BadSelector                          // a union selector outside [0, alternatives)
    | TooManyUnionColumns                  // "too many union columns for union type"
    | RecordColumnMismatch                 // "mismatch between record type and record_column"
    | NilDeref                             // a nil pointer dereference or index panic in the source
    // zst writer, trailer and reader
    | ThreshZero(which: string)            // "zst %s threshold cannot be zero"
    | ThreshTooLarge(which: string, thresh: int)
    | NotZst                               // ErrNotZst
    | BadVersionField                      // "zst version field is not a valid int32"
    | VersionMismatch(found: int)          // "zst version %d found while expecting version 1"
    | BadThreshField                       // a threshold field of the trailer is not an int
    | TrailerNotFound                      // "zst trailer not found"
    | ShortTrailerRead                     // "couldn't read trailer: expected %d bytes but read %d"
    | SectionsNotArray                     // "sections field ... is not an arrray"
    | SectionNotInt64                      // "section element is not an int64"
    | NoReassembly                         // "no reassembly records found in zst file"
    | ExtraReassembly                      // "extra records in reassembly section"
    | NoSchemas                            // "no schemas found"
    | BadSchemaId                          // "bad schema id in root reassembly column"
    // type context
    | IdOutOfRange(id: int)                // "id %d out of range for table of size %d"
    | NoTypeForId(id: int)                 // "no type found for id %d"
    | UnknownType                          // "unknown type: %s"
    | TypeSyntax                           // zng.ErrTypeSyntax
    | DuplicateFields                      // zng.ErrDuplicateFields
    | MultipleSetParams                    // "sets with multiple type parameters"
    | UnsupportedType                      // the panics of typeKey and TranslateType on other kinds
    // microindex
    | NotFound                             // microindex.ErrNotFound
    | Incomplete                           // zng.ErrIncomplete
    | BTreeChild                           // "b-tree child field: ..."
    | Other(code: int)                     // an error from a collaborator outside the model
}

=== FILE: finder.dfy ===
/** Key lookup in a microindex (microindex/finder.go).  A microindex is a
    base section of records sorted by key, with index sections above it:
    each record of level k + 1 names, in its child-offset field, where a
    frame of level k starts.  A lookup descends from the top level to the
    base, at each level following the last record whose key is not above
    the key looked up, then scans the base frame.

    Keys are compared through a comparison function on records, negative,
    zero or positive as the record's key is below, equal to or above the key
    looked up; building it from a key record is not part of this model.
    Section readers are a function of level and offset: opening one does
    not fail (the open error of the base section at finder.go:98 is not
    modelled), and a failing read shows up as the end of its stream. */
module Finder {
  import opened Wrappers
  import opened Errors
  import opened Zng

  type Compare = Record -> int

  /** What lookup returns: the record or nil, the error or nil, and the
      position its reader has reached. */
  datatype Outcome = Outcome(rec: Option<Record>, err: Option<Error>, pos: nat)

  // ------------------------------------------------------------ lookup

  /** lookup on a stream from position pos, prev being the last record
      read whose key is below the key. */
  function LookupFrom(s: RecStream, pos: nat, cmp: Compare, exact: bool, prev: Option<Record>): (r: Outcome)
    ensures pos <= r.pos
    decreases |s.recs| - pos
  {
    match StreamAt(s, pos)
    case Fail(e) => Outcome(if exact then None else prev, Some(e), pos)
    case Ok(None) => Outcome(if exact then None else prev, None, pos)
    case Ok(Some(rec)) =>
      var c := cmp(rec);
      if c >= 0 then
        if c == 0 then Outcome(Some(rec), None, pos + 1)
        else if exact then Outcome(None, None, pos + 1)
        else Outcome(prev, None, pos + 1)
      else LookupFrom(s, pos + 1, cmp, exact, Some(rec))
  }

  /** lookup: a fresh scan, with no record read yet. */
  function Lookup(s: RecStream, pos: nat, cmp: Compare, exact: bool): Outcome
  {
    LookupFrom(s, pos, cmp, exact, None)
  }

  /** The position of the first record at or after pos whose key is not
      below the key, or the end of the records. */
  function FirstNotBelow(recs: seq<Record>, pos: nat, cmp: Compare): (k: nat)
    ensures pos <= k && (pos <= |recs| ==> k <= |recs|)
    ensures forall j :: pos <= j < k ==> j < |recs| && cmp(recs[j]) < 0
    ensures k < |recs| ==> cmp(recs[k]) >= 0
    ensures pos >= |recs| ==> k == pos
    decreases |recs| - pos
  {
    if pos >= |recs| || cmp(recs[pos]) >= 0 then pos else FirstNotBelow(recs, pos + 1, cmp)
  }

  /** An exact lookup returns the first record whose key is not below the
      key when its key is equal, and nothing otherwise; it fails only when
      the stream ends in an error before such a record. */
  lemma {:induction false} LookupExact(s: RecStream, pos: nat, cmp: Compare, prev: Option<Record>)
    requires pos <= |s.recs|
    ensures var k := FirstNotBelow(s.recs, pos, cmp);
      var r := LookupFrom(s, pos, cmp, true, prev);
      && r.rec == (if k < |s.recs| && cmp(s.recs[k]) == 0 then Some(s.recs[k]) else None)
      && r.err == (if k < |s.recs| then None else s.end)
      && r.pos == (if k < |s.recs| then k + 1 else k)
    decreases |s.recs| - pos
  {
    if pos < |s.recs| && cmp(s.recs[pos]) < 0 {
      LookupExact(s, pos + 1, cmp, Some(s.recs[pos]));
    }
  }

  /** A closest lookup returns the exact match if the first record whose
      key is not below the key is one, and otherwise the last record before
      it, or prev when there is none; an error at the end of the stream
      comes back together with that record. */
  lemma {:induction false} LookupClosestRef(s: RecStream, pos: nat, cmp: Compare, prev: Option<Record>)
    requires pos <= |s.recs|
    ensures var k := FirstNotBelow(s.recs, pos, cmp);
      var r := LookupFrom(s, pos, cmp, false, prev);
      && r.rec == (if k < |s.recs| && cmp(s.recs[k]) == 0 then Some(s.recs[k])
                   else if k > pos then Some(s.recs[k - 1]) else prev)
      && r.err == (if k < |s.recs| then None else s.end)
      && r.pos == (if k < |s.recs| then k + 1 else k)
    decreases |s.recs| - pos
  {
    if pos < |s.recs| && cmp(s.recs[pos]) < 0 {
      LookupClosestRef(s, pos + 1, cmp, Some(s.recs[pos]));
    }
  }

  /** Conversely, a record with an equal key that only records with lower
      keys precede is the one an exact lookup returns. */
  lemma ExactFindsFirstMatch(s: RecStream, pos: nat, cmp: Compare, j: nat)
    requires pos <= j < |s.recs| && cmp(s.recs[j]) == 0
    requires forall i :: pos <= i < j ==> cmp(s.recs[i]) < 0
    ensures Lookup(s, pos, cmp, true) == Outcome(Some(s.recs[j]), None, j + 1)
  {
    LookupExact(s, pos, cmp, None);
    FirstNotBelowIs(s.recs, pos, cmp, j);
  }

  lemma {:induction false} FirstNotBelowIs(recs: seq<Record>, pos: nat, cmp: Compare, j: nat)
    requires pos <= j < |recs| && cmp(recs[j]) >= 0
    requires forall i :: pos <= i < j ==> cmp(recs[i]) < 0
    ensures FirstNotBelow(recs, pos, cmp) == j
    decreases j - pos
  {
    if pos < j {
      FirstNotBelowIs(recs, pos + 1, cmp, j);
    }
  }

  /** A record with a higher key first means an exact lookup finds
      nothing, whatever equal keys follow. */
  lemma ExactStopsAtHigher(s: RecStream, pos: nat, cmp: Compare, j: nat)
    requires pos <= j < |s.recs| && cmp(s.recs[j]) > 0
    requires forall i :: pos <= i < j ==> cmp(s.recs[i]) < 0
    ensures Lookup(s, pos, cmp, true) == Outcome(None, None, j + 1)
  {
    LookupExact(s, pos, cmp, None);
    FirstNotBelowIs(s.recs, pos, cmp, j);
  }

  // ------------------------------------------------------------ search

  /** The finder's view of an opened microindex: whether it is empty, the
      number of sections (the base and the index levels), the name of the
      child-offset field, and a reader for a level from an offset. */
  datatype Index = Index(empty: bool, levels: nat, childField: string, open: (nat, int) -> RecStream)

  /** search from `level` down, the frame of that level starting at off. */
  function SearchFrom(ix: Index, cmp: Compare, level: nat, off: int): (r: Result<RecStream>)
    ensures level >= ix.levels ==> r == Ok(ix.open(0, off))
    decreases ix.levels - level
  {
    if level >= ix.levels then Ok(ix.open(0, off))
    else
      var o := Lookup(ix.open(level, off), 0, cmp, false);
      if o.err.Some? then Fail(o.err.value)
      else if o.rec.None? then Fail(NotFound)
      else match AccessInt(o.rec.value.Cols(), o.rec.value.items, ix.childField)
        case Fail(_) => Fail(BTreeChild)
        case Ok(child) => SearchFrom(ix, cmp, level + 1, child)
  }

  /** search: from the top index level, at offset 0, down to the base. */
  function Search(ix: Index, cmp: Compare): Result<RecStream>
  {
    SearchFrom(ix, cmp, 1, 0)
  }

  /** The record of a level's frame that search follows: the exact match
      if there is one, otherwise the last record whose key is below the key. */
  function Closest(s: RecStream, cmp: Compare): (r: Option<Record>)
  {
    var k := FirstNotBelow(s.recs, 0, cmp);
    if k < |s.recs| && cmp(s.recs[k]) == 0 then Some(s.recs[k])
    else if k > 0 then Some(s.recs[k - 1]) else None
  }

  /** One level of the descent: with the frame read to its end, search
      follows the child offset of the closest record, and fails with "not
      found" when the frame has no record whose key is not above the key. */
  lemma SearchStep(ix: Index, cmp: Compare, level: nat, off: int)
    requires level < ix.levels
    ensures var s := ix.open(level, off);
      var k := FirstNotBelow(s.recs, 0, cmp);
      var c := Closest(s, cmp);
      && (k >= |s.recs| && s.end.Some? ==> SearchFrom(ix, cmp, level, off) == Fail(s.end.value))
      && (k < |s.recs| || s.end.None? ==>
            && (c.None? ==> SearchFrom(ix, cmp, level, off) == Fail(NotFound))
            && (c.Some? && AccessInt(c.value.Cols(), c.value.items, ix.childField).Fail? ==>
                  SearchFrom(ix, cmp, level, off) == Fail(BTreeChild))
            && (c.Some? && AccessInt(c.value.Cols(), c.value.items, ix.childField).Ok? ==>
                  SearchFrom(ix, cmp, level, off) ==
                  SearchFrom(ix, cmp, level + 1, AccessInt(c.value.Cols(), c.value.items, ix.childField).value)))
  {
    LookupClosestRef(ix.open(level, off), 0, cmp, None);
  }

  /** A key below the smallest key of a level's frame is not in the index. */
  lemma KeyBelowSmallest(ix: Index, cmp: Compare, level: nat, off: int)
    requires level < ix.levels
    requires var s := ix.open(level, off); |s.recs| > 0 && cmp(s.recs[0]) > 0
    ensures SearchFrom(ix, cmp, level, off) == Fail(NotFound)
  {
    SearchStep(ix, cmp, level, off);
  }

  /** With no index level above the base, search opens the base at 0. */
  lemma BaseOnly(ix: Index, cmp: Compare)
    requires ix.levels <= 1
    ensures Search(ix, cmp) == Ok(ix.open(0, 0))
  {
  }

  // ------------------------------------------------------------ the finder's lookups

  /** Finder.Lookup: nil on an empty index; nil, without error, when the
      key is below every key of some level; otherwise the exact lookup in
      the base frame.  `compare` is what building the comparison returned. */
  function FinderLookup(ix: Index, compare: Result<Compare>): (r: (Option<Record>, Option<Error>))
    ensures ix.empty ==> r == (None, None)
    ensures !ix.empty && compare.Fail? ==> r == (None, Some(compare.error))
    ensures !ix.empty && compare.Ok? && Search(ix, compare.value).Fail? ==>
      var e := Search(ix, compare.value).error;
      r == (None, if e == NotFound then None else Some(e))
    ensures !ix.empty && compare.Ok? && Search(ix, compare.value).Ok? ==>
      var s, cmp := Search(ix, compare.value).value, compare.value;
      var k := FirstNotBelow(s.recs, 0, cmp);
      && r.0 == (if k < |s.recs| && cmp(s.recs[k]) == 0 then Some(s.recs[k]) else None)
      && r.1 == (if k < |s.recs| then None else s.end)
  {
    if ix.empty then (None, None)
    else match compare
      case Fail(e) => (None, Some(e))
      case Ok(cmp) =>
        match Search(ix, cmp)
        case Fail(e) => (None, if e == NotFound then None else Some(e))
        case Ok(s) =>
          LookupExact(s, 0, cmp, None);
          var o := Lookup(s, 0, cmp, true);
          (o.rec, o.err)
  }

  /** Finder.LookupClosest: like Lookup, but the closest record of the
      base frame, and "not found" is an error. */
  function FinderLookupClosest(ix: Index, compare: Result<Compare>): (r: (Option<Record>, Option<Error>))
    ensures ix.empty ==> r == (None, None)
    ensures !ix.empty && compare.Fail? ==> r == (None, Some(compare.error))
    ensures !ix.empty && compare.Ok? && Search(ix, compare.value).Fail? ==>
      r == (None, Some(Search(ix, compare.value).error))
    ensures !ix.empty && compare.Ok? && Search(ix, compare.value).Ok? ==>
      var s, cmp := Search(ix, compare.value).value, compare.value;
      var k := FirstNotBelow(s.recs, 0, cmp);
      && r.0 == (if k < |s.recs| && cmp(s.recs[k]) == 0 then Some(s.recs[k])
                 else if k > 0 then Some(s.recs[k - 1]) else None)
      && r.1 == (if k < |s.recs| then None else s.end)
  {
    if ix.empty then (None, None)
    else match compare
      case Fail(e) => (None, Some(e))
      case Ok(cmp) =>
        match Search(ix, cmp)
        case Fail(e) => (None, Some(e))
        case Ok(s) =>
          LookupClosestRef(s, 0, cmp, None);
          var o := Lookup(s, 0, cmp, false);
          (o.rec, o.err)
  }

  /** When the key is below every key of a level, Lookup reports no match
      and no error, while LookupClosest reports "not found". */
  lemma NotFoundDiffers(ix: Index, cmp: Compare)
    requires !ix.empty && Search(ix, cmp) == Fail(NotFound)
    ensures FinderLookup(ix, Ok(cmp)) == (None, None)
    ensures FinderLookupClosest(ix, Ok(cmp)) == (None, Some(NotFound))
  {
  }

  /** Exact lookups repeated on the base frame's reader, as LookupAll runs
      them, collecting each hit until one finds nothing or fails. */
  function Collect(s: RecStream, pos: nat, cmp: Compare): (r: (seq<Record>, Option<Error>))
    requires pos <= |s.recs|
    decreases |s.recs| - pos
  {
    LookupExact(s, pos, cmp, None);
    var o := Lookup(s, pos, cmp, true);
    if o.err.Some? then ([], o.err)
    else if o.rec.None? then ([], None)
    else
      var (rest, err) := Collect(s, o.pos, cmp);
      ([o.rec.value] + rest, err)
  }

  /** The records from pos on with a key equal to the key, up to the first
      record whose key is above it. */
  function Matches(recs: seq<Record>, pos: nat, cmp: Compare): (r: seq<Record>)
    ensures forall x :: x in r ==> cmp(x) == 0
    decreases |recs| - pos
  {
    if pos >= |recs| || cmp(recs[pos]) > 0 then []
    else (if cmp(recs[pos]) == 0 then [recs[pos]] else []) + Matches(recs, pos + 1, cmp)
  }

  /** Whether some record from pos on has a key above the key. */
  predicate HigherAhead(recs: seq<Record>, pos: nat, cmp: Compare)
  {
    exists j :: pos <= j < |recs| && cmp(recs[j]) > 0
  }

  /** LookupAll's hits are the records with an equal key, in order, that
      come before the first record whose key is above the key; its error is
      the stream's, when the stream ends before such a record. */
  lemma {:induction false} CollectMatches(s: RecStream, pos: nat, cmp: Compare)
    requires pos <= |s.recs|
    ensures Collect(s, pos, cmp).0 == Matches(s.recs, pos, cmp)
    ensures Collect(s, pos, cmp).1 == if HigherAhead(s.recs, pos, cmp) then None else s.end
    decreases |s.recs| - pos
  {
    LookupExact(s, pos, cmp, None);
    var k := FirstNotBelow(s.recs, pos, cmp);
    MatchesSkip(s.recs, pos, k, cmp);
    if k < |s.recs| && cmp(s.recs[k]) == 0 {
      CollectMatches(s, k + 1, cmp);
      assert HigherAhead(s.recs, pos, cmp) == HigherAhead(s.recs, k + 1, cmp) by {
        if HigherAhead(s.recs, pos, cmp) {
          var j :| pos <= j < |s.recs| && cmp(s.recs[j]) > 0;
          assert j > k;
        }
      }
    } else if k < |s.recs| {
      assert HigherAhead(s.recs, pos, cmp);
    } else {
      assert !HigherAhead(s.recs, pos, cmp);
    }
  }

  /** Records below the key contribute nothing to the matches. */
  lemma {:induction false} MatchesSkip(recs: seq<Record>, pos: nat, k: nat, cmp: Compare)
    requires pos <= k <= |recs| && forall j :: pos <= j < k ==> cmp(recs[j]) < 0
    ensures Matches(recs, pos, cmp) == Matches(recs, k, cmp)
    decreases k - pos
  {
    if pos < k {
      MatchesSkip(recs, pos + 1, k, cmp);
    }
  }

  /** Finder.LookupAll, without cancellation: the hits sent on the channel
      and the error returned. */
  function FinderLookupAll(ix: Index, compare: Result<Compare>): (r: (seq<Record>, Option<Error>))
    ensures ix.empty ==> r == ([], None)
    ensures !ix.empty && compare.Fail? ==> r == ([], Some(compare.error))
    ensures !ix.empty && compare.Ok? && Search(ix, compare.value).Fail? ==>
      r == ([], Some(Search(ix, compare.value).error))
    ensures !ix.empty && compare.Ok? && Search(ix, compare.value).Ok? ==>
      var s := Search(ix, compare.value).value;
      && r.0 == Matches(s.recs, 0, compare.value)
      && r.1 == (if HigherAhead(s.recs, 0, compare.value) then None else s.end)
  {
    if ix.empty then ([], None)
    else match compare
      case Fail(e) => ([], Some(e))
      case Ok(cmp) =>
        match Search(ix, cmp)
        case Fail(e) => ([], Some(e))
        case Ok(s) =>
          CollectMatches(s, 0, cmp);
          Collect(s, 0, cmp)
  }

  /** Finder.ParseKeys: nil on an empty index; otherwise what parsing the
      inputs against the key type gave, an incomplete key being no error.
      `parsed` is the record and error the builder returned. */
  function ParseKeys(ix: Index, parsed: (Option<Record>, Option<Error>)): (r: (Option<Record>, Option<Error>))
    ensures ix.empty ==> r == (None, None)
    ensures !ix.empty ==> r.0 == parsed.0 && (r.1.None? <==> parsed.1.None? || parsed.1 == Some(Incomplete))
    ensures !ix.empty && r.1.Some? ==> r.1 == parsed.1
  {
    if ix.empty then (None, None)
    else (parsed.0, if parsed.1 == Some(Incomplete) then None else parsed.1)
  }
}

=== FILE: lineage.dfy ===
/** The read plan of an archive's chunks (archive/lineage/lineage.go).
    Each chunk covers the time span [ts, ts + dur); a chunk written by
    merging others lists them as its ancestors.  The plan sweeps the
    chunks' start and end points in time order and cuts the time line into
    segments, each naming the chunks that cover it; the plan then drops
    from each segment every chunk that another chunk of the segment
    descends from.

    Timestamps are unbounded integers: the int64 arithmetic of ts + dur - 1
    and ts + 1 is not wrapped.  Go's sort.Sort is not stable in general; the
    model sorts stably by timestamp, which decides the order of the ids
    within one timestamp and nothing else. */
module Lineage {
  import opened Wrappers

  type Id = string

  datatype Chunk = Chunk(id: Id, ts: int, dur: int, ancestors: seq<Id>)

  /** A segment of the time line: [ts, ts + dur) and the chunks covering it. */
  datatype Segment = Segment(ids: seq<Id>, ts: int, dur: int)

  // ------------------------------------------------------------ copyExcept

  /** a is a subsequence of b: its elements occur in b in the same order. */
  predicate IsSubseq(a: seq<Id>, b: seq<Id>)
    decreases |b|
  {
    if a == [] then true
    else if b == [] then false
    else if a[0] == b[0] then IsSubseq(a[1..], b[1..])
    else IsSubseq(a, b[1..])
  }

  /** A subsequence of b's tail is a subsequence of b. */
  lemma {:induction false} SubseqSkipHead(a: seq<Id>, b: seq<Id>)
    requires b != [] && IsSubseq(a, b[1..])
    ensures IsSubseq(a, b)
    decreases |b|, |a|
  {
    if a != [] && a[0] == b[0] {
      SubseqDropHead(a, b[1..]);
    }
  }

  /** Dropping the head of a subsequence keeps it one. */
  lemma {:induction false} SubseqDropHead(a: seq<Id>, b: seq<Id>)
    requires a != [] && IsSubseq(a, b)
    ensures IsSubseq(a[1..], b)
    decreases |b|, |a|
  {
    if a[0] != b[0] {
      SubseqDropHead(a, b[1..]);
    }
    SubseqSkipHead(a[1..], b);
  }

  /** copyExcept: the elements of src, in order, that are not in skip. */
  function CopyExcept(src: seq<Id>, skip: seq<Id>): (dst: seq<Id>)
    ensures |dst| <= |src|
  {
    if src == [] then []
    else (if src[0] in skip then [] else [src[0]]) + CopyExcept(src[1..], skip)
  }

  /** The copy is a subsequence of src holding every element of src, as
      many times, except the skipped ones, which it does not hold at all. */
  lemma {:induction false} CopyExceptSound(src: seq<Id>, skip: seq<Id>)
    ensures var dst := CopyExcept(src, skip);
      && IsSubseq(dst, src)
      && (forall x :: x in dst <==> x in src && x !in skip)
      && (forall x :: multiset(dst)[x] == if x in skip then 0 else multiset(src)[x])
  {
    if src != [] {
      var rest := CopyExcept(src[1..], skip);
      CopyExceptSound(src[1..], skip);
      assert src == [src[0]] + src[1..];
      if src[0] in skip {
        assert CopyExcept(src, skip) == rest;
        SubseqSkipHead(rest, src);
      } else {
        assert CopyExcept(src, skip) == [src[0]] + rest;
      }
    }
  }

  /** Copying with nothing to skip is the identity. */
  lemma {:induction false} CopyExceptNone(src: seq<Id>)
    ensures CopyExcept(src, []) == src
  {
    if src != [] {
      CopyExceptNone(src[1..]);
      assert src == [src[0]] + src[1..];
    }
  }

  /** Skipping in two passes is skipping the union in one. */
  lemma {:induction false} CopyExceptTwice(src: seq<Id>, a: seq<Id>, b: seq<Id>)
    ensures CopyExcept(CopyExcept(src, a), b) == CopyExcept(src, a + b)
  {
    if src != [] {
      CopyExceptTwice(src[1..], a, b);
      var h := src[0];
      var rest := CopyExcept(src[1..], a);
      if h in a {
        assert CopyExcept(src, a) == rest;
      } else {
        var once := [h] + rest;
        assert CopyExcept(src, a) == once;
        assert once[0] == h && once[1..] == rest;
      }
    }
  }

  /** The contract of CopyExcept pins its result down: a subsequence of src
      holding as many copies of each element as src does, except none of
      the skipped ones, is the copy. */
  lemma {:induction false} CopyExceptUnique(src: seq<Id>, skip: seq<Id>, dst: seq<Id>)
    requires IsSubseq(dst, src)
    requires forall x :: multiset(dst)[x] == if x in skip then 0 else multiset(src)[x]
    ensures dst == CopyExcept(src, skip)
    decreases |src|
  {
    if src == [] {
      assert |multiset(dst)| == 0;
    } else {
      assert src == [src[0]] + src[1..];
      var h := src[0];
      if dst != [] && dst[0] == h {
        assert dst == [h] + dst[1..];
        CopyExceptUnique(src[1..], skip, dst[1..]);
      } else {
        assert h !in dst by {
          if h in dst {
            SubseqHeadAbsent(dst, src);
          }
        }
        assert multiset(src)[h] >= 1;
        assert h in skip;
        assert IsSubseq(dst, src[1..]);
        CopyExceptUnique(src[1..], skip, dst);
      }
    }
  }

  /** A subsequence of src that does not start with src's head holds fewer
      copies of that head than src does. */
  lemma SubseqHeadAbsent(dst: seq<Id>, src: seq<Id>)
    requires src != [] && IsSubseq(dst, src) && (dst == [] || dst[0] != src[0])
    requires src[0] in dst
    ensures multiset(dst)[src[0]] < multiset(src)[src[0]]
  {
    assert IsSubseq(dst, src[1..]);
    SubseqMultiset(dst, src[1..]);
    assert src == [src[0]] + src[1..];
  }

  /** A subsequence holds no more copies of anything than its sequence. */
  lemma {:induction false} SubseqMultiset(a: seq<Id>, b: seq<Id>)
    requires IsSubseq(a, b)
    ensures forall x :: multiset(a)[x] <= multiset(b)[x]
    decreases |b|
  {
    if a != [] && b != [] {
      assert b == [b[0]] + b[1..];
      if a[0] == b[0] {
        SubseqMultiset(a[1..], b[1..]);
        assert a == [a[0]] + a[1..];
      } else {
        SubseqMultiset(a, b[1..]);
      }
    }
  }

  // ------------------------------------------------------------ boundaries

  /** A start or end point of a chunk's span. */
  datatype Point = Point(id: Id, start: bool, ts: int)

  /** The points of the chunks, in chunk order: each chunk's start at its
      first timestamp and its end at its last, ts + dur - 1. */
  function ChunkPoints(chunks: seq<Chunk>): (ps: seq<Point>)
    ensures |ps| == 2 * |chunks|
    ensures forall k :: 0 <= k < |chunks| ==>
      ps[2 * k] == Point(chunks[k].id, true, chunks[k].ts) &&
      ps[2 * k + 1] == Point(chunks[k].id, false, chunks[k].ts + chunks[k].dur - 1)
  {
    if chunks == [] then []
    else
      var c := chunks[|chunks| - 1];
      ChunkPoints(chunks[..|chunks| - 1]) + [Point(c.id, true, c.ts), Point(c.id, false, c.ts + c.dur - 1)]
  }

  predicate Sorted(ps: seq<Point>)
  {
    forall i, j :: 0 <= i < j < |ps| ==> ps[i].ts <= ps[j].ts
  }

  /** The points at timestamp t, in order. */
  function At(ps: seq<Point>, t: int): (r: seq<Point>)
    ensures forall k :: 0 <= k < |r| ==> r[k].ts == t
  {
    if ps == [] then []
    else (if ps[0].ts == t then [ps[0]] else []) + At(ps[1..], t)
  }

  lemma {:induction false} AtAppend(a: seq<Point>, b: seq<Point>, t: int)
    ensures At(a + b, t) == At(a, t) + At(b, t)
  {
    if a != [] {
      assert (a + b)[0] == a[0] && (a + b)[1..] == a[1..] + b;
      AtAppend(a[1..], b, t);
    } else {
      assert a + b == b;
    }
  }

  /** One step of a stable insertion sort standing in for sort.Sort: p goes
      after every point whose timestamp is not greater. */
  function Insert(sorted: seq<Point>, p: Point): (r: seq<Point>)
    ensures multiset(r) == multiset(sorted) + multiset{p}
    ensures forall x :: x in r <==> x in sorted || x == p
  {
    if sorted == [] || sorted[|sorted| - 1].ts <= p.ts then sorted + [p]
    else
      var init := sorted[..|sorted| - 1];
      assert sorted == init + [sorted[|sorted| - 1]];
      Insert(init, p) + [sorted[|sorted| - 1]]
  }

  lemma {:induction false} InsertSorted(sorted: seq<Point>, p: Point)
    requires Sorted(sorted)
    ensures Sorted(Insert(sorted, p))
  {
    if !(sorted == [] || sorted[|sorted| - 1].ts <= p.ts) {
      var init := sorted[..|sorted| - 1];
      var last := sorted[|sorted| - 1];
      InsertSorted(init, p);
      var r := Insert(sorted, p);
      var ri := Insert(init, p);
      assert r == ri + [last];
      forall i | 0 <= i < |ri| ensures ri[i].ts <= last.ts {
        assert ri[i] in ri;
        if ri[i] != p {
          var k :| 0 <= k < |init| && init[k] == ri[i];
          assert sorted[k] == init[k];
        }
      }
    }
  }

  /** Insertion keeps the points at each timestamp in their order, with p
      after those at its own. */
  lemma {:induction false} InsertAt(sorted: seq<Point>, p: Point, t: int)
    ensures At(Insert(sorted, p), t) == At(sorted, t) + At([p], t)
  {
    if sorted == [] || sorted[|sorted| - 1].ts <= p.ts {
      AtAppend(sorted, [p], t);
    } else {
      var init := sorted[..|sorted| - 1];
      var last := sorted[|sorted| - 1];
      assert sorted == init + [last];
      InsertAt(init, p, t);
      AtAppend(Insert(init, p), [last], t);
      AtAppend(init, [last], t);
    }
  }

  /** sort.Sort by timestamp, modelled as a stable insertion sort of each
      point in turn. */
  function SortPoints(ps: seq<Point>): (r: seq<Point>)
    ensures multiset(r) == multiset(ps)
  {
    if ps == [] then []
    else
      assert ps == ps[..|ps| - 1] + [ps[|ps| - 1]];
      Insert(SortPoints(ps[..|ps| - 1]), ps[|ps| - 1])
  }

  /** The sort orders the points by timestamp, and is stable: the points at
      each timestamp keep their order. */
  lemma {:induction false} SortPointsSound(ps: seq<Point>)
    ensures Sorted(SortPoints(ps))
    ensures forall t :: At(SortPoints(ps), t) == At(ps, t)
  {
    if ps != [] {
      var init := ps[..|ps| - 1];
      var last := ps[|ps| - 1];
      assert ps == init + [last];
      SortPointsSound(init);
      InsertSorted(SortPoints(init), last);
      forall t ensures At(SortPoints(ps), t) == At(ps, t) {
        InsertAt(SortPoints(init), last, t);
        AtAppend(init, [last], t);
      }
    }
  }

  /** The ids of the start points and of the end points, in order. */
  function StartIds(ps: seq<Point>): (ids: seq<Id>)
    ensures |ids| <= |ps|
  {
    if ps == [] then [] else (if ps[0].start then [ps[0].id] else []) + StartIds(ps[1..])
  }

  function EndIds(ps: seq<Point>): (ids: seq<Id>)
    ensures |ids| <= |ps|
  {
    if ps == [] then [] else (if ps[0].start then [] else [ps[0].id]) + EndIds(ps[1..])
  }

  /** The callback's arguments for one timestamp. */
  datatype Group = Group(ts: int, starts: seq<Id>, ends: seq<Id>)

  /** The end of the run of points sharing ps[0]'s timestamp, from j on. */
  function RunEnd(ps: seq<Point>, j: nat): (e: nat)
    requires 0 < j <= |ps|
    ensures j <= e <= |ps|
    ensures forall k :: j <= k < e ==> ps[k].ts == ps[0].ts
    ensures e < |ps| ==> ps[e].ts != ps[0].ts
    decreases |ps| - j
  {
    if j < |ps| && ps[j].ts == ps[0].ts then RunEnd(ps, j + 1) else j
  }

  /** boundaries over sorted points: one group per run of equal timestamps. */
  function Groups(ps: seq<Point>): (gs: seq<Group>)
    ensures |gs| <= |ps|
    decreases |ps|
  {
    if ps == [] then []
    else
      var e := RunEnd(ps, 1);
      [Group(ps[0].ts, StartIds(ps[..e]), EndIds(ps[..e]))] + Groups(ps[e..])
  }

  /** boundaries: the groups of the chunks' points sorted by timestamp. */
  function Boundaries(chunks: seq<Chunk>): seq<Group>
  {
    Groups(SortPoints(ChunkPoints(chunks)))
  }

  /** Strictly increasing timestamps. */
  predicate Increasing(gs: seq<Group>)
  {
    forall i, j :: 0 <= i < j < |gs| ==> gs[i].ts < gs[j].ts
  }

  /** Over sorted points, the groups come in strictly increasing timestamp
      order, from the first point's on, and none of them is empty. */
  lemma {:induction false} GroupsOrdered(ps: seq<Point>)
    requires Sorted(ps)
    ensures var gs := Groups(ps);
      && Increasing(gs)
      && (forall k :: 0 <= k < |gs| ==> |gs[k].starts| + |gs[k].ends| > 0)
      && (forall k :: 0 <= k < |gs| ==> gs[k].ts >= ps[0].ts)
    decreases |ps|
  {
    if ps != [] {
      var e := RunEnd(ps, 1);
      var t := ps[0].ts;
      var run, rest := ps[..e], ps[e..];
      var gs := Groups(ps);
      var tail := Groups(rest);
      assert gs == [Group(t, StartIds(run), EndIds(run))] + tail;
      RestAfter(ps, e);
      GroupsOrdered(rest);
      SplitNonEmpty(run);
      if rest != [] {
        assert rest[0] == ps[e];
      }
      forall k | 0 <= k < |gs|
        ensures gs[k].ts >= t && |gs[k].starts| + |gs[k].ends| > 0
      {
        if k > 0 {
          assert gs[k] == tail[k - 1];
        }
      }
      forall i, j | 0 <= i < j < |gs|
        ensures gs[i].ts < gs[j].ts
      {
        assert gs[j] == tail[j - 1];
        if i > 0 {
          assert gs[i] == tail[i - 1];
        }
      }
    }
  }

  /** Over sorted points, each group holds exactly the starts and the ends
      at its timestamp, in their order. */
  lemma {:induction false} GroupContent(ps: seq<Point>, k: nat)
    requires Sorted(ps) && k < |Groups(ps)|
    ensures var g := Groups(ps)[k];
      g.starts == StartIds(At(ps, g.ts)) && g.ends == EndIds(At(ps, g.ts))
    decreases |ps|
  {
    var e := RunEnd(ps, 1);
    RestAfter(ps, e);
    var rest := ps[e..];
    if k == 0 {
      FirstRunAt(ps, e);
    } else {
      GroupContent(rest, k - 1);
      GroupsOrdered(rest);
      var u := Groups(rest)[k - 1].ts;
      assert u >= rest[0].ts > ps[0].ts;
      LaterRunsAt(ps, e, u);
      assert Groups(ps)[k] == Groups(rest)[k - 1];
    }
  }

  /** The first run of sorted points is all the points at its timestamp. */
  lemma FirstRunAt(ps: seq<Point>, e: nat)
    requires 0 < e <= |ps|
    requires forall k :: 0 <= k < e ==> ps[k].ts == ps[0].ts
    requires forall k :: e <= k < |ps| ==> ps[k].ts > ps[0].ts
    ensures At(ps, ps[0].ts) == ps[..e]
  {
    var t := ps[0].ts;
    var run, rest := ps[..e], ps[e..];
    assert ps == run + rest;
    RunAt(run, t);
    AtNone(rest, t);
    AtAppend(run, rest, t);
    assert At(ps, t) == run + [];
  }

  /** Past the first run, the points at a later timestamp are those of the
      rest. */
  lemma LaterRunsAt(ps: seq<Point>, e: nat, u: int)
    requires ps != [] && e == RunEnd(ps, 1) && u > ps[0].ts
    ensures At(ps, u) == At(ps[e..], u)
  {
    assert ps == ps[..e] + ps[e..];
    AtAppend(ps[..e], ps[e..], u);
    AtNone(ps[..e], u);
  }

  /** After the first run of sorted points, every timestamp is greater. */
  lemma RestAfter(ps: seq<Point>, e: nat)
    requires Sorted(ps) && ps != [] && e == RunEnd(ps, 1)
    ensures forall k :: e <= k < |ps| ==> ps[k].ts > ps[0].ts
    ensures forall k :: 0 <= k < e ==> ps[k].ts == ps[0].ts
    ensures Sorted(ps[e..])
  {
    forall k | e <= k < |ps| ensures ps[k].ts > ps[0].ts {
      assert ps[k].ts >= ps[e].ts;
    }
  }

  /** A run of equal timestamps is all of itself at that timestamp. */
  lemma {:induction false} RunAt(run: seq<Point>, t: int)
    requires forall k :: 0 <= k < |run| ==> run[k].ts == t
    ensures At(run, t) == run
  {
    if run != [] {
      RunAt(run[1..], t);
      assert run == [run[0]] + run[1..];
    }
  }

  /** No point has a timestamp other than its own. */
  lemma {:induction false} AtNone(ps: seq<Point>, u: int)
    requires forall k :: 0 <= k < |ps| ==> ps[k].ts != u
    ensures At(ps, u) == []
  {
    if ps != [] {
      AtNone(ps[1..], u);
    }
  }

  /** Every point is a start or an end. */
  lemma {:induction false} SplitNonEmpty(ps: seq<Point>)
    requires ps != []
    ensures StartIds(ps) + EndIds(ps) != []
  {
  }

  /** Every point's timestamp is the timestamp of a group. */
  lemma {:induction false} GroupOf(ps: seq<Point>, m: nat) returns (k: nat)
    requires m < |ps|
    ensures k < |Groups(ps)| && Groups(ps)[k].ts == ps[m].ts
    decreases |ps|
  {
    var e := RunEnd(ps, 1);
    if m < e {
      k := 0;
    } else {
      var k1 := GroupOf(ps[e..], m - e);
      k := k1 + 1;
      assert Groups(ps)[k] == Groups(ps[e..])[k1];
    }
  }

  lemma {:induction false} StartIdsAppend(a: seq<Point>, b: seq<Point>)
    ensures StartIds(a + b) == StartIds(a) + StartIds(b)
    ensures EndIds(a + b) == EndIds(a) + EndIds(b)
  {
    if a == [] {
      assert a + b == b;
    } else {
      var ab := a + b;
      assert ab[0] == a[0] && ab[1..] == a[1..] + b;
      StartIdsAppend(a[1..], b);
      assert StartIds(ab) == (if a[0].start then [a[0].id] else []) + StartIds(a[1..] + b);
      assert EndIds(ab) == (if a[0].start then [] else [a[0].id]) + EndIds(a[1..] + b);
    }
  }

  /** The ids of the chunks whose span starts at t, in chunk order. */
  function StartingAt(chunks: seq<Chunk>, t: int): seq<Id>
  {
    if chunks == [] then []
    else
      var c := chunks[|chunks| - 1];
      StartingAt(chunks[..|chunks| - 1], t) + (if c.ts == t then [c.id] else [])
  }

  /** The ids of the chunks whose span ends at t (its last timestamp), in
      chunk order. */
  function EndingAt(chunks: seq<Chunk>, t: int): seq<Id>
  {
    if chunks == [] then []
    else
      var c := chunks[|chunks| - 1];
      EndingAt(chunks[..|chunks| - 1], t) + (if c.ts + c.dur - 1 == t then [c.id] else [])
  }

  /** Among the chunks' points, the starts at t are the chunks starting at
      t, and the ends at t the chunks ending at t. */
  lemma {:induction false} PointsAt(chunks: seq<Chunk>, t: int)
    ensures StartIds(At(ChunkPoints(chunks), t)) == StartingAt(chunks, t)
    ensures EndIds(At(ChunkPoints(chunks), t)) == EndingAt(chunks, t)
  {
    if chunks != [] {
      var init := chunks[..|chunks| - 1];
      var c := chunks[|chunks| - 1];
      var two := [Point(c.id, true, c.ts), Point(c.id, false, c.ts + c.dur - 1)];
      assert ChunkPoints(chunks) == ChunkPoints(init) + two;
      PointsAt(init, t);
      AtAppend(ChunkPoints(init), two, t);
      StartIdsAppend(At(ChunkPoints(init), t), At(two, t));
      ChunkPointsAt(c, t);
    }
  }

  /** The two points of one chunk, at t. */
  lemma ChunkPointsAt(c: Chunk, t: int)
    ensures var two := [Point(c.id, true, c.ts), Point(c.id, false, c.ts + c.dur - 1)];
      && StartIds(At(two, t)) == (if c.ts == t then [c.id] else [])
      && EndIds(At(two, t)) == (if c.ts + c.dur - 1 == t then [c.id] else [])
  {
    var two := [Point(c.id, true, c.ts), Point(c.id, false, c.ts + c.dur - 1)];
    assert two[1..] == [two[1]] && two[1..][1..] == [];
    var s := if c.ts == t then [two[0]] else [];
    var e := if c.ts + c.dur - 1 == t then [two[1]] else [];
    assert At([two[1]], t) == e by { assert [two[1]][1..] == []; }
    assert At(two, t) == s + At(two[1..], t);
    StartIdsAppend(s, e);
  }

  /** boundaries calls back once per distinct timestamp of the chunks'
      points, in increasing order, with the ids of the chunks starting and
      ending there. */
  lemma BoundariesSound(chunks: seq<Chunk>)
    ensures var gs := Boundaries(chunks);
      && Increasing(gs)
      && (forall k :: 0 <= k < |gs| ==>
            gs[k].starts == StartingAt(chunks, gs[k].ts) && gs[k].ends == EndingAt(chunks, gs[k].ts))
  {
    var ps := SortPoints(ChunkPoints(chunks));
    SortPointsSound(ChunkPoints(chunks));
    GroupsOrdered(ps);
    var gs := Groups(ps);
    forall k | 0 <= k < |gs|
      ensures gs[k].starts == StartingAt(chunks, gs[k].ts) && gs[k].ends == EndingAt(chunks, gs[k].ts)
    {
      GroupContent(ps, k);
      PointsAt(chunks, gs[k].ts);
    }
  }

  /** Conversely, every chunk's start and end timestamps are those of a
      group. */
  lemma BoundariesCover(chunks: seq<Chunk>, i: nat) returns (ks: nat, ke: nat)
    requires i < |chunks|
    ensures var gs := Boundaries(chunks);
      ks < |gs| && gs[ks].ts == chunks[i].ts && ke < |gs| && gs[ke].ts == chunks[i].ts + chunks[i].dur - 1
  {
    var cp := ChunkPoints(chunks);
    var ps := SortPoints(cp);
    assert cp[2 * i] in multiset(ps) && cp[2 * i + 1] in multiset(ps);
    var ms :| 0 <= ms < |ps| && ps[ms] == cp[2 * i];
    var me :| 0 <= me < |ps| && ps[me] == cp[2 * i + 1];
    ks := GroupOf(ps, ms);
    ke := GroupOf(ps, me);
  }

  // ------------------------------------------------------------ calcSegs

  /** The sweep's state: the ids of the open chunks, where the open segment
      starts, and the segments emitted so far. */
  datatype Sweep = Sweep(segIds: seq<Id>, segStart: int, segs: seq<Segment>)

  /** Whether the first branch closes the open segment before adding the
      ids that start.  As written it closes any open segment, even the empty
      [ts, ts) left when ids start right after others end; corrected, an
      empty segment is not emitted. */
  predicate Closes(st: Sweep, g: Group, v: Variant)
  {
    st.segIds != [] && (v == AsWritten || st.segStart < g.ts)
  }

  /** The callback's first branch: ids start at g.ts.  The open segment
      [segStart, ts) is closed, the starting ids join the open ones, and the
      next segment starts at ts. */
  function OnStart(st: Sweep, g: Group, v: Variant): (r: Sweep)
    ensures g.starts == [] ==> r == st
    ensures g.starts != [] ==> r.segIds == st.segIds + g.starts && r.segStart == g.ts
    ensures g.starts != [] && Closes(st, g, v) ==>
      r.segs == st.segs + [Segment(st.segIds, st.segStart, g.ts - st.segStart)]
    ensures g.starts != [] && !Closes(st, g, v) ==> r.segs == st.segs
  {
    if g.starts == [] then st
    else if Closes(st, g, v) then
      CopyExceptNone(st.segIds);
      Sweep(st.segIds + g.starts, g.ts, st.segs + [Segment(CopyExcept(st.segIds, []), st.segStart, g.ts - st.segStart)])
    else Sweep(st.segIds + g.starts, g.ts, st.segs)
  }

  /** The callback's second branch: ids end at g.ts.  The segment
      [segStart, ts] is emitted with every open id, the ending ids are no
      longer open, and the next segment starts at ts + 1. */
  function OnEnd(st: Sweep, g: Group): (r: Sweep)
    ensures g.ends == [] ==> r == st
    ensures g.ends != [] ==>
      && r.segs == st.segs + [Segment(st.segIds, st.segStart, g.ts - st.segStart + 1)]
      && r.segStart == g.ts + 1
      && (forall x :: x in r.segIds <==> x in st.segIds && x !in g.ends)
      && IsSubseq(r.segIds, st.segIds)
  {
    if g.ends == [] then st
    else
      CopyExceptNone(st.segIds);
      CopyExceptSound(st.segIds, g.ends);
      Sweep(CopyExcept(st.segIds, g.ends), g.ts + 1,
            st.segs + [Segment(CopyExcept(st.segIds, []), st.segStart, g.ts - st.segStart + 1)])
  }

  /** One call of the callback. */
  function Step(st: Sweep, g: Group, v: Variant): Sweep
  {
    OnEnd(OnStart(st, g, v), g)
  }

  /** The callback over a sequence of groups. */
  function SweepAll(gs: seq<Group>, st: Sweep, v: Variant): (r: Sweep)
    ensures gs == [] ==> r == st
    decreases |gs|
  {
    if gs == [] then st else SweepAll(gs[1..], Step(st, gs[0], v), v)
  }

  /** calcSegs: the sweep over the chunks' boundaries, from no open ids and
      Go's zero timestamp. */
  function CalcSegs(chunks: seq<Chunk>, v: Variant): seq<Segment>
  {
    SweepAll(Boundaries(chunks), Sweep([], 0, []), v).segs
  }

  /** The least duration of a segment: as written an emitted segment can be
      empty; corrected, every segment covers at least one timestamp. */
  function MinDur(v: Variant): int
  {
    if v == AsWritten then 0 else 1
  }

  /** Segments that follow each other without overlapping, each at least
      `least` long, all ending by `upTo`. */
  predicate Tiled(segs: seq<Segment>, upTo: int, least: int)
  {
    && (forall k :: 0 <= k < |segs| ==> segs[k].dur >= least)
    && (forall k :: 0 <= k < |segs| - 1 ==> segs[k].ts + segs[k].dur <= segs[k + 1].ts)
    && (segs != [] ==> segs[|segs| - 1].ts + segs[|segs| - 1].dur <= upTo)
  }

  /** A segment starting where the tiling ends, and long enough, extends
      it. */
  lemma TiledSnoc(segs: seq<Segment>, upTo: int, least: int, seg: Segment)
    requires Tiled(segs, upTo, least) && upTo <= seg.ts && seg.dur >= least
    ensures Tiled(segs + [seg], seg.ts + seg.dur, least)
  {
    var r := segs + [seg];
    forall k | 0 <= k < |r| - 1 ensures r[k].ts + r[k].dur <= r[k + 1].ts {
      if k < |segs| - 1 {
        assert r[k] == segs[k] && r[k + 1] == segs[k + 1];
      } else {
        assert r[k] == segs[|segs| - 1] && r[k + 1] == seg;
      }
    }
  }

  lemma OnStartTiled(st: Sweep, g: Group, v: Variant)
    requires Tiled(st.segs, st.segStart, MinDur(v)) && st.segStart <= g.ts
    ensures var r := OnStart(st, g, v);
      Tiled(r.segs, r.segStart, MinDur(v)) && st.segStart <= r.segStart <= g.ts && st.segs <= r.segs
  {
    if g.starts != [] && Closes(st, g, v) {
      TiledSnoc(st.segs, st.segStart, MinDur(v), Segment(st.segIds, st.segStart, g.ts - st.segStart));
    }
  }

  lemma OnEndTiled(st: Sweep, g: Group, v: Variant)
    requires Tiled(st.segs, st.segStart, MinDur(v)) && st.segStart <= g.ts
    ensures var r := OnEnd(st, g);
      Tiled(r.segs, r.segStart, MinDur(v)) && r.segStart <= g.ts + 1 && st.segs <= r.segs
  {
    if g.ends != [] {
      TiledSnoc(st.segs, st.segStart, MinDur(v), Segment(st.segIds, st.segStart, g.ts - st.segStart + 1));
    }
  }

  /** One callback keeps the segments tiled, up to where the next segment
      starts, when the open segment does not start after the group. */
  lemma StepTiled(st: Sweep, g: Group, v: Variant)
    requires Tiled(st.segs, st.segStart, MinDur(v)) && st.segStart <= g.ts
    ensures var r := Step(st, g, v);
      Tiled(r.segs, r.segStart, MinDur(v)) && r.segStart <= g.ts + 1 && st.segs <= r.segs
  {
    OnStartTiled(st, g, v);
    OnEndTiled(OnStart(st, g, v), g, v);
  }

  /** Over groups in strictly increasing timestamp order, the sweep only
      appends segments, and they follow each other without overlapping. */
  lemma {:induction false} SweepTiled(gs: seq<Group>, st: Sweep, v: Variant)
    requires Increasing(gs) && Tiled(st.segs, st.segStart, MinDur(v))
    requires gs != [] ==> st.segStart <= gs[0].ts
    ensures var r := SweepAll(gs, st, v);
      Tiled(r.segs, r.segStart, MinDur(v)) && st.segs <= r.segs
    decreases |gs|
  {
    if gs != [] {
      StepTiled(st, gs[0], v);
      SweepTiled(gs[1..], Step(st, gs[0], v), v);
    }
  }

  /** calcSegs over chunks that start at or after time zero and last at
      least one tick cuts the time line into segments that follow each
      other without overlapping; corrected, none of them is empty. */
  lemma CalcSegsTiled(chunks: seq<Chunk>, v: Variant)
    requires forall k :: 0 <= k < |chunks| ==> chunks[k].ts >= 0 && chunks[k].dur >= 1
    ensures var segs := CalcSegs(chunks, v);
      && (forall k :: 0 <= k < |segs| ==> segs[k].dur >= MinDur(v))
      && (forall k :: 0 <= k < |segs| - 1 ==> segs[k].ts + segs[k].dur <= segs[k + 1].ts)
  {
    var cp := ChunkPoints(chunks);
    var ps := SortPoints(cp);
    SortPointsSound(cp);
    GroupsOrdered(ps);
    var gs := Groups(ps);
    if gs != [] {
      NonNegativePoints(chunks);
      assert ps[0] in multiset(cp);
    }
    SweepTiled(gs, Sweep([], 0, []), v);
  }

  /** Chunks starting at or after zero and lasting at least one tick have
      their points at or after zero. */
  lemma NonNegativePoints(chunks: seq<Chunk>)
    requires forall k :: 0 <= k < |chunks| ==> chunks[k].ts >= 0 && chunks[k].dur >= 1
    ensures forall m :: 0 <= m < |ChunkPoints(chunks)| ==> ChunkPoints(chunks)[m].ts >= 0
  {
    var cp := ChunkPoints(chunks);
    forall m | 0 <= m < |cp| ensures cp[m].ts >= 0 {
      var k := m / 2;
      assert k < |chunks|;
      if m == 2 * k {
        assert cp[2 * k].ts == chunks[k].ts;
      } else {
        assert m == 2 * k + 1;
        assert cp[2 * k + 1].ts == chunks[k].ts + chunks[k].dur - 1;
      }
    }
  }

  // ------------------------------------------------------------ ReadPlan

  /** The ids of the chunks, in order. */
  function IdsOf(chunks: seq<Chunk>): (ids: seq<Id>)
    ensures |ids| == |chunks| && forall k :: 0 <= k < |chunks| ==> ids[k] == chunks[k].id
  {
    seq(|chunks|, k requires 0 <= k < |chunks| => chunks[k].id)
  }

  /** The map ReadPlan builds from id to chunk, keeping for each id the
      ancestors of the last chunk with that id. */
  function AncestorMap(chunks: seq<Chunk>): (m: map<Id, seq<Id>>)
    ensures forall id :: id in m <==> id in IdsOf(chunks)
  {
    if chunks == [] then map[]
    else
      var n := |chunks| - 1;
      var m0 := AncestorMap(chunks[..n]);
      assert IdsOf(chunks) == IdsOf(chunks[..n]) + [chunks[n].id];
      m0[chunks[n].id := chunks[n].ancestors]
  }

  /** A later chunk with the same id replaces an earlier one: the map holds
      the ancestors of the last chunk with each id. */
  lemma {:induction false} AncestorMapLast(chunks: seq<Chunk>, k: nat)
    requires k < |chunks| && forall j :: k < j < |chunks| ==> chunks[j].id != chunks[k].id
    ensures AncestorMap(chunks)[chunks[k].id] == chunks[k].ancestors
  {
    var n := |chunks| - 1;
    if k < n {
      var init := chunks[..n];
      assert init[k] == chunks[k];
      assert forall j :: k < j < |init| ==> init[j].id != init[k].id;
      AncestorMapLast(init, k);
      var m0 := AncestorMap(init);
      assert AncestorMap(chunks) == m0[chunks[n].id := chunks[n].ancestors];
      assert chunks[n].id != chunks[k].id;
    }
  }

  /** The ancestors of a segment's ids, concatenated; an id with no chunk
      has none (the zero Chunk). */
  function SegAncestors(m: map<Id, seq<Id>>, ids: seq<Id>): (r: seq<Id>)
    ensures forall x :: x in r <==> exists a :: a in ids && a in m && x in m[a]
  {
    if ids == [] then []
    else
      var rest := SegAncestors(m, ids[1..]);
      assert forall a :: a in ids <==> a == ids[0] || a in ids[1..];
      (if ids[0] in m then m[ids[0]] else []) + rest
  }

  /** A segment with every ancestor of one of its ids dropped. */
  function Prune(m: map<Id, seq<Id>>, seg: Segment): Segment
  {
    Segment(CopyExcept(seg.ids, SegAncestors(m, seg.ids)), seg.ts, seg.dur)
  }

  /** ReadPlan: the segments of calcSegs, each without the ids that are
      ancestors of an id of the same segment. */
  function ReadPlan(chunks: seq<Chunk>, v: Variant): (plan: seq<Segment>)
    ensures var segs := CalcSegs(chunks, v);
      && |plan| == |segs|
      && forall k :: 0 <= k < |plan| ==> plan[k] == Prune(AncestorMap(chunks), segs[k])
  {
    var m := AncestorMap(chunks);
    var segs := CalcSegs(chunks, v);
    seq(|segs|, k requires 0 <= k < |segs| => Prune(m, segs[k]))
  }

  /** Pruning keeps a segment's time span, and keeps an id, in order,
      exactly when it is in the segment and is no ancestor of an id of the
      segment. */
  lemma PruneSound(m: map<Id, seq<Id>>, seg: Segment, x: Id)
    ensures var p := Prune(m, seg);
      && p.ts == seg.ts && p.dur == seg.dur && IsSubseq(p.ids, seg.ids)
      && (x in p.ids <==> x in seg.ids && !exists a :: a in seg.ids && a in m && x in m[a])
  {
    CopyExceptSound(seg.ids, SegAncestors(m, seg.ids));
  }

  /** The last chunk with a given id. */
  lemma {:induction false} LastWithId(chunks: seq<Chunk>, a: Id) returns (j: nat)
    requires a in IdsOf(chunks)
    ensures j < |chunks| && chunks[j].id == a
    ensures forall i :: j < i < |chunks| ==> chunks[i].id != a
    decreases |chunks|
  {
    var n := |chunks| - 1;
    if chunks[n].id == a {
      j := n;
    } else {
      assert IdsOf(chunks) == IdsOf(chunks[..n]) + [chunks[n].id];
      j := LastWithId(chunks[..n], a);
    }
  }

  /** x is an ancestor of an id of `ids`, by the last chunk with that id. */
  predicate AncestorOf(chunks: seq<Chunk>, ids: seq<Id>, x: Id)
  {
    exists j :: 0 <= j < |chunks| && chunks[j].id in ids && x in chunks[j].ancestors &&
      forall i :: j < i < |chunks| ==> chunks[i].id != chunks[j].id
  }

  /** What ReadPlan promises of each of its entries: the span of the
      calcSegs segment, and, in order, exactly the segment's ids that are no
      ancestor of an id of the same segment. */
  lemma ReadPlanSound(chunks: seq<Chunk>, v: Variant, k: nat, x: Id)
    ensures var plan, segs := ReadPlan(chunks, v), CalcSegs(chunks, v);
      k < |plan| ==>
        && plan[k].ts == segs[k].ts && plan[k].dur == segs[k].dur
        && IsSubseq(plan[k].ids, segs[k].ids)
        && (x in plan[k].ids <==> x in segs[k].ids && !AncestorOf(chunks, segs[k].ids, x))
  {
    var plan, segs := ReadPlan(chunks, v), CalcSegs(chunks, v);
    if k < |plan| {
      var m := AncestorMap(chunks);
      var seg := segs[k];
      PruneSound(m, seg, x);
      if exists a :: a in seg.ids && a in m && x in m[a] {
        var a :| a in seg.ids && a in m && x in m[a];
        var j := LastWithId(chunks, a);
        AncestorMapLast(chunks, j);
        assert AncestorOf(chunks, seg.ids, x);
      }
      if AncestorOf(chunks, seg.ids, x) {
        var j :| 0 <= j < |chunks| && chunks[j].id in seg.ids && x in chunks[j].ancestors &&
          forall i :: j < i < |chunks| ==> chunks[i].id != chunks[j].id;
        AncestorMapLast(chunks, j);
        assert IdsOf(chunks)[j] == chunks[j].id;
        assert chunks[j].id in m;
      }
    }
  }

  // ------------------------------------------------------------ examples

  /** The first group of points whose first run ends at e. */
  lemma GroupsCons(ps: seq<Point>, e: nat)
    requires 0 < e <= |ps|
    requires forall k :: 0 < k < e ==> ps[k].ts == ps[0].ts
    requires e < |ps| ==> ps[e].ts != ps[0].ts
    ensures Groups(ps) == [Group(ps[0].ts, StartIds(ps[..e]), EndIds(ps[..e]))] + Groups(ps[e..])
  {
    RunEndIs(ps, 1, e);
  }

  lemma {:induction false} RunEndIs(ps: seq<Point>, j: nat, e: nat)
    requires 0 < j <= e <= |ps|
    requires forall k :: j <= k < e ==> ps[k].ts == ps[0].ts
    requires e < |ps| ==> ps[e].ts != ps[0].ts
    ensures RunEnd(ps, j) == e
    decreases e - j
  {
    if j < e {
      RunEndIs(ps, j + 1, e);
    }
  }

  lemma OnePoint(p: Point)
    ensures StartIds([p]) == (if p.start then [p.id] else [])
    ensures EndIds([p]) == (if p.start then [] else [p.id])
  {
    assert [p][1..] == [];
  }

  lemma TwoPoints(p: Point, q: Point)
    ensures StartIds([p, q]) == StartIds([p]) + StartIds([q])
    ensures EndIds([p, q]) == EndIds([p]) + EndIds([q])
  {
    StartIdsAppend([p], [q]);
    assert [p] + [q] == [p, q];
  }

  /** No chunks, no segments. */
  lemma NoChunksNoSegments(v: Variant)
    ensures CalcSegs([], v) == [] && ReadPlan([], v) == []
  {
  }

  /** Points already in timestamp order are left as they are. */
  lemma {:induction false} SortSorted(ps: seq<Point>)
    requires Sorted(ps)
    ensures SortPoints(ps) == ps
  {
    if ps != [] {
      var init := ps[..|ps| - 1];
      SortSorted(init);
      assert ps == init + [ps[|ps| - 1]];
    }
  }

  /** a over [0, 2) and b over [1, 3): a alone, both, b alone. */
  lemma OverlappingPair(a: Id, b: Id, v: Variant)
    requires a != b
    ensures CalcSegs([Chunk(a, 0, 2, []), Chunk(b, 1, 2, [])], v) ==
      [Segment([a], 0, 1), Segment([a, b], 1, 1), Segment([b], 2, 1)]
  {
    var chunks := [Chunk(a, 0, 2, []), Chunk(b, 1, 2, [])];
    var ps := [Point(a, true, 0), Point(a, false, 1), Point(b, true, 1), Point(b, false, 2)];
    assert ChunkPoints(chunks[..1]) == ps[..2];
    assert ChunkPoints(chunks) == ps;
    SortSorted(ps);
    var gs := [Group(0, [a], []), Group(1, [b], [a]), Group(2, [], [b])];
    PairGroups(ps, a, b);
    PairSweep(gs, a, b, v);
  }

  lemma PairGroups(ps: seq<Point>, a: Id, b: Id)
    requires ps == [Point(a, true, 0), Point(a, false, 1), Point(b, true, 1), Point(b, false, 2)]
    ensures Groups(ps) == [Group(0, [a], []), Group(1, [b], [a]), Group(2, [], [b])]
  {
    var q := ps[1..];
    assert q == [Point(a, false, 1), Point(b, true, 1), Point(b, false, 2)];
    PairTail(q, a, b);
    assert ps[..1] == [ps[0]];
    GroupsCons(ps, 1);
    OnePoint(ps[0]);
  }

  lemma PairTail(q: seq<Point>, a: Id, b: Id)
    requires q == [Point(a, false, 1), Point(b, true, 1), Point(b, false, 2)]
    ensures Groups(q) == [Group(1, [b], [a]), Group(2, [], [b])]
  {
    var r := [q[2]];
    assert q[..2] == [q[0], q[1]] && q[2..] == r;
    LastPoint(r, b);
    GroupsCons(q, 2);
    PairMiddle(q[0], q[1], a, b);
  }

  lemma LastPoint(r: seq<Point>, b: Id)
    requires r == [Point(b, false, 2)]
    ensures Groups(r) == [Group(2, [], [b])]
  {
    assert r[1..] == [] && r[..1] == r;
    GroupsCons(r, 1);
    OnePoint(r[0]);
  }

  lemma PairMiddle(p: Point, q: Point, a: Id, b: Id)
    requires p == Point(a, false, 1) && q == Point(b, true, 1)
    ensures StartIds([p, q]) == [b] && EndIds([p, q]) == [a]
  {
    OnePoint(p);
    OnePoint(q);
    TwoPoints(p, q);
  }

  lemma PairSweep(gs: seq<Group>, a: Id, b: Id, v: Variant)
    requires a != b
    requires gs == [Group(0, [a], []), Group(1, [b], [a]), Group(2, [], [b])]
    ensures SweepAll(gs, Sweep([], 0, []), v).segs == [Segment([a], 0, 1), Segment([a, b], 1, 1), Segment([b], 2, 1)]
  {
    var st1 := Sweep([a], 0, []);
    var st2 := Sweep([b], 2, [Segment([a], 0, 1), Segment([a, b], 1, 1)]);
    var st3 := Sweep([], 3, [Segment([a], 0, 1), Segment([a, b], 1, 1), Segment([b], 2, 1)]);
    PairStep1(a, v);
    PairStep2(a, b, v);
    PairStep3(a, b, v);
    assert SweepAll(gs, Sweep([], 0, []), v) == SweepAll(gs[1..], st1, v);
    assert SweepAll(gs[1..], st1, v) == SweepAll(gs[2..], st2, v);
    assert SweepAll(gs[2..], st2, v) == st3;
  }

  lemma PairStep1(a: Id, v: Variant)
    ensures Step(Sweep([], 0, []), Group(0, [a], []), v) == Sweep([a], 0, [])
  {
  }

  lemma PairStep2(a: Id, b: Id, v: Variant)
    requires a != b
    ensures Step(Sweep([a], 0, []), Group(1, [b], [a]), v) == Sweep([b], 2, [Segment([a], 0, 1), Segment([a, b], 1, 1)])
  {
    assert OnStart(Sweep([a], 0, []), Group(1, [b], [a]), v) == Sweep([a, b], 1, [Segment([a], 0, 1)]);
    assert CopyExcept([a, b], [a]) == [b] by {
      assert [a, b][1..] == [b] && [b][1..] == [];
    }
  }

  lemma PairStep3(a: Id, b: Id, v: Variant)
    ensures Step(Sweep([b], 2, [Segment([a], 0, 1), Segment([a, b], 1, 1)]), Group(2, [], [b]), v) ==
      Sweep([], 3, [Segment([a], 0, 1), Segment([a, b], 1, 1), Segment([b], 2, 1)])
  {
    assert CopyExcept([b], [b]) == [] by {
      assert [b][1..] == [];
    }
  }

  lemma ThreePoints(p: Point, q: Point, r: Point)
    ensures StartIds([p, q, r]) == StartIds([p]) + StartIds([q]) + StartIds([r])
    ensures EndIds([p, q, r]) == EndIds([p]) + EndIds([q]) + EndIds([r])
  {
    StartIdsAppend([p], [q, r]);
    TwoPoints(q, r);
    assert [p] + [q, r] == [p, q, r];
  }

  /** The chunks of the zero-length segment: a over [0, 1), b over [0, 2),
      c over [1, 2).  Their points are already in timestamp order. */
  function EndThenStart(a: Id, b: Id, c: Id): seq<Chunk>
  {
    [Chunk(a, 0, 1, []), Chunk(b, 0, 2, []), Chunk(c, 1, 1, [])]
  }

  lemma EndThenStartGroups(a: Id, b: Id, c: Id)
    ensures Boundaries(EndThenStart(a, b, c)) == [Group(0, [a, b], [a]), Group(1, [c], [b, c])]
  {
    var ps := [Point(a, true, 0), Point(a, false, 0), Point(b, true, 0), Point(b, false, 1), Point(c, true, 1), Point(c, false, 1)];
    EndThenStartPoints(a, b, c, ps);
    SortSorted(ps);
    EndThenStartRuns(a, b, c, ps);
  }

  lemma EndThenStartPoints(a: Id, b: Id, c: Id, ps: seq<Point>)
    requires ps == [Point(a, true, 0), Point(a, false, 0), Point(b, true, 0), Point(b, false, 1), Point(c, true, 1), Point(c, false, 1)]
    ensures ChunkPoints(EndThenStart(a, b, c)) == ps && Sorted(ps)
  {
    var chunks := EndThenStart(a, b, c);
    assert ChunkPoints(chunks[..1]) == ps[..2];
    assert ChunkPoints(chunks[..2]) == ps[..4];
  }

  lemma EndThenStartRuns(a: Id, b: Id, c: Id, ps: seq<Point>)
    requires ps == [Point(a, true, 0), Point(a, false, 0), Point(b, true, 0), Point(b, false, 1), Point(c, true, 1), Point(c, false, 1)]
    ensures Groups(ps) == [Group(0, [a, b], [a]), Group(1, [c], [b, c])]
  {
    var q := ps[3..];
    assert ps[..3] == [ps[0], ps[1], ps[2]] && q == [ps[3], ps[4], ps[5]];
    LastRun(b, c, q);
    GroupsCons(ps, 3);
    FirstRun(ps[0], ps[1], ps[2], a, b);
  }

  lemma FirstRun(p: Point, q: Point, r: Point, a: Id, b: Id)
    requires p == Point(a, true, 0) && q == Point(a, false, 0) && r == Point(b, true, 0)
    ensures StartIds([p, q, r]) == [a, b] && EndIds([p, q, r]) == [a]
  {
    OnePoint(p);
    OnePoint(q);
    OnePoint(r);
    ThreePoints(p, q, r);
  }

  lemma LastRun(b: Id, c: Id, q: seq<Point>)
    requires q == [Point(b, false, 1), Point(c, true, 1), Point(c, false, 1)]
    ensures Groups(q) == [Group(1, [c], [b, c])]
  {
    assert q[3..] == [] && q[..3] == q;
    GroupsCons(q, 3);
    OnePoint(q[0]);
    OnePoint(q[1]);
    OnePoint(q[2]);
    ThreePoints(q[0], q[1], q[2]);
    assert StartIds(q) == [c] && EndIds(q) == [b, c];
    assert Groups(q[3..]) == [];
  }

  lemma EndThenStartStep1(a: Id, b: Id, v: Variant)
    requires a != b
    ensures Step(Sweep([], 0, []), Group(0, [a, b], [a]), v) == Sweep([b], 1, [Segment([a, b], 0, 1)])
  {
    assert OnStart(Sweep([], 0, []), Group(0, [a, b], [a]), v) == Sweep([a, b], 0, []);
    assert CopyExcept([a, b], [a]) == [b] by {
      assert [a, b][1..] == [b] && [b][1..] == [];
    }
  }

  lemma EndThenStartStep2(a: Id, b: Id, c: Id, v: Variant)
    requires b != c
    ensures Step(Sweep([b], 1, [Segment([a, b], 0, 1)]), Group(1, [c], [b, c]), v) ==
      Sweep([], 2, [Segment([a, b], 0, 1)] + (if v == AsWritten then [Segment([b], 1, 0)] else []) + [Segment([b, c], 1, 1)])
  {
    var st := Sweep([b], 1, [Segment([a, b], 0, 1)]);
    var g := Group(1, [c], [b, c]);
    assert OnStart(st, g, v) == Sweep([b, c], 1, [Segment([a, b], 0, 1)] + (if v == AsWritten then [Segment([b], 1, 0)] else []));
    assert CopyExcept([b, c], [b, c]) == [] by {
      assert [b, c][1..] == [c] && [c][1..] == [];
    }
  }

  /** As written, ids starting right after others end, while some are still
      open, close an empty segment: c starts at 1, where the segment after
      a's end also starts, and [b] is emitted over [1, 1). */
  lemma EmptySegmentAsWritten(a: Id, b: Id, c: Id)
    requires a != b && b != c
    ensures CalcSegs(EndThenStart(a, b, c), AsWritten) ==
      [Segment([a, b], 0, 1), Segment([b], 1, 0), Segment([b, c], 1, 1)]
  {
    EndThenStartSweep(a, b, c, AsWritten);
  }

  /** Corrected, the same chunks give two segments, both non-empty. */
  lemma EmptySegmentCorrected(a: Id, b: Id, c: Id)
    requires a != b && b != c
    ensures CalcSegs(EndThenStart(a, b, c), Corrected) == [Segment([a, b], 0, 1), Segment([b, c], 1, 1)]
  {
    EndThenStartSweep(a, b, c, Corrected);
  }

  lemma EndThenStartSweep(a: Id, b: Id, c: Id, v: Variant)
    requires a != b && b != c
    ensures CalcSegs(EndThenStart(a, b, c), v) ==
      [Segment([a, b], 0, 1)] + (if v == AsWritten then [Segment([b], 1, 0)] else []) + [Segment([b, c], 1, 1)]
  {
    var gs := [Group(0, [a, b], [a]), Group(1, [c], [b, c])];
    EndThenStartGroups(a, b, c);
    EndThenStartStep1(a, b, v);
    EndThenStartStep2(a, b, c, v);
    var st1 := Sweep([b], 1, [Segment([a, b], 0, 1)]);
    assert SweepAll(gs, Sweep([], 0, []), v) == SweepAll(gs[1..], st1, v);
    assert gs[1..][1..] == [];
  }
}

=== FILE: presence.dfy ===
/** The presence column of a record field (zst/column/presence.go): a
    run-length encoding of which rows hold a value and which are unset.
    Runs alternate, starting with a run of values, so a field whose first
    row is unset begins with a run of length 0; no later run is empty.

    RunList and Expand are reference definitions of that encoding; the
    writer and the reader are related to them. */
module Presence {
  import opened Wrappers
  import opened Errors
  import opened Zcode
  import opened Segmap
  import opened Primitive

  type Int32 = x: int | MinInt32 <= x <= MaxInt32

  // --------------------------------------------------------- the encoding

  /** `n` copies of `flag`. */
  function Repeat(flag: bool, n: int): (r: seq<bool>)
    ensures |r| == if n > 0 then n else 0
    ensures forall i :: 0 <= i < |r| ==> r[i] == flag
    decreases n
  {
    if n <= 0 then [] else [flag] + Repeat(flag, n - 1)
  }

  /** The flags of alternating runs, the first one of kind `flag`. */
  function ExpandFrom(runs: seq<int>, flag: bool): seq<bool>
    decreases |runs|
  {
    if |runs| == 0 then [] else Repeat(flag, runs[0]) + ExpandFrom(runs[1..], !flag)
  }

  /** The flags a run list stands for: true is a value, false is unset. */
  function Expand(runs: seq<int>): seq<bool>
  {
    ExpandFrom(runs, true)
  }

  /** Whether the last run of a list counts values (runs alternate from a
      value run at index 0). */
  predicate LastIsValue(runs: seq<int>)
  {
    |runs| % 2 == 1
  }

  /** One more flag: the last run grows when the flag is of its kind, and a
      new run of 1 starts otherwise. */
  function RunStep(rs: seq<int>, t: bool): (rs1: seq<int>)
    requires |rs| > 0
    ensures |rs1| > 0
  {
    if t == LastIsValue(rs) then rs[..|rs| - 1] + [rs[|rs| - 1] + 1] else rs + [1]
  }

  /** The reference run list of a flag sequence: maximal runs, alternating,
      the first counting values (so 0 when the sequence starts unset). */
  function RunList(ts: seq<bool>): (rs: seq<int>)
    ensures |rs| > 0
    ensures forall i :: 1 <= i < |rs| ==> rs[i] >= 1
    ensures rs[0] >= 0
    decreases |ts|
  {
    if |ts| == 0 then [0] else RunStep(RunList(ts[..|ts| - 1]), ts[|ts| - 1])
  }

  lemma {:induction false} ExpandFromAppend(a: seq<int>, b: seq<int>, flag: bool)
    ensures ExpandFrom(a + b, flag) ==
      ExpandFrom(a, flag) + ExpandFrom(b, if |a| % 2 == 0 then flag else !flag)
    decreases |a|
  {
    if |a| == 0 {
      assert a + b == b;
    } else {
      assert (a + b)[1..] == a[1..] + b;
      ExpandFromAppend(a[1..], b, !flag);
    }
  }

  lemma RepeatSnoc(flag: bool, n: nat)
    ensures Repeat(flag, n + 1) == Repeat(flag, n) + [flag]
  {
  }

  lemma ExpandSingle(n: int, flag: bool)
    ensures ExpandFrom([n], flag) == Repeat(flag, n)
  {
    assert [n][1..] == [];
    assert Repeat(flag, n) + [] == Repeat(flag, n);
  }

  /** A step of the run list adds exactly its flag to the expansion. */
  lemma ExpandRunStep(rs: seq<int>, t: bool)
    requires |rs| > 0 && rs[|rs| - 1] >= 0
    ensures Expand(RunStep(rs, t)) == Expand(rs) + [t]
  {
    var front := rs[..|rs| - 1];
    var last := rs[|rs| - 1];
    var f := |front| % 2 == 0;
    var head := ExpandFrom(front, true);
    assert rs == front + [last];
    assert Expand(rs) == head + Repeat(f, last) by {
      ExpandFromAppend(front, [last], true);
      ExpandSingle(last, f);
    }
    assert LastIsValue(rs) == f;
    if t == f {
      assert RunStep(rs, t) == front + [last + 1];
      assert Expand(front + [last + 1]) == head + Repeat(f, last + 1) by {
        ExpandFromAppend(front, [last + 1], true);
        ExpandSingle(last + 1, f);
      }
      RepeatSnoc(f, last);
    } else {
      assert RunStep(rs, t) == rs + [1];
      assert |rs| % 2 == 0 <==> !f;
      assert Expand(rs + [1]) == Expand(rs) + Repeat(!f, 1) by {
        ExpandFromAppend(rs, [1], true);
        ExpandSingle(1, !f);
      }
      assert Repeat(!f, 1) == [t];
    }
  }

  /** Expand is the inverse of RunList: the runs reproduce the flags. */
  lemma {:induction false} ExpandRunList(ts: seq<bool>)
    ensures Expand(RunList(ts)) == ts
    decreases |ts|
  {
    if |ts| > 0 {
      var init, t := ts[..|ts| - 1], ts[|ts| - 1];
      var rs := RunList(init);
      assert RunList(ts) == RunStep(rs, t);
      ExpandRunList(init);
      assert rs[|rs| - 1] >= 0;
      ExpandRunStep(rs, t);
      assert ts == init + [t];
    } else {
      ExpandSingle(0, true);
    }
  }

  // ------------------------------------------------------------- writer

  /** The int column the runs go to, the pending run and its kind. */
  datatype PresenceWriter = PresenceWriter(ints: PrimWriter, run: Int32, unset: bool)

  /** A fresh writer is in a value run of length 0. */
  const NewPresenceWriter: PresenceWriter := PresenceWriter(NewPrimWriter, 0, false)

  /** TouchValue: extends a value run (run is an int32 and wraps), or emits
      the pending unset run and starts a value run of 1. */
  function TouchValue(sp: Spiller, p: PresenceWriter): (r: (Spiller, PresenceWriter))
    ensures !p.unset ==> r == (sp, p.(run := ToInt32(p.run + 1)))
    ensures p.unset ==> r.1.run == 1 && !r.1.unset && r == (IntWrite(sp, p.ints, p.run).0, r.1) &&
                        r.1.ints == IntWrite(sp, p.ints, p.run).1
  {
    if !p.unset then (sp, p.(run := ToInt32(p.run + 1)))
    else
      var (sp1, ints1) := IntWrite(sp, p.ints, p.run);
      (sp1, PresenceWriter(ints1, 1, false))
  }

  /** TouchUnset, the same with the kinds swapped. */
  function TouchUnset(sp: Spiller, p: PresenceWriter): (r: (Spiller, PresenceWriter))
    ensures p.unset ==> r == (sp, p.(run := ToInt32(p.run + 1)))
    ensures !p.unset ==> r.1.run == 1 && r.1.unset && r == (IntWrite(sp, p.ints, p.run).0, r.1) &&
                         r.1.ints == IntWrite(sp, p.ints, p.run).1
  {
    if p.unset then (sp, p.(run := ToInt32(p.run + 1)))
    else
      var (sp1, ints1) := IntWrite(sp, p.ints, p.run);
      (sp1, PresenceWriter(ints1, 1, true))
  }

  function Touch(sp: Spiller, p: PresenceWriter, isValue: bool): (Spiller, PresenceWriter)
  {
    if isValue then TouchValue(sp, p) else TouchUnset(sp, p)
  }

  /** Finish: emits the pending run. */
  function Finish(sp: Spiller, p: PresenceWriter): (r: (Spiller, PresenceWriter))
    ensures r.1 == p.(ints := IntWrite(sp, p.ints, p.run).1)
  {
    var (sp1, ints1) := IntWrite(sp, p.ints, p.run);
    (sp1, p.(ints := ints1))
  }

  /** The writer after touching `ts`, from a fresh writer. */
  function TouchAll(sp: Spiller, ts: seq<bool>): (Spiller, PresenceWriter)
    decreases |ts|
  {
    if |ts| == 0 then (sp, NewPresenceWriter)
    else
      var (sp1, p1) := TouchAll(sp, ts[..|ts| - 1]);
      Touch(sp1, p1, ts[|ts| - 1])
  }

  /** No run of `ts` is longer than an int32 holds. */
  predicate RunsFit(ts: seq<bool>)
  {
    forall i :: 0 <= i < |RunList(ts)| ==> RunList(ts)[i] <= MaxInt32
  }

  lemma RunsFitPrefix(ts: seq<bool>)
    requires |ts| > 0 && RunsFit(ts)
    ensures RunsFit(ts[..|ts| - 1])
  {
    var rs := RunList(ts[..|ts| - 1]);
    forall i | 0 <= i < |rs| ensures rs[i] <= MaxInt32 {
      if ts[|ts| - 1] == LastIsValue(rs) {
        if i < |rs| - 1 {
          assert RunList(ts)[i] == rs[i];
        } else {
          assert RunList(ts)[i] == rs[i] + 1;
        }
      } else {
        assert RunList(ts)[i] == rs[i];
      }
    }
  }

  lemma IntWriteContents(sp: Spiller, w: PrimWriter, v: int, vs: seq<int>)
    requires IsInt32(v) && Inv(sp, w) && Contents(sp, w) == Some(IntItems(vs))
    ensures var (sp1, w1) := IntWrite(sp, w, v);
      Inv(sp1, w1) && Contents(sp1, w1) == Some(IntItems(vs + [v]))
  {
    WriteContents(sp, w, Some(EncodeInt(v)));
    IntItemsSnoc(vs, v);
    assert IntItems([v]) == [Item(false, Some(EncodeInt(v)))];
  }

  /** The writer holds the runs `rs`: all but the last emitted to the int
      column, the last pending with its kind. */
  predicate Holds(sp: Spiller, p: PresenceWriter, rs: seq<int>)
  {
    |rs| > 0 && Inv(sp, p.ints) &&
    Contents(sp, p.ints) == Some(IntItems(rs[..|rs| - 1])) &&
    p.run == rs[|rs| - 1] && p.unset == !LastIsValue(rs)
  }

  lemma TouchSameKind(sp: Spiller, p: PresenceWriter, rs: seq<int>, t: bool)
    requires Holds(sp, p, rs) && t == LastIsValue(rs) && IsInt32(rs[|rs| - 1] + 1)
    ensures var (sp1, p1) := Touch(sp, p, t);
      Holds(sp1, p1, RunStep(rs, t)) && sp.data <= sp1.data
  {
    var front := rs[..|rs| - 1];
    var rs1 := RunStep(rs, t);
    assert rs1 == front + [rs[|rs| - 1] + 1];
    assert rs1[..|rs1| - 1] == front;
    assert LastIsValue(rs1) == LastIsValue(rs);
  }

  lemma TouchOtherKind(sp: Spiller, p: PresenceWriter, rs: seq<int>, t: bool)
    requires Holds(sp, p, rs) && t != LastIsValue(rs)
    ensures var (sp1, p1) := Touch(sp, p, t);
      Holds(sp1, p1, RunStep(rs, t)) && sp.data <= sp1.data
  {
    var front := rs[..|rs| - 1];
    var rs1 := RunStep(rs, t);
    IntWriteContents(sp, p.ints, p.run, front);
    assert rs == front + [rs[|rs| - 1]];
    assert rs1 == rs + [1];
    assert rs1[..|rs1| - 1] == front + [p.run];
    var (sp1, p1) := Touch(sp, p, t);
    var (sp2, ints2) := IntWrite(sp, p.ints, p.run);
    assert sp1 == sp2 && p1 == PresenceWriter(ints2, 1, !t);
    assert LastIsValue(rs1) == t;
  }

  /** One touch moves the writer along one step of the reference runs. */
  lemma TouchStep(sp: Spiller, p: PresenceWriter, rs: seq<int>, t: bool)
    requires Holds(sp, p, rs) && IsInt32(RunStep(rs, t)[|RunStep(rs, t)| - 1])
    ensures var (sp1, p1) := Touch(sp, p, t);
      Holds(sp1, p1, RunStep(rs, t)) && sp.data <= sp1.data
  {
    if t == LastIsValue(rs) {
      TouchSameKind(sp, p, rs, t);
    } else {
      TouchOtherKind(sp, p, rs, t);
    }
  }

  /** Touching a flag sequence emits every run of its reference run list but
      the last, which is pending, with the kind the list says. */
  lemma {:induction false} TouchAllRuns(sp: Spiller, ts: seq<bool>)
    requires RunsFit(ts) && Inv(sp, NewPrimWriter)
    ensures var (sp1, p) := TouchAll(sp, ts);
      Holds(sp1, p, RunList(ts)) && sp.data <= sp1.data
    decreases |ts|
  {
    if |ts| == 0 {
      var w := NewPrimWriter;
      assert w == PrimWriter([], []);
      assert Stream(sp.data, w.segs) == Some([]);
      var none: seq<Item> := [];
      assert none + none == none;
      assert AppendItems(Some(none), w.buf) == Some(none);
      assert IntItems([]) == [];
      assert Contents(sp, NewPrimWriter) == AppendItems(Some([]), []);
      assert Contents(sp, NewPrimWriter) == Some([]);
    } else {
      var init := ts[..|ts| - 1];
      RunsFitPrefix(ts);
      TouchAllRuns(sp, init);
      var (sp1, p1) := TouchAll(sp, init);
      TouchStep(sp1, p1, RunList(init), ts[|ts| - 1]);
    }
  }

  /** Touching `ts` and finishing leaves exactly the reference runs in the
      int column, and they expand back to `ts`. */
  lemma PresenceWriterRuns(sp: Spiller, ts: seq<bool>)
    requires RunsFit(ts) && Inv(sp, NewPrimWriter)
    ensures var (sp1, p) := TouchAll(sp, ts);
      var (sp2, p2) := Finish(sp1, p);
      Inv(sp2, p2.ints) && Contents(sp2, p2.ints) == Some(IntItems(RunList(ts))) &&
      Expand(RunList(ts)) == ts
  {
    TouchAllRuns(sp, ts);
    var (sp1, p) := TouchAll(sp, ts);
    var rs := RunList(ts);
    IntWriteContents(sp1, p.ints, p.run, rs[..|rs| - 1]);
    assert rs[..|rs| - 1] + [rs[|rs| - 1]] == rs;
    ExpandRunList(ts);
  }

  // ------------------------------------------------------------- reader

  /** The int column being read, the kind of the current run and how much
      of it is left. */
  datatype PresenceReader = PresenceReader(ints: IntReader, unset: bool, run: int)

  /** NewPresenceReader: opens the int column and primes the first run,
      a run of values. */
  function NewPresenceReader(file: Bytes, segmap: Zng.TypedValue): Result<PresenceReader>
  {
    var ir :- NewIntReader(file, segmap);
    var (run, ir1) :- IntRead(ir);
    Ok(PresenceReader(ir1, false, run))
  }

  /** PresenceReader.Read: true for a value, false for unset.  When the
      current run is used up the kind flips and the next run is read; a zero
      run there is illegal. */
  function Read(p: PresenceReader): (r: Result<(bool, PresenceReader)>)
    ensures r.Ok? ==> r.value.0 == !r.value.1.unset
  {
    var p1 :- if p.run != 0 then Ok(p)
              else
                var (run, ir1) :- IntRead(p.ints);
                if run == 0 then Fail(IllegalZeroRun)
                else Ok(PresenceReader(ir1, !p.unset, run));
    Ok((!p1.unset, p1.(run := p1.run - 1)))
  }

  /** The flags a reader has still to deliver. */
  function Pending(p: PresenceReader): seq<bool>
  {
    Repeat(!p.unset, p.run) + ExpandFrom(p.ints.vs, p.unset)
  }

  /** A reader in a state it can be read from to the end: the current run is
      not negative, every later run is at least 1, and the int column ends
      cleanly. */
  predicate Sound(p: PresenceReader)
  {
    p.run >= 0 && p.ints.end == EOF && forall i :: 0 <= i < |p.ints.vs| ==> p.ints.vs[i] >= 1
  }

  /** A fresh reader over a run list has the whole expansion pending; over an
      empty column it fails with the column's ending error. */
  lemma NewPresenceReaderPending(file: Bytes, segmap: Zng.TypedValue, rs: seq<int>)
    requires NewIntReader(file, segmap) == Ok(IntReader(rs, EOF))
    ensures rs == [] ==> NewPresenceReader(file, segmap) == Fail(EOF)
    ensures rs != [] ==> (NewPresenceReader(file, segmap).Ok? &&
                          var p := NewPresenceReader(file, segmap).value;
                          !p.unset && p.run == rs[0] && p.ints == IntReader(rs[1..], EOF) &&
                          Pending(p) == Expand(rs))
  {
  }

  lemma ReadWithinRun(p: PresenceReader)
    requires Sound(p) && p.run > 0
    ensures Read(p) == Ok((!p.unset, p.(run := p.run - 1)))
    ensures Pending(p) == [!p.unset] + Pending(p.(run := p.run - 1))
  {
    assert Repeat(!p.unset, p.run) == [!p.unset] + Repeat(!p.unset, p.run - 1);
  }

  lemma ReadNextRun(p: PresenceReader)
    requires Sound(p) && p.run == 0 && p.ints.vs != []
    ensures var p1 := PresenceReader(p.ints.(vs := p.ints.vs[1..]), !p.unset, p.ints.vs[0] - 1);
      Read(p) == Ok((p.unset, p1)) && Sound(p1) && Pending(p) == [p.unset] + Pending(p1)
  {
    var vs := p.ints.vs;
    assert vs[0] >= 1;
    assert Pending(p) == ExpandFrom(vs, p.unset);
    assert Repeat(p.unset, vs[0]) == [p.unset] + Repeat(p.unset, vs[0] - 1);
  }

  /** One read delivers the first pending flag; a sound reader with nothing
      pending fails with EOF. */
  lemma ReadPending(p: PresenceReader)
    requires Sound(p)
    ensures Pending(p) == [] <==> Read(p) == Fail(EOF)
    ensures Pending(p) != [] ==> (Read(p).Ok? &&
              var (flag, p1) := Read(p).value;
              flag == Pending(p)[0] && Sound(p1) && Pending(p1) == Pending(p)[1..])
  {
    if p.run > 0 {
      ReadWithinRun(p);
    } else if p.ints.vs != [] {
      ReadNextRun(p);
    }
  }

  /** After the first run, a zero run is rejected. */
  lemma ZeroRunRejected(p: PresenceReader)
    requires p.run == 0 && |p.ints.vs| > 0 && p.ints.vs[0] == 0
    ensures Read(p) == Fail(IllegalZeroRun)
  {
  }

  /** Reads `n` flags in a row. */
  function ReadFlags(p: PresenceReader, n: nat): Result<(seq<bool>, PresenceReader)>
    decreases n
  {
    if n == 0 then Ok(([], p))
    else
      var (flag, p1) :- Read(p);
      var (rest, p2) :- ReadFlags(p1, n - 1);
      Ok(([flag] + rest, p2))
  }

  lemma {:induction false} ReadFlagsPending(p: PresenceReader, n: nat)
    requires Sound(p) && n <= |Pending(p)|
    ensures ReadFlags(p, n).Ok? && ReadFlags(p, n).value.0 == Pending(p)[..n]
    decreases n
  {
    if n > 0 {
      ReadPending(p);
      var (flag, p1) := Read(p).value;
      ReadFlagsPending(p1, n - 1);
      assert Pending(p)[..n] == [flag] + Pending(p1)[..n - 1];
    }
  }

  /** A presence column holding the runs of `ts` reads back as `ts`. */
  lemma PresenceRoundTrip(file: Bytes, segmap: Zng.TypedValue, ts: seq<bool>)
    requires NewIntReader(file, segmap) == Ok(IntReader(RunList(ts), EOF))
    ensures NewPresenceReader(file, segmap).Ok?
    ensures ReadFlags(NewPresenceReader(file, segmap).value, |ts|).Ok?
    ensures ReadFlags(NewPresenceReader(file, segmap).value, |ts|).value.0 == ts
  {
    var rs := RunList(ts);
    NewPresenceReaderPending(file, segmap, rs);
    var p := NewPresenceReader(file, segmap).value;
    ExpandRunList(ts);
    assert Sound(p) by {
      forall i | 0 <= i < |p.ints.vs| ensures p.ints.vs[i] >= 1 {
        assert p.ints.vs[i] == rs[i + 1];
      }
    }
    ReadFlagsPending(p, |ts|);
    assert Pending(p)[..|ts|] == ts;
  }
}

=== FILE: primitive.dfy ===
/** The leaf columns: PrimitiveWriter and PrimitiveReader
    (zst/column/primitive.go) and the int column built on them
    (zst/column/int.go).

    A primitive writer buffers item bodies and spills the buffer as one
    segment whenever it reaches the spiller's threshold; a primitive reader
    walks the segment map, reading one segment at a time.  The property
    that ties the two together is stated over the item stream: what the
    writer has accepted (spilled segments, then the buffer) is what the
    reader hands back, in order, followed by EOF. */
module Primitive {
  import opened Wrappers
  import opened Errors
  import opened Zcode
  import opened Zng
  import opened Segmap

  // ------------------------------------------------------------------ writer

  /** The unspilled items, and the segments spilled so far. */
  datatype PrimWriter = PrimWriter(buf: seq<Item>, segs: seq<Segment>)

  const NewPrimWriter: PrimWriter := PrimWriter([], [])

  /** What the writer holds against the spiller's bytes: every segment lies in
      them and none is empty. */
  predicate Inv(sp: Spiller, w: PrimWriter)
  {
    AllWithin(sp.data, w.segs) && forall i :: 0 <= i < |w.segs| ==> w.segs[i].length > 0
  }

  /** Everything the writer has accepted: the spilled items, then the buffer. */
  function Contents(sp: Spiller, w: PrimWriter): Option<seq<Item>>
  {
    AppendItems(Stream(sp.data, w.segs), w.buf)
  }

  /** PrimitiveWriter.Flush: a non-empty buffer becomes one more segment. */
  function Flush(sp: Spiller, w: PrimWriter): (r: (Spiller, PrimWriter))
    ensures r.1.buf == []
    ensures sp.data <= r.0.data && r.0.thresh == sp.thresh
    ensures w.buf == [] ==> r == (sp, w)
    ensures w.buf != [] ==> |r.1.segs| == |w.segs| + 1 && r.1.segs[..|w.segs|] == w.segs &&
                            Within(r.0.data, r.1.segs[|w.segs|]) &&
                            SegmentBytes(r.0.data, r.1.segs[|w.segs|]) == EncodeItems(w.buf)
  {
    var bytes := EncodeItems(w.buf);
    if |bytes| > 0 then
      var (sp1, segs1) := SpillerWrite(sp, w.segs, bytes);
      assert segs1[..|w.segs|] == w.segs;
      (sp1, PrimWriter([], segs1))
    else
      (sp, w)
  }

  /** PrimitiveWriter.Write: appends a primitive item and flushes once the
      buffer's encoding reaches the threshold. */
  function Write(sp: Spiller, w: PrimWriter, body: Option<Bytes>): (r: (Spiller, PrimWriter))
    ensures sp.data <= r.0.data && r.0.thresh == sp.thresh
    ensures sp.thresh > 0 ==> |EncodeItems(r.1.buf)| < sp.thresh
    ensures |EncodeItems(w.buf + [Item(false, body)])| < sp.thresh ==>
              r == (sp, w.(buf := w.buf + [Item(false, body)]))
  {
    var w1 := w.(buf := w.buf + [Item(false, body)]);
    if |EncodeItems(w1.buf)| >= sp.thresh then Flush(sp, w1) else (sp, w1)
  }

  lemma FlushContents(sp: Spiller, w: PrimWriter)
    requires Inv(sp, w)
    ensures var (sp1, w1) := Flush(sp, w);
      Inv(sp1, w1) && Contents(sp1, w1) == Contents(sp, w)
  {
    if w.buf != [] {
      var (sp1, w1) := Flush(sp, w);
      SpillStream(sp, w.segs, w.buf);
      assert w1.segs == w.segs + [Segment(|sp.data|, |EncodeItems(w.buf)|)];
      assert w.buf + [] == w.buf;
      if Stream(sp1.data, w1.segs).Some? {
        assert Stream(sp1.data, w1.segs).value + [] == Stream(sp1.data, w1.segs).value;
      }
    }
  }

  /** A write adds exactly its item to what the writer has accepted, and keeps
      the invariant. */
  lemma WriteContents(sp: Spiller, w: PrimWriter, body: Option<Bytes>)
    requires Inv(sp, w)
    ensures var (sp1, w1) := Write(sp, w, body);
      Inv(sp1, w1) && Contents(sp1, w1) == AppendItems(Contents(sp, w), [Item(false, body)])
  {
    var w1 := w.(buf := w.buf + [Item(false, body)]);
    if Stream(sp.data, w.segs).Some? {
      var s := Stream(sp.data, w.segs).value;
      assert s + (w.buf + [Item(false, body)]) == (s + w.buf) + [Item(false, body)];
    }
    assert Contents(sp, w1) == AppendItems(Contents(sp, w), [Item(false, body)]);
    FlushContents(sp, w1);
  }

  /** Other segment lists written earlier through the same spiller keep their
      items: a flush only appends. */
  lemma FlushKeepsOthers(sp: Spiller, w: PrimWriter, other: seq<Segment>)
    requires AllWithin(sp.data, other)
    ensures var (sp1, _) := Flush(sp, w);
      AllWithin(sp1.data, other) && Stream(sp1.data, other) == Stream(sp.data, other)
  {
    var (sp1, _) := Flush(sp, w);
    var more := sp1.data[|sp.data|..];
    assert sp1.data == sp.data + more;
    StreamExtend(sp.data, more, other);
  }

  lemma WriteKeepsOthers(sp: Spiller, w: PrimWriter, body: Option<Bytes>, other: seq<Segment>)
    requires AllWithin(sp.data, other)
    ensures var (sp1, _) := Write(sp, w, body);
      AllWithin(sp1.data, other) && Stream(sp1.data, other) == Stream(sp.data, other)
  {
    FlushKeepsOthers(sp, w.(buf := w.buf + [Item(false, body)]), other);
  }

  /** Whatever other columns spill after this writer's segments leaves its
      contents as they were. */
  lemma GrowKeepsContents(sp: Spiller, sp1: Spiller, w: PrimWriter)
    requires Inv(sp, w) && sp.data <= sp1.data
    ensures Inv(sp1, w) && Contents(sp1, w) == Contents(sp, w)
  {
    var more := sp1.data[|sp.data|..];
    assert sp1.data == sp.data + more;
    StreamExtend(sp.data, more, w.segs);
  }

  /** PrimitiveWriter.Encode, with the segmap type parseSegmap accepts. */
  function Encode(w: PrimWriter): (tv: TypedValue)
    ensures ParseSegmap(tv) == Ok(w.segs)
  {
    SegmapRoundTrip(w.segs);
    TypedValue(SegmapType, SegmapValue(w.segs))
  }

  /** PrimitiveWriter.Encode as primitive.go:44-55 has it: the segmap type it
      looks up is SegmapTypeString, whose length column is int32. */
  function EncodeAsWritten(w: PrimWriter): (tv: TypedValue)
    ensures tv.val == Encode(w).val
    ensures ParseSegmap(tv) == Fail(SegmapElemBadColumns)
  {
    SegmapAsWrittenRejected(SegmapValue(w.segs));
    TypedValue(SegmapTypeAsWritten, SegmapValue(w.segs))
  }

  // ------------------------------------------------------------------ reader

  /** The rest of the current segment, and the segments not yet read. */
  datatype PrimReader = PrimReader(iter: Bytes, segmap: seq<Segment>)

  function NewPrimReader(tv: TypedValue): (r: Result<PrimReader>)
    ensures r.Ok? <==> ParseSegmap(tv).Ok?
    ensures r.Ok? ==> r.value == PrimReader([], ParseSegmap(tv).value)
  {
    var segs :- ParseSegmap(tv);
    Ok(PrimReader([], segs))
  }

  /** PrimitiveReader.next: reads one whole segment. */
  function NextSegment(file: Bytes, s: Segment): (r: Result<Bytes>)
    ensures r.Ok? <==> s.length <= 2 * MaxSegmentThresh && Within(file, s)
    ensures r.Ok? ==> r.value == SegmentBytes(file, s)
  {
    if s.length > 2 * MaxSegmentThresh then Fail(SegmentTooBig)
    else if s.length < 0 then Fail(NegativeSegment)
    else
      var (b, err) := ReadAt(file, s.offset, s.length);
      if err.Some? then Fail(err.value)
      else if |b| < s.length then Fail(TruncatedRead)
      else Ok(b)
  }

  /** PrimitiveReader.Read: the body of the next item (its container flag is
      dropped), moving to the next segment when the current one is used up. */
  function Read(file: Bytes, r: PrimReader): (res: Result<(Option<Bytes>, PrimReader)>)
    ensures res.Ok? ==> Consumed(res.value.1, r)
  {
    var r1 :- if |r.iter| > 0 then Ok(r)
              else if |r.segmap| == 0 then Fail(EOF)
              else
                var b :- NextSegment(file, r.segmap[0]);
                Ok(PrimReader(b, r.segmap[1..]));
    match NextItem(r1.iter)
    case None => Fail(CorruptItem)
    case Some((it, rest)) => Ok((it.body, PrimReader(rest, r1.segmap)))
  }

  /** `r1` is further along than `r`: fewer segments left, or as many and
      less of the current one. */
  predicate Consumed(r1: PrimReader, r: PrimReader)
  {
    |r1.segmap| < |r.segmap| || (|r1.segmap| == |r.segmap| && |r1.iter| < |r.iter|)
  }

  /** The items a reader has still to deliver. */
  function Remaining(file: Bytes, r: PrimReader): Option<seq<Item>>
  {
    match DecodeItems(r.iter)
    case None => None
    case Some(xs) => PrependItems(xs, Stream(file, r.segmap))
  }

  /** Segments the reader accepts: not empty and not beyond twice the column
      threshold. */
  predicate Readable(segs: seq<Segment>)
  {
    forall i :: 0 <= i < |segs| ==> 0 < segs[i].length <= 2 * MaxSegmentThresh
  }

  lemma DecodeNonEmpty(b: Bytes)
    requires |b| > 0 && DecodeItems(b).Some?
    ensures NextItem(b).Some?
    ensures var (it, rest) := NextItem(b).value;
      DecodeItems(rest).Some? && DecodeItems(b).value == [it] + DecodeItems(rest).value
  {
  }

  lemma ReadFromIter(file: Bytes, r: PrimReader, xs: seq<Item>)
    requires |r.iter| > 0 && Remaining(file, r) == Some(xs)
    ensures |xs| > 0
    ensures var (it, rest) := NextItem(r.iter).value;
      it == xs[0] && Remaining(file, PrimReader(rest, r.segmap)) == Some(xs[1..])
  {
    DecodeNonEmpty(r.iter);
    var (it, rest) := NextItem(r.iter).value;
    var ys := DecodeItems(rest).value;
    var zs := Stream(file, r.segmap).value;
    assert xs == [it] + ys + zs;
    assert xs[1..] == ys + zs;
  }

  /** Reading delivers the remaining items in order, and EOF exactly when none
      is left. */
  lemma ReadRemaining(file: Bytes, r: PrimReader, xs: seq<Item>)
    requires Remaining(file, r) == Some(xs) && Readable(r.segmap)
    ensures xs == [] <==> Read(file, r) == Fail(EOF)
    ensures xs != [] ==> (Read(file, r).Ok? &&
                          var (body, r1) := Read(file, r).value;
                          body == xs[0].body && Remaining(file, r1) == Some(xs[1..]) && Readable(r1.segmap))
  {
    if |r.iter| > 0 {
      ReadFromIter(file, r, xs);
    } else if |r.segmap| > 0 {
      var s := r.segmap[0];
      assert 0 < s.length <= 2 * MaxSegmentThresh;
      assert DecodeItems(r.iter) == Some([]);
      assert Stream(file, r.segmap) == Some(xs) by {
        assert [] + Stream(file, r.segmap).value == Stream(file, r.segmap).value;
      }
      assert Within(file, s);
      var b := SegmentBytes(file, s);
      var r1 := PrimReader(b, r.segmap[1..]);
      assert Remaining(file, r1) == Some(xs);
      ReadFromIter(file, r1, xs);
      assert Readable(r1.segmap) by {
        forall i | 0 <= i < |r1.segmap| ensures 0 < r1.segmap[i].length <= 2 * MaxSegmentThresh {
          assert r1.segmap[i] == r.segmap[i + 1];
        }
      }
    } else {
      assert xs == [];
    }
  }

  /** A writer's segment map, once encoded and opened, reads back the items
      it spilled. */
  lemma PrimRoundTrip(sp: Spiller, w: PrimWriter)
    requires Inv(sp, w) && w.buf == []
    requires forall i :: 0 <= i < |w.segs| ==> w.segs[i].length <= 2 * MaxSegmentThresh
    ensures var r := NewPrimReader(Encode(w));
      r.Ok? && Readable(r.value.segmap) && Remaining(sp.data, r.value) == Contents(sp, w)
  {
    var r := NewPrimReader(Encode(w)).value;
    assert r == PrimReader([], w.segs);
    assert DecodeItems([]) == Some([]);
    if Stream(sp.data, w.segs).Some? {
      var s := Stream(sp.data, w.segs).value;
      assert [] + s == s && s + [] == s;
    }
  }

  // -------------------------------------------------------------- int column

  /** IntWriter.Write: an int32 written as a primitive through zng.EncodeInt. */
  function IntWrite(sp: Spiller, w: PrimWriter, v: int): (r: (Spiller, PrimWriter))
    requires IsInt32(v)
    ensures sp.data <= r.0.data && r.0.thresh == sp.thresh
  {
    Write(sp, w, Some(EncodeInt(v)))
  }

  /** The items an int column holds for a sequence of ints. */
  function IntItems(vs: seq<int>): (items: seq<Item>)
    ensures |items| == |vs|
    ensures forall i :: 0 <= i < |vs| ==> items[i] == Item(false, Some(EncodeInt(vs[i])))
  {
    seq(|vs|, i requires 0 <= i < |vs| => Item(false, Some(EncodeInt(vs[i]))))
  }

  lemma IntItemsSnoc(vs: seq<int>, v: int)
    ensures IntItems(vs + [v]) == IntItems(vs) + IntItems([v])
  {
  }

  lemma IntItemsTail(vs: seq<int>)
    requires |vs| > 0
    ensures IntItems(vs)[1..] == IntItems(vs[1..])
  {
  }

  /** An int read through a primitive reader: the body decoded with
      zng.DecodeInt; a nil body is unset. */
  function ReadInt(file: Bytes, r: PrimReader): Result<(int, PrimReader)>
  {
    var (body, r1) :- Read(file, r);
    var v :- match body
      case None => Fail(Unset)
      case Some(b) => DecodeInt(b);
    Ok((v, r1))
  }

  /** An int reader whose remaining items are the encodings of `vs` delivers
      `vs` in order, then EOF. */
  lemma ReadIntRemaining(file: Bytes, r: PrimReader, vs: seq<int>)
    requires Remaining(file, r) == Some(IntItems(vs)) && Readable(r.segmap)
    ensures vs == [] <==> ReadInt(file, r) == Fail(EOF)
    ensures vs != [] ==> (ReadInt(file, r).Ok? &&
                          var (v, r1) := ReadInt(file, r).value;
                          v == vs[0] && Remaining(file, r1) == Some(IntItems(vs[1..])) && Readable(r1.segmap))
  {
    ReadRemaining(file, r, IntItems(vs));
    if vs != [] {
      DecodeEncodeInt(vs[0]);
      IntItemsTail(vs);
    }
  }

  /** IntReader is not part of this model.  Since the object does not change
      while it is read, its behaviour is fixed when it is opened: the ints its
      reads deliver, in order, and the error that ends them (EOF at a clean
      end). */
  datatype IntReader = IntReader(vs: seq<int>, end: Error)

  /** The results of reading ints from `r` until a read fails. */
  function Drain(file: Bytes, r: PrimReader): IntReader
    decreases |r.segmap|, |r.iter|
  {
    match ReadInt(file, r)
    case Fail(e) => IntReader([], e)
    case Ok((v, r1)) =>
      var d := Drain(file, r1);
      IntReader([v] + d.vs, d.end)
  }

  function NewIntReader(file: Bytes, segmap: TypedValue): (r: Result<IntReader>)
    ensures r.Ok? <==> ParseSegmap(segmap).Ok?
  {
    var pr :- NewPrimReader(segmap);
    Ok(Drain(file, pr))
  }

  /** IntReader.Read: the next int, or the error that ended the column. */
  function IntRead(ir: IntReader): (r: Result<(int, IntReader)>)
    ensures ir.vs == [] ==> r == Fail(ir.end)
    ensures ir.vs != [] ==> r == Ok((ir.vs[0], ir.(vs := ir.vs[1..])))
  {
    if |ir.vs| == 0 then Fail(ir.end) else Ok((ir.vs[0], ir.(vs := ir.vs[1..])))
  }

  /** Draining a reader whose remaining items encode `vs` yields `vs`, ended
      by EOF. */
  lemma {:induction false} DrainRemaining(file: Bytes, r: PrimReader, vs: seq<int>)
    requires Remaining(file, r) == Some(IntItems(vs)) && Readable(r.segmap)
    ensures Drain(file, r) == IntReader(vs, EOF)
    decreases |vs|
  {
    ReadIntRemaining(file, r, vs);
    if vs != [] {
      var (v, r1) := ReadInt(file, r).value;
      DrainRemaining(file, r1, vs[1..]);
      assert [v] + vs[1..] == vs;
    }
  }

  /** A writer's int column, encoded and opened, delivers the ints written,
      then EOF. */
  lemma IntRoundTrip(sp: Spiller, w: PrimWriter, vs: seq<int>)
    requires Inv(sp, w) && w.buf == [] && Contents(sp, w) == Some(IntItems(vs))
    requires forall i :: 0 <= i < |w.segs| ==> w.segs[i].length <= 2 * MaxSegmentThresh
    ensures NewIntReader(sp.data, Encode(w)) == Ok(IntReader(vs, EOF))
  {
    PrimRoundTrip(sp, w);
    DrainRemaining(sp.data, NewPrimReader(Encode(w)).value, vs);
  }
}

=== FILE: resolver.dfy ===
/** The type context of zng/resolver/context.go: a table from small integer ids
    to types, with a lookup table from a type's key to its id so that every
    compound type is interned once.  Ids below IdTypeDef are reserved for the
    primitives, so the first compound type gets id IdTypeDef and every later one
    the next free id.  The context is a plain value here; the lock, the cache
    pool and the logger hook are left out. */
module Resolver {
  import opened Wrappers
  import opened Errors
  import opened Decimal
  import opened Zng

  datatype Context = Context(table: seq<Option<Type>>, lut: map<string, nat>)

  /** The kinds of type the context interns. */
  predicate Internable(t: Type)
  {
    t.TRecord? || t.TSet? || t.TArray?
  }

  // ---------------------------------------------------------------- keys

  function SetKey(inner: Type): string
  {
    "s" + Itoa(inner.id)
  }

  function ArrayKey(inner: Type): string
  {
    "a" + Itoa(inner.id)
  }

  /** "name:id;" for every column, in order, with the name escaped.  The
      source writes the name as it is, so distinct column lists can share a
      key (see ColumnsKeyAsWritten); the model escapes it. */
  function ColumnsKey(cols: seq<Column>): (k: string)
    ensures |k| == 0 <==> |cols| == 0
  {
    if |cols| == 0 then ""
    else EscapeName(cols[0].name) + ([':'] + (Itoa(cols[0].typ.id) + ([';'] + ColumnsKey(cols[1..]))))
  }

  /** recordKey's column part as the source builds it: the names unescaped. */
  function ColumnsKeyAsWritten(cols: seq<Column>): string
  {
    if |cols| == 0 then ""
    else cols[0].name + ":" + Itoa(cols[0].typ.id) + ";" + ColumnsKeyAsWritten(cols[1..])
  }

  predicate KeySpecial(ch: char)
  {
    ch == '\\' || ch == ':' || ch == ';'
  }

  /** A name in a key: '\\', ':' and ';' are preceded by a backslash, and every
      other character is kept, so names without them are unchanged. */
  function EscapeName(name: string): (e: string)
    ensures (forall k :: 0 <= k < |name| ==> !KeySpecial(name[k])) ==> e == name
  {
    if |name| == 0 then ""
    else (if KeySpecial(name[0]) then ['\\', name[0]] else [name[0]]) + EscapeName(name[1..])
  }

  function RecordKey(cols: seq<Column>): string
  {
    "r" + ColumnsKey(cols)
  }

  function TypeKey(t: Type): string
    requires Internable(t)
  {
    match t
    case TRecord(_, cols) => RecordKey(cols)
    case TArray(_, inner) => ArrayKey(inner)
    case TSet(_, inner) => SetKey(inner)
  }

  /** The type with its id replaced, as SetID does to the interned object. */
  function WithId(t: Type, id: int): (r: Type)
    requires Internable(t)
    ensures Internable(r) && r.id == id && TypeKey(r) == TypeKey(t)
  {
    match t
    case TRecord(_, cols) => TRecord(id, cols)
    case TArray(_, inner) => TArray(id, inner)
    case TSet(_, inner) => TSet(id, inner)
  }

  // ---------------------------------------------------------------- the table

  /** What every context built by these operations satisfies: the reserved
      slots are empty, every later slot holds an internable type whose id is
      its index and whose key maps back to it, and every key maps to the slot
      of a type with that key. */
  predicate Valid(c: Context)
  {
    && |c.table| >= IdTypeDef
    && (forall i :: 0 <= i < IdTypeDef ==> c.table[i].None?)
    && (forall i :: IdTypeDef <= i < |c.table| ==>
          c.table[i].Some? && Internable(c.table[i].value) && c.table[i].value.id == i
          && TypeKey(c.table[i].value) in c.lut && c.lut[TypeKey(c.table[i].value)] == i)
    && (forall k {:trigger c.lut[k]} :: k in c.lut ==>
          IdTypeDef <= c.lut[k] < |c.table| && c.table[c.lut[k]].Some?
          && Internable(c.table[c.lut[k]].value) && TypeKey(c.table[c.lut[k]].value) == k)
  }

  /** c2 holds everything c1 does, under the same ids and keys. */
  predicate Extends(c1: Context, c2: Context)
  {
    && |c1.table| <= |c2.table| && c1.table == c2.table[..|c1.table|]
    && (forall k :: k in c1.lut ==> k in c2.lut && c2.lut[k] == c1.lut[k])
  }

  lemma ExtendsTrans(c1: Context, c2: Context, c3: Context)
    requires Extends(c1, c2) && Extends(c2, c3)
    ensures Extends(c1, c3)
  {
    assert c2.table[..|c1.table|] == c3.table[..|c1.table|];
  }

  /** A type the context knows: a primitive, or the type interned at its id. */
  predicate Known(c: Context, t: Type)
  {
    || (t.Primitive? && 0 <= t.id < |PrimitiveNames|)
    || (IdTypeDef <= t.id < |c.table| && c.table[t.id] == Some(t))
  }

  lemma KnownExtends(c1: Context, c2: Context, t: Type)
    requires Extends(c1, c2) && Known(c1, t)
    ensures Known(c2, t)
  {
    if !t.Primitive? {
      assert c2.table[..|c1.table|][t.id] == c2.table[t.id];
    }
  }

  /** NewContext: the reserved slots and nothing else. */
  function NewContext(): (c: Context)
    ensures Valid(c) && |c.table| == IdTypeDef && |c.lut| == 0
  {
    Context(seq(IdTypeDef, _ => None), map[])
  }

  /** addTypeWithLock: the type takes the next id. */
  function AddTypeWithLock(c: Context, key: string, t: Type): (r: (Context, Type))
    requires Valid(c) && Internable(t) && key == TypeKey(t) && key !in c.lut
    ensures Valid(r.0) && Extends(c, r.0)
    ensures r.1 == WithId(t, |c.table|)
    ensures r.0.table == c.table + [Some(r.1)]
    ensures r.0.lut == c.lut[key := |c.table|]
  {
    var id := |c.table|;
    var typ := WithId(t, id);
    var c2 := Context(c.table + [Some(typ)], c.lut[key := id]);
    assert c2.table[..|c.table|] == c.table;
    (c2, typ)
  }

  /** The interned type stored under a key. */
  function Interned(c: Context, key: string): (t: Type)
    requires Valid(c) && key in c.lut
    ensures Internable(t) && TypeKey(t) == key && Known(c, t) && t.id == c.lut[key]
  {
    c.table[c.lut[key]].value
  }

  /** AddType: the interned type with t's key, adding t if there is none yet.
      Types other than records, sets and arrays make the source panic. */
  function AddType(c: Context, t: Type): (r: Result<(Context, Type)>)
    requires Valid(c)
    ensures r.Ok? <==> Internable(t)
    ensures r.Ok? ==> Valid(r.value.0) && Extends(c, r.value.0) && Known(r.value.0, r.value.1)
    ensures r.Ok? ==> Internable(r.value.1) && TypeKey(r.value.1) == TypeKey(t)
    ensures r.Ok? && TypeKey(t) in c.lut ==> r.value == (c, Interned(c, TypeKey(t)))
    ensures r.Ok? && TypeKey(t) !in c.lut ==>
      r.value.1 == WithId(t, |c.table|) && |r.value.0.table| == |c.table| + 1
  {
    if !Internable(t) then Fail(UnsupportedType)
    else
      var key := TypeKey(t);
      if key in c.lut then Ok((c, Interned(c, key)))
      else Ok(AddTypeWithLock(c, key, t))
  }

  /** LookupTypeRecord: the record type with these columns, interned. */
  function LookupTypeRecord(c: Context, cols: seq<Column>): (r: (Context, Type))
    requires Valid(c)
    ensures Valid(r.0) && Extends(c, r.0) && Known(r.0, r.1)
    ensures r.1.TRecord? && RecordKey(r.1.columns) == RecordKey(cols)
    ensures RecordKey(cols) in c.lut ==> r == (c, Interned(c, RecordKey(cols)))
    ensures RecordKey(cols) !in c.lut ==>
      r.1 == TRecord(|c.table|, cols) && r.0.table == c.table + [Some(r.1)]
  {
    var key := RecordKey(cols);
    if key in c.lut then
      var t := Interned(c, key);
      KeyKinds(t);
      (c, t)
    else AddTypeWithLock(c, key, TRecord(-1, cols))
  }

  function LookupTypeSet(c: Context, inner: Type): (r: (Context, Type))
    requires Valid(c)
    ensures Valid(r.0) && Extends(c, r.0) && Known(r.0, r.1)
    ensures r.1.TSet? && r.1.inner.id == inner.id
    ensures SetKey(inner) in c.lut ==> r == (c, Interned(c, SetKey(inner)))
    ensures SetKey(inner) !in c.lut ==>
      r.1 == TSet(|c.table|, inner) && r.0.table == c.table + [Some(r.1)]
  {
    var key := SetKey(inner);
    if key in c.lut then
      var t := Interned(c, key);
      KeyKinds(t);
      KeyInjective('s', t.inner.id, inner.id);
      (c, t)
    else AddTypeWithLock(c, key, TSet(-1, inner))
  }

  function LookupTypeArray(c: Context, inner: Type): (r: (Context, Type))
    requires Valid(c)
    ensures Valid(r.0) && Extends(c, r.0) && Known(r.0, r.1)
    ensures r.1.TArray? && r.1.inner.id == inner.id
    ensures ArrayKey(inner) in c.lut ==> r == (c, Interned(c, ArrayKey(inner)))
    ensures ArrayKey(inner) !in c.lut ==>
      r.1 == TArray(|c.table|, inner) && r.0.table == c.table + [Some(r.1)]
  {
    var key := ArrayKey(inner);
    if key in c.lut then
      var t := Interned(c, key);
      KeyKinds(t);
      KeyInjective('a', t.inner.id, inner.id);
      (c, t)
    else AddTypeWithLock(c, key, TArray(-1, inner))
  }

  /** The kind of an interned type follows from the first letter of its key. */
  lemma KeyKinds(t: Type)
    requires Internable(t)
    ensures TypeKey(t)[0] == 'r' <==> t.TRecord?
    ensures TypeKey(t)[0] == 's' <==> t.TSet?
    ensures TypeKey(t)[0] == 'a' <==> t.TArray?
  {
  }

  /** A set or array key is its kind letter followed by the inner type's id,
      so two such keys agree only when the ids do. */
  lemma KeyInjective(tag: char, a: int, b: int)
    requires [tag] + Itoa(a) == [tag] + Itoa(b)
    ensures a == b
  {
    assert ([tag] + Itoa(a))[1..] == Itoa(a);
    assert ([tag] + Itoa(b))[1..] == Itoa(b);
    ItoaInjective(a, b);
  }

  /** Reads an escaped name up to the first ':' that is not escaped. */
  function Unescape(t: string): (string, string)
    decreases |t|
  {
    if |t| == 0 || t[0] == ':' then ("", t)
    else if t[0] == '\\' && |t| >= 2 then
      var (n, rest) := Unescape(t[2..]);
      ([t[1]] + n, rest)
    else
      var (n, rest) := Unescape(t[1..]);
      ([t[0]] + n, rest)
  }

  lemma {:induction false} UnescapeOf(name: string, s: string)
    requires |s| > 0 && s[0] == ':'
    ensures Unescape(EscapeName(name) + s) == (name, s)
    decreases |name|
  {
    if |name| > 0 {
      var e := if KeySpecial(name[0]) then ['\\', name[0]] else [name[0]];
      var t := EscapeName(name) + s;
      assert t == e + (EscapeName(name[1..]) + s);
      assert t[|e|..] == EscapeName(name[1..]) + s;
      UnescapeOf(name[1..], s);
      assert name == [name[0]] + name[1..];
    } else {
      assert EscapeName(name) + s == s && name == "";
    }
  }

  /** An escaped name followed by ':' splits back into the name and the rest. */
  lemma EscapeSplit(n1: string, n2: string, s1: string, s2: string)
    requires |s1| > 0 && s1[0] == ':' && |s2| > 0 && s2[0] == ':'
    requires EscapeName(n1) + s1 == EscapeName(n2) + s2
    ensures n1 == n2 && s1 == s2
  {
    UnescapeOf(n1, s1);
    UnescapeOf(n2, s2);
  }

  /** A formatted number followed by ';' splits back into the number and the rest. */
  lemma ItoaSplit(a: int, b: int, s1: string, s2: string)
    requires |s1| > 0 && s1[0] == ';' && |s2| > 0 && s2[0] == ';'
    requires Itoa(a) + s1 == Itoa(b) + s2
    ensures a == b && s1 == s2
  {
    var x, y := Itoa(a), Itoa(b);
    ItoaChars(a);
    ItoaChars(b);
    assert x == (x + s1)[..|x|] && y == (y + s2)[..|y|];
    ItoaInjective(a, b);
    assert s1 == (x + s1)[|x|..];
  }

  lemma ItoaChars(n: int)
    ensures forall k :: 0 <= k < |Itoa(n)| ==> Itoa(n)[k] != ';' && Itoa(n)[k] != ':'
  {
    if n < 0 {
      assert forall k :: 1 <= k < |Itoa(n)| ==> Itoa(n)[k] == Digits(-n)[k - 1];
    }
  }

  /** With escaped names a record key determines the column names and type ids. */
  lemma {:induction false} ColumnsKeyInjective(a: seq<Column>, b: seq<Column>)
    requires ColumnsKey(a) == ColumnsKey(b)
    ensures |a| == |b|
    ensures forall k :: 0 <= k < |a| ==> a[k].name == b[k].name && a[k].typ.id == b[k].typ.id
    decreases |a|
  {
    if |a| > 0 && |b| > 0 {
      var r1 := Itoa(a[0].typ.id) + ([';'] + ColumnsKey(a[1..]));
      var r2 := Itoa(b[0].typ.id) + ([';'] + ColumnsKey(b[1..]));
      EscapeSplit(a[0].name, b[0].name, [':'] + r1, [':'] + r2);
      assert r1 == ([':'] + r1)[1..] && r2 == ([':'] + r2)[1..];
      ItoaSplit(a[0].typ.id, b[0].typ.id, [';'] + ColumnsKey(a[1..]), [';'] + ColumnsKey(b[1..]));
      assert ColumnsKey(a[1..]) == ([';'] + ColumnsKey(a[1..]))[1..];
      assert ColumnsKey(b[1..]) == ([';'] + ColumnsKey(b[1..]))[1..];
      ColumnsKeyInjective(a[1..], b[1..]);
      forall k | 1 <= k < |a|
        ensures a[k].name == b[k].name && a[k].typ.id == b[k].typ.id
      {
        assert a[k] == a[1..][k - 1] && b[k] == b[1..][k - 1];
      }
    }
  }

  lemma RecordKeyInjective(a: seq<Column>, b: seq<Column>)
    requires RecordKey(a) == RecordKey(b)
    ensures |a| == |b|
    ensures forall k :: 0 <= k < |a| ==> a[k].name == b[k].name && a[k].typ.id == b[k].typ.id
  {
    assert ColumnsKey(a) == RecordKey(a)[1..] && ColumnsKey(b) == RecordKey(b)[1..];
    ColumnsKeyInjective(a, b);
  }

  /** As the source writes it, the key of [a:6, b:7] is also the key of the
      single column named "a:6;b" of type 7, so looking one of them up in the
      table returns the other.  The escaped keys keep them apart. */
  lemma RecordKeyAsWrittenCollides()
    ensures var two := [Column("a", Primitive(6)), Column("b", Primitive(7))];
      var one := [Column("a:6;b", Primitive(7))];
      && two != one
      && "r" + ColumnsKeyAsWritten(two) == "r" + ColumnsKeyAsWritten(one)
      && RecordKey(two) != RecordKey(one)
  {
    var two := [Column("a", Primitive(6)), Column("b", Primitive(7))];
    var one := [Column("a:6;b", Primitive(7))];
    assert Itoa(6) == "6" && Itoa(7) == "7";
    assert ColumnsKeyAsWritten(two[1..]) == "b:7;";
    assert ColumnsKeyAsWritten(two) == "a:6;b:7;";
    assert ColumnsKeyAsWritten(one) == "a:6;b:7;";
    if RecordKey(two) == RecordKey(one) {
      RecordKeyInjective(two, one);
    }
  }

  /** Looking the same columns up twice interns them once. */
  lemma LookupTypeRecordIdempotent(c: Context, cols: seq<Column>)
    requires Valid(c)
    ensures var (c1, t1) := LookupTypeRecord(c, cols);
      LookupTypeRecord(c1, cols) == (c1, t1)
  {
  }

  lemma LookupTypeSetIdempotent(c: Context, inner: Type)
    requires Valid(c)
    ensures var (c1, t1) := LookupTypeSet(c, inner);
      LookupTypeSet(c1, inner) == (c1, t1)
  {
  }

  lemma LookupTypeArrayIdempotent(c: Context, inner: Type)
    requires Valid(c)
    ensures var (c1, t1) := LookupTypeArray(c, inner);
      LookupTypeArray(c1, inner) == (c1, t1)
  {
  }

  /** lookupTypeWithLock. */
  function LookupType(c: Context, id: int): (r: Result<Type>)
    requires Valid(c)
    ensures (id < 0 || id >= |c.table|) ==> r == Fail(IdOutOfRange(id))
    ensures r.Ok? <==> 0 <= id < |PrimitiveNames| || IdTypeDef <= id < |c.table|
    ensures r.Ok? ==> r.value.id == id && Known(c, r.value)
  {
    if id < 0 || id >= |c.table| then Fail(IdOutOfRange(id))
    else if id < IdTypeDef then
      match LookupPrimitiveById(id)
      case Some(t) => Ok(t)
      case None => Fail(NoTypeForId(id))
    else Ok(c.table[id].value)
  }

  /** Context.Lookup: the record type interned at an id, or nothing when the
      id is past the table or holds no record type.  A negative id indexes the
      table out of range, which panics. */
  function LookupRecord(c: Context, td: int): (r: Result<Option<Type>>)
    requires Valid(c)
    ensures r.Fail? <==> td < 0
    ensures r.Ok? && r.value.Some? ==>
      r.value.value.TRecord? && r.value.value.id == td && Known(c, r.value.value)
  {
    if td < 0 then Fail(NilDeref)
    else if td >= |c.table| then Ok(None)
    else match c.table[td]
      case Some(t) => if t.TRecord? then Ok(Some(t)) else Ok(None)
      case None => Ok(None)
  }

  /** Every record type the context interned is found again by its id, and a
      lookup finds nothing exactly when no record type sits at that id. */
  lemma LookupRecordInterned(c: Context, cols: seq<Column>)
    requires Valid(c)
    ensures var (c1, t) := LookupTypeRecord(c, cols);
      LookupRecord(c1, t.id) == Ok(Some(t))
  {
  }

  lemma LookupRecordNone(c: Context, td: int)
    requires Valid(c) && 0 <= td
    ensures LookupRecord(c, td) == Ok(None) <==>
      td < IdTypeDef || td >= |c.table| || !c.table[td].value.TRecord?
  {
  }

  // ---------------------------------------------------------------- lexing

  /** unicode.IsSpace, which strings.TrimSpace trims. */
  predicate IsSpace(ch: char)
  {
    || ch == ' ' || ch == '\t' || ch == '\n' || ch == '\U{000B}' || ch == '\U{000C}' || ch == '\r'
    || ch == '\U{0085}' || ch == '\U{00A0}' || ch == '\U{1680}' || ('\U{2000}' <= ch <= '\U{200A}')
    || ch == '\U{2028}' || ch == '\U{2029}' || ch == '\U{202F}' || ch == '\U{205F}' || ch == '\U{3000}'
  }

  /** The index of the first character at or after i that is not white space. */
  function SpaceEnd(s: string, i: nat): (n: nat)
    requires i <= |s|
    ensures i <= n <= |s|
    ensures n < |s| ==> !IsSpace(s[n])
    decreases |s| - i
  {
    if i < |s| && IsSpace(s[i]) then SpaceEnd(s, i + 1) else i
  }

  /** The index just past the last character before j that is not white space. */
  function SpaceStart(s: string, j: nat): (n: nat)
    requires j <= |s|
    ensures n <= j
    ensures n > 0 ==> !IsSpace(s[n - 1])
    decreases j
  {
    if j > 0 && IsSpace(s[j - 1]) then SpaceStart(s, j - 1) else j
  }

  /** strings.TrimSpace: the string without its leading and trailing white space. */
  function TrimSpace(s: string): (r: string)
    ensures |r| <= |s|
    ensures |r| > 0 ==> !IsSpace(r[0]) && !IsSpace(r[|r| - 1])
  {
    var a := SpaceEnd(s, 0);
    var b := SpaceStart(s, |s|);
    if a < b then s[a..b] else ""
  }

  lemma TrimSpaceNoop(s: string)
    requires |s| > 0 && !IsSpace(s[0]) && !IsSpace(s[|s| - 1])
    ensures TrimSpace(s) == s
  {
    assert s[0..|s|] == s;
  }

  /** Only white space is trimmed. */
  lemma {:induction false} SpaceEndSkipsSpace(s: string, i: nat)
    requires i <= |s|
    ensures forall k :: i <= k < SpaceEnd(s, i) ==> IsSpace(s[k])
    decreases |s| - i
  {
    if i < |s| && IsSpace(s[i]) {
      SpaceEndSkipsSpace(s, i + 1);
    }
  }

  lemma {:induction false} SpaceStartSkipsSpace(s: string, j: nat)
    requires j <= |s|
    ensures forall k :: SpaceStart(s, j) <= k < j ==> IsSpace(s[k])
    decreases j
  {
    if j > 0 && IsSpace(s[j - 1]) {
      SpaceStartSkipsSpace(s, j - 1);
    }
  }

  /** Trimming twice changes nothing more. */
  lemma TrimSpaceIdempotent(s: string)
    ensures TrimSpace(TrimSpace(s)) == TrimSpace(s)
  {
    var r := TrimSpace(s);
    if |r| > 0 {
      TrimSpaceNoop(r);
    }
  }

  /** isIdChar. */
  predicate IsIdChar(ch: char)
  {
    ('a' <= ch <= 'z') || ('A' <= ch <= 'Z') || ('0' <= ch <= '9') || ch == '_' || ch == '.'
  }

  /** The index just past the run of identifier characters starting at i. */
  function IdEnd(s: string, i: nat): (n: nat)
    requires i <= |s|
    ensures i <= n <= |s|
    ensures forall k :: i <= k < n ==> IsIdChar(s[k])
    ensures n < |s| ==> !IsIdChar(s[n])
    decreases |s| - i
  {
    if i < |s| && IsIdChar(s[i]) then IdEnd(s, i + 1) else i
  }

  /** parseWord: after trimming, the longest run of identifier characters and
      what follows it; two empty strings when there is no such run. */
  function ParseWord(s: string): (r: (string, string))
    ensures var (rest, word) := r;
      && (forall i :: 0 <= i < |word| ==> IsIdChar(word[i]))
      && (|word| == 0 ==> rest == "")
      && (|word| > 0 ==> TrimSpace(s) == word + rest && |rest| < |s|
                         && (|rest| > 0 ==> !IsIdChar(rest[0])))
  {
    var t := TrimSpace(s);
    var off := IdEnd(t, 0);
    if off == 0 then ("", "")
    else
      assert t == t[..off] + t[off..];
      (t[off..], t[..off])
  }

  /** match: trims the input and, when it starts with the pattern, steps over it. */
  function Match(s: string, pattern: string): (r: (string, bool))
    ensures |r.0| <= |s|
    ensures r.1 <==> |pattern| <= |TrimSpace(s)| && TrimSpace(s)[..|pattern|] == pattern
    ensures r.1 ==> TrimSpace(s) == pattern + r.0
    ensures !r.1 ==> r.0 == TrimSpace(s)
  {
    var t := TrimSpace(s);
    if |pattern| <= |t| && t[..|pattern|] == pattern then
      assert t == t[..|pattern|] + t[|pattern|..];
      (t[|pattern|..], true)
    else (t, false)
  }

  /** strings.IndexByte: the first position of ch. */
  function IndexOf(s: string, ch: char): (r: Option<nat>)
    ensures r.Some? ==> r.value < |s| && s[r.value] == ch
                        && forall i :: 0 <= i < r.value ==> s[i] != ch
    ensures r.None? ==> forall i :: 0 <= i < |s| ==> s[i] != ch
  {
    if |s| == 0 then None
    else if s[0] == ch then Some(0)
    else match IndexOf(s[1..], ch)
      case None => None
      case Some(k) => Some(k + 1)
  }

  // ---------------------------------------------------------------- parsing

  /** The result of a parser step: the context it leaves behind (types interned
      along the way stay, even when the parse then fails) and either the rest of
      the input with what was parsed, or an error. */
  datatype Parsed<T> = Parsed(ctx: Context, res: Result<(string, T)>)

  predicate HasName(cols: seq<Column>, name: string)
  {
    exists k :: 0 <= k < |cols| && cols[k].name == name
  }

  /** What every parser step promises about the context and what it returns. */
  predicate ParsedType(c: Context, input: string, p: Parsed<Type>)
  {
    && Valid(p.ctx) && Extends(c, p.ctx)
    && (p.res.Ok? ==> |p.res.value.0| <= |input| && Known(p.ctx, p.res.value.1))
  }

  /** parseType. */
  function ParseType(c: Context, input: string): (p: Parsed<Type>)
    requires Valid(c)
    ensures ParsedType(c, input, p)
    decreases |input|, 1
  {
    var s := TrimSpace(input);
    ExtendsRefl(c);
    if s in c.lut then Parsed(c, Ok(("", Interned(c, s))))
    else
      var (rest, word) := ParseWord(s);
      if word == "" then Parsed(c, Fail(UnknownType))
      else match LookupPrimitive(word)
        case Some(t) => Parsed(c, Ok((rest, t)))
        case None => ParseCompound(c, input, rest, word)
  }

  /** The rest of parseType once the word is neither a primitive name nor the
      whole input a key. */
  function ParseCompound(c: Context, input: string, rest: string, word: string): (p: Parsed<Type>)
    requires Valid(c) && |rest| < |input|
    ensures ParsedType(c, input, p)
    decreases |input|, 0
  {
    ExtendsRefl(c);
    if word in c.lut then Parsed(c, Ok((rest, Interned(c, word))))
    else if word == "set" then ParseSetTypeBody(c, rest)
    else if word == "array" then ParseArrayTypeBody(c, rest)
    else if word == "record" then ParseRecordTypeBody(c, rest)
    else Parsed(c, Fail(UnknownType))
  }

  lemma ExtendsRefl(c: Context)
    ensures Extends(c, c)
  {
    assert c.table[..|c.table|] == c.table;
  }

  /** parseRecordTypeBody: "[" then columns separated by "," then "]". */
  function ParseRecordTypeBody(c: Context, input: string): (p: Parsed<Type>)
    requires Valid(c)
    ensures ParsedType(c, input, p)
    ensures p.res.Ok? ==> p.res.value.1.TRecord?
    decreases |input|, 3
  {
    var (rest, ok) := Match(input, "[");
    if !ok then Parsed(c, Fail(TypeSyntax))
    else ParseRecordColumns(c, rest, [])
  }

  /** The loop of parseRecordTypeBody, with the columns parsed so far. */
  function ParseRecordColumns(c: Context, input: string, columns: seq<Column>): (p: Parsed<Type>)
    requires Valid(c)
    ensures ParsedType(c, input, p)
    ensures p.res.Ok? ==> p.res.value.1.TRecord?
    decreases |input|, 2
  {
    var pc := ParseColumn(c, input);
    if pc.res.Fail? then Parsed(pc.ctx, Fail(pc.res.error))
    else
      var (rest, col) := pc.res.value;
      if HasName(columns, col.name) then Parsed(pc.ctx, Fail(DuplicateFields))
      else
        var cols := columns + [col];
        var (afterComma, comma) := Match(rest, ",");
        if comma then
          var p := ParseRecordColumns(pc.ctx, afterComma, cols);
          ExtendsTrans(c, pc.ctx, p.ctx);
          p
        else
          var (afterClose, close) := Match(afterComma, "]");
          if !close then Parsed(pc.ctx, Fail(TypeSyntax))
          else
            var (c2, t) := LookupTypeRecord(pc.ctx, cols);
            ExtendsTrans(c, pc.ctx, c2);
            Parsed(c2, Ok((afterClose, t)))
  }

  /** parseColumn: a name up to the first colon, then a type. */
  function ParseColumn(c: Context, input: string): (p: Parsed<Column>)
    requires Valid(c)
    ensures Valid(p.ctx) && Extends(c, p.ctx)
    ensures p.res.Ok? ==> |p.res.value.0| < |input| && Known(p.ctx, p.res.value.1.typ)
    decreases |input|, 1
  {
    var s := TrimSpace(input);
    match IndexOf(s, ':')
    case None => Parsed(c, Fail(TypeSyntax))
    case Some(colon) =>
      var name := TrimSpace(s[..colon]);
      var pt := ParseType(c, s[colon + 1..]);
      match pt.res
      case Fail(e) => Parsed(pt.ctx, Fail(e))
      case Ok((rest, typ)) => Parsed(pt.ctx, Ok((rest, Column(name, typ))))
  }

  /** parseSetTypeBody: "[" then types separated by "," then "]"; only one type
      parameter is allowed, which is checked after the closing bracket. */
  function ParseSetTypeBody(c: Context, input: string): (p: Parsed<Type>)
    requires Valid(c)
    ensures ParsedType(c, input, p)
    ensures p.res.Ok? ==> p.res.value.1.TSet?
    decreases |input|, 3
  {
    var (rest, ok) := Match(input, "[");
    if !ok then Parsed(c, Fail(TypeSyntax))
    else ParseSetTypes(c, rest, [])
  }

  function ParseSetTypes(c: Context, input: string, types: seq<Type>): (p: Parsed<Type>)
    requires Valid(c)
    ensures ParsedType(c, input, p)
    ensures p.res.Ok? ==> p.res.value.1.TSet?
    decreases |input|, 2
  {
    var pt := ParseType(c, input);
    match pt.res
    case Fail(e) => Parsed(pt.ctx, Fail(e))
    case Ok((rest, typ)) =>
      var ts := types + [typ];
      var (afterComma, comma) := Match(rest, ",");
      if comma then
        var p := ParseSetTypes(pt.ctx, afterComma, ts);
        ExtendsTrans(c, pt.ctx, p.ctx);
        p
      else
        var (afterClose, close) := Match(afterComma, "]");
        if !close then Parsed(pt.ctx, Fail(TypeSyntax))
        else if |ts| > 1 then Parsed(pt.ctx, Fail(MultipleSetParams))
        else
          var (c2, t) := LookupTypeSet(pt.ctx, ts[0]);
          ExtendsTrans(c, pt.ctx, c2);
          Parsed(c2, Ok((afterClose, t)))
  }

  /** parseArrayTypeBody: "[" type "]". */
  function ParseArrayTypeBody(c: Context, input: string): (p: Parsed<Type>)
    requires Valid(c)
    ensures ParsedType(c, input, p)
    ensures p.res.Ok? ==> p.res.value.1.TArray?
    decreases |input|, 3
  {
    var (rest, ok) := Match(input, "[");
    if !ok then Parsed(c, Fail(TypeSyntax))
    else
      var pt := ParseType(c, rest);
      match pt.res
      case Fail(e) => Parsed(pt.ctx, Fail(e))
      case Ok((rest2, inner)) =>
        var (afterClose, close) := Match(rest2, "]");
        if !close then Parsed(pt.ctx, Fail(TypeSyntax))
        else
          var (c2, t) := LookupTypeArray(pt.ctx, inner);
          ExtendsTrans(c, pt.ctx, c2);
          Parsed(c2, Ok((afterClose, t)))
  }

  /** Every body parser wants an opening bracket first. */
  lemma BodyNeedsBracket(c: Context, input: string)
    requires Valid(c) && !Match(input, "[").1
    ensures ParseRecordTypeBody(c, input) == Parsed(c, Fail(TypeSyntax))
    ensures ParseSetTypeBody(c, input) == Parsed(c, Fail(TypeSyntax))
    ensures ParseArrayTypeBody(c, input) == Parsed(c, Fail(TypeSyntax))
  {
  }

  /** A column whose name an earlier column of the record already has is
      refused, keeping the types the column interned. */
  lemma RecordRejectsDuplicate(c: Context, input: string, columns: seq<Column>)
    requires Valid(c)
    ensures var p := ParseColumn(c, input);
      p.res.Ok? && HasName(columns, p.res.value.1.name) ==>
        ParseRecordColumns(c, input, columns) == Parsed(p.ctx, Fail(DuplicateFields))
  {
  }

  /** A column followed by neither "," nor "]" is a syntax error. */
  lemma RecordRejectsUnclosed(c: Context, input: string, columns: seq<Column>)
    requires Valid(c)
    ensures var p := ParseColumn(c, input);
      (p.res.Ok? && !HasName(columns, p.res.value.1.name) &&
       !Match(p.res.value.0, ",").1 && !Match(Match(p.res.value.0, ",").0, "]").1) ==>
        ParseRecordColumns(c, input, columns) == Parsed(p.ctx, Fail(TypeSyntax))
  {
  }

  /** A set body that closes after a second type parameter is refused. */
  lemma SetRejectsMultiple(c: Context, input: string, types: seq<Type>)
    requires Valid(c) && |types| >= 1
    ensures var p := ParseType(c, input);
      (p.res.Ok? && !Match(p.res.value.0, ",").1 && Match(Match(p.res.value.0, ",").0, "]").1) ==>
        ParseSetTypes(c, input, types) == Parsed(p.ctx, Fail(MultipleSetParams))
  {
  }

  /** LookupByName: parses a type string; anything after the type is ignored. */
  function LookupByName(c: Context, input: string): (r: (Context, Result<Type>))
    requires Valid(c)
    ensures Valid(r.0) && Extends(c, r.0)
    ensures r.1.Ok? ==> Known(r.0, r.1.value)
  {
    var p := ParseType(c, input);
    (p.ctx, if p.res.Ok? then Ok(p.res.value.1) else Fail(p.res.error))
  }

  // ---------------------------------------------------------------- translation

  datatype Translated = Translated(ctx: Context, res: Result<Type>)

  /** The kinds TranslateType handles without panicking: anything with an id
      below IdTypeDef is taken as it is, records, sets and arrays are rebuilt. */
  predicate Translatable(t: Type)
    decreases t, 1
  {
    if t.id < IdTypeDef then true
    else match t
      case TRecord(_, cols) => ColumnsTranslatable(t, 0)
      case TSet(_, inner) => Translatable(inner)
      case TArray(_, inner) => Translatable(inner)
      case _ => false
  }

  predicate ColumnsTranslatable(t: Type, i: nat)
    requires t.TRecord? && i <= |t.columns|
    decreases t, 0, |t.columns| - i
  {
    i == |t.columns| || (Translatable(t.columns[i].typ) && ColumnsTranslatable(t, i + 1))
  }

  /** TranslateType: the same type interned in this context.  Children are
      translated first, left to right, so their ids are the ones this context
      gives them. */
  function TranslateType(c: Context, ext: Type): (r: Translated)
    requires Valid(c)
    ensures Valid(r.ctx) && Extends(c, r.ctx)
    ensures r.res.Ok? <==> Translatable(ext)
    ensures r.res.Ok? && ext.id < IdTypeDef ==> r.res.value == ext && r.ctx == c
    ensures r.res.Ok? && ext.id >= IdTypeDef ==>
      Known(r.ctx, r.res.value) && r.res.value.id >= IdTypeDef
      && (ext.TRecord? <==> r.res.value.TRecord?)
      && (ext.TSet? <==> r.res.value.TSet?)
      && (ext.TArray? <==> r.res.value.TArray?)
    decreases ext, 1
  {
    ExtendsRefl(c);
    if ext.id < IdTypeDef then Translated(c, Ok(ext))
    else match ext
      case TRecord(_, cols) => TranslateColumns(c, ext, 0, [])
      case TSet(_, inner) =>
        var ti := TranslateType(c, inner);
        if ti.res.Fail? then ti
        else
          var (c2, t) := LookupTypeSet(ti.ctx, ti.res.value);
          ExtendsTrans(c, ti.ctx, c2);
          Translated(c2, Ok(t))
      case TArray(_, inner) =>
        var ti := TranslateType(c, inner);
        if ti.res.Fail? then ti
        else
          var (c2, t) := LookupTypeArray(ti.ctx, ti.res.value);
          ExtendsTrans(c, ti.ctx, c2);
          Translated(c2, Ok(t))
      case _ => Translated(c, Fail(UnsupportedType))
  }

  /** TranslateTypeRecord from column i on, with the columns translated so far. */
  function TranslateColumns(c: Context, ext: Type, i: nat, acc: seq<Column>): (r: Translated)
    requires Valid(c) && ext.TRecord? && i <= |ext.columns|
    ensures Valid(r.ctx) && Extends(c, r.ctx)
    ensures r.res.Ok? <==> ColumnsTranslatable(ext, i)
    ensures r.res.Ok? ==> r.res.value.TRecord? && Known(r.ctx, r.res.value) && r.res.value.id >= IdTypeDef
    decreases ext, 0, |ext.columns| - i
  {
    if i == |ext.columns| then
      var (c2, t) := LookupTypeRecord(c, acc);
      Translated(c2, Ok(t))
    else
      var col := ext.columns[i];
      var tc := TranslateType(c, col.typ);
      if tc.res.Fail? then Translated(tc.ctx, Fail(tc.res.error))
      else
        var r := TranslateColumns(tc.ctx, ext, i + 1, acc + [Column(col.name, tc.res.value)]);
        ExtendsTrans(c, tc.ctx, r.ctx);
        r
  }

  // ------------------------------------------- translation keeps the structure

  /** The parts of a compound type: its column types, or its inner type. */
  predicate PartsKnown(c: Context, t: Type)
  {
    match t
    case TRecord(_, cols) => forall k :: 0 <= k < |cols| ==> Known(c, cols[k].typ)
    case TSet(_, inner) => Known(c, inner)
    case TArray(_, inner) => Known(c, inner)
    case _ => true
  }

  /** A valid context whose interned types are built from types it knows,
      as every context built by the lookups below is. */
  predicate Closed(c: Context)
  {
    && Valid(c)
    && forall i :: IdTypeDef <= i < |c.table| ==> c.table[i].Some? && PartsKnown(c, c.table[i].value)
  }

  /** A type as a type context hands it out: every part with an id below
      IdTypeDef is a primitive, and every compound part has an interned id. */
  predicate WellIded(t: Type)
    decreases t, 1
  {
    if t.id < IdTypeDef then t.Primitive? && 0 <= t.id < |PrimitiveNames|
    else match t
      case TRecord(_, cols) => forall k :: 0 <= k < |cols| ==> WellIded(cols[k].typ)
      case TSet(_, inner) => WellIded(inner)
      case TArray(_, inner) => WellIded(inner)
      case _ => true
  }

  /** a and b have the same structure: the same primitives, the same kinds of
      compound, the same column names in the same order; the ids of compound
      types may differ. */
  predicate SameShape(a: Type, b: Type)
    decreases a, 1
  {
    match a
    case TRecord(_, cols) =>
      && b.TRecord? && |b.columns| == |cols|
      && forall k :: 0 <= k < |cols| ==>
           cols[k].name == b.columns[k].name && SameShape(cols[k].typ, b.columns[k].typ)
    case TSet(_, inner) => b.TSet? && SameShape(inner, b.inner)
    case TArray(_, inner) => b.TArray? && SameShape(inner, b.inner)
    case _ => a == b
  }

  lemma NewContextClosed()
    ensures Closed(NewContext())
  {
  }

  /** Two types a valid context knows are the same when their ids are. */
  lemma KnownUnique(c: Context, a: Type, b: Type)
    requires Valid(c) && Known(c, a) && Known(c, b) && a.id == b.id
    ensures a == b
  {
  }

  lemma PartsKnownExtends(c1: Context, c2: Context, t: Type)
    requires Extends(c1, c2) && PartsKnown(c1, t)
    ensures PartsKnown(c2, t)
  {
    match t
    case TRecord(_, cols) =>
      forall k | 0 <= k < |cols| ensures Known(c2, cols[k].typ) {
        KnownExtends(c1, c2, cols[k].typ);
      }
    case TSet(_, inner) => KnownExtends(c1, c2, inner);
    case TArray(_, inner) => KnownExtends(c1, c2, inner);
    case _ =>
  }

  /** Interning one more type whose parts are known keeps the context closed. */
  lemma AppendClosed(c: Context, c2: Context, t: Type)
    requires Closed(c) && Valid(c2) && Extends(c, c2) && c2.table == c.table + [Some(t)]
    requires PartsKnown(c, t)
    ensures Closed(c2)
  {
    forall i | IdTypeDef <= i < |c2.table|
      ensures c2.table[i].Some? && PartsKnown(c2, c2.table[i].value)
    {
      if i < |c.table| {
        assert c2.table[i] == c.table[i];
        PartsKnownExtends(c, c2, c.table[i].value);
      } else {
        PartsKnownExtends(c, c2, t);
      }
    }
  }

  /** In a closed context, looking up a record of known columns gives a
      record with exactly those columns. */
  lemma LookupRecordClosed(c: Context, cols: seq<Column>)
    requires Closed(c) && forall k :: 0 <= k < |cols| ==> Known(c, cols[k].typ)
    ensures var (c2, t) := LookupTypeRecord(c, cols);
      Closed(c2) && t.TRecord? && t.columns == cols
  {
    var (c2, t) := LookupTypeRecord(c, cols);
    if RecordKey(cols) in c.lut {
      assert c.table[t.id] == Some(t);
      RecordKeyInjective(t.columns, cols);
      forall k | 0 <= k < |cols| ensures t.columns[k] == cols[k] {
        KnownUnique(c, t.columns[k].typ, cols[k].typ);
      }
    } else {
      AppendClosed(c, c2, t);
    }
  }

  lemma LookupSetClosed(c: Context, inner: Type)
    requires Closed(c) && Known(c, inner)
    ensures var (c2, t) := LookupTypeSet(c, inner); Closed(c2) && t == TSet(t.id, inner)
  {
    var (c2, t) := LookupTypeSet(c, inner);
    if SetKey(inner) in c.lut {
      assert c.table[t.id] == Some(t);
      KnownUnique(c, t.inner, inner);
    } else {
      AppendClosed(c, c2, t);
    }
  }

  lemma LookupArrayClosed(c: Context, inner: Type)
    requires Closed(c) && Known(c, inner)
    ensures var (c2, t) := LookupTypeArray(c, inner); Closed(c2) && t == TArray(t.id, inner)
  {
    var (c2, t) := LookupTypeArray(c, inner);
    if ArrayKey(inner) in c.lut {
      assert c.table[t.id] == Some(t);
      KnownUnique(c, t.inner, inner);
    } else {
      AppendClosed(c, c2, t);
    }
  }

  /** TranslateType rebuilds records, sets and arrays structurally: the
      translated type has the shape of the external one, column names and
      order included, and the context stays closed. */
  lemma {:induction false} TranslateStructural(c: Context, ext: Type)
    requires Closed(c) && WellIded(ext)
    ensures var r := TranslateType(c, ext);
      r.res.Ok? ==> Closed(r.ctx) && Known(r.ctx, r.res.value) && SameShape(ext, r.res.value)
    decreases ext, 1
  {
    var r := TranslateType(c, ext);
    if r.res.Ok? {
      if ext.id < IdTypeDef {
      } else {
        match ext
        case TRecord(_, cols) =>
          assert TranslatedPrefix(c, ext, []);
          TranslateColumnsStructural(c, ext, 0, []);
        case TSet(_, inner) =>
          var ti := TranslateType(c, inner);
          TranslateStructural(c, inner);
          LookupSetClosed(ti.ctx, ti.res.value);
        case TArray(_, inner) =>
          var ti := TranslateType(c, inner);
          TranslateStructural(c, inner);
          LookupArrayClosed(ti.ctx, ti.res.value);
      }
    }
  }

  /** acc holds ext's first |acc| columns translated into c: the same names,
      in order, each with a type of the same shape that c knows. */
  predicate TranslatedPrefix(c: Context, ext: Type, acc: seq<Column>)
    requires ext.TRecord?
  {
    && |acc| <= |ext.columns|
    && forall k :: 0 <= k < |acc| ==>
         acc[k].name == ext.columns[k].name && SameShape(ext.columns[k].typ, acc[k].typ) && Known(c, acc[k].typ)
  }

  /** Appending the next column, translated into an extension of c, keeps
      the prefix translated. */
  lemma TranslatedPrefixStep(c: Context, c2: Context, ext: Type, acc: seq<Column>, t: Type)
    requires ext.TRecord? && Extends(c, c2) && TranslatedPrefix(c, ext, acc) && |acc| < |ext.columns|
    requires SameShape(ext.columns[|acc|].typ, t) && Known(c2, t)
    ensures TranslatedPrefix(c2, ext, acc + [Column(ext.columns[|acc|].name, t)])
  {
    var acc2 := acc + [Column(ext.columns[|acc|].name, t)];
    forall k | 0 <= k < |acc2|
      ensures acc2[k].name == ext.columns[k].name && SameShape(ext.columns[k].typ, acc2[k].typ)
      ensures Known(c2, acc2[k].typ)
    {
      if k < |acc| {
        assert acc2[k] == acc[k];
        KnownExtends(c, c2, acc[k].typ);
      }
    }
  }

  /** The record case: with the first i columns translated into acc, the
      record built has ext's names, in order, with types of the same shape. */
  lemma {:induction false} TranslateColumnsStructural(c: Context, ext: Type, i: nat, acc: seq<Column>)
    requires Closed(c) && WellIded(ext) && ext.TRecord? && ext.id >= IdTypeDef && i <= |ext.columns|
    requires |acc| == i && TranslatedPrefix(c, ext, acc)
    ensures var r := TranslateColumns(c, ext, i, acc);
      r.res.Ok? ==> Closed(r.ctx) && Known(r.ctx, r.res.value) && SameShape(ext, r.res.value)
    decreases ext, 0, |ext.columns| - i
  {
    if i == |ext.columns| {
      LookupRecordClosed(c, acc);
    } else {
      var tc := TranslateType(c, ext.columns[i].typ);
      if tc.res.Ok? {
        TranslateStructural(c, ext.columns[i].typ);
        TranslatedPrefixStep(c, tc.ctx, ext, acc, tc.res.value);
        TranslateColumnsStructural(tc.ctx, ext, i + 1, acc + [Column(ext.columns[i].name, tc.res.value)]);
      }
    }
  }

  // ---------------------------------------------------------------- type strings

  /** The type string of a type, in the syntax parseType reads. */
  function Format(t: Type): string
    decreases t, 1
  {
    match t
    case Primitive(id) => if 0 <= id < |PrimitiveNames| then PrimitiveNames[id] else "?"
    case TSet(_, inner) => "set[" + Format(inner) + "]"
    case TArray(_, inner) => "array[" + Format(inner) + "]"
    case TRecord(_, cols) => "record[" + (if |cols| == 0 then "" else FormatColumns(t, 0)) + "]"
    case TUnion(_, _) => "union"
    case TAlias(_, name, _) => name
  }

  /** "name:type" for columns i.., separated by commas. */
  function FormatColumns(t: Type, i: nat): string
    requires t.TRecord? && i < |t.columns|
    decreases t, 0, |t.columns| - i
  {
    var col := t.columns[i];
    col.name + ":" + Format(col.typ) + (if i + 1 < |t.columns| then "," + FormatColumns(t, i + 1) else "")
  }

  /** A column name the parser reads back unchanged: no colon, and no white
      space at either end. */
  predicate PlainName(n: string)
  {
    (forall k :: 0 <= k < |n| ==> n[k] != ':') && (|n| == 0 || (!IsSpace(n[0]) && !IsSpace(n[|n| - 1])))
  }

  /** The types whose type string parses back: primitives, sets, arrays and
      non-empty records with distinct plain names, all with ids from a context. */
  predicate Printable(t: Type)
    decreases t, 1
  {
    match t
    case Primitive(id) => 0 <= id < |PrimitiveNames|
    case TSet(id, inner) => id >= IdTypeDef && Printable(inner)
    case TArray(id, inner) => id >= IdTypeDef && Printable(inner)
    case TRecord(id, cols) =>
      && id >= IdTypeDef && |cols| > 0
      && (forall i, j :: 0 <= i < j < |cols| ==> cols[i].name != cols[j].name)
      && ColumnsPrintable(t, 0)
    case _ => false
  }

  predicate ColumnsPrintable(t: Type, i: nat)
    requires t.TRecord? && i <= |t.columns|
    decreases t, 0, |t.columns| - i
  {
    i == |t.columns| || (PlainName(t.columns[i].name) && Printable(t.columns[i].typ) && ColumnsPrintable(t, i + 1))
  }

  /** What may follow a type inside a type string: nothing, or a separator and
      text ending in a closing bracket. */
  predicate Follow(rest: string)
  {
    |rest| == 0 || ((rest[0] == ',' || rest[0] == ']') && rest[|rest| - 1] == ']')
  }

  // ------------------------------------------- type strings parse back

  /** A string that cannot be a key: keys are "s" or "a" followed by a number,
      or "r" followed by nothing or by column entries ending in ';'. */
  predicate NotKeyShaped(s: string)
  {
    && |s| >= 2
    && (|| (s[0] != 'r' && s[0] != 's' && s[0] != 'a')
        || ((s[0] == 's' || s[0] == 'a') && !IsDigit(s[1]) && s[1] != '-')
        || (s[0] == 'r' && s[|s| - 1] != ';'))
  }

  lemma ColumnsKeyLast(cols: seq<Column>)
    requires |cols| > 0
    ensures var k := ColumnsKey(cols); |k| > 0 && k[|k| - 1] == ';'
  {
    if |cols| > 1 {
      ColumnsKeyLast(cols[1..]);
    }
  }

  /** No key is shaped like NotKeyShaped. */
  lemma KeyShape(t: Type)
    requires Internable(t)
    ensures !NotKeyShaped(TypeKey(t))
  {
    match t
    case TRecord(_, cols) =>
      if |cols| > 0 {
        ColumnsKeyLast(cols);
        var k := TypeKey(t);
        assert k[|k| - 1] == ColumnsKey(cols)[|ColumnsKey(cols)| - 1];
      }
    case TSet(_, inner) =>
      assert TypeKey(t)[1] == Itoa(inner.id)[0];
    case TArray(_, inner) =>
      assert TypeKey(t)[1] == Itoa(inner.id)[0];
  }

  lemma NotAKey(c: Context, s: string)
    requires Valid(c) && NotKeyShaped(s)
    ensures s !in c.lut
  {
    if s in c.lut {
      KeyShape(Interned(c, s));
    }
  }

  /** Facts about the primitive names the parser relies on. */
  lemma PrimitiveNameShape(i: nat)
    requires i < |PrimitiveNames|
    ensures var n := PrimitiveNames[i];
      && NotKeyShaped(n) && n[0] != 'r'
      && (forall k :: 0 <= k < |n| ==> IsIdChar(n[k]))
  {
  }

  lemma KeywordsNotPrimitive()
    ensures "set" !in PrimitiveNames && "array" !in PrimitiveNames && "record" !in PrimitiveNames
  {
  }

  lemma {:induction false} IdEndOf(s: string, w: string, rest: string, i: nat)
    requires s == w + rest && i <= |w|
    requires forall k :: 0 <= k < |w| ==> IsIdChar(w[k])
    requires |rest| == 0 || !IsIdChar(rest[0])
    ensures IdEnd(s, i) == |w|
    decreases |w| - i
  {
    if i < |w| {
      assert s[i] == w[i];
      IdEndOf(s, w, rest, i + 1);
    } else if |rest| > 0 {
      assert s[i] == rest[0];
    }
  }

  lemma ParseWordOf(w: string, rest: string)
    requires |w| > 0 && (forall k :: 0 <= k < |w| ==> IsIdChar(w[k]))
    requires |rest| == 0 || !IsIdChar(rest[0])
    requires TrimSpace(w + rest) == w + rest
    ensures ParseWord(w + rest) == (rest, w)
  {
    var s := w + rest;
    IdEndOf(s, w, rest, 0);
    assert s[..|w|] == w && s[|w|..] == rest;
  }

  lemma MatchHit(s: string, pattern: string, tail: string)
    requires s == pattern + tail && TrimSpace(s) == s
    ensures Match(s, pattern) == (tail, true)
  {
    assert s[..|pattern|] == pattern;
    assert s[|pattern|..] == tail;
  }

  lemma MatchMiss(s: string, pattern: string)
    requires TrimSpace(s) == s && |s| > 0 && |pattern| == 1 && s[0] != pattern[0]
    ensures Match(s, pattern) == (s, false)
  {
  }

  /** What FormatShape promises about a type string. */
  predicate Shaped(f: string)
  {
    && |f| >= 2 && IsIdChar(f[0]) && (f[0] != 'r' ==> NotKeyShaped(f))
    && (f[0] == 'r' ==> f[|f| - 1] == ']')
    && !IsSpace(f[|f| - 1])
  }

  /** A keyword, a bracket, anything, and the closing bracket. */
  lemma BracketedShaped(word: string, f: string)
    requires word == "set" || word == "array" || word == "record"
    ensures Shaped(word + "[" + f + "]")
  {
    var s := word + "[" + f + "]";
    assert s[0] == word[0] && s[1] == word[1] && s[|s| - 1] == ']';
  }

  /** The first and last characters of a printable type's string. */
  lemma FormatShape(t: Type)
    requires Printable(t)
    ensures Shaped(Format(t))
  {
    match t
    case Primitive(id) =>
      PrimitiveNameShape(id);
      var f := Format(t);
      assert IsIdChar(f[|f| - 1]);
    case TSet(_, inner) =>
      BracketedShaped("set", Format(inner));
    case TArray(_, inner) =>
      BracketedShaped("array", Format(inner));
    case TRecord(_, cols) =>
      BracketedShaped("record", FormatColumns(t, 0));
  }

  /** Appending what may follow a type keeps the string trimmed and unlike a key. */
  lemma FormatFollowed(t: Type, rest: string)
    requires Printable(t) && Follow(rest)
    ensures var s := Format(t) + rest;
      TrimSpace(s) == s && NotKeyShaped(s) && s[0] == Format(t)[0]
  {
    FormatShape(t);
    FollowedString(Format(t), rest);
  }

  lemma FollowedString(f: string, rest: string)
    requires |f| >= 2 && IsIdChar(f[0]) && !IsSpace(f[|f| - 1]) && Follow(rest)
    requires f[0] != 'r' ==> NotKeyShaped(f)
    requires f[0] == 'r' ==> f[|f| - 1] == ']'
    ensures var s := f + rest;
      TrimSpace(s) == s && NotKeyShaped(s) && s[0] == f[0]
  {
    var s := f + rest;
    assert s[0] == f[0] && s[1] == f[1];
    assert s[|s| - 1] == (if |rest| == 0 then f[|f| - 1] else ']');
    TrimSpaceNoop(s);
  }

  lemma ColumnsPrintableAt(t: Type, j: nat, i: nat)
    requires t.TRecord? && j <= i < |t.columns| && ColumnsPrintable(t, j)
    ensures PlainName(t.columns[i].name) && Printable(t.columns[i].typ)
    decreases i - j
  {
    if j < i {
      ColumnsPrintableAt(t, j + 1, i);
    }
  }

  lemma IndexOfAfterPlain(name: string, after: string)
    requires PlainName(name)
    ensures IndexOf(name + ":" + after, ':') == Some(|name|)
  {
    var s := name + ":" + after;
    var r := IndexOf(s, ':');
    assert s[|name|] == ':';
    assert forall k :: 0 <= k < |name| ==> s[k] == name[k];
  }

  lemma TrimPlainName(name: string)
    requires PlainName(name)
    ensures TrimSpace(name) == name
  {
    if |name| > 0 {
      TrimSpaceNoop(name);
    }
  }

  // The round trip is proved in small steps: facts about strings alone first,
  // then one unfolding of a parser or of TranslateType per lemma.

  /** "[" f "]" rest, trimmed, opens with the bracket. */
  lemma BracketBody(f: string, rest: string)
    requires Follow(rest)
    ensures var body := "[" + f + "]" + rest;
      |body| > 0 && body[0] == '[' && body[|body| - 1] == ']'
      && Match(body, "[") == (f + ("]" + rest), true)
  {
    var body := "[" + f + "]" + rest;
    assert body == "[" + (f + ("]" + rest));
    assert body[0] == '[';
    assert body[|body| - 1] == ']';
    TrimSpaceNoop(body);
    MatchHit(body, "[", f + ("]" + rest));
  }

  /** "]" rest is not a comma, and closes the bracket. */
  lemma CloseTail(rest: string)
    requires Follow(rest)
    ensures Match("]" + rest, ",") == ("]" + rest, false)
    ensures Match("]" + rest, "]") == (rest, true)
  {
    var close := "]" + rest;
    assert close[0] == ']' && close[|close| - 1] == ']';
    TrimSpaceNoop(close);
    MatchMiss(close, ",");
    MatchHit(close, "]", rest);
  }

  /** "," next moves on to the next entry. */
  lemma CommaNext(next: string)
    requires |next| > 0 && next[|next| - 1] == ']'
    ensures Match("," + next, ",") == (next, true)
  {
    var s := "," + next;
    assert s[0] == ',' && s[|s| - 1] == ']';
    TrimSpaceNoop(s);
    MatchHit(s, ",", next);
  }

  /** The type string of a compound type is its keyword and then its body. */
  lemma SetKeyword(id: int, inner: Type, rest: string)
    ensures Format(TSet(id, inner)) + rest == "set" + ("[" + Format(inner) + "]" + rest)
  {
    assert "set[" == "set" + "[";
  }

  lemma ArrayKeyword(id: int, inner: Type, rest: string)
    ensures Format(TArray(id, inner)) + rest == "array" + ("[" + Format(inner) + "]" + rest)
  {
    assert "array[" == "array" + "[";
  }

  lemma RecordKeyword(id: int, cols: seq<Column>, rest: string)
    requires |cols| > 0
    ensures Format(TRecord(id, cols)) + rest == "record" + ("[" + FormatColumns(TRecord(id, cols), 0) + "]" + rest)
  {
    assert "record[" == "record" + "[";
  }

  lemma SetBodyOpen(c: Context, f: string, rest: string)
    requires Valid(c) && Follow(rest)
    ensures ParseSetTypeBody(c, "[" + f + "]" + rest) == ParseSetTypes(c, f + ("]" + rest), [])
  {
    BracketBody(f, rest);
  }

  lemma SetTypesOne(c: Context, input: string, close: string, rest: string, ti: Translated)
    requires Valid(c) && ti.res.Ok? && Valid(ti.ctx)
    requires Match(close, ",") == (close, false) && Match(close, "]") == (rest, true)
    ensures ParseType(c, input) == Parsed(ti.ctx, Ok((close, ti.res.value))) ==>
      var (c2, st) := LookupTypeSet(ti.ctx, ti.res.value);
      ParseSetTypes(c, input, []) == Parsed(c2, Ok((rest, st)))
  {
    assert [] + [ti.res.value] == [ti.res.value];
  }

  /** A set body "[f]" whose f parses to one type interns the set of it. */
  lemma SetBodyOf(c: Context, f: string, rest: string, ti: Translated)
    requires Valid(c) && Follow(rest) && ti.res.Ok? && Valid(ti.ctx)
    ensures ParseType(c, f + ("]" + rest)) == Parsed(ti.ctx, Ok(("]" + rest, ti.res.value))) ==>
      var (c2, st) := LookupTypeSet(ti.ctx, ti.res.value);
      ParseSetTypeBody(c, "[" + f + "]" + rest) == Parsed(c2, Ok((rest, st)))
  {
    CloseTail(rest);
    SetBodyOpen(c, f, rest);
    SetTypesOne(c, f + ("]" + rest), "]" + rest, rest, ti);
  }

  /** An array body "[f]" whose f parses to a type interns the array of it. */
  lemma ArrayBodyOf(c: Context, f: string, rest: string, ti: Translated)
    requires Valid(c) && Follow(rest) && ti.res.Ok? && Valid(ti.ctx)
    ensures ParseType(c, f + ("]" + rest)) == Parsed(ti.ctx, Ok(("]" + rest, ti.res.value))) ==>
      var (c2, at) := LookupTypeArray(ti.ctx, ti.res.value);
      ParseArrayTypeBody(c, "[" + f + "]" + rest) == Parsed(c2, Ok((rest, at)))
  {
    CloseTail(rest);
    BracketBody(f, rest);
  }

  lemma RecordBodyOpen(c: Context, f: string, rest: string)
    requires Valid(c) && Follow(rest)
    ensures ParseRecordTypeBody(c, "[" + f + "]" + rest) == ParseRecordColumns(c, f + ("]" + rest), [])
  {
    BracketBody(f, rest);
  }

  /** The keyword step of parseType on "word[...]": the word is neither a
      primitive nor a key, so the body parser for the word takes over. */
  lemma KeywordStep(c: Context, word: string, body: string)
    requires Valid(c) && (word == "set" || word == "array" || word == "record")
    requires |body| > 0 && body[0] == '[' && body[|body| - 1] == ']'
    ensures ParseType(c, word + body) ==
      if word == "set" then ParseSetTypeBody(c, body)
      else if word == "array" then ParseArrayTypeBody(c, body)
      else ParseRecordTypeBody(c, body)
  {
    var s := word + body;
    assert s[0] == word[0] && s[1] == word[1] && s[|s| - 1] == ']';
    TrimSpaceNoop(s);
    NotAKey(c, s);
    ParseWordOf(word, body);
    KeywordsNotPrimitive();
    NotAKey(c, word);
    assert TrimSpace(s) == s;
    assert s !in c.lut;
    assert ParseWord(s) == (body, word);
    assert LookupPrimitive(word) == None;
    assert ParseType(c, s) == ParseCompound(c, s, body, word);
  }

  lemma ParseFormatPrimitive(c: Context, id: int, rest: string)
    requires Valid(c) && 0 <= id < |PrimitiveNames| && Follow(rest)
    ensures ParseType(c, Format(Primitive(id)) + rest) == Parsed(c, Ok((rest, Primitive(id))))
  {
    var t := Primitive(id);
    var s := Format(t) + rest;
    FormatFollowed(t, rest);
    NotAKey(c, s);
    PrimitiveNameShape(id);
    ParseWordOf(PrimitiveNames[id], rest);
    LookupPrimitiveName(id);
  }

  lemma TranslateSetStep(c: Context, id: int, inner: Type)
    requires Valid(c) && id >= IdTypeDef && TranslateType(c, inner).res.Ok?
    ensures var ti := TranslateType(c, inner);
      var (c2, st) := LookupTypeSet(ti.ctx, ti.res.value);
      TranslateType(c, TSet(id, inner)) == Translated(c2, Ok(st))
  {
  }

  lemma TranslateArrayStep(c: Context, id: int, inner: Type)
    requires Valid(c) && id >= IdTypeDef && TranslateType(c, inner).res.Ok?
    ensures var ti := TranslateType(c, inner);
      var (c2, at) := LookupTypeArray(ti.ctx, ti.res.value);
      TranslateType(c, TArray(id, inner)) == Translated(c2, Ok(at))
  {
  }

  lemma SetKeywordParses(c: Context, id: int, inner: Type, rest: string)
    requires Valid(c) && Follow(rest)
    ensures ParseType(c, Format(TSet(id, inner)) + rest) == ParseSetTypeBody(c, "[" + Format(inner) + "]" + rest)
  {
    var body := "[" + Format(inner) + "]" + rest;
    BracketBody(Format(inner), rest);
    SetKeyword(id, inner, rest);
    KeywordStep(c, "set", body);
  }

  lemma ParseFormatSet(c: Context, id: int, inner: Type, rest: string)
    requires Valid(c) && id >= IdTypeDef && Follow(rest)
    ensures var ti := TranslateType(c, inner);
      (ti.res.Ok? && ParseType(c, Format(inner) + ("]" + rest)) == Parsed(ti.ctx, Ok(("]" + rest, ti.res.value)))) ==>
      var tr := TranslateType(c, TSet(id, inner));
      tr.res.Ok? && ParseType(c, Format(TSet(id, inner)) + rest) == Parsed(tr.ctx, Ok((rest, tr.res.value)))
  {
    var ti := TranslateType(c, inner);
    var f := Format(inner);
    if ti.res.Ok? && ParseType(c, f + ("]" + rest)) == Parsed(ti.ctx, Ok(("]" + rest, ti.res.value))) {
      SetKeywordParses(c, id, inner, rest);
      SetBodyOf(c, f, rest, ti);
      TranslateSetStep(c, id, inner);
    }
  }

  lemma ArrayKeywordParses(c: Context, id: int, inner: Type, rest: string)
    requires Valid(c) && Follow(rest)
    ensures ParseType(c, Format(TArray(id, inner)) + rest) == ParseArrayTypeBody(c, "[" + Format(inner) + "]" + rest)
  {
    var body := "[" + Format(inner) + "]" + rest;
    BracketBody(Format(inner), rest);
    ArrayKeyword(id, inner, rest);
    KeywordStep(c, "array", body);
  }

  lemma ParseFormatArray(c: Context, id: int, inner: Type, rest: string)
    requires Valid(c) && id >= IdTypeDef && Follow(rest)
    ensures var ti := TranslateType(c, inner);
      (ti.res.Ok? && ParseType(c, Format(inner) + ("]" + rest)) == Parsed(ti.ctx, Ok(("]" + rest, ti.res.value)))) ==>
      var tr := TranslateType(c, TArray(id, inner));
      tr.res.Ok? && ParseType(c, Format(TArray(id, inner)) + rest) == Parsed(tr.ctx, Ok((rest, tr.res.value)))
  {
    var ti := TranslateType(c, inner);
    var f := Format(inner);
    if ti.res.Ok? && ParseType(c, f + ("]" + rest)) == Parsed(ti.ctx, Ok(("]" + rest, ti.res.value))) {
      ArrayKeywordParses(c, id, inner, rest);
      ArrayBodyOf(c, f, rest, ti);
      TranslateArrayStep(c, id, inner);
    }
  }

  lemma ParseFormatRecord(c: Context, id: int, cols: seq<Column>, rest: string)
    requires Valid(c) && id >= IdTypeDef && |cols| > 0 && Follow(rest)
    ensures var tc := TranslateColumns(c, TRecord(id, cols), 0, []);
      (tc.res.Ok? && ParseRecordColumns(c, FormatColumns(TRecord(id, cols), 0) + ("]" + rest), []) == Parsed(tc.ctx, Ok((rest, tc.res.value)))) ==>
      var tr := TranslateType(c, TRecord(id, cols));
      tr.res.Ok? && ParseType(c, Format(TRecord(id, cols)) + rest) == Parsed(tr.ctx, Ok((rest, tr.res.value)))
  {
    var f := FormatColumns(TRecord(id, cols), 0);
    var body := "[" + f + "]" + rest;
    RecordBodyOpen(c, f, rest);
    BracketBody(f, rest);
    RecordKeyword(id, cols, rest);
    assert Format(TRecord(id, cols)) + rest == "record" + body;
    KeywordStep(c, "record", body);
  }

  /** Parsing the type string of a printable type (followed by whatever may
      follow a type) interns exactly what translating the type into the context
      interns, and returns the same type with the rest of the input. */
  lemma {:induction false} ParseFormat(c: Context, t: Type, rest: string)
    requires Valid(c) && Printable(t) && Follow(rest)
    ensures var tr := TranslateType(c, t);
      tr.res.Ok? && ParseType(c, Format(t) + rest) == Parsed(tr.ctx, Ok((rest, tr.res.value)))
    decreases t, 1
  {
    match t
    case Primitive(id) =>
      ParseFormatPrimitive(c, id, rest);
    case TSet(id, inner) =>
      ParseFormat(c, inner, "]" + rest);
      ParseFormatSet(c, id, inner, rest);
    case TArray(id, inner) =>
      ParseFormat(c, inner, "]" + rest);
      ParseFormatArray(c, id, inner, rest);
    case TRecord(id, cols) =>
      RecordColumnsFormat(c, id, cols, 0, [], rest);
      ParseFormatRecord(c, id, cols, rest);
  }

  /** The type string of columns i.. splits at the first column's colon; what
      follows the column's type is "," and the next columns, or the "]". */
  lemma FormatColumnsSplit(id: int, cols: seq<Column>, i: nat, rest: string)
    requires i < |cols| && Follow(rest)
    ensures var t := TRecord(id, cols);
      var tail := if i + 1 < |cols| then "," + (FormatColumns(t, i + 1) + ("]" + rest)) else "]" + rest;
      && FormatColumns(t, i) + ("]" + rest) == cols[i].name + ":" + (Format(cols[i].typ) + tail)
      && Follow(tail) && |tail| > 0
  {
    var t := TRecord(id, cols);
    var more := if i + 1 < |cols| then "," + FormatColumns(t, i + 1) else "";
    var tail := more + ("]" + rest);
    assert tail == if i + 1 < |cols| then "," + (FormatColumns(t, i + 1) + ("]" + rest)) else "]" + rest;
    assert tail[0] == (if i + 1 < |cols| then ',' else ']');
    assert tail[|tail| - 1] == ']';
  }

  /** "name:after" with a plain name: trimmed, split at the colon. */
  lemma ColumnSplit(name: string, after: string)
    requires PlainName(name) && |after| > 0 && after[|after| - 1] == ']'
    ensures var s := name + ":" + after;
      && TrimSpace(s) == s && IndexOf(s, ':') == Some(|name|)
      && TrimSpace(s[..|name|]) == name && s[|name| + 1..] == after
  {
    var s := name + ":" + after;
    assert s[0] == (if |name| > 0 then name[0] else ':');
    assert s[|s| - 1] == ']';
    TrimSpaceNoop(s);
    IndexOfAfterPlain(name, after);
    assert s[..|name|] == name;
    TrimPlainName(name);
    assert s[|name| + 1..] == after;
  }

  lemma ColumnParses(c: Context, name: string, f: string, tail: string, tc: Translated)
    requires Valid(c) && PlainName(name) && |tail| > 0 && tail[|tail| - 1] == ']' && tc.res.Ok?
    ensures ParseType(c, f + tail) == Parsed(tc.ctx, Ok((tail, tc.res.value))) ==>
      ParseColumn(c, name + ":" + (f + tail)) == Parsed(tc.ctx, Ok((tail, Column(name, tc.res.value))))
  {
    ColumnSplit(name, f + tail);
  }

  lemma RecordColumnsMore(c: Context, input: string, acc: seq<Column>, col: Column, c1: Context, tail: string, next: string)
    requires Valid(c) && Valid(c1)
    requires !HasName(acc, col.name) && Match(tail, ",") == (next, true)
    ensures ParseColumn(c, input) == Parsed(c1, Ok((tail, col))) ==>
      ParseRecordColumns(c, input, acc) == ParseRecordColumns(c1, next, acc + [col])
  {
  }

  lemma RecordColumnsLast(c: Context, input: string, acc: seq<Column>, col: Column, c1: Context, rest: string)
    requires Valid(c) && Valid(c1) && Follow(rest)
    requires !HasName(acc, col.name)
    ensures ParseColumn(c, input) == Parsed(c1, Ok(("]" + rest, col))) ==>
      var (c2, rt) := LookupTypeRecord(c1, acc + [col]);
      ParseRecordColumns(c, input, acc) == Parsed(c2, Ok((rest, rt)))
  {
    CloseTail(rest);
  }

  lemma TranslateColumnsStep(c: Context, id: int, cols: seq<Column>, i: nat, acc: seq<Column>)
    requires Valid(c) && i < |cols| && TranslateType(c, cols[i].typ).res.Ok?
    ensures var tc := TranslateType(c, cols[i].typ);
      TranslateColumns(c, TRecord(id, cols), i, acc)
        == TranslateColumns(tc.ctx, TRecord(id, cols), i + 1, acc + [Column(cols[i].name, tc.res.value)])
  {
  }

  lemma TranslateColumnsDone(c: Context, id: int, cols: seq<Column>, acc: seq<Column>)
    requires Valid(c)
    ensures var (c2, rt) := LookupTypeRecord(c, acc);
      TranslateColumns(c, TRecord(id, cols), |cols|, acc) == Translated(c2, Ok(rt))
  {
  }

  /** Column names in a printable record are distinct, so the i-th is not
      among the first i. */
  lemma NameIsNew(id: int, cols: seq<Column>, i: nat, acc: seq<Column>)
    requires Printable(TRecord(id, cols)) && i < |cols|
    requires |acc| == i && forall k :: 0 <= k < i ==> acc[k].name == cols[k].name
    ensures !HasName(acc, cols[i].name)
  {
  }

  /** The names of the columns parsed so far are the record's first names. */
  lemma NamesSoFar(cols: seq<Column>, i: nat, acc: seq<Column>, typ: Type)
    requires i < |cols| && |acc| == i && forall k :: 0 <= k < i ==> acc[k].name == cols[k].name
    ensures var acc2 := acc + [Column(cols[i].name, typ)];
      |acc2| == i + 1 && forall k :: 0 <= k < i + 1 ==> acc2[k].name == cols[k].name
  {
  }

  /** Column i of a printable record parses back to its translation, and the
      translation of the columns moves on to column i + 1. */
  lemma {:induction false} ColumnFormat(c: Context, id: int, cols: seq<Column>, i: nat, acc: seq<Column>, rest: string)
    requires Valid(c) && Printable(TRecord(id, cols)) && i < |cols| && Follow(rest)
    requires |acc| == i && forall k :: 0 <= k < i ==> acc[k].name == cols[k].name
    ensures var t := TRecord(id, cols);
      var tail := if i + 1 < |cols| then "," + (FormatColumns(t, i + 1) + ("]" + rest)) else "]" + rest;
      var tc := TranslateType(c, cols[i].typ);
      && tc.res.Ok?
      && ParseColumn(c, FormatColumns(t, i) + ("]" + rest)) == Parsed(tc.ctx, Ok((tail, Column(cols[i].name, tc.res.value))))
      && !HasName(acc, cols[i].name)
      && TranslateColumns(c, t, i, acc) == TranslateColumns(tc.ctx, t, i + 1, acc + [Column(cols[i].name, tc.res.value)])
    decreases TRecord(id, cols), 0, |cols| - i, 0
  {
    var t := TRecord(id, cols);
    var col := cols[i];
    var tail := if i + 1 < |cols| then "," + (FormatColumns(t, i + 1) + ("]" + rest)) else "]" + rest;
    ColumnsPrintableAt(t, 0, i);
    FormatColumnsSplit(id, cols, i, rest);
    ParseFormat(c, col.typ, tail);
    var tc := TranslateType(c, col.typ);
    ColumnParses(c, col.name, Format(col.typ), tail, tc);
    NameIsNew(id, cols, i, acc);
    TranslateColumnsStep(c, id, cols, i, acc);
  }

  /** The columns of a printable record from i on parse back to what
      translating them interns, ending at the closing bracket. */
  lemma {:induction false} RecordColumnsFormat(c: Context, id: int, cols: seq<Column>, i: nat, acc: seq<Column>, rest: string)
    requires Valid(c) && Printable(TRecord(id, cols)) && i < |cols| && Follow(rest)
    requires |acc| == i && forall k :: 0 <= k < i ==> acc[k].name == cols[k].name
    ensures var tr := TranslateColumns(c, TRecord(id, cols), i, acc);
      tr.res.Ok? && ParseRecordColumns(c, FormatColumns(TRecord(id, cols), i) + ("]" + rest), acc) == Parsed(tr.ctx, Ok((rest, tr.res.value)))
    decreases TRecord(id, cols), 0, |cols| - i, 3
  {
    if i + 1 < |cols| {
      MoreColumnsFormat(c, id, cols, i, acc, rest);
    } else {
      LastColumnFormat(c, id, cols, i, acc, rest);
    }
  }

  lemma {:induction false} MoreColumnsFormat(c: Context, id: int, cols: seq<Column>, i: nat, acc: seq<Column>, rest: string)
    requires Valid(c) && Printable(TRecord(id, cols)) && i + 1 < |cols| && Follow(rest)
    requires |acc| == i && forall k :: 0 <= k < i ==> acc[k].name == cols[k].name
    ensures var tr := TranslateColumns(c, TRecord(id, cols), i, acc);
      tr.res.Ok? && ParseRecordColumns(c, FormatColumns(TRecord(id, cols), i) + ("]" + rest), acc) == Parsed(tr.ctx, Ok((rest, tr.res.value)))
    decreases TRecord(id, cols), 0, |cols| - i, 2
  {
    var tc := TranslateType(c, cols[i].typ);
    var acc2 := ColumnStepFormat(c, id, cols, i, acc, rest);
    NamesSoFar(cols, i, acc, tc.res.value);
    RecordColumnsFormat(tc.ctx, id, cols, i + 1, acc2, rest);
  }

  /** One column of MoreColumnsFormat: parsing and translating it both move on
      to the next column with the same context and the same columns so far. */
  lemma ColumnStepFormat(c: Context, id: int, cols: seq<Column>, i: nat, acc: seq<Column>, rest: string)
    returns (acc2: seq<Column>)
    requires Valid(c) && Printable(TRecord(id, cols)) && i + 1 < |cols| && Follow(rest)
    requires |acc| == i && forall k :: 0 <= k < i ==> acc[k].name == cols[k].name
    ensures var tc := TranslateType(c, cols[i].typ);
      tc.res.Ok? && acc2 == acc + [Column(cols[i].name, tc.res.value)] &&
      ParseRecordColumns(c, FormatColumns(TRecord(id, cols), i) + ("]" + rest), acc) ==
        ParseRecordColumns(tc.ctx, FormatColumns(TRecord(id, cols), i + 1) + ("]" + rest), acc2) &&
      TranslateColumns(c, TRecord(id, cols), i, acc) == TranslateColumns(tc.ctx, TRecord(id, cols), i + 1, acc2)
    decreases TRecord(id, cols), 0, |cols| - i, 1
  {
    var t := TRecord(id, cols);
    var next := FormatColumns(t, i + 1) + ("]" + rest);
    var tc := TranslateType(c, cols[i].typ);
    ColumnFormat(c, id, cols, i, acc, rest);
    acc2 := acc + [Column(cols[i].name, tc.res.value)];
    CommaNext(next);
    RecordColumnsMore(c, FormatColumns(t, i) + ("]" + rest), acc, acc2[i], tc.ctx, "," + next, next);
  }

  lemma {:induction false} LastColumnFormat(c: Context, id: int, cols: seq<Column>, i: nat, acc: seq<Column>, rest: string)
    requires Valid(c) && Printable(TRecord(id, cols)) && i + 1 == |cols| && Follow(rest)
    requires |acc| == i && forall k :: 0 <= k < i ==> acc[k].name == cols[k].name
    ensures var tr := TranslateColumns(c, TRecord(id, cols), i, acc);
      tr.res.Ok? && ParseRecordColumns(c, FormatColumns(TRecord(id, cols), i) + ("]" + rest), acc) == Parsed(tr.ctx, Ok((rest, tr.res.value)))
    decreases TRecord(id, cols), 0, |cols| - i, 2
  {
    var t := TRecord(id, cols);
    ColumnFormat(c, id, cols, i, acc, rest);
    var tc := TranslateType(c, cols[i].typ);
    var col2 := Column(cols[i].name, tc.res.value);
    RecordColumnsLast(c, FormatColumns(t, i) + ("]" + rest), acc, col2, tc.ctx, rest);
    TranslateColumnsDone(tc.ctx, id, cols, acc + [col2]);
  }

  /** LookupByName on the type string of a printable type gives back the type
      as TranslateType interns it, in the same context. */
  lemma LookupByNameFormat(c: Context, t: Type)
    requires Valid(c) && Printable(t)
    ensures var tr := TranslateType(c, t);
      tr.res.Ok? && LookupByName(c, Format(t)) == (tr.ctx, Ok(tr.res.value))
  {
    ParseFormat(c, t, "");
    assert Format(t) + "" == Format(t);
  }
}

=== FILE: segmap.dfy ===
/** Segments and segment maps (zst/column/column.go and the segmap half of
    zst/column/primitive.go).  A column's bytes are spilled to the column
    section of the zst object in segments; the reassembly section records,
    for each leaf column, the list of (offset, length) segments as an
    array of two-field records.

    column.Spiller and io.ReaderAt are not part of this model.  The spiller
    is a stand-in that appends each buffer to the bytes written so far and
    records one segment for it; ReadAt reads from those bytes as
    io.ReaderAt promises (a short read always comes with an error). */
module Segmap {
  import opened Wrappers
  import opened Errors
  import opened Zcode
  import opened Zng

  const MaxSegmentThresh: int := 20 * 1024 * 1024

  datatype Segment = Segment(offset: int, length: int)

  /** The shared spiller: the threshold at which a column buffer is spilled,
      and the column-section bytes written so far. */
  datatype Spiller = Spiller(thresh: int, data: Bytes)

  /** Spiller.Write: appends the buffer and records where it went. */
  function SpillerWrite(sp: Spiller, segs: seq<Segment>, buf: Bytes): (Spiller, seq<Segment>)
  {
    (sp.(data := sp.data + buf), segs + [Segment(|sp.data|, |buf|)])
  }

  predicate Within(data: Bytes, s: Segment)
  {
    0 <= s.offset && 0 <= s.length && s.offset + s.length <= |data|
  }

  predicate AllWithin(data: Bytes, segs: seq<Segment>)
  {
    forall i :: 0 <= i < |segs| ==> Within(data, segs[i])
  }

  function SegmentBytes(data: Bytes, s: Segment): Bytes
    requires Within(data, s)
  {
    data[s.offset .. s.offset + s.length]
  }

  /** A spilled buffer is found again at the segment recorded for it, and the
      segments recorded earlier still locate the same bytes. */
  lemma SpillLocates(sp: Spiller, segs: seq<Segment>, buf: Bytes)
    requires AllWithin(sp.data, segs)
    ensures var (sp1, segs1) := SpillerWrite(sp, segs, buf);
      AllWithin(sp1.data, segs1) && |segs1| == |segs| + 1 &&
      SegmentBytes(sp1.data, segs1[|segs|]) == buf &&
      forall i :: 0 <= i < |segs| ==> SegmentBytes(sp1.data, segs1[i]) == SegmentBytes(sp.data, segs[i])
  {
    var (sp1, segs1) := SpillerWrite(sp, segs, buf);
    forall i | 0 <= i < |segs|
      ensures Within(sp1.data, segs1[i])
      ensures SegmentBytes(sp1.data, segs1[i]) == SegmentBytes(sp.data, segs[i])
    {
      assert segs1[i] == segs[i];
      assert Within(sp.data, segs[i]);
    }
  }

  /** ReadAt(len bytes at off) over the object's bytes: a negative offset is an
      error, and a read running past the end returns what there is with EOF. */
  function ReadAt(file: Bytes, off: int, len: nat): (r: (Bytes, Option<Error>))
    ensures r.1.None? <==> 0 <= off && off + len <= |file|
    ensures r.1.None? ==> r.0 == file[off..off + len]
    ensures |r.0| < len ==> r.1.Some?
  {
    if off < 0 then ([], Some(IoError))
    else if off + len <= |file| then (file[off..off + len], None)
    else if off <= |file| then (file[off..], Some(EOF))
    else ([], Some(EOF))
  }

  // ------------------------------------------------------------ item streams

  /** The items stored under a segment list: each segment's bytes decoded,
      in order.  None when a segment lies outside the bytes or does not
      decode. */
  function Stream(data: Bytes, segs: seq<Segment>): Option<seq<Item>>
    decreases |segs|
  {
    if |segs| == 0 then Some([])
    else if !Within(data, segs[0]) then None
    else match DecodeItems(SegmentBytes(data, segs[0]))
      case None => None
      case Some(xs) => PrependItems(xs, Stream(data, segs[1..]))
  }

  /** A successful decoding followed by `ys`. */
  function AppendItems(decoded: Option<seq<Item>>, ys: seq<Item>): Option<seq<Item>>
  {
    match decoded
    case None => None
    case Some(xs) => Some(xs + ys)
  }

  /** Bytes appended after the segments leave their stream unchanged. */
  lemma {:induction false} StreamExtend(data: Bytes, more: Bytes, segs: seq<Segment>)
    requires AllWithin(data, segs)
    ensures Stream(data + more, segs) == Stream(data, segs)
    decreases |segs|
  {
    if |segs| > 0 {
      var s := segs[0];
      assert Within(data, s);
      assert SegmentBytes(data + more, s) == SegmentBytes(data, s);
      assert AllWithin(data, segs[1..]) by {
        forall i | 0 <= i < |segs| - 1 ensures Within(data, segs[1..][i]) {
          assert segs[1..][i] == segs[i + 1];
        }
      }
      StreamExtend(data, more, segs[1..]);
    }
  }

  /** One more segment at the end adds its items at the end of the stream. */
  lemma {:induction false} StreamSnoc(data: Bytes, segs: seq<Segment>, s: Segment, xs: seq<Item>)
    requires Within(data, s) && DecodeItems(SegmentBytes(data, s)) == Some(xs)
    ensures Stream(data, segs + [s]) == AppendItems(Stream(data, segs), xs)
    decreases |segs|
  {
    if |segs| == 0 {
      assert segs + [s] == [s];
      assert [s][0] == s && [s][1..] == [];
      assert Stream(data, []) == Some([]);
      assert xs + [] == xs && [] + xs == xs;
      assert Stream(data, [s]) == PrependItems(xs, Stream(data, [s][1..]));
      assert Stream(data, segs) == Some([]);
    } else {
      assert (segs + [s])[0] == segs[0];
      assert (segs + [s])[1..] == segs[1..] + [s];
      StreamSnoc(data, segs[1..], s, xs);
      if Within(data, segs[0]) && DecodeItems(SegmentBytes(data, segs[0])).Some? {
        var ys := DecodeItems(SegmentBytes(data, segs[0])).value;
        if Stream(data, segs[1..]).Some? {
          var zs := Stream(data, segs[1..]).value;
          assert ys + (zs + xs) == (ys + zs) + xs;
        }
      }
    }
  }

  /** Spilling a buffer of items adds exactly those items to the stream of the
      segment list it extends. */
  lemma SpillStream(sp: Spiller, segs: seq<Segment>, items: seq<Item>)
    requires AllWithin(sp.data, segs)
    ensures var (sp1, segs1) := SpillerWrite(sp, segs, EncodeItems(items));
      AllWithin(sp1.data, segs1) &&
      Stream(sp1.data, segs1) == AppendItems(Stream(sp.data, segs), items)
  {
    var buf := EncodeItems(items);
    var (sp1, segs1) := SpillerWrite(sp, segs, buf);
    SpillLocates(sp, segs, buf);
    StreamExtend(sp.data, buf, segs);
    DecodeItemsRoundTrip(items);
    StreamSnoc(sp1.data, segs, Segment(|sp.data|, |buf|), items);
  }

  // ------------------------------------------------------------ segment maps

  /** The segmap type primitive.go:42 names: note length is int32. */
  const SegmapTypeString: string := "array[record[offset:int64,length:int32]]"

  const SegmapRecordAsWritten: Type :=
    TRecord(0, [Column("offset", TypeInt64), Column("length", TypeInt32)])
  const SegmapTypeAsWritten: Type := TArray(0, SegmapRecordAsWritten)

  /** The segmap type parseSegmap accepts, and the one this model writes. */
  const SegmapRecord: Type := TRecord(0, [Column("offset", TypeInt64), Column("length", TypeInt64)])
  const SegmapType: Type := TArray(0, SegmapRecord)

  /** The body PrimitiveWriter.Encode builds: an array with one
      [offset, length] container per segment. */
  function SegmapValue(segs: seq<Segment>): (v: Value)
    ensures v.Cont? && |v.items| == |segs|
    ensures forall i :: 0 <= i < |segs| ==>
      v.items[i] == Cont([Prim(EncodeInt(segs[i].offset)), Prim(EncodeInt(segs[i].length))])
  {
    Cont(seq(|segs|, i requires 0 <= i < |segs| =>
      Cont([Prim(EncodeInt(segs[i].offset)), Prim(EncodeInt(segs[i].length))])))
  }

  /** zng.DecodeInt on one item of a segment: containers are corrupt, a nil
      body is unset. */
  function SegmentInt(v: Value): Result<int>
  {
    match v
    case Prim(b) => DecodeInt(b)
    case Nil(c) => if c then Fail(CorruptSegment) else Fail(Unset)
    case Cont(_) => Fail(CorruptSegment)
  }

  /** parseSegment: the offset and the length, the first two items of one
      segmap element; anything after them is ignored. */
  function ParseSegment(items: seq<Value>): (r: Result<Segment>)
    ensures r.Ok? ==> (|items| >= 2 && SegmentInt(items[0]) == Ok(r.value.offset) &&
                       SegmentInt(items[1]) == Ok(r.value.length))
    ensures |items| < 2 ==> r.Fail?
  {
    if |items| == 0 then Fail(CorruptItem)
    else
      var off :- SegmentInt(items[0]);
      if |items| == 1 then Fail(CorruptItem)
      else
        var len :- SegmentInt(items[1]);
        Ok(Segment(off, len))
  }

  /** checkSegType: a column of the given name and exactly type int64. */
  predicate SegColumn(col: Column, which: string)
  {
    col.name == which && col.typ == TypeInt64
  }

  /** parseSegmap's type check: an array (not a set, not an alias) of
      record[offset:int64,length:int64]. */
  function CheckSegmapType(t: Type): (r: Result<()>)
    ensures r.Ok? <==> (t.TArray? && t.inner.TRecord? && |t.inner.columns| == 2 &&
                        SegColumn(t.inner.columns[0], "offset") && SegColumn(t.inner.columns[1], "length"))
  {
    if !t.TArray? then Fail(SegmapNotArray)
    else if !t.inner.TRecord? then Fail(SegmapElemNotRecord)
    else
      var cols := t.inner.columns;
      if |cols| != 2 || !SegColumn(cols[0], "offset") || !SegColumn(cols[1], "length")
      then Fail(SegmapElemBadColumns)
      else Ok(())
  }

  /** The segments of a segmap body, element by element from index i. */
  function ParseSegments(elems: seq<Value>, i: nat): (r: Result<seq<Segment>>)
    requires i <= |elems|
    ensures r.Ok? ==> |r.value| == |elems| - i
    decreases |elems| - i
  {
    if i == |elems| then Ok([])
    else
      var seg :- match elems[i]
        case Cont(items) => ParseSegment(items)
        case Nil(c) => if c then ParseSegment([]) else Fail(CorruptSegment)
        case Prim(_) => Fail(CorruptSegment);
      var rest :- ParseSegments(elems, i + 1);
      Ok([seg] + rest)
  }

  /** parseSegmap.  A nil array body is an empty segmap. */
  function ParseSegmap(tv: TypedValue): (r: Result<seq<Segment>>)
    ensures CheckSegmapType(tv.typ).Fail? ==> r == Fail(CheckSegmapType(tv.typ).error)
  {
    var _ :- CheckSegmapType(tv.typ);
    match tv.val
    case Cont(elems) => ParseSegments(elems, 0)
    case Nil(_) => Ok([])
    case Prim(_) => Fail(ShapeMismatch)
  }

  lemma {:induction false} ParseSegmentsValue(segs: seq<Segment>, i: nat)
    requires i <= |segs|
    ensures ParseSegments(SegmapValue(segs).items, i) == Ok(segs[i..])
    decreases |segs| - i
  {
    var v := SegmapValue(segs);
    if i < |segs| {
      var s := segs[i];
      assert v.items[i] == Cont([Prim(EncodeInt(s.offset)), Prim(EncodeInt(s.length))]);
      DecodeEncodeInt(s.offset);
      DecodeEncodeInt(s.length);
      ParseSegmentsValue(segs, i + 1);
      assert segs[i..] == [s] + segs[i + 1..];
      assert ParseSegment(v.items[i].items) == Ok(s);
    } else {
      assert segs[i..] == [];
    }
  }

  /** The segmap a writer encodes with the int64 type parses back to the same
      segments. */
  lemma SegmapRoundTrip(segs: seq<Segment>)
    ensures ParseSegmap(TypedValue(SegmapType, SegmapValue(segs))) == Ok(segs)
  {
    ParseSegmentsValue(segs, 0);
    assert segs[0..] == segs;
  }

  /** The type primitive.go:42 writes is refused by parseSegmap whatever the
      body: no segmap written that way can be read back. */
  lemma SegmapAsWrittenRejected(v: Value)
    ensures ParseSegmap(TypedValue(SegmapTypeAsWritten, v)) == Fail(SegmapElemBadColumns)
  {
    assert !SegColumn(SegmapRecordAsWritten.columns[1], "length");
  }
}

=== FILE: trailer.dfy ===
/** The zst trailer (zst/trailer.go): the last record of a zst object, which
    names the format, its version, the two thresholds the writer used and the
    sizes of the object's sections.  A reader finds it by scanning the last
    bytes of the object backwards for the type definitions that start it.

    The zng stream encoding is not part of this model: the scan is given the
    decoder that reads the first record of a byte window (zngio.NewReader
    followed by Read, whose error the scan drops) as a parameter. */
module Trailer {
  import opened Wrappers
  import opened Errors
  import opened Zcode
  import opened Zng
  import opened Resolver
  import opened ColumnWriter

  const MagicField: string := "magic"
  const VersionField: string := "version"
  const SkewThreshField: string := "skew_thresh"
  const ColThreshField: string := "col_thresh"
  const SectionsField: string := "sections"

  /** The bytes of the string "zst". */
  const MagicVal: Bytes := [0x7a, 0x73, 0x74]
  const VersionVal: int := 1
  const TrailerMaxSize: nat := 4096

  /** The decoded trailer.  An empty sections list stands for the nil slice
      of an empty object. */
  datatype Trailer = Trailer(magic: Bytes, version: int, skewThresh: int, colThresh: int, sections: seq<int>)

  // ------------------------------------------------------------ writing

  /** The columns of the trailer record, in order. */
  function TrailerColumns(sectionsType: Type): seq<Column>
  {
    [Column(MagicField, TypeString), Column(VersionField, TypeInt32), Column(SkewThreshField, TypeInt32),
     Column(ColThreshField, TypeInt32), Column(SectionsField, sectionsType)]
  }

  /** encodeSections: one int64 item per section.  No sections leave the
      builder empty, and its nil bytes are an unset container. */
  function EncodeSections(sections: seq<int>): Value
  {
    if |sections| == 0 then Nil(true)
    else Cont(seq(|sections|, i requires 0 <= i < |sections| => Prim(EncodeInt(sections[i]))))
  }

  /** The body of the trailer record. */
  function TrailerValues(skewThresh: int, colThresh: int, sections: seq<int>): seq<Value>
  {
    [Prim(MagicVal), Prim(EncodeInt(VersionVal)), Prim(EncodeInt(skewThresh)), Prim(EncodeInt(colThresh)),
     EncodeSections(sections)]
  }

  /** newTrailerRecord: array[int64] and the trailer's record type are
      interned in the context, and the body holds magic, version, the two
      thresholds and the sections. */
  function NewTrailerRecord(c: Context, skewThresh: int, colThresh: int, sections: seq<int>): (r: (Context, Record))
    requires Valid(c)
    ensures Valid(r.0) && Extends(c, r.0)
    ensures var (c1, at) := LookupTypeArray(c, TypeInt64);
      at.TArray? && at.inner.id == IdInt64 && Extends(c1, r.0) &&
      r.1.typ.TRecord? && Known(r.0, r.1.typ) && RecordKey(r.1.typ.columns) == RecordKey(TrailerColumns(at)) &&
      (RecordKey(TrailerColumns(at)) !in c1.lut ==> r.1.typ.columns == TrailerColumns(at))
    ensures r.1.items == TrailerValues(skewThresh, colThresh, sections)
  {
    var (c1, at) := LookupTypeArray(c, TypeInt64);
    var (c2, typ) := LookupTypeRecord(c1, TrailerColumns(at));
    ExtendsTrans(c, c1, c2);
    (c2, Record(typ, TrailerValues(skewThresh, colThresh, sections)))
  }

  // ------------------------------------------------------------ decoding

  /** trailerVersion: the version field must be an int and equal 1. */
  function TrailerVersion(rec: Record): (r: Result<int>)
    ensures r.Ok? <==> AccessInt(rec.Cols(), rec.items, VersionField) == Ok(VersionVal)
    ensures r.Ok? ==> r.value == VersionVal
    ensures AccessInt(rec.Cols(), rec.items, VersionField).Fail? ==> r == Fail(BadVersionField)
    ensures r.Fail? ==> r.error == BadVersionField || r.error.VersionMismatch?
  {
    match AccessInt(rec.Cols(), rec.items, VersionField)
    case Fail(_) => Fail(BadVersionField)
    case Ok(version) => if version != VersionVal then Fail(VersionMismatch(version)) else Ok(version)
  }

  /** decodeSections: the sections field must be an array; an unset array is
      an empty object; every element must be an int64 that decodes. */
  function DecodeSections(rec: Record): (r: Result<seq<int>>)
    ensures SectionsValue(rec).Fail? ==> r == Fail(SectionsValue(rec).error)
    ensures SectionsValue(rec).Ok? && !SectionsValue(rec).value.typ.TArray? ==> r == Fail(SectionsNotArray)
    ensures SectionsValue(rec).Ok? && SectionsValue(rec).value.typ.TArray? && SectionsValue(rec).value.val.IsNil() ==>
      r == Ok([])
    ensures SectionsValue(rec).Ok? && SectionsValue(rec).value.typ.TArray? && !SectionsValue(rec).value.val.IsNil() ==>
      var v := SectionsValue(rec).value;
      var elems := Children(v.val);
      elems.Ok? && |elems.value| > 0 && v.typ.inner != TypeInt64 ==> r == Fail(SectionNotInt64)
    ensures r.Ok? && r.value != [] ==>
      && SectionsValue(rec).Ok?
      && var v := SectionsValue(rec).value;
         && v.typ.TArray? && !v.val.IsNil() && Children(v.val).Ok?
         && var elems := Children(v.val).value;
            && |r.value| == |elems|
            && forall k :: 0 <= k < |elems| ==> DecodeInt(ElemBytes(elems[k])) == Ok(r.value[k])
  {
    var v :- SectionsValue(rec);
    if !v.typ.TArray? then Fail(SectionsNotArray)
    else if v.val.IsNil() then Ok([])
    else
      var elems :- Children(v.val);
      if |elems| > 0 && v.typ.inner != TypeInt64 then Fail(SectionNotInt64)
      else DecodeInts(elems, 0)
  }

  /** The value of a record's sections field. */
  function SectionsValue(rec: Record): Result<TypedValue>
  {
    Access(rec.Cols(), rec.items, SectionsField)
  }

  /** The loop of decodeSections over the elements from i on. */
  function DecodeInts(elems: seq<Value>, i: nat): (r: Result<seq<int>>)
    requires i <= |elems|
    ensures r.Ok? ==> |r.value| == |elems| - i
    ensures r.Ok? ==> forall k :: i <= k < |elems| ==> DecodeInt(ElemBytes(elems[k])) == Ok(r.value[k - i])
    ensures r.Fail? <==> exists k :: i <= k < |elems| && DecodeInt(ElemBytes(elems[k])).Fail?
    decreases |elems| - i
  {
    if i == |elems| then Ok([])
    else
      var x :- DecodeInt(ElemBytes(elems[i]));
      var rest :- DecodeInts(elems, i + 1);
      Ok([x] + rest)
  }

  /** The bytes of an array element: a primitive's body, and nothing for an
      unset element or a container. */
  function ElemBytes(v: Value): Bytes
  {
    if v.Prim? then v.bytes else []
  }

  /** recordToTrailer.  As written the thresholds are never read and stay
      zero; corrected, they are read from their fields. */
  function RecordToTrailer(rec: Record, v: Variant): (r: Result<Trailer>)
    ensures r.Ok? ==> r.value.magic == MagicVal && r.value.version == VersionVal
    ensures AccessString(rec.Cols(), rec.items, MagicField) != Ok(MagicVal) ==> r == Fail(NotZst)
    ensures r.Ok? ==> TrailerVersion(rec).Ok? && DecodeSections(rec) == Ok(r.value.sections)
    ensures r.Ok? && v == AsWritten ==> r.value.skewThresh == 0 && r.value.colThresh == 0
    ensures r.Ok? && v == Corrected ==>
      AccessInt(rec.Cols(), rec.items, SkewThreshField) == Ok(r.value.skewThresh) &&
      AccessInt(rec.Cols(), rec.items, ColThreshField) == Ok(r.value.colThresh)
  {
    var magic := AccessString(rec.Cols(), rec.items, MagicField);
    if magic != Ok(MagicVal) then Fail(NotZst)
    else
      var version :- TrailerVersion(rec);
      var (skew, col) :- Thresholds(rec, v);
      var sections :- DecodeSections(rec);
      Ok(Trailer(MagicVal, version, skew, col, sections))
  }

  /** The two thresholds of a trailer record. */
  function Thresholds(rec: Record, v: Variant): (r: Result<(int, int)>)
  {
    if v == AsWritten then Ok((0, 0))
    else
      var skew := AccessInt(rec.Cols(), rec.items, SkewThreshField);
      var col := AccessInt(rec.Cols(), rec.items, ColThreshField);
      if skew.Fail? || col.Fail? then Fail(BadThreshField) else Ok((skew.value, col.value))
  }

  // ------------------------------------------------------------ the scan

  /** The type definitions a trailer starts with: array[int64], then a
      record type. */
  const Marker: Bytes := [TypeDefArray, IdInt64 as byte, TypeDefRecord]

  /** Offset off of the window is a candidate: the marker starts there, at
      the start of the window or right after an end of stream. */
  predicate IsCandidate(window: Bytes, off: nat)
  {
    off + 3 <= |window| && window[off..off + 3] == Marker && (off == 0 || window[off - 1] == CtrlEOS)
  }

  /** What the scan makes of one offset: pass it by, stop with an error, or
      return the trailer found there. */
  datatype Verdict = Skip | Abort(err: Error) | Found(trailer: Trailer)

  function Examine(window: Bytes, off: nat, decode: Bytes -> Option<Record>, v: Variant): (r: Verdict)
    ensures !IsCandidate(window, off) || decode(window[off..]).None? ==> r == Skip
    ensures r.Abort? ==> (
      IsCandidate(window, off) && decode(window[off..]).Some? &&
      TrailerVersion(decode(window[off..]).value) == Fail(r.err) && r.err != TrailerNotFound)
    ensures r.Found? ==> (
      IsCandidate(window, off) && decode(window[off..]).Some? &&
      TrailerVersion(decode(window[off..]).value).Ok? &&
      RecordToTrailer(decode(window[off..]).value, v) == Ok(r.trailer))
  {
    if !IsCandidate(window, off) then Skip
    else match decode(window[off..])
      case None => Skip
      case Some(rec) =>
        match TrailerVersion(rec)
        case Fail(e) => Abort(e)
        case Ok(_) =>
          match RecordToTrailer(rec, v)
          case Ok(t) => Found(t)
          case Fail(_) => Skip
  }

  /** Every offset from lo up to k is passed by. */
  predicate AllSkip(examine: nat -> Verdict, lo: nat, k: nat)
  {
    forall o :: lo <= o < k ==> examine(o) == Skip
  }

  /** The scan over offsets k-1 down to 0 of a window of n bytes, given the
      verdict on each offset: the verdict of the highest offset that is not
      passed by.  A trailer's length runs from its offset to the end of the
      window. */
  function Scan(n: nat, k: nat, examine: nat -> Verdict): (r: Result<(Trailer, nat)>)
    requires k <= n
    ensures r.Ok? ==> n - k < r.value.1 <= n
    decreases k
  {
    if k == 0 then Fail(TrailerNotFound)
    else
      var off := k - 1;
      match examine(off)
      case Skip => Scan(n, off, examine)
      case Abort(e) => Fail(e)
      case Found(t) => Ok((t, n - off))
  }

  /** A trailer the scan returns was found at the offset its length gives,
      and every higher offset was passed by. */
  lemma {:induction false} ScanLocates(n: nat, k: nat, examine: nat -> Verdict) returns (off: nat)
    requires k <= n && Scan(n, k, examine).Ok?
    ensures off < k && off == n - Scan(n, k, examine).value.1
    ensures examine(off) == Found(Scan(n, k, examine).value.0)
    ensures AllSkip(examine, off + 1, k)
    decreases k
  {
    if examine(k - 1).Skip? {
      off := ScanLocates(n, k - 1, examine);
    } else {
      off := k - 1;
    }
  }

  /** Conversely, the scan returns the trailer at the highest offset that is
      not passed by, when that offset holds one. */
  lemma {:induction false} ScanFinds(n: nat, k: nat, off: nat, examine: nat -> Verdict)
    requires k <= n && off < k && examine(off).Found? && AllSkip(examine, off + 1, k)
    ensures Scan(n, k, examine) == Ok((examine(off).trailer, n - off))
    decreases k
  {
    if off < k - 1 {
      assert examine(k - 1) == Skip;
      ScanFinds(n, k - 1, off, examine);
    }
  }

  /** The scan ends with "not found" exactly when every offset is passed by,
      provided no verdict aborts with "not found" itself; any other error is
      the abort of the highest offset not passed by. */
  lemma {:induction false} ScanFails(n: nat, k: nat, examine: nat -> Verdict) returns (off: nat)
    requires k <= n
    requires forall o :: 0 <= o < k ==> examine(o) != Abort(TrailerNotFound)
    ensures Scan(n, k, examine) == Fail(TrailerNotFound) <==> AllSkip(examine, 0, k)
    ensures var r := Scan(n, k, examine);
      r.Fail? && r.error != TrailerNotFound ==> off < k && examine(off) == Abort(r.error) && AllSkip(examine, off + 1, k)
    decreases k
  {
    off := 0;
    if k > 0 {
      off := ScanFails(n, k - 1, examine);
      if !examine(k - 1).Skip? {
        off := k - 1;
        assert !AllSkip(examine, 0, k);
      }
    }
  }

  /** readTrailer: the window is the last min(size, 4096) bytes of the
      object; `got` is the count the read of the window returned. */
  function ReadTrailer(file: Bytes, got: int, decode: Bytes -> Option<Record>, v: Variant): (r: Result<(Trailer, nat)>)
    ensures got != WindowSize(file) ==> r == Fail(ShortTrailerRead)
    ensures got == WindowSize(file) ==> r == ScanWindow(file[|file| - WindowSize(file)..], decode, v)
  {
    var n := WindowSize(file);
    if got != n then Fail(ShortTrailerRead)
    else ScanWindow(file[|file| - n..], decode, v)
  }

  /** The scan of one window, from its highest offset down. */
  function ScanWindow(window: Bytes, decode: Bytes -> Option<Record>, v: Variant): (r: Result<(Trailer, nat)>)
  {
    Scan(|window|, FirstOffset(|window|), Examiner(window, decode, v))
  }

  /** The verdicts on the offsets of one window. */
  function Examiner(window: Bytes, decode: Bytes -> Option<Record>, v: Variant): nat -> Verdict
  {
    (off: nat) => Examine(window, off, decode, v)
  }

  /** The size of the window: the whole object when it is shorter than 4096
      bytes. */
  function WindowSize(file: Bytes): (n: nat)
    ensures n <= |file| && n <= TrailerMaxSize
    ensures n == TrailerMaxSize || n == |file|
  {
    if |file| > TrailerMaxSize then TrailerMaxSize else |file|
  }

  /** The bound below which the scan examines offsets: the first candidate
      is n - 3, because the marker the scan looks for is three bytes long
      (buf[off:off+3]), and a window shorter than three bytes has none. */
  function FirstOffset(n: nat): (k: nat)
    ensures k <= n && (n >= 2 ==> k == n - 2)
  {
    if n >= 2 then n - 2 else 0
  }

  // ------------------------------------------------------------ properties

  /** Within one window, the trailer found is the decoding of the bytes
      from its offset to the end of the window. */
  lemma ScanWindowLocates(window: Bytes, decode: Bytes -> Option<Record>, v: Variant) returns (off: nat)
    requires ScanWindow(window, decode, v).Ok?
    ensures off < |window| && ScanWindow(window, decode, v).value.1 == |window| - off
    ensures decode(window[off..]).Some?
    ensures RecordToTrailer(decode(window[off..]).value, v) == Ok(ScanWindow(window, decode, v).value.0)
  {
    off := ScanLocates(|window|, FirstOffset(|window|), Examiner(window, decode, v));
    assert Examiner(window, decode, v)(off) == Examine(window, off, decode, v);
  }

  /** A record laid out as newTrailerRecord lays it out, with the sections
      type array[int64], decodes, corrected, to the trailer it was built
      from. */
  lemma TrailerRoundTrip(id: int, aid: int, skewThresh: int, colThresh: int, sections: seq<int>)
    ensures var rec := Record(TRecord(id, TrailerColumns(TArray(aid, TypeInt64))), TrailerValues(skewThresh, colThresh, sections));
      RecordToTrailer(rec, Corrected) == Ok(Trailer(MagicVal, VersionVal, skewThresh, colThresh, sections))
  {
    var rec := Record(TRecord(id, TrailerColumns(TArray(aid, TypeInt64))), TrailerValues(skewThresh, colThresh, sections));
    TrailerFields(rec, TArray(aid, TypeInt64), skewThresh, colThresh, sections);
    DecodeEncodeInt(VersionVal);
    DecodeEncodeInt(skewThresh);
    DecodeEncodeInt(colThresh);
    SectionsRoundTrip(rec, aid, sections);
  }

  /** As written, the same record decodes with both thresholds zero. */
  lemma TrailerAsWrittenDropsThresholds(id: int, aid: int, skewThresh: int, colThresh: int, sections: seq<int>)
    ensures var rec := Record(TRecord(id, TrailerColumns(TArray(aid, TypeInt64))), TrailerValues(skewThresh, colThresh, sections));
      RecordToTrailer(rec, AsWritten) == Ok(Trailer(MagicVal, VersionVal, 0, 0, sections))
  {
    var rec := Record(TRecord(id, TrailerColumns(TArray(aid, TypeInt64))), TrailerValues(skewThresh, colThresh, sections));
    TrailerFields(rec, TArray(aid, TypeInt64), skewThresh, colThresh, sections);
    DecodeEncodeInt(VersionVal);
    SectionsRoundTrip(rec, aid, sections);
  }

  /** Field access on a record laid out as newTrailerRecord lays it out. */
  lemma TrailerFields(rec: Record, at: Type, skewThresh: int, colThresh: int, sections: seq<int>)
    requires rec.typ.TRecord? && rec.typ.columns == TrailerColumns(at)
    requires rec.items == TrailerValues(skewThresh, colThresh, sections)
    ensures Access(rec.Cols(), rec.items, MagicField) == Ok(TypedValue(TypeString, Prim(MagicVal)))
    ensures Access(rec.Cols(), rec.items, VersionField) == Ok(TypedValue(TypeInt32, Prim(EncodeInt(VersionVal))))
    ensures Access(rec.Cols(), rec.items, SkewThreshField) == Ok(TypedValue(TypeInt32, Prim(EncodeInt(skewThresh))))
    ensures Access(rec.Cols(), rec.items, ColThreshField) == Ok(TypedValue(TypeInt32, Prim(EncodeInt(colThresh))))
    ensures Access(rec.Cols(), rec.items, SectionsField) == Ok(TypedValue(at, EncodeSections(sections)))
  {
    var cols := rec.Cols();
    FieldAt(cols, rec.items, 0);
    FieldAt(cols, rec.items, 1);
    FieldAt(cols, rec.items, 2);
    FieldAt(cols, rec.items, 3);
    FieldAt(cols, rec.items, 4);
  }

  /** The trailer's field names are distinct, so each names its own column. */
  lemma FieldAt(cols: seq<Column>, items: seq<Value>, k: nat)
    requires k < |cols| <= |items| && |cols| == 5
    requires cols[0].name == MagicField && cols[1].name == VersionField && cols[2].name == SkewThreshField
    requires cols[3].name == ColThreshField && cols[4].name == SectionsField
    ensures Access(cols, items, cols[k].name) == Ok(TypedValue(cols[k].typ, items[k]))
  {
    var c := ColumnOfField(cols, cols[k].name);
    assert c.Some? && c.value == k;
  }

  /** The sections of a trailer record decode to the sizes encoded. */
  lemma SectionsRoundTrip(rec: Record, aid: int, sections: seq<int>)
    requires Access(rec.Cols(), rec.items, SectionsField) == Ok(TypedValue(TArray(aid, TypeInt64), EncodeSections(sections)))
    ensures DecodeSections(rec) == Ok(sections)
  {
    if |sections| > 0 {
      var elems := EncodeSections(sections).items;
      forall k | 0 <= k < |elems|
        ensures DecodeInt(ElemBytes(elems[k])) == Ok(sections[k])
      {
        DecodeEncodeInt(sections[k]);
      }
      DecodeIntsAll(elems, 0, sections);
    }
  }

  /** The decoding loop returns the ints each element decodes to. */
  lemma {:induction false} DecodeIntsAll(elems: seq<Value>, i: nat, xs: seq<int>)
    requires i <= |elems| == |xs|
    requires forall k :: i <= k < |elems| ==> DecodeInt(ElemBytes(elems[k])) == Ok(xs[k])
    ensures DecodeInts(elems, i) == Ok(xs[i..])
    decreases |elems| - i
  {
    if i < |elems| {
      DecodeIntsAll(elems, i + 1, xs);
      assert DecodeInt(ElemBytes(elems[i])) == Ok(xs[i]);
      assert DecodeInts(elems, i) == Ok([xs[i]] + xs[i + 1..]);
      assert xs[i..] == [xs[i]] + xs[i + 1..];
    }
  }

  /** A candidate whose version is wrong stops the scan, whatever its magic;
      one with the right version and the wrong magic is passed by. */
  lemma VersionBeforeMagic(window: Bytes, off: nat, decode: Bytes -> Option<Record>, v: Variant)
    requires IsCandidate(window, off) && decode(window[off..]).Some?
    ensures var rec := decode(window[off..]).value;
      (TrailerVersion(rec).Fail? ==> Examine(window, off, decode, v) == Abort(TrailerVersion(rec).error)) &&
      (TrailerVersion(rec).Ok? && AccessString(rec.Cols(), rec.items, MagicField) != Ok(MagicVal) ==>
        Examine(window, off, decode, v) == Skip)
  {
  }
}

/** Where readTrailer looks in an object and what it reports: properties of
    the whole-object view, kept apart from the scan's own definitions. */
module TrailerTail {
  import opened Wrappers
  import opened Zcode
  import opened Zng
  import opened Trailer

  /** Only the last 4096 bytes of an object take part in the search. */
  lemma ReadTrailerWindow(front: Bytes, file: Bytes, got: int, decode: Bytes -> Option<Record>, v: Variant)
    requires |file| >= TrailerMaxSize
    ensures ReadTrailer(front + file, got, decode, v) == ReadTrailer(file, got, decode, v)
  {
    var all := front + file;
    assert WindowSize(all) == WindowSize(file) == TrailerMaxSize;
    assert all[|all| - TrailerMaxSize..] == file[|file| - TrailerMaxSize..];
    SameWindow(all, file, got, decode, v);
  }

  /** Two objects with the same window read the same trailer. */
  lemma SameWindow(f1: Bytes, f2: Bytes, got: int, decode: Bytes -> Option<Record>, v: Variant)
    requires WindowSize(f1) == WindowSize(f2)
    requires f1[|f1| - WindowSize(f1)..] == f2[|f2| - WindowSize(f2)..]
    ensures ReadTrailer(f1, got, decode, v) == ReadTrailer(f2, got, decode, v)
  {
  }

  /** The trailer readTrailer returns is the decoding of the object's last
      `len` bytes, where `len` is the length it returns with it. */
  lemma ReadTrailerFromTail(file: Bytes, got: int, decode: Bytes -> Option<Record>, v: Variant) returns (t: Trailer, len: nat)
    requires ReadTrailer(file, got, decode, v).Ok?
    ensures ReadTrailer(file, got, decode, v) == Ok((t, len))
    ensures 0 < len <= |file| && decode(file[|file| - len..]).Some?
    ensures RecordToTrailer(decode(file[|file| - len..]).value, v) == Ok(t)
  {
    ReadTrailerScans(file, got, decode, v);
    var n := WindowSize(file);
    var off := ScanWindowLocates(file[|file| - n..], decode, v);
    t, len := ReadTrailer(file, got, decode, v).value.0, n - off;
    assert file[|file| - n..][off..] == file[|file| - len..];
  }

  /** A read of the right length hands the window to the scan. */
  lemma ReadTrailerScans(file: Bytes, got: int, decode: Bytes -> Option<Record>, v: Variant)
    requires ReadTrailer(file, got, decode, v).Ok?
    ensures ReadTrailer(file, got, decode, v) == ScanWindow(file[|file| - WindowSize(file)..], decode, v)
  {
  }
}

=== FILE: wrappers.dfy ===
/** Option and Result, the failure-compatible wrappers every other module
    returns, and Variant.  Result carries an Errors.Error on failure. */
module Wrappers {
  import opened Errors

  /** Which side of a discrepancy between the code and its evident intent a
      member follows: AsWritten follows the code line for line, Corrected
      is what the rest of the model uses. */
  datatype Variant = AsWritten | Corrected

  datatype Option<+T> = None | Some(value: T) {
    predicate IsFailure() { None? }

    function PropagateFailure<U>(): Option<U>
      requires None?
    {
      None
    }

    function Extract(): T
      requires Some?
    {
      value
    }
  }

  datatype Result<+T> = Ok(value: T) | Fail(error: Error) {
    predicate IsFailure() { Fail? }

    function PropagateFailure<U>(): Result<U>
      requires Fail?
    {
      Fail(error)
    }

    function Extract(): T
      requires Ok?
    {
      value
    }
  }

  /** Succeeds when `condition` holds and fails with `error` otherwise. */
  function Need(condition: bool, error: Error): Result<()>
  {
    if condition then Ok(()) else Fail(error)
  }
}

=== FILE: zcode.dfy ===
/** The byte layer under the columns: unsigned varints, the signed-integer
    encoding of zng.EncodeInt/DecodeInt, and the tagged items a zcode buffer
    holds.  zcode and zng's integer encoding are not part of this model; these
    are concrete stand-ins with the same shape (a varint tag, then the body), so
    that the round trips the column codec relies on can be proved rather than
    assumed.  The 32-bit conversions the Go code applies are here as well. */
module Zcode {
  import opened Wrappers
  import opened Errors

  newtype byte = b: int | 0 <= b < 256
  type Bytes = seq<byte>

  // ---------------------------------------------------------------- varints

  /** Little-endian base-128 encoding, as binary.PutUvarint writes it. */
  function Uvarint(n: nat): (b: Bytes)
    ensures |b| > 0
    decreases n
  {
    if n < 128 then [n as byte] else [(n % 128 + 128) as byte] + Uvarint(n / 128)
  }

  /** Reads one varint from the front of b and returns it with the rest. */
  function ReadUvarint(b: Bytes): (r: Option<(nat, Bytes)>)
    ensures r.Some? ==> |r.value.1| < |b|
    decreases |b|
  {
    if |b| == 0 then None
    else if b[0] < 128 then Some((b[0] as nat, b[1..]))
    else match ReadUvarint(b[1..])
      case None => None
      case Some((m, rest)) => Some(((b[0] as int - 128) + 128 * m, rest))
  }

  lemma {:induction false} UvarintRoundTrip(n: nat, rest: Bytes)
    ensures ReadUvarint(Uvarint(n) + rest) == Some((n, rest))
    decreases n
  {
    if n >= 128 {
      var head: byte := (n % 128 + 128) as byte;
      assert Uvarint(n) + rest == [head] + (Uvarint(n / 128) + rest);
      assert (Uvarint(n) + rest)[1..] == Uvarint(n / 128) + rest;
      UvarintRoundTrip(n / 128, rest);
    } else {
      assert (Uvarint(n) + rest)[1..] == rest;
    }
  }

  // ---------------------------------------------------------------- integers

  /** Signed integers are zig-zag mapped onto the naturals before encoding. */
  function ZigZag(i: int): nat
  {
    if i >= 0 then 2 * i else -2 * i - 1
  }

  function UnZigZag(n: nat): int
  {
    if n % 2 == 0 then n / 2 else -(n + 1) / 2
  }

  function EncodeInt(i: int): (b: Bytes)
    ensures |b| > 0
  {
    Uvarint(ZigZag(i))
  }

  /** Accepts exactly one varint and nothing after it. */
  function DecodeInt(b: Bytes): Result<int>
  {
    match ReadUvarint(b)
    case Some((n, rest)) => if |rest| == 0 then Ok(UnZigZag(n)) else Fail(BadInt)
    case None => Fail(BadInt)
  }

  lemma DecodeEncodeInt(i: int)
    ensures DecodeInt(EncodeInt(i)) == Ok(i)
  {
    UvarintRoundTrip(ZigZag(i), []);
    assert Uvarint(ZigZag(i)) + [] == Uvarint(ZigZag(i));
  }

  // ---------------------------------------------------------------- items

  /** One item of a zcode buffer: a container flag and a body, nil when unset. */
  datatype Item = Item(container: bool, body: Option<Bytes>)

  /** The tag records the container flag in its low bit and, for a non-nil body,
      the body length plus one in the remaining bits; 0 and 1 are the nil items. */
  function Tag(it: Item): nat
  {
    var low := if it.container then 1 else 0;
    match it.body
    case None => low
    case Some(b) => 2 * (|b| + 1) + low
  }

  function BodyBytes(body: Option<Bytes>): Bytes
  {
    match body
    case None => []
    case Some(b) => b
  }

  function EncodeItem(it: Item): (b: Bytes)
    ensures |b| > 0
  {
    Uvarint(Tag(it)) + BodyBytes(it.body)
  }

  /** zcode.Iter.Next: decodes the item at the front of b. */
  function NextItem(b: Bytes): (r: Option<(Item, Bytes)>)
    ensures r.Some? ==> |r.value.1| < |b|
  {
    match ReadUvarint(b)
    case None => None
    case Some((tag, rest)) =>
      var container := tag % 2 == 1;
      var len := tag / 2;
      if len == 0 then Some((Item(container, None), rest))
      else if |rest| < len - 1 then None
      else Some((Item(container, Some(rest[..len - 1])), rest[len - 1..]))
  }

  lemma NextItemRoundTrip(it: Item, rest: Bytes)
    ensures NextItem(EncodeItem(it) + rest) == Some((it, rest))
  {
    var tail := BodyBytes(it.body) + rest;
    assert EncodeItem(it) + rest == Uvarint(Tag(it)) + tail;
    UvarintRoundTrip(Tag(it), tail);
    match it.body {
      case None =>
        assert tail == rest;
      case Some(b) =>
        assert tail[..|b|] == b;
        assert tail[|b|..] == rest;
    }
  }

  function EncodeItems(items: seq<Item>): (b: Bytes)
    ensures |items| > 0 ==> |b| > 0
  {
    if |items| == 0 then [] else EncodeItem(items[0]) + EncodeItems(items[1..])
  }

  /** Decodes a whole buffer, item by item, until it is used up. */
  function DecodeItems(b: Bytes): Option<seq<Item>>
    decreases |b|
  {
    if |b| == 0 then Some([])
    else match NextItem(b)
      case None => None
      case Some((it, rest)) =>
        match DecodeItems(rest)
        case None => None
        case Some(items) => Some([it] + items)
  }

  /** `xs` in front of the items of a successful decoding. */
  function PrependItems(xs: seq<Item>, decoded: Option<seq<Item>>): Option<seq<Item>>
  {
    match decoded
    case None => None
    case Some(ys) => Some(xs + ys)
  }

  /** One encoded item in front of a buffer decodes to that item in front of
      the buffer's items. */
  lemma DecodeItemsCons(x: Item, tail: Bytes)
    ensures DecodeItems(EncodeItem(x) + tail) == PrependItems([x], DecodeItems(tail))
  {
    var whole := EncodeItem(x) + tail;
    NextItemRoundTrip(x, tail);
    assert |whole| > 0;
    assert NextItem(whole) == Some((x, tail));
  }

  /** Decoding stops exactly at item boundaries: the items of an encoded prefix
      come back, followed by whatever the suffix decodes to. */
  lemma {:induction false} DecodeItemsAppend(xs: seq<Item>, b: Bytes)
    ensures DecodeItems(EncodeItems(xs) + b) == PrependItems(xs, DecodeItems(b))
    decreases |xs|
  {
    if |xs| == 0 {
      assert EncodeItems(xs) + b == b;
      if DecodeItems(b).Some? {
        assert xs + DecodeItems(b).value == DecodeItems(b).value;
      }
    } else {
      var tail := EncodeItems(xs[1..]) + b;
      assert EncodeItems(xs) + b == EncodeItem(xs[0]) + tail;
      DecodeItemsCons(xs[0], tail);
      DecodeItemsAppend(xs[1..], b);
      PrependTwice([xs[0]], xs[1..], DecodeItems(b));
      assert [xs[0]] + xs[1..] == xs;
    }
  }

  lemma PrependTwice(xs: seq<Item>, ys: seq<Item>, decoded: Option<seq<Item>>)
    ensures PrependItems(xs, PrependItems(ys, decoded)) == PrependItems(xs + ys, decoded)
  {
    if decoded.Some? {
      assert xs + (ys + decoded.value) == (xs + ys) + decoded.value;
    }
  }

  lemma DecodeItemsRoundTrip(xs: seq<Item>)
    ensures DecodeItems(EncodeItems(xs)) == Some(xs)
  {
    DecodeItemsAppend(xs, []);
    assert EncodeItems(xs) + [] == EncodeItems(xs);
    assert xs + [] == xs;
  }

  lemma {:induction false} EncodeItemsConcat(xs: seq<Item>, ys: seq<Item>)
    ensures EncodeItems(xs + ys) == EncodeItems(xs) + EncodeItems(ys)
    decreases |xs|
  {
    if |xs| > 0 {
      assert (xs + ys)[1..] == xs[1..] + ys;
      EncodeItemsConcat(xs[1..], ys);
    } else {
      assert xs + ys == ys;
    }
  }

  // ---------------------------------------------------------------- int32

  const MinInt32: int := -0x8000_0000
  const MaxInt32: int := 0x7fff_ffff

  predicate IsInt32(x: int)
  {
    MinInt32 <= x <= MaxInt32
  }

  /** Go's int32(x): keeps the low 32 bits, read as two's complement. */
  function ToInt32(x: int): (r: int)
    ensures IsInt32(r)
    ensures (r - x) % 0x1_0000_0000 == 0
    ensures IsInt32(x) ==> r == x
  {
    var m := x % 0x1_0000_0000;
    if m <= MaxInt32 then m else m - 0x1_0000_0000
  }
}

=== FILE: zng.dfy ===
/** The zng type and value model the columns are written from, and the record
    type operations of zng/record.go.

    Types are trees (the Go code uses interned pointers; structural equality
    stands in for pointer equality).  A value is either a primitive, whose body
    is a byte string, or a container, whose body is a sequence of values; either
    body may be nil ("unset").  Keeping nil containers apart from nil primitives
    matters: a field reader emits one or the other depending on the field type. */
module Zng {
  import opened Wrappers
  import opened Errors
  import opened Zcode

  // Ids and codes from zng's primitive table and binary format.  That code is
  // not part of this model; the properties proved here do not depend on the
  // particular values.
  const IdInt32: int := 6
  const IdInt64: int := 7
  const IdString: int := 13
  const IdTypeDef: int := 23
  const TypeDefRecord: byte := 0x80
  const TypeDefArray: byte := 0x81
  const CtrlEOS: byte := 0xff

  /** Every type carries its id: a primitive's fixed id, or the id a type
      context assigned to a compound type when it was interned. */
  datatype Type =
    | Primitive(id: int)
    | TRecord(id: int, columns: seq<Column>)
    | TArray(id: int, inner: Type)
    | TSet(id: int, inner: Type)
    | TUnion(id: int, types: seq<Type>)
    | TAlias(id: int, name: string, target: Type)

  datatype Column = Column(name: string, typ: Type)

  /** Names of the primitive types, indexed by id. */
  const PrimitiveNames: seq<string> := [
    "uint8", "uint16", "uint32", "uint64", "int8", "int16", "int32", "int64",
    "duration", "time", "float64", "bool", "bytes", "string", "bstring",
    "ip", "net", "type", "error", "null"]

  lemma PrimitiveNamesDistinct()
    ensures forall i, j :: 0 <= i < j < |PrimitiveNames| ==> PrimitiveNames[i] != PrimitiveNames[j]
  {
  }

  /** zng.LookupPrimitiveById: ids without a primitive give nothing. */
  function LookupPrimitiveById(id: int): (r: Option<Type>)
    ensures r.Some? <==> 0 <= id < |PrimitiveNames|
    ensures r.Some? ==> r.value == Primitive(id)
  {
    if 0 <= id < |PrimitiveNames| then Some(Primitive(id)) else None
  }

  function PrimitiveIndex(name: string, i: nat): (r: Option<nat>)
    requires i <= |PrimitiveNames|
    ensures r.Some? ==> i <= r.value < |PrimitiveNames| && PrimitiveNames[r.value] == name
    ensures r.None? ==> forall j :: i <= j < |PrimitiveNames| ==> PrimitiveNames[j] != name
    decreases |PrimitiveNames| - i
  {
    if i == |PrimitiveNames| then None
    else if PrimitiveNames[i] == name then Some(i)
    else PrimitiveIndex(name, i + 1)
  }

  /** zng.LookupPrimitive: the primitive type with the given name. */
  function LookupPrimitive(name: string): (r: Option<Type>)
    ensures r.Some? ==> r.value.Primitive? && 0 <= r.value.id < |PrimitiveNames|
                        && PrimitiveNames[r.value.id] == name
    ensures r.None? <==> name !in PrimitiveNames
  {
    match PrimitiveIndex(name, 0)
    case None => None
    case Some(i) => Some(Primitive(i))
  }

  lemma LookupPrimitiveName(i: nat)
    requires i < |PrimitiveNames|
    ensures LookupPrimitive(PrimitiveNames[i]) == Some(Primitive(i))
  {
    PrimitiveNamesDistinct();
  }

  const TypeInt32: Type := Primitive(IdInt32)
  const TypeInt64: Type := Primitive(IdInt64)
  const TypeString: Type := Primitive(IdString)

  /** The underlying type of a chain of aliases. */
  function Unalias(t: Type): (u: Type)
    ensures !u.TAlias?
  {
    if t.TAlias? then Unalias(t.target) else t
  }

  /** zng.IsContainerType: records, arrays, sets and unions, seen through aliases. */
  predicate IsContainerType(t: Type)
  {
    var u := Unalias(t);
    u.TRecord? || u.TArray? || u.TSet? || u.TUnion?
  }

  /** The integer primitives, uint8 .. int64. */
  predicate IsIntType(t: Type)
  {
    t.Primitive? && 0 <= t.id <= IdInt64
  }

  /** A value body: primitive bytes, a container's children, or unset (nil),
      remembering whether the unset body belongs to a container. */
  datatype Value = Prim(bytes: Bytes) | Cont(items: seq<Value>) | Nil(container: bool)
  {
    predicate IsNil()
    {
      Nil?
    }
  }

  /** zng.Value: a value together with its type. */
  datatype TypedValue = TypedValue(typ: Type, val: Value)

  /** The zcode item a value is appended as.  A container's body is the
      encoding of its children. */
  function ValueItem(v: Value): (it: Item)
    ensures it.container <==> v.Cont? || v == Nil(true)
    ensures it.body.None? <==> v.IsNil()
    decreases v, 1
  {
    match v
    case Prim(b) => Item(false, Some(b))
    case Nil(c) => Item(c, None)
    case Cont(items) => Item(true, Some(EncodeChildren(v, 0)))
  }

  function EncodeChildren(v: Value, i: nat): Bytes
    requires v.Cont? && i <= |v.items|
    decreases v, 0, |v.items| - i
  {
    if i == |v.items| then []
    else EncodeItem(ValueItem(v.items[i])) + EncodeChildren(v, i + 1)
  }

  /** The body bytes of a value: what a column writer receives for it. */
  function Body(v: Value): Option<Bytes>
  {
    ValueItem(v).body
  }

  /** The children of a record or array body; a nil body has none. */
  function Children(v: Value): Result<seq<Value>>
  {
    match v
    case Cont(items) => Ok(items)
    case Nil(_) => Ok([])
    case Prim(_) => Fail(ShapeMismatch)
  }

  // ------------------------------------------------------- zng/record.go

  /** The index of the last column named `f`, which must exist. */
  function LastIndex(cols: seq<Column>, f: string): (k: nat)
    requires exists j :: 0 <= j < |cols| && cols[j].name == f
    ensures k < |cols| && cols[k].name == f
    ensures forall j :: k < j < |cols| ==> cols[j].name != f
    decreases |cols|
  {
    var n := |cols| - 1;
    if cols[n].name == f then n
    else
      var j :| 0 <= j < |cols| && cols[j].name == f;
      assert cols[..n][j] == cols[j];
      var k := LastIndex(cols[..n], f);
      assert cols[..n][k] == cols[k];
      k
  }

  /** createLUT: each column name maps to its index; a later column with the
      same name replaces an earlier one. */
  function LUT(cols: seq<Column>): (m: map<string, nat>)
    ensures forall f :: f in m <==> exists k :: 0 <= k < |cols| && cols[k].name == f
    ensures forall f :: f in m ==> m[f] < |cols| && cols[m[f]].name == f
    ensures forall f, j :: f in m && m[f] < j < |cols| ==> cols[j].name != f
  {
    var names := set k | 0 <= k < |cols| :: cols[k].name;
    map f | f in names :: LastIndex(cols, f)
  }

  /** Appending a column to a record type maps its name to the new index. */
  lemma LUTSnoc(cols: seq<Column>)
    requires |cols| > 0
    ensures LUT(cols) == LUT(cols[..|cols| - 1])[cols[|cols| - 1].name := |cols| - 1]
  {
    var n := |cols| - 1;
    var prefix := cols[..n];
    var m, m0 := LUT(cols), LUT(prefix);
    var m1 := m0[cols[n].name := n];
    forall f | f in m
      ensures f in m1 && m[f] == m1[f]
    {
      if f != cols[n].name {
        assert prefix[m[f]] == cols[m[f]];
        assert m0[f] < |prefix|;
        assert prefix[m0[f]] == cols[m0[f]];
      }
    }
    forall f | f in m1
      ensures f in m
    {
      if f != cols[n].name {
        assert prefix[m0[f]] == cols[m0[f]];
      }
    }
  }

  /** The index of the last column named `field`, if any: the lookup that
      createLUT's table answers (LookupIsLUT). */
  function ColumnOfField(cols: seq<Column>, field: string): (r: Option<nat>)
    ensures r.Some? ==> r.value < |cols| && cols[r.value].name == field
    ensures r.Some? ==> forall j :: r.value < j < |cols| ==> cols[j].name != field
    ensures r.None? ==> forall j :: 0 <= j < |cols| ==> cols[j].name != field
    decreases |cols|
  {
    if |cols| == 0 then None
    else if cols[|cols| - 1].name == field then Some(|cols| - 1)
    else
      var r := ColumnOfField(cols[..|cols| - 1], field);
      assert forall j :: 0 <= j < |cols| - 1 ==> cols[..|cols| - 1][j] == cols[j];
      r
  }

  /** The lookup agrees with createLUT's table. */
  lemma LookupIsLUT(cols: seq<Column>, field: string)
    ensures ColumnOfField(cols, field) == if field in LUT(cols) then Some(LUT(cols)[field]) else None
  {
    var m := LUT(cols);
    var r := ColumnOfField(cols, field);
    if field in m {
      var k := m[field];
      if r.Some? {
        assert !(r.value < k) && !(k < r.value);
      }
    }
  }

  predicate HasField(cols: seq<Column>, field: string)
  {
    ColumnOfField(cols, field).Some?
  }

  function TypeOfField(cols: seq<Column>, field: string): (r: Option<Type>)
    ensures r.Some? <==> HasField(cols, field)
    ensures r.Some? ==> r.value == cols[ColumnOfField(cols, field).value].typ
  {
    match ColumnOfField(cols, field)
    case None => None
    case Some(n) => Some(cols[n].typ)
  }

  /** TypeRecord.Decode: types the i-th value of the body with the i-th column. */
  function Decode(cols: seq<Column>, body: Option<seq<Value>>): (r: Result<seq<TypedValue>>)
    ensures body.None? ==> r == Fail(Unset)
    ensures body.Some? && |body.value| > |cols| ==> r == Fail(TooManyValues)
    ensures r.Ok? ==> body.Some? && |r.value| == |body.value| <= |cols|
    ensures r.Ok? ==> forall i :: 0 <= i < |r.value| ==>
      r.value[i] == TypedValue(cols[i].typ, body.value[i])
  {
    match body
    case None => Fail(Unset)
    case Some(items) =>
      if |items| > |cols| then Fail(TooManyValues)
      else Ok(seq(|items|, i requires 0 <= i < |items| => TypedValue(cols[i].typ, items[i])))
  }

  datatype OutFmt = OutFormatZNG | OutFormatDebug | OutFormatOther

  /** The text of one field: "-" for an unset value, else the column type's rendering. */
  function Rendered(col: Column, v: Value, render: (Type, Value) -> string): string
  {
    if v.IsNil() then "-" else render(col.typ, v)
  }

  /** The fields from index i on, each preceded by a separator unless it is the
      very first; "ERR" where the body runs out.  Returns the text and whether
      no field has been written yet. */
  function StringOfFields(cols: seq<Column>, items: seq<Value>, i: nat, sep: char,
                          render: (Type, Value) -> string, first: bool): (string, bool)
    requires i <= |cols|
    decreases |cols| - i
  {
    if i == |cols| then ("", first)
    else if i >= |items| then ("ERR", first)
    else
      var lead := if first then "" else [sep];
      var (rest, f) := StringOfFields(cols, items, i + 1, sep, render, false);
      (lead + Rendered(cols[i], items[i], render) + rest, f)
  }

  /** TypeRecord.StringOf. */
  function StringOf(cols: seq<Column>, items: seq<Value>, fmt: OutFmt,
                    render: (Type, Value) -> string): string
  {
    var sep := if fmt == OutFormatZNG then ';' else ',';
    var (fields, first) := StringOfFields(cols, items, 0, sep, render, true);
    match fmt
    case OutFormatZNG => "[" + fields + (if first then "" else ";") + "]"
    case OutFormatDebug => "record[" + fields + "]"
    case OutFormatOther => fields
  }

  /** Each field of columns i.. followed by a semicolon. */
  function Terminated(cols: seq<Column>, items: seq<Value>, i: nat,
                      render: (Type, Value) -> string): string
    requires i <= |cols| <= |items|
    decreases |cols| - i
  {
    if i == |cols| then "" else Rendered(cols[i], items[i], render) + ";" + Terminated(cols, items, i + 1, render)
  }

  lemma {:induction false} FieldsAfterFirst(cols: seq<Column>, items: seq<Value>, i: nat,
                                            render: (Type, Value) -> string)
    requires i <= |cols| <= |items|
    ensures var (s, first) := StringOfFields(cols, items, i, ';', render, false);
      !first && s + ";" == ";" + Terminated(cols, items, i, render)
    decreases |cols| - i
  {
    if i < |cols| {
      FieldsAfterFirst(cols, items, i + 1, render);
      var r := Rendered(cols[i], items[i], render);
      var (rest, _) := StringOfFields(cols, items, i + 1, ';', render, false);
      var t := Terminated(cols, items, i + 1, render);
      assert rest + ";" == ";" + t;
      calc {
        ";" + r + rest + ";";
        ";" + r + (rest + ";");
        ";" + r + (";" + t);
        ";" + (r + ";" + t);
      }
    }
  }

  /** In ZNG format a complete record renders as "[", each field followed by
      ";", then "]"; an unset field renders as "-". */
  lemma StringOfZng(cols: seq<Column>, items: seq<Value>, render: (Type, Value) -> string)
    requires |cols| <= |items|
    ensures StringOf(cols, items, OutFormatZNG, render) == "[" + Terminated(cols, items, 0, render) + "]"
  {
    if |cols| > 0 {
      FieldsAfterFirst(cols, items, 1, render);
      var p := StringOfFields(cols, items, 0, ';', render, true);
      var q := StringOfFields(cols, items, 1, ';', render, false);
      var r := Rendered(cols[0], items[0], render);
      var t := Terminated(cols, items, 1, render);
      assert "" + r + q.0 == r + q.0;
      assert p == (r + q.0, q.1);
      ShiftSemicolon(r, q.0, t);
      assert StringOf(cols, items, OutFormatZNG, render) == "[" + p.0 + ";" + "]";
    }
  }

  lemma ShiftSemicolon(r: string, q: string, t: string)
    requires q + ";" == ";" + t
    ensures "[" + (r + q) + ";" + "]" == "[" + (r + ";" + t) + "]"
  {
    calc {
      "[" + (r + q) + ";" + "]";
      "[" + r + (q + ";") + "]";
      "[" + r + (";" + t) + "]";
      "[" + (r + ";" + t) + "]";
    }
  }

  /** TypeRecord.Marshal: a map from column name to typed value. */
  function Marshal(cols: seq<Column>, items: seq<Value>): (r: Result<map<string, TypedValue>>)
    ensures r.Ok? <==> |items| >= |cols|
    ensures r.Ok? ==> forall f :: f in r.value <==> f in LUT(cols)
    ensures r.Ok? ==> forall f :: f in LUT(cols) ==>
      f in r.value && r.value[f] == TypedValue(cols[LUT(cols)[f]].typ, items[LUT(cols)[f]])
    decreases |cols|
  {
    if |items| < |cols| then Fail(MissingValue)
    else if |cols| == 0 then Ok(map[])
    else
      var n := |cols| - 1;
      var prefix := cols[..n];
      assert forall k :: 0 <= k < n ==> prefix[k] == cols[k];
      LUTSnoc(cols);
      var m := Marshal(prefix, items).value;
      Ok(m[cols[n].name := TypedValue(cols[n].typ, items[n])])
  }

  // -------------------------------------------------- record value access
  // Record.Access, AccessInt, AccessString and Value(i) live in code that is not
  // part of this model; these stand-ins look a field up by name.

  function Access(cols: seq<Column>, items: seq<Value>, field: string): (r: Result<TypedValue>)
    ensures r.Ok? <==> HasField(cols, field) && ColumnOfField(cols, field).value < |items|
    ensures r.Ok? ==> r.value == TypedValue(cols[ColumnOfField(cols, field).value].typ,
                                            items[ColumnOfField(cols, field).value])
  {
    match ColumnOfField(cols, field)
    case None => Fail(NoSuchField(field))
    case Some(k) => if k < |items| then Ok(TypedValue(cols[k].typ, items[k])) else Fail(MissingValue)
  }

  function AccessInt(cols: seq<Column>, items: seq<Value>, field: string): Result<int>
  {
    var tv :- Access(cols, items, field);
    if !IsIntType(tv.typ) then Fail(NotAnInt)
    else match tv.val
      case Prim(b) => DecodeInt(b)
      case _ => Fail(NotAnInt)
  }

  function AccessString(cols: seq<Column>, items: seq<Value>, field: string): Result<Bytes>
  {
    var tv :- Access(cols, items, field);
    if tv.typ != TypeString then Fail(NotAString)
    else match tv.val
      case Prim(b) => Ok(b)
      case _ => Fail(NotAString)
  }

  /** zng.Record: a type and the values of its body.  A type that is not a
      record has no columns. */
  datatype Record = Record(typ: Type, items: seq<Value>)
  {
    function Cols(): seq<Column>
    {
      if typ.TRecord? then typ.columns else []
    }
  }

  /** Record.Value(0): the first value of a body, nil when there is none. */
  function FirstValue(items: seq<Value>): Value
  {
    if |items| == 0 then Nil(false) else items[0]
  }

  /** The records a zng reader yields, in order, and how the stream ends:
      None for a clean end (a nil record), Some(e) for a read error. */
  datatype RecStream = RecStream(recs: seq<Record>, end: Option<Error>)

  /** zbuf.Reader.Read at position i of a stream. */
  function StreamAt(s: RecStream, i: nat): (r: Result<Option<Record>>)
    ensures i < |s.recs| ==> r == Ok(Some(s.recs[i]))
    ensures i >= |s.recs| && s.end.None? ==> r == Ok(None)
    ensures i >= |s.recs| && s.end.Some? ==> r == Fail(s.end.value)
  {
    if i < |s.recs| then Ok(Some(s.recs[i]))
    else if s.end.Some? then Fail(s.end.value)
    else Ok(None)
  }
}

=== FILE: zst_reader.dfy ===
/** The zst object reader (zst/reader.go).  Opening finds and checks the
    trailer; the first Read loads the reassembly section (the schemas, the
    root column, one record reader per schema); each Read then takes the
    next schema id from the root column and reads a row from that schema's
    record reader.

    The object is a byte sequence.  The zng decoding of the reassembly
    section is not part of this model: `decodeStream` gives the records it
    yields and how the stream ends.  Where reader.go departs from its
    evident intent, Variant selects the side, as in the column codec. */
module ZstReader {
  import opened Wrappers
  import opened Errors
  import opened Zcode
  import opened Zng
  import opened Segmap
  import opened Primitive
  import opened ColumnWriter
  import opened ColumnReader
  import opened Trailer
  import TrailerTail
  import ZstWriter

  /** What the first Read loads: the root column, and each schema's type
      and record reader. */
  datatype Loaded = Loaded(root: IntReader, schemas: seq<ColReader>, types: seq<Type>)

  datatype Reader = Reader(file: Bytes, trailer: Trailer, trailerLen: nat, loaded: Option<Loaded>)

  // ------------------------------------------------------------ opening

  /** NewReaderFromURI, with the object's bytes in hand: the trailer must be
      found, and neither of its thresholds may exceed its maximum.  Each
      check is made on the trailer as recordToTrailer returns it; the column
      threshold is the one reader.go:69 calls SegmentThresh. */
  function Open(file: Bytes, got: int, decode: Bytes -> Option<Record>, v: Variant): (r: Result<Reader>)
    ensures ReadTrailer(file, got, decode, v).Fail? ==> r == Fail(ReadTrailer(file, got, decode, v).error)
    ensures r.Ok? <==> (
      && ReadTrailer(file, got, decode, v).Ok?
      && ReadTrailer(file, got, decode, v).value.0.skewThresh <= ZstWriter.MaxSkewThresh
      && ReadTrailer(file, got, decode, v).value.0.colThresh <= MaxSegmentThresh)
    ensures r.Ok? ==> (
      && (r.value.trailer, r.value.trailerLen) == ReadTrailer(file, got, decode, v).value
      && r.value.file == file && r.value.loaded.None?)
    ensures ReadTrailer(file, got, decode, v).Ok? && ReadTrailer(file, got, decode, v).value.0.skewThresh > ZstWriter.MaxSkewThresh ==>
      r == Fail(ThreshTooLarge("skew", ReadTrailer(file, got, decode, v).value.0.skewThresh))
  {
    var (t, len) :- ReadTrailer(file, got, decode, v);
    if t.skewThresh > ZstWriter.MaxSkewThresh then Fail(ThreshTooLarge("skew", t.skewThresh))
    else if t.colThresh > MaxSegmentThresh then Fail(ThreshTooLarge("column", t.colThresh))
    else Ok(Reader(file, t, len, None))
  }

  /** Reader.IsEmpty: the object holds no sections. */
  predicate IsEmpty(r: Reader)
  {
    r.trailer.sections == []
  }

  // ------------------------------------------------------------ sections

  /** The sum of a list of section sizes. */
  function Sum(xs: seq<int>): int
  {
    if xs == [] then 0 else Sum(xs[..|xs| - 1]) + xs[|xs| - 1]
  }

  /** Reader.section: the offset of a section is the sum of the sizes of the
      sections before it.  A level past the list is an index panic. */
  function Section(t: Trailer, level: nat): (r: Result<(int, int)>)
    ensures r.Ok? <==> level < |t.sections|
    ensures r.Ok? ==> r.value.1 == t.sections[level]
    ensures level == 0 && r.Ok? ==> r.value.0 == 0
  {
    if level >= |t.sections| then Fail(NilDeref)
    else Ok((Sum(t.sections[..level]), t.sections[level]))
  }

  /** The bytes of the object from `off` for at most `len` bytes
      (io.SectionReader): nothing past the end, nothing for a negative
      length. */
  function Window(file: Bytes, off: int, len: int): (b: Bytes)
    ensures |b| <= if len > 0 then len else 0
    ensures 0 <= off && 0 <= len && off + len <= |file| ==> b == file[off..off + len]
  {
    var lo := if off < 0 then 0 else if off > |file| then |file| else off;
    var hi := if off + len < lo then lo else if off + len > |file| then |file| else off + len;
    file[lo..hi]
  }

  /** Reader.newSectionReader: a section, starting sectionOff bytes in. */
  function SectionBytes(r: Reader, level: nat, sectionOff: int): (b: Result<Bytes>)
    ensures b.Ok? <==> level < |r.trailer.sections|
    ensures b.Ok? ==> b.value == Window(r.file, Section(r.trailer, level).value.0 + sectionOff,
                                          Section(r.trailer, level).value.1 - sectionOff)
  {
    var (off, len) :- Section(r.trailer, level);
    Ok(Window(r.file, off + sectionOff, len - sectionOff))
  }

  /** Reader.NewReassemblyReader: the second section, from its start. */
  function ReassemblyBytes(r: Reader): Result<Bytes>
  {
    SectionBytes(r, 1, 0)
  }

  /** Reader.NewTrailerReader: the last trailerLen bytes of the object. */
  function TrailerBytes(r: Reader): Bytes
  {
    Window(r.file, |r.file| - r.trailerLen, r.trailerLen)
  }

  // ------------------------------------------------------------ loading

  /** init's first loop from position i: the position of the first record
      whose first value is set (the root record); the records before it are
      the schemas' empty records. */
  function RootIndex(s: RecStream, i: nat): (r: Result<nat>)
    ensures r.Ok? ==> (
      && i <= r.value < |s.recs| && !FirstValue(s.recs[r.value].items).IsNil()
      && forall j :: i <= j < r.value ==> FirstValue(s.recs[j].items).IsNil())
    ensures r.Fail? ==> (
      && (forall j :: i <= j < |s.recs| ==> FirstValue(s.recs[j].items).IsNil())
      && r.error == if s.end.Some? then s.end.value else NoReassembly)
    decreases |s.recs| - i
  {
    if i >= |s.recs| then Fail(if s.end.Some? then s.end.value else NoReassembly)
    else if !FirstValue(s.recs[i].items).IsNil() then Ok(i)
    else RootIndex(s, i + 1)
  }

  /** The schema types: the types of the records before the root record. */
  function TypesBefore(s: RecStream, i: nat): (types: seq<Type>)
    requires i <= |s.recs|
    ensures |types| == i
    ensures forall j :: 0 <= j < i ==> types[j] == s.recs[j].typ
  {
    seq(i, j requires 0 <= j < i => s.recs[j].typ)
  }

  /** A reassembly record read as a value: its type and its body. */
  function AsValue(rec: Record): TypedValue
  {
    TypedValue(rec.typ, Cont(rec.items))
  }

  /** The readers are the record readers of schemas k, k + 1, ... opened
      on the reassembly records at base + k, base + k + 1, ...: the first
      reader on record base + k, the rest from schema k + 1 on. */
  predicate OpenedOn(file: Bytes, s: RecStream, types: seq<Type>, base: nat, k: nat, readers: seq<ColReader>, v: Variant)
    requires forall j :: 0 <= j < |types| ==> types[j].TRecord?
    decreases |readers|
  {
    readers != [] ==>
      && k < |types| && base + k < |s.recs|
      && NewRecordReader(file, types[k], AsValue(s.recs[base + k]), v) == Ok(readers[0])
      && OpenedOn(file, s, types, base, k + 1, readers[1..], v)
  }

  /** init's second loop from schema k on: the record reader of schema k is
      opened on the reassembly record at base + k.  The stream ending early
      leaves a nil record, which the loop dereferences. */
  function OpenSchemas(file: Bytes, s: RecStream, types: seq<Type>, base: nat, k: nat, v: Variant)
    : (r: Result<seq<ColReader>>)
    requires k <= |types| && forall j :: 0 <= j < |types| ==> types[j].TRecord?
    ensures r.Ok? ==> |r.value| == |types| - k
    ensures r.Ok? && k < |types| ==> base + |types| <= |s.recs|
    ensures r.Ok? ==> OpenedOn(file, s, types, base, k, r.value, v)
    decreases |types| - k
  {
    if k == |types| then Ok([])
    else
      var rec :- StreamAt(s, base + k);
      if rec.None? then Fail(NilDeref)
      else
        var reader :- NewRecordReader(file, types[k], AsValue(rec.value), v);
        var rest :- OpenSchemas(file, s, types, base, k + 1, v);
        Ok([reader] + rest)
  }

  /** Reader.init on a reassembly stream, with two defects of the code
      corrected: the root record is the one the first loop stops at (the
      code loses it to a shadowed variable, see InitAsWritten), and the
      schema records and the final extra-record probe are read from the
      reassembly stream (the code calls the object reader's own Read, which
      re-enters init, see InitShadowFixedRecurses).  A record after the last
      schema's is an error; a read error there is ignored. */
  function Init(file: Bytes, s: RecStream, v: Variant): (r: Result<Loaded>)
    requires WellTyped(s)
    ensures r.Ok? ==> (
      && RootIndex(s, 0).Ok?
      && var i := RootIndex(s, 0).value;
      && r.value.types == TypesBefore(s, i)
      && |r.value.schemas| == i
      && Access(s.recs[i].Cols(), s.recs[i].items, "root").Ok?
      && NewIntReader(file, Access(s.recs[i].Cols(), s.recs[i].items, "root").value) == Ok(r.value.root)
      && |s.recs| == 2 * i + 1
      && OpenedOn(file, s, r.value.types, i + 1, 0, r.value.schemas, v))
    ensures RootIndex(s, 0).Fail? ==> r == Fail(RootIndex(s, 0).error)
  {
    var i :- RootIndex(s, 0);
    var types := TypesBefore(s, i);
    var rootRec := s.recs[i];
    var segmap :- Access(rootRec.Cols(), rootRec.items, "root");
    var root :- NewIntReader(file, segmap);
    var schemas :- OpenSchemas(file, s, types, i + 1, 0, v);
    if i + 1 + |types| < |s.recs| then Fail(ExtraReassembly)
    else Ok(Loaded(root, schemas, types))
  }

  /** Reader.init as written: the `rec` the first loop reads is a new
      variable (reader.go:127), so the `rec` used after the loop
      (reader.go:140) is still nil. */
  function InitAsWritten(file: Bytes, s: RecStream): (r: Result<Loaded>)
    ensures r.Fail?
    ensures RootIndex(s, 0).Fail? ==> r == Fail(RootIndex(s, 0).error)
    ensures RootIndex(s, 0).Ok? ==> r == Fail(NilDeref)
  {
    var _ :- RootIndex(s, 0);
    Fail(NilDeref)
  }

  /** Where init stands when it makes its first r.Read() call (reader.go:149,
      or reader.go:160 when there is no schema type): the root int reader,
      the reader's schema types and the schema readers stored so far. */
  datatype ReadCall = ReadCall(root: IntReader, types: seq<Type>, schemas: seq<ColReader>)

  /** Reader.init with only the shadowing corrected, up to its first
      r.Read() call: the first loop appends the types of the records before
      the root record to the reader's `types`, and the root int reader is
      opened on the root record's "root" field; no schema reader is stored
      before that call. */
  function InitUntilRead(file: Bytes, s: RecStream, types: seq<Type>): (r: Result<ReadCall>)
    ensures RootIndex(s, 0).Fail? ==> r == Fail(RootIndex(s, 0).error)
    ensures r.Ok? ==> RootIndex(s, 0).Ok? && r.value.types == types + TypesBefore(s, RootIndex(s, 0).value)
    ensures r.Ok? ==> r.value.schemas == []
  {
    var i :- RootIndex(s, 0);
    var rootRec := s.recs[i];
    var segmap :- Access(rootRec.Cols(), rootRec.items, "root");
    var root :- NewIntReader(file, segmap);
    Ok(ReadCall(root, types + TypesBefore(s, i), []))
  }

  /** Reader.Read calls init first whenever no schema reader is stored
      (reader.go:94-96). */
  predicate ReadEntersInit(c: ReadCall)
  {
    c.schemas == []
  }

  /** init entered n + 1 times, each time from the r.Read() call of the one
      before, on a fresh reader of the same reassembly section. */
  function Reentered(file: Bytes, s: RecStream, types: seq<Type>, n: nat): (r: Result<ReadCall>)
    decreases n
  {
    var c :- InitUntilRead(file, s, types);
    if n == 0 then Ok(c) else Reentered(file, s, c.types, n - 1)
  }

  /** With only the shadowing corrected, init never returns once it gets
      as far as opening the root reader: however deep the nesting, the
      nested init reaches its r.Read() call again with no schema reader
      stored, so that call enters init once more, and each level appends
      the schema types again. */
  lemma {:induction false} InitShadowFixedRecurses(file: Bytes, s: RecStream, types: seq<Type>, n: nat)
    ensures InitUntilRead(file, s, types).Ok? ==>
      && Reentered(file, s, types, n).Ok?
      && ReadEntersInit(Reentered(file, s, types, n).value)
      && |Reentered(file, s, types, n).value.types| == |types| + (n + 1) * RootIndex(s, 0).value
    decreases n
  {
    if InitUntilRead(file, s, types).Ok? && n > 0 {
      var c := InitUntilRead(file, s, types).value;
      assert InitUntilRead(file, s, c.types).Ok?;
      InitShadowFixedRecurses(file, s, c.types, n - 1);
      assert |c.types| == |types| + RootIndex(s, 0).value;
    }
  }

  /** The loading step of the first Read, on the reassembly section. */
  function Load(r: Reader, decodeStream: Bytes -> RecStream, v: Variant): (res: Result<Loaded>)
    requires forall b :: WellTyped(decodeStream(b))
    ensures v == AsWritten && ReassemblyBytes(r).Ok? ==> res.Fail?
  {
    var bytes :- ReassemblyBytes(r);
    var s := decodeStream(bytes);
    if v == AsWritten then InitAsWritten(r.file, s) else Init(r.file, s, v)
  }

  /** Every record of a zng stream has a record type. */
  predicate WellTyped(s: RecStream)
  {
    forall j :: 0 <= j < |s.recs| ==> s.recs[j].typ.TRecord?
  }

  // ------------------------------------------------------------ reading

  /** A row: a record, or, when the schema's reader failed part way, the
      schema's type with whatever body was built before the failure (the
      error is dropped, reader.go:112). */
  datatype Row = Row(rec: Record) | Partial(typ: Type)

  /** The body of the record Read returns from a value the schema's record
      reader produced.  The reader appends the whole record container; as
      written that container is the record's body (reader.go:115), where
      the writer strips it (writer.go:190). */
  function RowBody(val: Value, v: Variant): (items: seq<Value>)
    ensures v == Corrected ==> Cont(items) == val || (!val.Cont? && items == [])
    ensures v == AsWritten ==> items == [val]
  {
    if v == AsWritten then [val] else ColumnWriter.Items(val)
  }

  /** The schema id Read takes from the root column: the next int, or, on a
      read error other than EOF, the zero value that comes with it. */
  function NextId(root: IntReader): (r: (Option<int>, IntReader))
    ensures root.vs != [] ==> r == (Some(root.vs[0]), root.(vs := root.vs[1..]))
    ensures root.vs == [] && root.end == EOF ==> r.0.None?
    ensures root.vs == [] && root.end != EOF ==> r == (Some(0), root)
  {
    match IntRead(root)
    case Ok((id, root1)) => (Some(id), root1)
    case Fail(e) => if e == EOF then (None, root) else (Some(0), root)
  }

  /** Reader.Read with the reader already loaded. */
  function ReadLoaded(file: Bytes, ld: Loaded, v: Variant): (r: Result<(Option<Row>, Loaded)>)
    requires |ld.types| == |ld.schemas|
    ensures |ld.schemas| == 0 ==> r == Fail(NoSchemas)
    ensures |ld.schemas| > 0 && NextId(ld.root).0.None? ==> r.Ok? && r.value.0.None?
    ensures |ld.schemas| > 0 && NextId(ld.root).0.Some? ==> (
      var id := NextId(ld.root).0.value;
      && (r.Ok? <==> 0 <= id < |ld.schemas|)
      && (r.Fail? ==> r.error == BadSchemaId)
      && (r.Ok? ==> (
            && r.value.0.Some?
            && (r.value.0.value.Row? ==> r.value.0.value.rec.typ == ld.types[id])
            && (r.value.0.value.Partial? ==> r.value.0.value.typ == ld.types[id])
            && r.value.1.types == ld.types && |r.value.1.schemas| == |ld.schemas|
            && r.value.1.root == NextId(ld.root).1)))
    ensures r.Ok? ==> |r.value.1.types| == |r.value.1.schemas|
  {
    if |ld.schemas| == 0 then Fail(NoSchemas)
    else
      var (id, root1) := NextId(ld.root);
      if id.None? then Ok((None, ld))
      else if id.value < 0 || id.value >= |ld.schemas| then Fail(BadSchemaId)
      else
        var k := id.value;
        match ColumnReader.Read(file, ld.schemas[k])
        case Ok((val, s1)) =>
          Ok((Some(Row(Record(ld.types[k], RowBody(val, v)))), Loaded(root1, ld.schemas[k := s1], ld.types)))
        case Fail(_) =>
          Ok((Some(Partial(ld.types[k])), Loaded(root1, ld.schemas, ld.types)))
  }

  /** Reader.Read: load on first use, then read a row. */
  function Read(r: Reader, decodeStream: Bytes -> RecStream, v: Variant): (res: Result<(Option<Row>, Reader)>)
    requires forall b :: WellTyped(decodeStream(b))
    requires r.loaded.Some? ==> |r.loaded.value.types| == |r.loaded.value.schemas|
    ensures res.Ok? ==> res.value.1.loaded.Some? && res.value.1.file == r.file && res.value.1.trailer == r.trailer
    ensures r.loaded.None? && Load(r, decodeStream, v).Fail? ==> res == Fail(Load(r, decodeStream, v).error)
    ensures v == AsWritten && r.loaded.None? ==> res.Fail?
  {
    var ld :- if r.loaded.Some? then Ok(r.loaded.value) else Load(r, decodeStream, v);
    var (row, ld1) :- ReadLoaded(r.file, ld, v);
    Ok((row, r.(loaded := Some(ld1))))
  }

  /** The type of a row, whole or partial. */
  function RowType(row: Row): Type
  {
    if row.Row? then row.rec.typ else row.typ
  }

  /** n calls of Read on a loaded reader, stopping at the first error. */
  function ReadN(file: Bytes, ld: Loaded, v: Variant, n: nat): (r: Result<(seq<Option<Row>>, Loaded)>)
    requires |ld.types| == |ld.schemas|
    ensures r.Ok? ==> |r.value.0| == n && |r.value.1.types| == |r.value.1.schemas|
    decreases n
  {
    if n == 0 then Ok(([], ld))
    else
      var (row, ld1) :- ReadLoaded(file, ld, v);
      var (rows, ld2) :- ReadN(file, ld1, v, n - 1);
      Ok(([row] + rows, ld2))
  }

  // ------------------------------------------------------------ properties

  /** Consecutive sections are contiguous: each starts where the previous
      one ends. */
  lemma SectionsContiguous(t: Trailer, level: nat)
    requires level + 1 < |t.sections|
    ensures Section(t, level + 1).value.0 == Section(t, level).value.0 + Section(t, level).value.1
  {
    assert t.sections[..level + 1][..level] == t.sections[..level];
  }

  /** The reassembly section of an object the writer finalized starts right
      after the column data and spans the metadata. */
  lemma ReassemblyAfterData(r: Reader, dataSize: int, metaSize: int)
    requires r.trailer.sections == [dataSize, metaSize]
    ensures Section(r.trailer, 1) == Ok((dataSize, metaSize))
    ensures 0 <= dataSize && 0 <= metaSize && dataSize + metaSize <= |r.file| ==>
      ReassemblyBytes(r) == Ok(r.file[dataSize..dataSize + metaSize])
  {
    assert r.trailer.sections[..1] == [dataSize];
    assert Sum([dataSize]) == Sum([]) + dataSize;
  }

  /** An object is empty exactly when its trailer has no sections, and
      loading an empty object panics on the missing reassembly section. */
  lemma EmptyObjectHasNoReassembly(r: Reader)
    requires IsEmpty(r)
    ensures ReassemblyBytes(r) == Fail(NilDeref)
  {
  }

  /** The trailer reader covers exactly the bytes the trailer was decoded
      from. */
  lemma TrailerBytesDecode(r: Reader, got: int, decode: Bytes -> Option<Record>, v: Variant)
    requires ReadTrailer(r.file, got, decode, v) == Ok((r.trailer, r.trailerLen))
    ensures decode(TrailerBytes(r)).Some? && RecordToTrailer(decode(TrailerBytes(r)).value, v) == Ok(r.trailer)
  {
    var t, len := TrailerTail.ReadTrailerFromTail(r.file, got, decode, v);
    assert t == r.trailer && len == r.trailerLen;
    TrailerBytesTail(r);
    assert TrailerBytes(r) == r.file[|r.file| - len..];
  }

  lemma TrailerBytesTail(r: Reader)
    requires r.trailerLen <= |r.file|
    ensures TrailerBytes(r) == r.file[|r.file| - r.trailerLen..]
  {
    WindowTail(r.file, r.trailerLen);
  }

  /** The reader Open returns holds the trailer readTrailer found, and
      its length. */
  lemma OpenReadsTrailer(file: Bytes, got: int, decode: Bytes -> Option<Record>, v: Variant, r: Reader)
    requires Open(file, got, decode, v) == Ok(r)
    ensures r.file == file && ReadTrailer(file, got, decode, v) == Ok((r.trailer, r.trailerLen))
  {
  }

  lemma WindowTail(file: Bytes, len: nat)
    requires len <= |file|
    ensures Window(file, |file| - len, len) == file[|file| - len..]
  {
    assert file[|file| - len..|file|] == file[|file| - len..];
  }

  /** s holds the records of the writer's metadata section, in order, and
      ends where the section does. */
  predicate HoldsMetadata(w: ZstWriter.Writer, s: RecStream)
    requires Resolver.Valid(w.rctx)
  {
    var meta := ZstWriter.Metadata(w, Corrected).1;
    && s.end.None? && |s.recs| == |meta| - 1
    && forall k :: 0 <= k < |s.recs| ==> meta[k] == ZstWriter.Rec(s.recs[k])
  }

  /** On the records of the writer's metadata section, the first loop
      stops at the root record, the records before it give the schemas'
      types, and the root column is the writer's root; a load that
      succeeds opens one record reader per schema of the writer. */
  lemma InitOnMetadata(file: Bytes, w: ZstWriter.Writer, s: RecStream)
    requires ZstWriter.Consistent(w)
    ensures (HoldsMetadata(w, s) && ZstWriter.RootRecord(w.rctx, w.root, Corrected).1.typ.columns ==
             [Column("root", ColumnWriter.EncodeLeaf(w.root, Corrected).typ)]) ==> (
      && RootIndex(s, 0) == Ok(|w.types|) && TypesBefore(s, |w.types|) == w.types
      && Access(s.recs[|w.types|].Cols(), s.recs[|w.types|].items, "root") == Ok(ColumnWriter.EncodeLeaf(w.root, Corrected))
      && (WellTyped(s) && Init(file, s, Corrected).Ok? ==>
          Init(file, s, Corrected).value.types == w.types && |Init(file, s, Corrected).value.schemas| == |w.schemas|))
  {
    var n := |w.types|;
    var rootRec := ZstWriter.RootRecord(w.rctx, w.root, Corrected).1;
    if HoldsMetadata(w, s) && rootRec.typ.columns == [Column("root", ColumnWriter.EncodeLeaf(w.root, Corrected).typ)] {
      MetadataRecords(w, s);
      assert !FirstValue(rootRec.items).IsNil();
      RootIndexAt(s, 0, n);
      assert TypesBefore(s, n) == w.types;
      assert ColumnOfField(rootRec.Cols(), "root") == Some(0);
    }
  }

  /** The metadata records, as a stream: the empty records of the schema
      types, then the root record, then one record per schema. */
  lemma MetadataRecords(w: ZstWriter.Writer, s: RecStream)
    requires ZstWriter.Consistent(w)
    ensures HoldsMetadata(w, s) ==> (
      && |w.types| < |s.recs| == |w.types| + |w.schemas| + 1
      && s.recs[|w.types|] == ZstWriter.RootRecord(w.rctx, w.root, Corrected).1
      && forall j :: 0 <= j < |w.types| ==> s.recs[j].typ == w.types[j] && FirstValue(s.recs[j].items).IsNil())
  {
    if HoldsMetadata(w, s) {
      var meta := ZstWriter.Metadata(w, Corrected).1;
      ZstWriter.MetadataLayout(w, Corrected);
      assert meta[|w.types|] == ZstWriter.Rec(s.recs[|w.types|]);
      forall j | 0 <= j < |w.types|
        ensures s.recs[j].typ == w.types[j] && FirstValue(s.recs[j].items).IsNil()
      {
        assert meta[j] == ZstWriter.Rec(s.recs[j]);
      }
    }
  }

  /** The first loop stops at the first record whose first value is set. */
  lemma {:induction false} RootIndexAt(s: RecStream, i: nat, n: nat)
    requires i <= n < |s.recs| && !FirstValue(s.recs[n].items).IsNil()
    requires forall j :: i <= j < n ==> FirstValue(s.recs[j].items).IsNil()
    ensures RootIndex(s, i) == Ok(n)
    decreases n - i
  {
    if i < n {
      RootIndexAt(s, i + 1, n);
    }
  }

  /** A trailer whose skew threshold is above the maximum, on an object
      holding nothing but the trailer.  The decoding of the window is the
      constant function returning this record. */
  function BigSkewTrailer(): Record
  {
    Record(TRecord(IdTypeDef + 1, TrailerColumns(TArray(IdTypeDef, TypeInt64))),
           TrailerValues(ZstWriter.MaxSkewThresh + 1, 1, []))
  }

  /** An object holding nothing but a trailer marker, whose decoding is
      the given record, yields the trailer that record decodes to. */
  lemma MarkerOnlyTrailer(rec: Record, v: Variant)
    requires TrailerVersion(rec).Ok? && RecordToTrailer(rec, v).Ok?
    ensures ReadTrailer(Marker, 3, (_: Bytes) => Some(rec), v) == Ok((RecordToTrailer(rec, v).value, 3))
  {
    var decode := (_: Bytes) => Some(rec);
    var examine := Examiner(Marker, decode, v);
    assert Marker[0..] == Marker && Marker[0..3] == Marker;
    assert IsCandidate(Marker, 0);
    assert examine(0) == Examine(Marker, 0, decode, v) == Found(RecordToTrailer(rec, v).value);
    ScanFinds(3, 1, 0, examine);
    assert Marker[|Marker| - 3..] == Marker;
  }

  /** As written, the thresholds come back zero, so the open succeeds on an
      object whose trailer carries a skew threshold above the maximum. */
  lemma OpenAsWrittenIgnoresThresholds()
    ensures Open(Marker, 3, (_: Bytes) => Some(BigSkewTrailer()), AsWritten).Ok?
  {
    var rec := BigSkewTrailer();
    TrailerAsWrittenDropsThresholds(IdTypeDef + 1, IdTypeDef, ZstWriter.MaxSkewThresh + 1, 1, []);
    TrailerFields(rec, TArray(IdTypeDef, TypeInt64), ZstWriter.MaxSkewThresh + 1, 1, []);
    DecodeEncodeInt(VersionVal);
    MarkerOnlyTrailer(rec, AsWritten);
  }

  /** Corrected, the same object is refused with the skew threshold. */
  lemma OpenCorrectedChecksThresholds()
    ensures Open(Marker, 3, (_: Bytes) => Some(BigSkewTrailer()), Corrected) ==
      Fail(ThreshTooLarge("skew", ZstWriter.MaxSkewThresh + 1))
  {
    var rec := BigSkewTrailer();
    TrailerRoundTrip(IdTypeDef + 1, IdTypeDef, ZstWriter.MaxSkewThresh + 1, 1, []);
    TrailerFields(rec, TArray(IdTypeDef, TypeInt64), ZstWriter.MaxSkewThresh + 1, 1, []);
    DecodeEncodeInt(VersionVal);
    MarkerOnlyTrailer(rec, Corrected);
  }

  /** As written, a row of a record with two fields comes back with one
      value, the whole record container; corrected, with its two values. */
  lemma RowBodyAsWrittenWraps(a: Value, b: Value)
    ensures |RowBody(Cont([a, b]), AsWritten)| == 1
    ensures RowBody(Cont([a, b]), Corrected) == [a, b]
  {
  }

  /** The root column decides the rows: with root ids ids, each in range,
      the reader returns one row per id, of the type of that id's schema,
      and then, at the end of the column, no row. */
  lemma {:induction false} RowsFollowRoot(file: Bytes, ld: Loaded, v: Variant, ids: seq<int>)
    requires |ld.types| == |ld.schemas| > 0
    requires ld.root == IntReader(ids, EOF)
    requires forall k :: 0 <= k < |ids| ==> 0 <= ids[k] < |ld.schemas|
    ensures var r := ReadN(file, ld, v, |ids|);
      && r.Ok? && r.value.1.types == ld.types && r.value.1.root == IntReader([], EOF)
      && (forall k :: 0 <= k < |ids| ==> r.value.0[k].Some? && RowType(r.value.0[k].value) == ld.types[ids[k]])
      && ReadLoaded(file, r.value.1, v) == Ok((None, r.value.1))
    decreases |ids|
  {
    if ids == [] {
      assert NextId(ld.root).0.None?;
    } else {
      ReadStep(file, ld, v, ids);
      var (row, ld1) := ReadLoaded(file, ld, v).value;
      RowsFollowRoot(file, ld1, v, ids[1..]);
      var (rows, ld2) := ReadN(file, ld1, v, |ids| - 1).value;
      var all := [row] + rows;
      assert ReadN(file, ld, v, |ids|) == Ok((all, ld2));
      assert ld2.types == ld1.types == ld.types;
      RowsCons(row, rows, ids, ld.types);
    }
  }

  lemma RowsCons(row: Option<Row>, rows: seq<Option<Row>>, ids: seq<int>, types: seq<Type>)
    requires |ids| == |rows| + 1 && forall k :: 0 <= k < |ids| ==> 0 <= ids[k] < |types|
    requires row.Some? && RowType(row.value) == types[ids[0]]
    requires forall k :: 0 <= k < |rows| ==> rows[k].Some? && RowType(rows[k].value) == types[ids[1..][k]]
    ensures var all := [row] + rows;
      forall k :: 0 <= k < |ids| ==> all[k].Some? && RowType(all[k].value) == types[ids[k]]
  {
    var all := [row] + rows;
    forall k | 0 <= k < |ids|
      ensures all[k].Some? && RowType(all[k].value) == types[ids[k]]
    {
      if k > 0 {
        assert all[k] == rows[k - 1] && ids[k] == ids[1..][k - 1];
      }
    }
  }

  /** One read off a root column of in-range ids. */
  lemma ReadStep(file: Bytes, ld: Loaded, v: Variant, ids: seq<int>)
    requires |ld.types| == |ld.schemas| > 0
    requires ld.root == IntReader(ids, EOF) && ids != [] && 0 <= ids[0] < |ld.schemas|
    ensures var r := ReadLoaded(file, ld, v);
      && r.Ok? && r.value.0.Some? && RowType(r.value.0.value) == ld.types[ids[0]]
      && r.value.1.types == ld.types && |r.value.1.schemas| == |ld.schemas|
      && r.value.1.root == IntReader(ids[1..], EOF)
  {
    assert NextId(ld.root) == (Some(ids[0]), IntReader(ids[1..], EOF));
  }
}

=== FILE: zst_writer.dfy ===
/** The zst object writer (zst/writer.go).  Records are routed by type to
    one record column writer per schema; the root column records, for each
    row, the schema it went to.  Closing the writer spills every column and
    appends the metadata section (the schemas as empty records, the root
    reassembly record, one reassembly record per schema) and the trailer.

    The writer is a value: Write returns the next writer, or the error that
    ends the write (the Go writer keeps whatever it changed before the
    error).  The zng stream the metadata is written to is modelled as the
    sequence of records and end-of-stream markers written; its encoded size
    is a parameter. */
module ZstWriter {
  import opened Wrappers
  import opened Errors
  import opened Zcode
  import opened Zng
  import opened Resolver
  import opened Segmap
  import Primitive
  import ColumnWriter
  import Trailer

  const MaxSkewThresh: int := 512 * 1024 * 1024

  datatype Writer = Writer(
    rctx: Context,
    spiller: Spiller,
    schemaMap: map<int, nat>,
    schemas: seq<ColumnWriter.ColWriter>,
    types: seq<Type>,
    skewThresh: int,
    segThresh: int,
    footprint: int,
    root: Primitive.PrimWriter)

  /** What every writer built by these operations satisfies: each input type
      id maps to an existing schema, each schema is a record type with a record writer, the
      root column's segments lie in the spilled bytes, and the footprint is
      below the skew threshold (zero when the threshold is not positive). */
  predicate Consistent(w: Writer)
  {
    && Resolver.Valid(w.rctx)
    && |w.types| == |w.schemas|
    && (forall id :: id in w.schemaMap ==> w.schemaMap[id] < |w.schemas|)
    && (forall k :: 0 <= k < |w.types| ==> w.types[k].TRecord? && w.schemas[k].RecordW?)
    && Primitive.Inv(w.spiller, w.root)
    && w.spiller.thresh == w.segThresh
    && 0 <= w.footprint
    && (w.skewThresh > 0 ==> w.footprint < w.skewThresh)
    && (w.skewThresh <= 0 ==> w.footprint == 0)
  }

  // ------------------------------------------------------------ opening

  /** checkThresh: zero and anything above the maximum are refused; every
      other value, negative ones included, is accepted. */
  function CheckThresh(which: string, max: int, thresh: int): (r: Result<()>)
    ensures r.Ok? <==> thresh != 0 && thresh <= max
    ensures thresh == 0 ==> r == Fail(ThreshZero(which))
    ensures thresh != 0 && thresh > max ==> r == Fail(ThreshTooLarge(which, thresh))
  {
    if thresh == 0 then Fail(ThreshZero(which))
    else if thresh > max then Fail(ThreshTooLarge(which, thresh))
    else Ok(())
  }

  /** NewWriter.  Opening the output (parsing the path, creating the
      object) is not part of this model; `open` is its outcome.  Both
      thresholds are checked before it matters. */
  function NewWriter(skewThresh: int, segThresh: int, open: Result<()>): (r: Result<Writer>)
    ensures r.Ok? <==> (
      && CheckThresh("skew", MaxSkewThresh, skewThresh).Ok?
      && CheckThresh("column", MaxSegmentThresh, segThresh).Ok?
      && open.Ok?)
    ensures CheckThresh("skew", MaxSkewThresh, skewThresh).Fail? ==>
      r == Fail(CheckThresh("skew", MaxSkewThresh, skewThresh).error)
    ensures CheckThresh("skew", MaxSkewThresh, skewThresh).Ok? && CheckThresh("column", MaxSegmentThresh, segThresh).Fail? ==>
      r == Fail(CheckThresh("column", MaxSegmentThresh, segThresh).error)
    ensures r.Ok? ==> (
      && Consistent(r.value) && r.value.schemas == [] && r.value.footprint == 0
      && r.value.spiller == Spiller(segThresh, []) && r.value.root == Primitive.NewPrimWriter
      && Primitive.Contents(r.value.spiller, r.value.root) == Some(Primitive.IntItems([]))
      && r.value.skewThresh == skewThresh && r.value.segThresh == segThresh)
  {
    var _ :- CheckThresh("skew", MaxSkewThresh, skewThresh);
    var _ :- CheckThresh("column", MaxSegmentThresh, segThresh);
    var _ :- open;
    var none: seq<Item> := [];
    assert Stream([], []) == Some(none);
    assert Primitive.IntItems([]) == none + none;
    assert Primitive.Contents(Spiller(segThresh, []), Primitive.NewPrimWriter) == Some(none + none);
    Ok(Writer(NewContext(), Spiller(segThresh, []), map[], [], [], skewThresh, segThresh, 0,
              Primitive.NewPrimWriter))
  }

  // ------------------------------------------------------------ writing

  /** The schema of an input type: the one it was given when first seen, or
      a new one, numbered after the existing schemas, whose type is the
      input type translated into the writer's own context. */
  function Schema(w: Writer, typ: Type, v: Variant): (r: Result<(Writer, nat)>)
    requires Consistent(w) && typ.TRecord?
    ensures typ.id in w.schemaMap ==> r == Ok((w, w.schemaMap[typ.id]))
    ensures typ.id !in w.schemaMap ==> (r.Ok? <==> ColumnsTranslatable(typ, 0))
    ensures r.Ok? ==> (
      var (w1, id) := r.value;
      && Consistent(w1) && typ.id in w1.schemaMap && w1.schemaMap[typ.id] == id
      && w1.spiller == w.spiller && w1.root == w.root && w1.footprint == w.footprint
      && w1.skewThresh == w.skewThresh && w1.segThresh == w.segThresh
      && Extends(w.rctx, w1.rctx))
    ensures r.Ok? && typ.id !in w.schemaMap ==> (
      var (w1, id) := r.value;
      && id == |w.schemas|
      && w1.schemaMap == w.schemaMap[typ.id := id]
      && w1.schemas == w.schemas + [ColumnWriter.NewWriter(w1.types[id], v)]
      && |w1.types| == |w.types| + 1 && w1.types[..|w.types|] == w.types
      && Known(w1.rctx, w1.types[id]))
  {
    if typ.id in w.schemaMap then Ok((w, w.schemaMap[typ.id]))
    else
      var tr := TranslateColumns(w.rctx, typ, 0, []);
      if tr.res.Fail? then Fail(tr.res.error)
      else
        var recType := tr.res.value;
        var id := |w.schemas|;
        var w1 := w.(rctx := tr.ctx, schemaMap := w.schemaMap[typ.id := id],
                     schemas := w.schemas + [ColumnWriter.NewWriter(recType, v)],
                     types := w.types + [recType]);
        assert w1.types[..|w.types|] == w.types;
        Ok((w1, id))
  }

  /** The length of a record's raw body. */
  function RawLen(rec: Record): nat
  {
    |BodyBytes(Body(Cont(rec.items)))|
  }

  /** The ints the root column holds for rows of these schemas: each id as
      an int32. */
  function RootInts(ids: seq<nat>): (vs: seq<int>)
    ensures |vs| == |ids|
    ensures forall k :: 0 <= k < |ids| ==> vs[k] == ToInt32(ids[k]) && IsInt32(vs[k])
  {
    seq(|ids|, k requires 0 <= k < |ids| => ToInt32(ids[k]))
  }

  /** A row's schema id is appended to the root column, and its body written
      by the schema's column writer. */
  function WriteRow(w: Writer, id: nat, rec: Record, v: Variant): (r: Result<Writer>)
    requires Consistent(w) && id < |w.schemas|
    ensures r.Ok? ==> (
      && Consistent(r.value)
      && Primitive.Contents(r.value.spiller, r.value.root) ==
           AppendItems(Primitive.Contents(w.spiller, w.root), Primitive.IntItems(RootInts([id])))
      && w.spiller.data <= r.value.spiller.data
      && r.value == w.(spiller := r.value.spiller, root := r.value.root, schemas := r.value.schemas)
      && |r.value.schemas| == |w.schemas|)
  {
    var (sp1, root1) := Primitive.IntWrite(w.spiller, w.root, ToInt32(id));
    Primitive.WriteContents(w.spiller, w.root, Some(EncodeInt(ToInt32(id))));
    var (sp2, s1) :- ColumnWriter.Write(sp1, w.schemas[id], Cont(rec.items), v);
    Primitive.GrowKeepsContents(sp1, sp2, root1);
    assert Primitive.IntItems(RootInts([id])) == [Item(false, Some(EncodeInt(ToInt32(id))))];
    Ok(w.(spiller := sp2, root := root1, schemas := w.schemas[id := s1]))
  }

  /** The footprint grows by the row's raw length; on reaching the skew
      threshold it is reset and every column is flushed. */
  function Account(w: Writer, n: nat): (r: Writer)
    requires Consistent(w)
    ensures Consistent(r)
    ensures Primitive.Contents(r.spiller, r.root) == Primitive.Contents(w.spiller, w.root)
    ensures w.spiller.data <= r.spiller.data
    ensures r == w.(spiller := r.spiller, root := r.root, schemas := r.schemas, footprint := r.footprint)
    ensures |r.schemas| == |w.schemas|
    ensures w.footprint + n < w.skewThresh ==> r == w.(footprint := w.footprint + n)
    ensures w.footprint + n >= w.skewThresh ==> r.footprint == 0 && Flushed(r)
  {
    if w.footprint + n >= w.skewThresh then Flush(w.(footprint := 0)) else w.(footprint := w.footprint + n)
  }

  /** Writer.Write: the row's schema, then the row, then the footprint. */
  function Write(w: Writer, rec: Record, v: Variant): (r: Result<Writer>)
    requires Consistent(w) && rec.typ.TRecord?
    ensures r.Ok? ==> (
      && Consistent(r.value) && rec.typ.id in r.value.schemaMap
      && Primitive.Contents(r.value.spiller, r.value.root) ==
           AppendItems(Primitive.Contents(w.spiller, w.root),
                       Primitive.IntItems(RootInts([r.value.schemaMap[rec.typ.id]])))
      && w.spiller.data <= r.value.spiller.data
      && r.value.skewThresh == w.skewThresh && r.value.segThresh == w.segThresh
      && Extends(w.rctx, r.value.rctx))
    ensures rec.typ.id in w.schemaMap && r.Ok? ==> (
      && r.value.schemaMap == w.schemaMap && |r.value.schemas| == |w.schemas| && r.value.types == w.types)
    ensures rec.typ.id !in w.schemaMap && r.Ok? ==> (
      && r.value.schemaMap == w.schemaMap[rec.typ.id := |w.schemas|]
      && |r.value.schemas| == |w.schemas| + 1 && r.value.types[..|w.types|] == w.types)
    ensures r.Ok? ==> (
      || r.value.footprint == w.footprint + RawLen(rec)
      || (r.value.footprint == 0 && w.footprint + RawLen(rec) >= w.skewThresh && Flushed(r.value)))
  {
    var (w1, id) :- Schema(w, rec.typ, v);
    var w2 :- WriteRow(w1, id, rec, v);
    Ok(Account(w2, RawLen(rec)))
  }

  /** Every column has been spilled: no schema's column and not the root
      holds buffered items. */
  predicate Flushed(w: Writer)
  {
    w.root.buf == [] && forall k :: 0 <= k < |w.schemas| ==> ColumnWriter.Drained(w.schemas[k])
  }

  /** The flush loop over the schemas, in schema order. */
  function FlushSchemas(sp: Spiller, schemas: seq<ColumnWriter.ColWriter>): (r: (Spiller, seq<ColumnWriter.ColWriter>))
    ensures sp.data <= r.0.data && r.0.thresh == sp.thresh
    ensures |r.1| == |schemas|
    ensures forall k :: 0 <= k < |schemas| ==>
      ColumnWriter.SameKind(r.1[k], schemas[k]) && ColumnWriter.Drained(r.1[k])
    decreases |schemas|
  {
    if schemas == [] then (sp, [])
    else
      var (sp1, s1) := ColumnWriter.Flush(sp, schemas[0]);
      var (sp2, rest) := FlushSchemas(sp1, schemas[1..]);
      (sp2, [s1] + rest)
  }

  /** Writer.flush: every schema's columns, then the root column.  What the
      root column holds is unchanged. */
  function Flush(w: Writer): (r: Writer)
    requires Consistent(w)
    ensures Consistent(r) && Flushed(r)
    ensures Primitive.Contents(r.spiller, r.root) == Primitive.Contents(w.spiller, w.root)
    ensures w.spiller.data <= r.spiller.data
    ensures r == w.(spiller := r.spiller, schemas := r.schemas, root := r.root)
    ensures |r.schemas| == |w.schemas|
  {
    var (sp1, schemas1) := FlushSchemas(w.spiller, w.schemas);
    Primitive.GrowKeepsContents(w.spiller, sp1, w.root);
    var (sp2, root1) := Primitive.Flush(sp1, w.root);
    Primitive.FlushContents(sp1, w.root);
    w.(spiller := sp2, schemas := schemas1, root := root1)
  }

  // ------------------------------------------------------------ closing

  /** What goes into the metadata stream: a record, or an end of stream. */
  datatype Out = Rec(rec: Record) | EndOfStream

  /** Every column of a record is unset. */
  predicate AllUnset(rec: Record)
  {
    && |rec.items| == |rec.Cols()|
    && forall k :: 0 <= k < |rec.items| ==>
         rec.items[k] == Nil(IsContainerType(rec.Cols()[k].typ))
  }

  /** The record finalize writes for a schema's type: all columns unset. */
  function EmptyRecord(t: Type): (rec: Record)
    ensures rec.typ == t && AllUnset(rec)
  {
    var cols := if t.TRecord? then t.columns else [];
    Record(t, seq(|cols|, k requires 0 <= k < |cols| => Nil(IsContainerType(cols[k].typ))))
  }

  /** The reassembly record of a schema: the type its writer encodes to and
      the body of the encoded container. */
  function SchemaRecord(s: ColumnWriter.ColWriter, v: Variant): (rec: Record)
    ensures rec.typ == ColumnWriter.Encode(s, v).typ
    ensures s.RecordW? ==> Cont(rec.items) == ColumnWriter.Encode(s, v).val
  {
    var tv := ColumnWriter.Encode(s, v);
    Record(tv.typ, ColumnWriter.Items(tv.val))
  }

  /** The root reassembly record: a single column "root" holding the root
      column's segment map, with its type interned in the context. */
  function RootRecord(c: Context, root: Primitive.PrimWriter, v: Variant): (r: (Context, Record))
    requires Resolver.Valid(c)
    ensures Resolver.Valid(r.0) && Extends(c, r.0)
    ensures r.1.typ.TRecord? && |r.1.items| == 1
    ensures RecordKey(r.1.typ.columns) == RecordKey([Column("root", ColumnWriter.EncodeLeaf(root, v).typ)])
    ensures r.1.items[0] == ColumnWriter.EncodeLeaf(root, v).val
  {
    var leaf := ColumnWriter.EncodeLeaf(root, v);
    var (c1, rootType) := LookupTypeRecord(c, [Column("root", leaf.typ)]);
    (c1, Record(rootType, [leaf.val]))
  }

  /** The schemas' types as records with every column unset, in schema
      order. */
  function EmptyRecords(types: seq<Type>): (outs: seq<Out>)
    ensures |outs| == |types|
    ensures forall k :: 0 <= k < |types| ==>
      outs[k].Rec? && outs[k].rec.typ == types[k] && AllUnset(outs[k].rec)
  {
    seq(|types|, k requires 0 <= k < |types| => Rec(EmptyRecord(types[k])))
  }

  /** The reassembly records of the schemas, in schema order. */
  function SchemaRecords(schemas: seq<ColumnWriter.ColWriter>, v: Variant): (outs: seq<Out>)
    ensures |outs| == |schemas|
    ensures forall k :: 0 <= k < |schemas| ==> outs[k] == Rec(SchemaRecord(schemas[k], v))
  {
    seq(|schemas|, k requires 0 <= k < |schemas| => Rec(SchemaRecord(schemas[k], v)))
  }

  /** The metadata section: the schemas as empty records, the root record,
      the reassembly record of each schema, and an end of stream. */
  function Metadata(w: Writer, v: Variant): (r: (Context, seq<Out>))
    requires Resolver.Valid(w.rctx)
    ensures Resolver.Valid(r.0) && Extends(w.rctx, r.0)
    ensures r.1 == EmptyRecords(w.types) + [Rec(RootRecord(w.rctx, w.root, v).1)] + SchemaRecords(w.schemas, v) + [EndOfStream]
  {
    var (c1, root) := RootRecord(w.rctx, w.root, v);
    (c1, EmptyRecords(w.types) + [Rec(root)] + SchemaRecords(w.schemas, v) + [EndOfStream])
  }

  /** The layout of the metadata section, record by record. */
  lemma MetadataLayout(w: Writer, v: Variant)
    requires Consistent(w)
    ensures var meta := Metadata(w, v).1;
      && |meta| == |w.types| + |w.schemas| + 2
      && (forall k :: 0 <= k < |w.types| ==>
            meta[k].Rec? && meta[k].rec.typ == w.types[k] && AllUnset(meta[k].rec))
      && meta[|w.types|] == Rec(RootRecord(w.rctx, w.root, v).1)
      && (forall k :: 0 <= k < |w.schemas| ==> meta[|w.types| + 1 + k] == Rec(SchemaRecord(w.schemas[k], v)))
      && meta[|meta| - 1] == EndOfStream
  {
    var e := EmptyRecords(w.types);
    var s := SchemaRecords(w.schemas, v);
    Sandwich(e, Rec(RootRecord(w.rctx, w.root, v).1), s, EndOfStream);
    forall k | 0 <= k < |w.schemas| ensures Metadata(w, v).1[|w.types| + 1 + k] == Rec(SchemaRecord(w.schemas[k], v)) {
      MetadataSchemaAt(w, v, k);
    }
  }

  lemma MetadataSchemaAt(w: Writer, v: Variant, k: nat)
    requires Resolver.Valid(w.rctx) && k < |w.schemas|
    ensures Metadata(w, v).1[|w.types| + 1 + k] == Rec(SchemaRecord(w.schemas[k], v))
  {
    var s := SchemaRecords(w.schemas, v);
    SandwichMiddle(EmptyRecords(w.types), Rec(RootRecord(w.rctx, w.root, v).1), s, EndOfStream, k);
    assert |EmptyRecords(w.types)| == |w.types|;
  }

  lemma SandwichMiddle<T>(a: seq<T>, x: T, b: seq<T>, y: T, k: nat)
    requires k < |b|
    ensures (a + [x] + b + [y])[|a| + 1 + k] == b[k]
  {
  }

  /** Indexing into a, x, b, y laid end to end. */
  lemma Sandwich<T>(a: seq<T>, x: T, b: seq<T>, y: T)
    ensures var all := a + [x] + b + [y];
      && |all| == |a| + |b| + 2
      && (forall k :: 0 <= k < |a| ==> all[k] == a[k])
      && all[|a|] == x
      && (forall k :: 0 <= k < |b| ==> all[|a| + 1 + k] == b[k])
      && all[|all| - 1] == y
  {
  }

  /** Writer.finalize: flush, then the metadata section, then the trailer,
      whose sections are the size of the column data and the size of the
      metadata section.  `size` gives the encoded size of a zng stream. */
  function Finalize(w: Writer, v: Variant, size: seq<Out> -> nat): (r: (Writer, seq<Out>))
    requires Consistent(w)
    ensures var f := Flush(w);
      && r.0 == f.(rctx := r.0.rctx) && Extends(w.rctx, r.0.rctx) && Flushed(r.0)
      && Primitive.Contents(r.0.spiller, r.0.root) == Primitive.Contents(w.spiller, w.root)
      && |r.1| == |w.types| + |w.schemas| + 4
      && r.1[..|r.1| - 2] == Metadata(f, v).1
      && r.1[|r.1| - 3] == EndOfStream
      && r.1[|r.1| - 1] == EndOfStream
      && r.1[|r.1| - 2].Rec?
      && r.1[|r.1| - 2].rec.items ==
           Trailer.TrailerValues(w.skewThresh, w.segThresh, [|f.spiller.data|, size(Metadata(f, v).1)])
  {
    var f := Flush(w);
    var dataSize := |f.spiller.data|;
    var (c1, meta) := Metadata(f, v);
    var (c2, trailer) := Trailer.NewTrailerRecord(c1, f.skewThresh, f.segThresh, [dataSize, size(meta)]);
    ExtendsTrans(w.rctx, c1, c2);
    (f.(rctx := c2), meta + [Rec(trailer), EndOfStream])
  }

  /** Writer.writeEmptyTrailer: a trailer with no sections, then an end of
      stream. */
  function EmptyTrailer(w: Writer): (r: (Context, seq<Out>))
    requires Consistent(w)
    ensures Resolver.Valid(r.0) && Extends(w.rctx, r.0)
    ensures |r.1| == 2 && r.1[0].Rec? && r.1[1] == EndOfStream
    ensures r.1[0].rec.items == Trailer.TrailerValues(w.skewThresh, w.segThresh, [])
  {
    var (c1, trailer) := Trailer.NewTrailerRecord(w.rctx, w.skewThresh, w.segThresh, []);
    (c1, [Rec(trailer), EndOfStream])
  }

  // ------------------------------------------------------------ properties

  /** A row of a type already seen reuses its schema: no schema or type is
      added. */
  lemma RepeatedTypeReusesSchema(w: Writer, rec: Record, v: Variant)
    requires Consistent(w) && rec.typ.TRecord? && rec.typ.id in w.schemaMap
    requires Write(w, rec, v).Ok?
    ensures var w1 := Write(w, rec, v).value;
      w1.schemaMap == w.schemaMap && |w1.schemas| == |w.schemas| && w1.types == w.types &&
      w1.schemaMap[rec.typ.id] == w.schemaMap[rec.typ.id]
  {
  }

  /** A new writer's empty trailer decodes to the thresholds it was given
      and no sections. */
  lemma EmptyTrailerDecodes(skewThresh: int, segThresh: int)
    requires NewWriter(skewThresh, segThresh, Ok(())).Ok?
    ensures var out := EmptyTrailer(NewWriter(skewThresh, segThresh, Ok(())).value).1;
      Trailer.RecordToTrailer(out[0].rec, Corrected) ==
        Ok(Trailer.Trailer(Trailer.MagicVal, Trailer.VersionVal, skewThresh, segThresh, []))
  {
    var w := NewWriter(skewThresh, segThresh, Ok(())).value;
    var (c1, at) := LookupTypeArray(w.rctx, TypeInt64);
    assert at == TArray(IdTypeDef, TypeInt64);
    var trailer := EmptyTrailer(w).1[0].rec;
    assert RecordKey(Trailer.TrailerColumns(at)) !in c1.lut;
    Trailer.TrailerRoundTrip(trailer.typ.id, IdTypeDef, skewThresh, segThresh, []);
  }
}
